=== FILE: README.md ===
# A verified model of small tor components

This project models, in Dafny, a set of small and self-contained parts of tor.
Each part has its own module.

- **Protocol-version sets (`ProtoSets`, protoset.rs).** A set is a sorted list of `(low, high)` version ranges. The module models:
  - the validating constructors `from_sorted` and `from_slice`;
  - the `"1,3-5"` parser and the serialiser;
  - `contains`, `len`, `expand`, `is_empty` and `retain`;
  - the canonical builder `From<Vec<Version>>`, which groups runs with `find_range`.
- **Protocol entries (`Protover`, protover.rs).** An entry maps protocol names to version sets, as in `"Link=1-5 Relay=1-2"`. The module models:
  - the name parsers and the entry parsers;
  - the order-independent `to_string`;
  - the support queries and `get_unsupported`.
- **The protocol vote (`ProtoverVote`, protover.rs).** `ProtoverVote::compute` counts versions over a list of entries and keeps those that reach a threshold.
- **Bounded integer helpers (`MulDiv`, `AddSub`; muldiv.c, addsub.c):**
  - round-up-to-multiple;
  - `gcd64` and fraction simplification;
  - saturating add and multiply;
  - the log2-based multiplication overflow classifier.
- **Signal-safe logging (`RawLog`, `Numerals`; raw_log.c):**
  - `format_number_sigsafe`, which writes digits backwards into a caller's array;
  - the log granularity and the rounding of the logged time;
  - which chunks `tor_log_raw_ap` writes to which fds.
- **Fd registries (`TorErr`, torerr.c; `ControlTrace`, control_trace.c).** The emergency-log fd array and the control-trace fd array are classes whose methods set, get and reset them.
- **Relay options (`RelayConfig`, relay_config.c):**
  - port consistency;
  - the `PublishServerDescriptor` bit mask;
  - the bridge-distribution value;
  - padding options;
  - DirCache memory;
  - relay mode;
  - `MyFamily` nickname normalisation.
- **Directory-authority options (`DirauthConfig`, dirauth_config.c):**
  - the voting-schedule and testing validators;
  - the timing-transition test;
  - authority-mode normalisation;
  - the stats decision of `options_act_dirauth_stats`.
- **Maintenance scripts:**
  - `AddCFile` (add_c_file.py): the guard macro, the extension swap and the include.am location;
  - `Automake` (add_c_file.py): the `AutomakeChunk` and `ParsedAutomake` classes;
  - `RectifyIncludePaths` (rectify_include_paths.py): `exclude`, the include map, the line patterns, `fix_line` and `fix_includes`;
  - `RectifyFixedPoint`: proves that a second rectification pass changes nothing.

Shared modules:

| module | holds |
|---|---|
| `Wrappers` | Option and Result |
| `MachineInts` | the fixed-width integer ranges |
| `ConfLines` | config lines |
| `Text` | Rust and C string helpers |
| `PyText` | Python string and path helpers |
| `Sorting` | insertion sorts with their uniqueness lemmas |
| `Arithmetic` | division facts |

How the source is modelled:

- **Code that updates state becomes imperative Dafny.** These are:
  - the fd registries;
  - the granularity setter;
  - the option records whose fields `compute_publishserverdescriptor`, `options_validate_relay_mode` and `options_validate_dirauth_mode` reassign;
  - the automake chunk classes;
  - `exclude`;
  - the loops of `from_sorted`, `from_str`, `From<Vec>`, `len`, `contains`, `gcd64`, `format_number_sigsafe`, `check_server_ports`, `check_bridge_distribution_setting`, `normalize_nickname_list`, `get_include_map`, `fix_includes` and `ProtoverVote::compute`.
- **Each such method is proved against a function of its inputs.** The properties the source promises are lemmas about that function.
- **Machine integers are integer ranges** (`uint32`, `uint64`), and wrap-around is written out where the source has it.

## Model

| member | source | states |
|---|---|---|
| ProtoSets.Validated | src/rust/protover/protoset.rs:133-150 | a pair list is accepted iff every pair avoids u32::MAX, starts at or after the previous high, and has low <= high; a rejection reports the first failing pair's first failing check, in the order ExceedsMax, Overlap, LowGreaterThanHigh |
| ProtoSets.ScanFromSpec | src/rust/protover/protoset.rs:133-150 | the scan of from_sorted finds no failure iff the pairs are chained, and otherwise it reports the first failure |
| ProtoSets.FromSorted | src/rust/protover/protoset.rs:133-150 | the loop with its running last-high gives exactly the verdict of Validated |
| ProtoSets.FromSlice | src/rust/protover/protoset.rs:58-69 | a successful from_slice is a valid (sorted, chained) set |
| ProtoSets.FromSliceDependsOnElements | src/rust/protover/protoset.rs:58-69 | from_slice sorts and dedups first, so its result depends only on which pairs occur, not on their order or repeats |
| ProtoSets.FromSliceOfValid | src/rust/protover/protoset.rs:58-69 | from_slice of a valid set's own pairs gives that set back |
| ProtoSets.FromSliceOverlapExample | src/rust/protover/protoset.rs:494-500 | [(2,4),(1,3)] is rejected with Overlap whatever the input order |
| ProtoSets.FromSliceSharedEndExample | src/rust/protover/protoset.rs:140 | ranges that share an endpoint ("1-3,3-5") are accepted, and then len() counts the shared version twice |
| ProtoSets.ValidIsWellFormed | src/rust/protover/protoset.rs:133-150 | a valid set has low <= high in every pair and no bound equal to u32::MAX |
| ProtoSets.Range | src/rust/protover/protoset.rs:99-103 | a range low..=high holds high-low+1 consecutive versions starting at low, and is empty when low > high |
| ProtoSets.ExpandAppend | src/rust/protover/protoset.rs:99-103 | expanding two pair lists one after the other gives the two expansions concatenated |
| ProtoSets.ExpandLength | src/rust/protover/protoset.rs:99-113 | expand() yields exactly len() = Σ(high-low+1) versions |
| ProtoSets.Len | src/rust/protover/protoset.rs:105-113 | the counting loop returns Σ(high-low+1), which is the length of expand() |
| ProtoSets.Contains | src/rust/protover/protoset.rs:197-204 | the search returns true iff some pair has low <= v <= high |
| ProtoSets.InRangesIffExpanded | src/rust/protover/protoset.rs:197-204 | being inside some range is the same as occurring in expand() |
| ProtoSets.SingleRangeExpanded | src/rust/protover/protoset.rs:99-103 | v occurs in the expansion of the single pair (low, high) iff low <= v <= high |
| ProtoSets.IsEmpty | src/rust/protover/protoset.rs:167-169 | for a well-formed set, is_empty holds iff expand() yields nothing |
| ProtoSets.ParseU32Decimal | src/rust/protover/protoset.rs:304-343 | the decimal text of a version parses back to that version |
| ProtoSets.ParsePiece | src/rust/protover/protoset.rs:304-343 | a comma-separated piece contributes nothing iff it is blank after trimming |
| ProtoSets.ParseTrimmed | src/rust/protover/protoset.rs:314-333 | a trimmed piece contributes nothing iff it is empty, and a pair it yields never has u32::MAX as a bound |
| ProtoSets.Parse | src/rust/protover/protoset.rs:304-343 | a successful from_str is a valid set |
| ProtoSets.CollectErr | src/rust/protover/protoset.rs:304-343 | collecting the piece results fails iff some piece fails, and then with the first failing piece's error |
| ProtoSets.CollectBlank | src/rust/protover/protoset.rs:335-338 | pieces that all contribute nothing give no pairs |
| ProtoSets.CollectAllPairs | src/rust/protover/protoset.rs:304-343 | pieces that each give a pair give exactly those pairs, in order |
| ProtoSets.ParsePiecesErr | src/rust/protover/protoset.rs:304-343 | from_str's piece loop fails iff some piece fails, and then with the first failing piece's error |
| ProtoSets.ParseBlank | src/rust/protover/protoset.rs:335-338 | an empty, whitespace-only or comma-only string parses to the empty set |
| ProtoSets.StrayCharUnparseable | src/rust/protover/protoset.rs:314-333 | a trimmed piece holding a character other than a digit, '+' or '-' is Unparseable |
| ProtoSets.ParseOnePieceErr | src/rust/protover/protoset.rs:304-343 | a string that is one trimmed piece without commas fails from_str with that piece's error |
| ProtoSets.ParseNegativeExample | src/rust/protover/protoset.rs:463-465 | "-1" is Unparseable |
| ProtoSets.ParseTripleExample | src/rust/protover/protoset.rs:475-477 | "1-2-3" is Unparseable |
| ProtoSets.ParseU32Digits | src/rust/protover/protoset.rs:314-333 | u32::from_str reads the decimal text of a number back iff it fits in 32 bits |
| ProtoSets.ParseTooLargeExample | src/rust/protover/protoset.rs:314-333 | the decimal text of any number above u32::MAX, such as 4294967296, is Unparseable |
| ProtoSets.ParseMaxExample | src/rust/protover/protoset.rs:314-333 | "4294967295", the decimal text of u32::MAX, is ExceedsMax |
| ProtoSets.FromStr | src/rust/protover/protoset.rs:304-343 | the loop that collects pairs and then sorts, dedups and validates gives exactly the result of Parse |
| ProtoSets.CollectPairs | src/rust/protover/protoset.rs:304-334 | the loop over pieces gives exactly the result of parsing them, including the first error |
| ProtoSets.PairStringShape | src/rust/protover/protoset.rs:352-364 | a rendered pair is non-empty, comma-free, and starts and ends with a digit |
| ProtoSets.ToStringAvoids | src/rust/protover/protoset.rs:352-364 | to_string uses only digits, ',' and '-' |
| ProtoSets.SmallRangeString | src/rust/protover/protoset.rs:352-364 | a range of two different small versions a and b renders as "a-b" |
| ProtoSets.SmallPairString | src/rust/protover/protoset.rs:352-364 | two one-version pairs a and b render as "a,b" |
| ProtoSets.ParsePiecesOfPairStrings | src/rust/protover/protoset.rs:304-364 | the rendered pieces of pairs without u32::MAX parse back to those pairs |
| ProtoSets.ParseToString | src/rust/protover/protoset.rs:304-364 | from_str(to_string(s)) == s for every valid set |
| ProtoSets.FindRange | src/rust/protover/protoset.rs:383-391 | find_range finds nothing iff the list is empty, and otherwise a range that starts at the list's first element |
| ProtoSets.FindRangeIsRun | src/rust/protover/protoset.rs:383-391 | on an ascending list, find_range returns the maximal run of consecutive versions at its head |
| ProtoSets.Runs | src/rust/protover/protoset.rs:393-410 | the run decomposition of a non-empty list starts with find_range's run |
| ProtoSets.RunsCons | src/rust/protover/protoset.rs:393-410 | the runs of a list are its first run followed by the runs of the rest after that run |
| ProtoSets.RunsExpand | src/rust/protover/protoset.rs:393-410 | expanding the runs of an ascending list gives the list back |
| ProtoSets.RunsSeparated | src/rust/protover/protoset.rs:393-410 | consecutive runs are separated by a gap of at least one missing version |
| ProtoSets.SeparatedIsValid | src/rust/protover/protoset.rs:133-150 | separated runs without u32::MAX pass from_sorted's checks |
| ProtoSets.FromVec | src/rust/protover/protoset.rs:393-410 | the sort, dedup and run-grouping loop builds exactly FromVersions(v) |
| ProtoSets.FromVersionsExpand | src/rust/protover/protoset.rs:393-410 | without u32::MAX, From<Vec> gives a valid set of separated runs whose expansion is ascending and holds exactly the input versions |
| ProtoSets.FromVersionsWithMax | src/rust/protover/protoset.rs:393-410 | with u32::MAX among the inputs, from_sorted fails and the default (empty) set results |
| ProtoSets.FromVersionsDependsOnElements | src/rust/protover/protoset.rs:393-410 | From<Vec> depends only on which versions occur, not on their order or repeats |
| ProtoSets.Filter | src/rust/protover/protoset.rs:228-234 | the filtered versions are exactly those satisfying the predicate |
| ProtoSets.RetainKeeps | src/rust/protover/protoset.rs:228-234 | retain(f) leaves a valid set whose versions are exactly those of expand() that satisfy f |
| Protover.ParseProtocol | src/rust/protover/protover.rs:64-78 | a known-protocol name parses to the protocol of that exact name, and anything else fails with UnknownProtocol |
| Protover.ParseProtocolName | src/rust/protover/protover.rs:64-78 | each of the ten protocol names parses back to its protocol |
| Protover.ProtocolNameShape | src/rust/protover/protover.rs:51-55 | a protocol name is non-empty and holds neither '=' nor ' ' |
| Protover.Utf8Len | src/rust/protover/protover.rs:95-103 | the UTF-8 byte length of a name lies between one and four bytes per character |
| Protover.ParseUnknownProtocol | src/rust/protover/protover.rs:95-103 | a name is accepted iff it is non-empty and at most 100 UTF-8 bytes long; "" is Unparseable, and a longer name is ExceedsNameLimit |
| Protover.FromProtocolParses | src/rust/protover/protover.rs:118-122 | converting a known protocol to an unknown-protocol name and back is the identity |
| Protover.ParseSubproto | src/rust/protover/protover.rs:421-432 | an item parses to a name without '=' and a valid version set |
| Protover.ParseProtocolAndVersionStr | src/rust/protover/protover.rs:421-432 | the entry is split on every single space and each item is parsed on its first '=' |
| Protover.ValidateKnown | src/rust/protover/protover.rs:211-231 | an accepted item names a known protocol and keeps its versions, and its position is within MAX_PROTOCOLS_TO_EXPAND |
| Protover.ValidateUnknown | src/rust/protover/protover.rs:461-472 | an accepted item keeps its name and versions |
| Protover.KnownItems | src/rust/protover/protover.rs:211-231 | each item is validated as a known protocol at its 1-based position |
| Protover.UnknownItems | src/rust/protover/protover.rs:461-472 | each item is validated as an unknown-protocol name |
| Protover.CollectMapErr | src/rust/protover/protover.rs:211-231 | collecting parsed items into a map fails iff some item fails, and then with the first error |
| Protover.CollectMapLast | src/rust/protover/protover.rs:211-231 | when a name repeats, the map keeps the last item's versions |
| Protover.KnownItemsOk | src/rust/protover/protover.rs:211-231 | a successful ProtoEntry parse has at most 2^16 items and only valid sets |
| Protover.KnownItemsUnknownName | src/rust/protover/protover.rs:211-231 | one item with an unknown protocol name makes ProtoEntry parsing fail |
| Protover.UnknownItemsOk | src/rust/protover/protover.rs:461-472 | a successful unvalidated parse has only non-empty names of at most 100 bytes without '=', with valid sets |
| Protover.ParseProtoEntryOk | src/rust/protover/protover.rs:211-231 | a parsed ProtoEntry came from at most 2^16 items and holds only valid sets |
| Protover.UnknownNameFails | src/rust/protover/protover.rs:211-231 | an entry with an unknown protocol name does not parse as a ProtoEntry |
| Protover.ParseUnvalidatedOk | src/rust/protover/protover.rs:461-472 | a parsed unvalidated entry has well-formed names and valid sets |
| Protover.EmptyEntryExample | src/rust/protover/protover.rs:743-751 | the empty string is Unparseable as either kind of entry |
| Protover.EmptyNameExample | src/rust/protover/protover.rs:211-231 | "=" fails: UnknownProtocol for ProtoEntry and Unparseable for UnvalidatedProtoEntry |
| Protover.EntryParts | src/rust/protover/protover.rs:236-250 | each rendered part is "Name=versions" for the key at that position of the iteration order |
| Protover.RenderPartName | src/rust/protover/protover.rs:236-250 | two equal rendered parts have equal names |
| Protover.SortedParts | src/rust/protover/protover.rs:236-250 | the parts are distinct, so sorting them equals sorting and deduplicating them |
| Protover.EntryToStringIndependent | src/rust/protover/protover.rs:236-250 | to_string does not depend on the HashMap iteration order |
| Protover.ParseRenderedPart | src/rust/protover/protover.rs:236-250 | a rendered part parses back to its name and set |
| Protover.RenderedParts | src/rust/protover/protover.rs:236-250 | the rendered entry splits on spaces into exactly one part per protocol |
| Protover.AtMostTenProtocols | src/rust/protover/protover.rs:33-49 | a ProtoEntry holds at most the ten known protocols |
| Protover.ParseProtoEntryToString | src/rust/protover/protover.rs:211-250 | a non-empty ProtoEntry with valid sets parses back from its to_string |
| Protover.ParseUnvalidatedToString | src/rust/protover/protover.rs:236-250 | a non-empty unvalidated entry with well-formed names parses back from its to_string |
| Protover.SupportedItemsSplit | src/rust/protover/protover.rs:140-153 | the built-in supported string splits into its ten items |
| Protover.ParseSupportedItems | src/rust/protover/protover.rs:168-173 | the ten supported items parse to the supported table |
| Protover.SupportedIsTable | src/rust/protover/protover.rs:168-173 | ProtoEntry::supported() succeeds and gives the table Cons=1-2 … Relay=1-2 |
| Protover.SupportedVersionsOf | src/rust/protover/protover.rs:307-336 | the supported versions of a known protocol are its table entry, or the empty set when the table lacks it |
| Protover.UnsupportedVersionsSpec | src/rust/protover/protover.rs:307-336 | get_unsupported keeps, for a protocol, exactly the versions that are not supported, as a valid set |
| Protover.UnsupportedBySpec | src/rust/protover/protover.rs:307-336 | a protocol stays in the result iff some of its versions are unsupported, so protocols left empty are dropped |
| Protover.GetUnsupportedTable | src/rust/protover/protover.rs:307-336 | get_unsupported is the unsupported subset relative to the built-in table |
| Protover.LinkOneTwoSupported | src/rust/protover/protover.rs:296-306 | "Link=1-2" is fully supported and is dropped |
| Protover.WombatNineUnsupported | src/rust/protover/protover.rs:296-306 | "Wombat=9" stays, with exactly version 9 |
| Protover.UnknownUnsupported | src/rust/protover/protover.rs:318-325 | a protocol with an unknown name keeps all of its versions |
| Protover.GetUnsupportedExample | src/rust/protover/protover.rs:296-306 | for "Link=1-2 Wombat=9" only Wombat remains |
| Protover.SupportsProtocolExpanded | src/rust/protover/protover.rs:366-372 | supports_protocol(p, v) holds iff p is present and its set contains v |
| Protover.SupportsProtocolOrLaterExpanded | src/rust/protover/protover.rs:391-397 | supports_protocol_or_later(p, v) holds iff p is present and some version of it is >= v |
| Protover.SupportsProtocolExamples | src/rust/protover/protover.rs:346-365 | the documented examples for Cons, Link and Doggo |
| Protover.SupportsProtocolOrLaterExamples | src/rust/protover/protover.rs:374-390 | the documented examples for Cons=5 |
| Protover.IsSupportedHereTable | src/rust/protover/protover.rs:615-625 | is_supported_here(p, v) holds iff the supported table's set for p contains v |
| Protover.IsSupportedHereExamples | src/rust/protover/protover.rs:605-614 | Link 1 is supported here and Link 10 is not |
| ProtoverVote.EntryLen | src/rust/protover/protover.rs:283-285 | an entry's len() is the sum of its protocols' set lengths |
| ProtoverVote.EntryWidthRemove | src/rust/protover/protover.rs:283-285 | that sum does not depend on the order of the protocols |
| ProtoverVote.CountVersions | src/rust/protover/protover.rs:576-579 | counting one expanded set adds each version's occurrences to that protocol's counters and leaves the others alone |
| ProtoverVote.CountEntry | src/rust/protover/protover.rs:571-580 | counting one entry adds its occurrences for every protocol |
| ProtoverVote.CountVotes | src/rust/protover/protover.rs:560-581 | the counting loop gives, per protocol and version, its occurrences over all entries whose len() is at most 2^16 |
| ProtoverVote.TallyAppend | src/rust/protover/protover.rs:560-581 | the tally over two runs of entries is the sum of their tallies |
| ProtoverVote.SingleEntryTally | src/rust/protover/protover.rs:560-581 | one small entry contributes its own occurrences |
| ProtoverVote.SingleEntryWidth | src/rust/protover/protover.rs:283-285 | the len() of a one-protocol entry is its set's len() |
| ProtoverVote.KeysOf | src/rust/protover/protover.rs:588-590 | the collected keys are exactly the voted versions |
| ProtoverVote.OutcomeOfKept | src/rust/protover/protover.rs:583-594 | the set built from the versions that reach the threshold holds exactly those versions, or is empty when u32::MAX is among them |
| ProtoverVote.Select | src/rust/protover/protover.rs:583-596 | a protocol is output iff some version reaches the threshold, and its set is built from exactly those versions |
| ProtoverVote.Compute | src/rust/protover/protover.rs:551-598 | no inputs give an empty result; protocol p is output iff some version of p reaches the threshold over the entries within the 2^16 limit; its set holds exactly those versions |
| ProtoverVote.ComputeExample | src/rust/protover/protover.rs:545-548 | ["Link=3-4", "Link=3"] with threshold 2 gives exactly Link version 3 |
| MulDiv.RoundToNextMultipleOf | src/lib/intmath/muldiv.c:20-32 | below the cap test it returns the least multiple of divisor that is >= number; above it, UINT_MAX |
| MulDiv.RoundUint32ToNextMultipleOf | src/lib/intmath/muldiv.c:34-47 | the same for uint32_t, with UINT32_MAX |
| MulDiv.RoundUint64ToNextMultipleOf | src/lib/intmath/muldiv.c:49-61 | the same for uint64_t, with UINT64_MAX |
| MulDiv.RoundUpStep | src/lib/intmath/muldiv.c:44-46 | the add-then-subtract-remainder step neither overflows nor misses the least multiple when the cap test passes |
| MulDiv.RoundUint32MissesRepresentableMultiple | src/lib/intmath/muldiv.c:40-41 | (4294967290, 7) gives UINT32_MAX, which is not a multiple of 7, although 4294967292 is a representable multiple |
| MulDiv.RoundUpOrMax | src/lib/intmath/muldiv.c:34-47 | the documented behaviour: the least multiple when one is representable, the maximum only when none is |
| MulDiv.RoundUint32Agrees | src/lib/intmath/muldiv.c:34-47 | whenever the cap test passes, the source and the documented behaviour agree |
| MulDiv.LeastMultipleUnique | src/lib/intmath/muldiv.c:20-32 | there is only one least multiple at or above a number |
| MulDiv.GcdDivides | src/lib/intmath/muldiv.c:63-73 | the Euclidean gcd divides both arguments |
| MulDiv.GcdGreatest | src/lib/intmath/muldiv.c:63-73 | every common divisor divides the gcd |
| MulDiv.GcdPositive | src/lib/intmath/muldiv.c:63-73 | the gcd is positive unless both arguments are 0 |
| MulDiv.Gcd64 | src/lib/intmath/muldiv.c:63-73 | the loop terminates with gcd(a, b) |
| MulDiv.SimplifyFraction64 | src/lib/intmath/muldiv.c:75-84 | the result keeps the ratio, has a positive denominator and is in lowest terms; both inputs are the results times the gcd |
| MulDiv.ReduceFraction | src/lib/intmath/muldiv.c:75-84 | dividing by the gcd keeps the ratio and leaves coprime values |
| MulDiv.MulU32NowrapAsWritten | src/lib/intmath/muldiv.c:86-100 | as written, the product is formed in 32 bits, so the result is (a·b) mod 2^32 |
| MulDiv.MulU32NowrapWraps | src/lib/intmath/muldiv.c:94 | 65536 · 65536 exceeds UINT32_MAX, yet the as-written function returns 0 |
| MulDiv.MulU32Nowrap | src/lib/intmath/muldiv.c:86-100 | the documented behaviour: min(a·b, UINT32_MAX) |
| MulDiv.MulU32NowrapAgreement | src/lib/intmath/muldiv.c:86-100 | the as-written and the documented results agree iff a·b fits in 32 bits, or wraps to exactly UINT32_MAX |
| MulDiv.Log2 | src/lib/intmath/muldiv.c:109-144 | 2^log2(x) <= x < 2^(log2(x)+1) for x >= 1 |
| MulDiv.LogClassification | src/lib/intmath/muldiv.c:109-144 | with both factors >= 2, a log sum >= 64 means a·b > UINT64_MAX, and a sum <= 62 means a·b fits |
| MulDiv.SmallFactor | src/lib/intmath/muldiv.c:109-112 | a factor below 2 means the product fits |
| MulDiv.MulU64WrapClassify | src/lib/intmath/muldiv.c:102-144 | 1 only when a·b > UINT64_MAX and -1 only when it fits; 0 means undecided |
| MulDiv.DivBound | src/lib/intmath/muldiv.c:155-166 | a > max / b iff a·b > max, so the division test detects overflow exactly |
| MulDiv.MulU64Nowrap | src/lib/intmath/muldiv.c:146-168 | min(a·b, UINT64_MAX) |
| AddSub.AddNowrap | src/lib/intmath/addsub.c:17-30 | min(a+b, max), taken from the test a > max - b without an intermediate overflow |
| AddSub.AddU32Nowrap | src/lib/intmath/addsub.c:32-34 | min(a+b, UINT32_MAX) |
| AddSub.AddU64Nowrap | src/lib/intmath/addsub.c:36-38 | min(a+b, UINT64_MAX) |
| AddSub.AddNowrapProperties | src/lib/intmath/addsub.c:17-30 | the result is at least max(a, b) and at most max; the operation is commutative; adding 0 is the identity |
| Numerals.DigitValue | src/lib/err/raw_log.c:148-159 | a digit's value indexes that digit in "0123456789ABCDEF" |
| Numerals.DigitsWellFormed | src/lib/err/raw_log.c:136-159 | the rendering uses only radix digits and has no leading zero |
| Numerals.ValueOfDigits | src/lib/err/raw_log.c:148-159 | reading the written digits back in the same radix gives x |
| Numerals.DigitsInjective | src/lib/err/raw_log.c:148-159 | different numbers render differently |
| RawLog.FormatNumberSigsafe | src/lib/err/raw_log.c:122-167 | an invalid radix, a NULL buffer or too small a buffer gives 0 and leaves the buffer alone; otherwise the digits go most-significant first, then a NUL at buf[len]; the result is len, and nothing past len changes |
| RawLog.CountDigits | src/lib/err/raw_log.c:136-142 | the counting loop returns the number of radix digits of x, at least 1 |
| RawLog.WriteDigits | src/lib/err/raw_log.c:148-166 | the backwards do-while writes exactly the digits of x, then the NUL, and nothing after |
| RawLog.FormatHexNumberSigsafe | src/lib/err/raw_log.c:190-194 | the radix-16 instance, with the same failure and success cases |
| RawLog.FormatDecNumberSigsafe | src/lib/err/raw_log.c:197-201 | the radix-10 instance, with the same failure and success cases |
| RawLog.RawLogger.constructor | src/lib/err/raw_log.c:34 | granularity starts at 1000 |
| RawLog.RawLogger.SetGranularity | src/lib/err/raw_log.c:104-108 | the setter stores the new value |
| RawLog.RawLogger.GetGranularity | src/lib/err/raw_log.c:114-118 | the getter returns the last value set |
| RawLog.CRem | src/lib/err/raw_log.c:73-76 | C's truncating % is the Euclidean one for non-negative operands and stays below the divisor in magnitude |
| RawLog.RoundedTimeGranule | src/lib/err/raw_log.c:73-76 | when granularity >= 2000, the logged seconds are a multiple of granularity/1000, rounded toward zero by less than one granule |
| RawLog.TimeBufReadsBack | src/lib/err/raw_log.c:64-80 | the time text is a sign character followed by decimal digits that read back as the rounded time |
| RawLog.RawWrite | src/lib/err/raw_log.c:40-51 | returns 0 iff every fd took the whole string, and -1 otherwise |
| RawLog.Writes | src/lib/err/raw_log.c:40-51 | each chunk goes to every fd |
| RawLog.EachFdGetsAllChunks | src/lib/err/raw_log.c:64-98 | an fd listed once receives every chunk, in order |
| RawLog.WritesAppend | src/lib/err/raw_log.c:64-98 | writing two runs of chunks equals writing one run and then the other |
| RawLog.RawLogger.LogRawAp | src/lib/err/raw_log.c:64-98 | writes the time prefix, the optional error separator, the message and its arguments to every fd, and writes nothing when the message is NULL |
| TorErr.SigsafeLogFds.constructor | src/lib/err/torerr.c:33-35 | the registry starts as the one fd STDERR_FILENO |
| TorErr.SigsafeLogFds.GetSigsafeErrFds | src/lib/err/torerr.c:60-65 | returns the array and the current count |
| TorErr.SigsafeLogFds.SetSigsafeErrFds | src/lib/err/torerr.c:72-81 | copies min(n, 8) fds, sets the count to that, and leaves the later slots alone |
| TorErr.SigsafeLogFds.ResetSigsafeErrFds | src/lib/err/torerr.c:86-91 | restores the single STDERR_FILENO state |
| TorErr.SigsafeLogFds.ErrSigsafeWrite | src/lib/err/torerr.c:39-43 | writes the string to every registered fd, and succeeds iff each write took it all |
| TorErr.SigsafeLogFds.LogErrSigsafe | src/lib/err/torerr.c:48-55 | the message goes, in error format, to every registered fd |
| TorErr.SigsafeLogFds.RawAssertionFailedMsg | src/lib/err/torerr.c:99-113 | the assertion message (file, line, expression, optional message) goes to every registered fd |
| TorErr.LineFitsBuffer | src/lib/err/torerr.c:99-113 | a non-negative int line number fits the 16-character buffer |
| ControlTrace.ControlSafeLogFds.constructor | src/lib/control_trace/control_trace.c:45-47 | the registry starts NULL, with count 0 |
| ControlTrace.ControlSafeLogFds.GetControlSafeDebugFds | src/lib/control_trace/control_trace.c:126-131 | returns the stored pointer and count; the pointer is NULL iff the count is 0 |
| ControlTrace.ControlSafeLogFds.SetControlSafeDebugFds | src/lib/control_trace/control_trace.c:136-148 | copies n fds into fresh storage when n > 0, stores NULL otherwise, and sets the count to n |
| ControlTrace.ControlSafeLogFds.ResetControlSafeDebugFds | src/lib/control_trace/control_trace.c:153-157 | the same as set(NULL, 0) |
| ControlTrace.ControlSafeLogFds.DebugControlSafe | src/lib/control_trace/control_trace.c:51-58 | the message goes, in non-error format, to every registered fd |
| ControlTrace.ControlSafeLogFds.DebugControlSafeMessage | src/lib/control_trace/control_trace.c:88-100 | no output when the count is 0; otherwise the message trace line goes to every fd |
| ControlTrace.ControlSafeLogFds.DebugControlSafeCommand | src/lib/control_trace/control_trace.c:108-120 | no output when the count is 0; otherwise the command trace line goes to every fd |
| ControlTrace.ConnToStrDup | src/lib/control_trace/control_trace.c:64-77 | "Conn: " plus the pointer text when that is long enough, and "Conn Formatting Error" otherwise |
| ControlTrace.MessageTraceLine | src/lib/control_trace/control_trace.c:88-100 | the chunks of a message trace concatenate to "T=… Control Trace <conn>, <type>: Content: '<msg>'…" |
| ControlTrace.CommandTraceLine | src/lib/control_trace/control_trace.c:108-120 | the chunks of a command trace concatenate to "T=… Control Trace <conn>, Command: '<cmd>', Arguments: '<args>'…" |
| RelayConfig.CheckServerPorts | src/feature/relay/relay_config.c:50-142 | returns -1 iff the ports are inconsistent, with every check evaluated; always reports the number of listening OR and Dir ports below 1024 |
| RelayConfig.Count | src/feature/relay/relay_config.c:50-142 | a count of matching ports never exceeds the number of ports |
| RelayConfig.CountAppend | src/feature/relay/relay_config.c:50-142 | counts over two lists of ports add up |
| RelayConfig.OtherPortsIgnored | src/feature/relay/relay_config.c:64-83 | ports that are neither OR nor Dir ports change neither the verdict nor the low-port count |
| RelayConfig.SingleOrPortConsistent | src/feature/relay/relay_config.c:50-142 | one advertised and listening IPv4 ORPort is consistent |
| RelayConfig.TwoDirPortsInconsistent | src/feature/relay/relay_config.c:107-112 | two advertised DirPorts are rejected |
| RelayConfig.WordAuthorityBits | src/feature/relay/relay_config.c:335-354 | a word is known regardless of BridgeRelay; a known word sets only V3 and BRIDGE bits, V3 iff it names v3 ("v3", or "1" on a non-bridge), BRIDGE iff it names bridge ("bridge", or "1" on a bridge) |
| RelayConfig.AuthorityOfBits | src/feature/relay/relay_config.c:324-358 | the mask has only V3 and BRIDGE bits, with V3 iff some word names v3 and BRIDGE iff some word names bridge |
| RelayConfig.AuthorityOfAppend | src/feature/relay/relay_config.c:324-358 | the mask of a list is the OR of the masks of its parts |
| RelayConfig.AuthorityOfNext | src/feature/relay/relay_config.c:335-354 | one more known word ORs its bits into the mask |
| RelayConfig.RelayOptions.ComputePublishServerDescriptor | src/feature/relay/relay_config.c:324-358 | an absent list gives NO_DIRINFO and 0; otherwise 0 iff every word is known, with the OR of the words' bits; on the first unknown word -1, with the bits of the words before it |
| RelayConfig.RelayOptions.WordBits | src/feature/relay/relay_config.c:335-354 | the case-insensitive word comparisons give exactly the word's bits, or None for an unknown word |
| RelayConfig.CheckBridgeDistributionSetting | src/feature/relay/relay_config.c:380-407 | returns 0 or -1, and 0 iff the value is NULL, a recognised method, or made only of letters, digits, '-' and '_' |
| RelayConfig.DistributionAcceptedByCharacters | src/feature/relay/relay_config.c:380-407 | any value is accepted iff all of its characters are allowed, which covers the named methods |
| RelayConfig.DistributionExamples | src/test/test_config.c:5553-5595 | "https", "hyphens-are-allowed" and "unicorn" pass, and "asterisks*are*forbidden" fails |
| RelayConfig.PublishServerAccepted | src/feature/relay/relay_config.c:416-464 | the options pass iff the words are known, a bridge publishes no V3 descriptor, and BridgeDistribution appears only with BridgeRelay and a valid value |
| RelayConfig.PublishServerBridgeExamples | src/feature/relay/relay_config.c:433-438 | a bridge may publish with "1", but not with "V3" |
| RelayConfig.RelayOptions.ValidatePublishServer | src/feature/relay/relay_config.c:416-464 | the verdict is PublishServerVerdict, and unless the words are unrecognised the mask is recomputed |
| RelayConfig.ValidateRelayPadding | src/feature/relay/relay_config.c:473-503 | outside server mode nothing is rejected; in server mode the options pass iff ConnectionPadding is -1, ReducedConnectionPadding is 0, CircuitPadding is not 0 and ReducedCircuitPadding is not 1 |
| RelayConfig.EffectiveTotalMem | src/feature/relay/relay_config.c:651-664 | a non-zero total_mem is used as given; otherwise the system's memory, capped, is used |
| RelayConfig.HaveEnoughMemForDircache | src/feature/relay/relay_config.c:640-683 | -1 with a message iff (DirCache and memory < 300 MiB) or (no DirCache and memory >= 300 MiB) |
| RelayConfig.DircacheWarnsOneWay | src/feature/relay/relay_config.c:640-683 | for any memory, exactly one of the DirCache settings is warned about |
| RelayConfig.RemoveSpaces | src/feature/relay/relay_config.c:586-587 | every space is removed from an item, and its other characters and first and last non-space characters are kept |
| RelayConfig.SplitNicknames | src/feature/relay/relay_config.c:586-587 | no split item is empty |
| RelayConfig.NonBlankPieces | src/feature/relay/relay_config.c:586-587 | pieces that are blank after trimming are dropped, so no item is empty |
| RelayConfig.NonBlankPieceAt | src/feature/relay/relay_config.c:586-587 | each kept item is trimmed and made from characters of the pieces |
| RelayConfig.LastPieceItem | src/feature/relay/relay_config.c:586-587 | the item made from the last piece is trimmed and made from its characters |
| RelayConfig.SpacesRemovedItem | src/feature/relay/relay_config.c:586-587 | removing spaces from a trimmed piece keeps it trimmed and made from that piece's characters |
| RelayConfig.TrimmedChars | src/feature/relay/relay_config.c:586-587 | trimming leaves no white space at either end and only characters of the piece |
| RelayConfig.CharsFromMore | src/feature/relay/relay_config.c:586-587 | an item made from some pieces is made from any longer list that starts with them |
| RelayConfig.SplitNicknamesItems | src/feature/relay/relay_config.c:586-587 | each split item is non-empty and holds no comma and no space, and neither end is white space |
| RelayConfig.NonBlankPiecesItems | src/feature/relay/relay_config.c:586-587 | the kept items are trimmed and made from characters of the pieces |
| RelayConfig.NormalizeNickname | src/feature/relay/relay_config.c:589-605 | a legal item is kept; otherwise "$" + item when that is legal; the result is legal, and exists iff one of the two is |
| RelayConfig.ThenAssociative | src/feature/relay/relay_config.c:567-638 | chaining the per-line results is associative |
| RelayConfig.NormalizeLinesAppend | src/feature/relay/relay_config.c:567-638 | normalising two runs of lines equals chaining the two results |
| RelayConfig.NormalizeItemsOk | src/feature/relay/relay_config.c:589-605 | one line's items succeed iff every item is normalisable |
| RelayConfig.NormalizeItemsLines | src/feature/relay/relay_config.c:589-605 | each item gives one line, in order, with the original key and the normalised value |
| RelayConfig.NormalizeLinesOk | src/feature/relay/relay_config.c:567-638 | the list succeeds iff every line's items are normalisable |
| RelayConfig.NormalizeLinesLegal | src/feature/relay/relay_config.c:567-638 | every output value is legal, and every output key is an input key |
| RelayConfig.NormalizeFailsAt | src/feature/relay/relay_config.c:596-603 | the first item that cannot be normalised gives its error message |
| RelayConfig.NormalizeItemsErrPrefix | src/feature/relay/relay_config.c:596-603 | once an item fails, later items do not change the error |
| RelayConfig.NormalizeLinesErrPrefix | src/feature/relay/relay_config.c:596-603 | once a line fails, later lines do not change the error |
| RelayConfig.NormalizeNicknameList | src/feature/relay/relay_config.c:567-638 | an empty list gives no output; otherwise the loop gives exactly the normalised lines, or the first error, with no output set |
| RelayConfig.RelayModeRulesMeaning | src/feature/relay/relay_config.c:693-750 | relay mode is accepted iff (DirCache, or no DirPort and no bridge) and a BridgeRelay of 1 has an ORPort |
| RelayConfig.BridgeIgnoresDirPort | src/feature/relay/relay_config.c:706-726 | for a bridge, since DirPort is cleared first, acceptance needs only DirCache and an ORPort |
| RelayConfig.RelayOptions.ValidateRelayMode | src/feature/relay/relay_config.c:693-750 | a bridge's DirPort lines are cleared first; the mode rules decide the error; otherwise MyFamily is normalised, and is replaced only on success |
| DirauthConfig.HalfTruncated | src/feature/dirauth/dirauth_config.c:208-212 | C's truncating division by 2 |
| DirauthConfig.LowerBoundRule | src/feature/dirauth/dirauth_config.c:214-238 | a value below the minimum is rejected unless testing and at or above the testing minimum, in which case it only warns |
| DirauthConfig.AndThen | src/feature/dirauth/dirauth_config.c:195-261 | checks run in order: the first rejection wins, and the warnings accumulate |
| DirauthConfig.ScheduleAccepted | src/feature/dirauth/dirauth_config.c:195-261 | the schedule passes iff the delay sum is below half the interval, the delays reach their (testing) minimums, NIntervalsValid >= 2, and the interval lies between its minimum and one day |
| DirauthConfig.ScheduleDelaysFit | src/feature/dirauth/dirauth_config.c:208-212 | an accepted schedule fits both delays, twice over, in the interval |
| DirauthConfig.ScheduleWarnings | src/feature/dirauth/dirauth_config.c:214-258 | each warning appears iff its low-value or uneven-interval condition holds |
| DirauthConfig.TestingRelaxesOnlyInterval | src/feature/dirauth/dirauth_config.c:214-258 | TestingTorNetwork accepts only what the normal rules accept, or a shorter interval down to the testing minimum |
| DirauthConfig.Min | src/feature/dirauth/dirauth_config.c:306-310 | the smaller of two values |
| DirauthConfig.TestingAccepted | src/feature/dirauth/dirauth_config.c:270-322 | the testing options pass iff the initial interval, delays, start offset and time-to-learn satisfy their bounds |
| DirauthConfig.TestingWarnings | src/feature/dirauth/dirauth_config.c:315-319 | the only warning is a time-to-learn above two hours |
| DirauthConfig.InitialIntervalDividesHalfHour | src/feature/dirauth/dirauth_config.c:283-290 | an accepted initial interval divides 1800 exactly |
| DirauthConfig.TransitionAffectsTimingIff | src/feature/dirauth/dirauth_config.c:328-348 | timing is affected iff the v3-authority mode changes, or the new options are v3 and a timing field differs |
| DirauthConfig.TransitionAffectsTimingSymmetric | src/feature/dirauth/dirauth_config.c:328-348 | no change affects nothing, and the test is symmetric |
| DirauthConfig.OtherOptionsDoNotAffectTiming | src/feature/dirauth/dirauth_config.c:328-348 | changes outside the mode and the seven timing fields never affect timing |
| DirauthConfig.ActDirauthReschedules | src/feature/dirauth/dirauth_config.c:360-374 | the vote is rescheduled iff there were old options and the transition affects timing |
| DirauthConfig.ActDirauthStats | src/feature/dirauth/dirauth_config.c:417-446 | the notice flag is set when BridgeAuthoritativeDir is newly enabled; stats start when it is newly enabled and stop only when it goes from on to off |
| DirauthConfig.ActDirauthStatsRepeatable | src/feature/dirauth/dirauth_config.c:417-446 | an unchanged option starts and stops nothing |
| DirauthConfig.ActDirauthStatsNoticeSticky | src/feature/dirauth/dirauth_config.c:417-446 | a notice already requested stays requested |
| DirauthConfig.AuthorityRejection | src/feature/dirauth/dirauth_config.c:83-142 | an authority passes iff its address resolves, it has ContactInfo (or testing), versioning has both version lists, it is a bridge or v3 authority, and it has a DirPort and an ORPort without ClientOnly; a failure names the first failing check |
| DirauthConfig.DefaultedVersions | src/feature/dirauth/dirauth_config.c:91-96 | a missing version list is copied from RecommendedVersions |
| DirauthConfig.RecommendedVersionsSuffice | src/feature/dirauth/dirauth_config.c:91-102 | with RecommendedVersions set, both defaulted lists are present |
| DirauthConfig.DirauthModeOptions.DefaultRecommendedVersions | src/feature/dirauth/dirauth_config.c:91-96 | both lists are defaulted from RecommendedVersions |
| DirauthConfig.DirauthModeOptions.DisableClientBehaviour | src/feature/dirauth/dirauth_config.c:110-119 | UseEntryGuards is cleared, and DownloadExtraInfo is set for a v3 authority |
| DirauthConfig.DirauthModeOptions.ValidateAuthority | src/feature/dirauth/dirauth_config.c:83-142 | the error is the first failing check; the lists are defaulted, and the client behaviour changed, only for authorities that pass the contact checks, as the source orders them |
| DirauthConfig.DirauthModeOptions.ValidateDirauthMode | src/feature/dirauth/dirauth_config.c:73-154 | the same for authority mode, nothing changed outside it, and a negative MinUptimeHidServDirectoryV2 clamped to 0 whenever nothing is rejected, in authority mode or not |
| AddCFile.SrcdirFile | scripts/maint/add_c_file.py:37-42 | a path under src/ loses exactly that prefix |
| AddCFile.MacroText | scripts/maint/add_c_file.py:44-50 | each character is replaced ('.' and '/' by '_', upper-cased), keeping the length |
| AddCFile.GuardMacroShape | scripts/maint/add_c_file.py:44-50 | a guard macro starts with "TOR_" and holds no '.', no '/' and no lower-case letter |
| AddCFile.MacroTextAppend | scripts/maint/add_c_file.py:44-50 | the guard macro is built character by character, so the text of a concatenation is the concatenation of the texts |
| AddCFile.GuardMacroIdentifier | scripts/maint/add_c_file.py:44-50 | a path of identifier characters, dots and slashes gives a C identifier |
| AddCFile.GuardMacroExample | scripts/maint/add_c_file.py:44-50 | src/feature/dirauth/ocelot.h gives TOR_FEATURE_DIRAUTH_OCELOT_H |
| AddCFile.GuardMacroCollision | scripts/maint/add_c_file.py:44-50 | src/lib/a_b.h and src/lib/a/b.h get the same guard |
| AddCFile.MakeExt | scripts/maint/add_c_file.py:52-59 | the result ends with "." + ext and starts with the name's root |
| AddCFile.MakeExtTwice | scripts/maint/add_c_file.py:52-59 | only the final extension is replaced, so makeext(makeext(n, e1), e2) == makeext(n, e2) |
| AddCFile.MakeExtTwiceEmptyName | scripts/maint/add_c_file.py:52-59 | that law needs a non-dot character in the file name: for "" the two differ |
| AddCFile.MakeExtOfFileName | scripts/maint/add_c_file.py:52-59 | dir/stem.ext becomes dir/stem.ext2 |
| AddCFile.SplitExtRootOfMade | scripts/maint/add_c_file.py:58 | splitext of root + "." + ext gives root back |
| AddCFile.RootKeepsNonDot | scripts/maint/add_c_file.py:52-59 | removing the extension of a file name that has a non-dot character leaves a file name that still has one |
| AddCFile.LibNameLength | scripts/maint/add_c_file.py:247 | the [a-z0-9_]* group of the library pattern is the longest prefix of library-name characters |
| AddCFile.LibDirectory | scripts/maint/add_c_file.py:247-249 | a match of ^lib/([a-z0-9_]*)/ names a directory of library-name characters |
| AddCFile.IncludeAmOfLibrary | scripts/maint/add_c_file.py:247-249 | src/lib/<x>/… goes to src/lib/<x>/include.am |
| AddCFile.IncludeAmOfCoreTree | scripts/maint/add_c_file.py:251-252 | src/core, src/feature and src/app go to src/core/include.am |
| AddCFile.IncludeAmOfTestTree | scripts/maint/add_c_file.py:254-255 | src/test/… goes to src/test/include.am |
| AddCFile.IncludeAmOutsideTrees | scripts/maint/add_c_file.py:236-257 | a path outside src/, or with no directory below it, gets None |
| AddCFile.NothingAboveSrc | scripts/maint/add_c_file.py:236-257 | any path not under src/ gets None |
| AddCFile.IncludeAmByDirectory | scripts/maint/add_c_file.py:236-257 | the include.am depends only on the file's directory |
| AddCFile.SourceAndHeaderShareIncludeAm | scripts/maint/add_c_file.py:218-229 | a .c file and its .h file (makeext) get the same include.am |
| Automake.ControlKind | scripts/maint/add_c_file.py:129 | a control line matches "# ADD_C_FILE: INSERT <kind> HERE" case-insensitively, with a kind free of white space |
| Automake.ControlKindOfLine | scripts/maint/add_c_file.py:129 | every such line is recognised, with its kind |
| Automake.ControlLineNotBlank | scripts/maint/add_c_file.py:136-155 | a control line is never blank |
| Automake.ContinuationMatchShape | scripts/maint/add_c_file.py:172-173 | a continuation match is white space, a token and white space before a backslash |
| Automake.ContinuationOfLine | scripts/maint/add_c_file.py:172-173 | every such line matches, with its three groups |
| Automake.AddLineCases | scripts/maint/add_c_file.py:136-155 | ValueError iff a control line follows stored lines; a control line sets the kind; a blank line ends the chunk unstored; every other line, the control line included, is appended |
| Automake.AddLineKeepsWellFormed | scripts/maint/add_c_file.py:136-155 | adding a line keeps a chunk's lines non-blank |
| Automake.ParseStateWellFormed | scripts/maint/add_c_file.py:299-306 | every chunk read from a file holds only non-blank lines |
| Automake.ParseErrorOnlyValueError | scripts/maint/add_c_file.py:143-146 | the only error reading can raise is the ValueError for a control line that is not first |
| Automake.AutomakeChunk.constructor | scripts/maint/add_c_file.py:131-134 | a chunk starts empty, with kind "" and no blank |
| Automake.AutomakeChunk.AddLine | scripts/maint/add_c_file.py:136-155 | the chunk becomes exactly what AddLineTo describes, and is unchanged on ValueError |
| Automake.ParseStateShape | scripts/maint/add_c_file.py:299-306 | while reading, every closed chunk ended on a blank line, and the current one holds lines iff the last line read was not blank |
| Automake.ParseFailsIff | scripts/maint/add_c_file.py:299-306 | reading include.am fails iff a control line follows a non-blank line, and then with that ValueError |
| Automake.ParseErrorSticks | scripts/maint/add_c_file.py:299-306 | once reading has failed it stays failed |
| Automake.ParseDumpRoundTrip | scripts/maint/add_c_file.py:193-201 | dumping the parsed chunks gives the input back, each line newline-terminated and each blank line as "\n" |
| Automake.ParseDumpIdentity | scripts/maint/add_c_file.py:193-201 | for a file whose lines all end in a newline, and whose blank lines are just "\n", the dump is the file itself |
| Automake.FirstGreater | scripts/maint/add_c_file.py:166-175 | the insertion point is the first continuation line whose file name is greater than the member |
| Automake.InsertAddsOneLine | scripts/maint/add_c_file.py:157-191 | insertion fails iff the chunk is empty; otherwise exactly one line is added, before the first greater name, or at the end after re-terminating the old last line; no other line changes |
| Automake.InsertedNames | scripts/maint/add_c_file.py:157-191 | the member's name lands between the names before and after the insertion point |
| Automake.InsertKeepsOrder | scripts/maint/add_c_file.py:157-191 | inserting into sorted continuation names keeps them sorted |
| Automake.SortedInsert | scripts/maint/add_c_file.py:166-182 | putting a member after every name it does not precede and before a greater name keeps the names sorted |
| Automake.AutomakeChunk.InsertBefore | scripts/maint/add_c_file.py:184-186 | the new line is inserted at lineno, and nothing else changes |
| Automake.AutomakeChunk.InsertAtEnd | scripts/maint/add_c_file.py:188-191 | IndexError on an empty chunk; otherwise the last line is re-terminated and the member appended |
| Automake.AutomakeChunk.InsertMember | scripts/maint/add_c_file.py:157-182 | the loop gives exactly the inserted lines, or IndexError on an empty chunk, and keeps the kind and the blank flag |
| Automake.AutomakeChunk.Dump | scripts/maint/add_c_file.py:193-201 | the chunk's text, with newlines added where missing and one blank line if it ended on one |
| Automake.LastOfKind | scripts/maint/add_c_file.py:213-216 | the last chunk of a kind, compared case-insensitively |
| Automake.ValuesOf | scripts/maint/add_c_file.py:203-234 | the values of the chunk objects, one per chunk, in order |
| Automake.KindMapLast | scripts/maint/add_c_file.py:213-216 | by_type maps each kind to its last chunk |
| Automake.ParsedAutomake.constructor | scripts/maint/add_c_file.py:209-211 | the file starts with no chunks |
| Automake.ParsedAutomake.AddChunk | scripts/maint/add_c_file.py:213-216 | the chunk is appended and registered under its lower-cased kind, replacing an earlier chunk of that kind |
| Automake.ParsedAutomake.AddFile | scripts/maint/add_c_file.py:218-229 | true iff a chunk of that kind is registered, and only that chunk changes |
| Automake.ParsedAutomake.Dump | scripts/maint/add_c_file.py:231-234 | the text of all chunks, in order |
| Automake.ReadAutomake | scripts/maint/add_c_file.py:299-306 | the read loop fails with the ValueError as ParseChunks says, or builds exactly the parsed chunks, with by_type holding each kind's last chunk |
| Automake.RegisterChunk | scripts/maint/add_c_file.py:303-306 | appending a closed chunk registers it, and by_type stays the last chunk of each kind |
| Automake.CloseChunk | scripts/maint/add_c_file.py:303-305 | the closed chunk is added and a fresh empty chunk starts |
| Automake.ReadLineInto | scripts/maint/add_c_file.py:302-305 | one read step performs exactly the step of ReadLine on the chunk list and the current chunk, or raises its ValueError |
| RectifyIncludePaths.RemoveFirst | scripts/maint/rectify_include_paths.py:20-24 | list.remove drops the first occurrence of a present element and otherwise changes nothing |
| RectifyIncludePaths.RemoveFirstMultiset | scripts/maint/rectify_include_paths.py:20-24 | removing one element takes one copy out of the multiset |
| RectifyIncludePaths.ExcludedMultiset | scripts/maint/rectify_include_paths.py:20-24 | exclude removes one copy of each listed path that is present |
| RectifyIncludePaths.ExcludedDistinct | scripts/maint/rectify_include_paths.py:20-24 | a directory named once and listed is gone |
| RectifyIncludePaths.ExcludedKeeps | scripts/maint/rectify_include_paths.py:20-24 | names that are not listed keep their count |
| RectifyIncludePaths.NameList.Remove | scripts/maint/rectify_include_paths.py:23-24 | the list loses the first occurrence |
| RectifyIncludePaths.NameList.constructor | scripts/maint/rectify_include_paths.py:20-24 | the list object holds the given names |
| RectifyIncludePaths.Exclude | scripts/maint/rectify_include_paths.py:20-24 | the in-place loop leaves exactly the excluded list |
| RectifyIncludePaths.PathJoin | scripts/maint/rectify_include_paths.py:40 | os.path.join ends with the file name |
| RectifyIncludePaths.InDir | scripts/maint/rectify_include_paths.py:31-32 | each file name of a walk step is paired with its directory, in order |
| RectifyIncludePaths.IncludeMapStep | scripts/maint/rectify_include_paths.py:31-43 | each walked file updates the map as RecordHeader says, and an error stays |
| RectifyIncludePaths.IncludeMapErrSticks | scripts/maint/rectify_include_paths.py:31-43 | a failed assertion ends the map with that error |
| RectifyIncludePaths.IncludeMapEntries | scripts/maint/rectify_include_paths.py:28-45 | the map holds exactly the .h and .inc names seen; a name seen once maps to its path minus "src/", and one seen twice or more maps to DUPLICATE |
| RectifyIncludePaths.IncludeMapCanonical | scripts/maint/rectify_include_paths.py:28-45 | over files of the walk of src, the assertion holds, and every path ends in its own key |
| RectifyIncludePaths.GetIncludeMap | scripts/maint/rectify_include_paths.py:28-45 | the nested loops over the walk give exactly the include map of its files |
| RectifyIncludePaths.WalkFilesAppend | scripts/maint/rectify_include_paths.py:31-43 | the files of two walk segments are concatenated |
| RectifyIncludePaths.MatchShape | scripts/maint/rectify_include_paths.py:48-54 | the three groups of a match cover the line up to its first newline: the directive ` *# *define +` (or ` *# *include +"`), then a name of [A-Z_] characters and a rest starting with the suffix, or a quote-free path ending with the extension and a rest starting with the closing quote |
| RectifyIncludePaths.Skip | scripts/maint/rectify_include_paths.py:48-54 | a greedy character-class run such as ` *` or [A-Z_]+ ends at the first character outside the class |
| RectifyIncludePaths.DirectiveEnd | scripts/maint/rectify_include_paths.py:48-54 | the end of the ` *# *word +` prefix, when the line has one, lies inside the line |
| RectifyIncludePaths.DirectiveEndShape | scripts/maint/rectify_include_paths.py:48-54 | what DirectiveEnd finds is spaces, '#', spaces, the word and at least one space, and it stops at a non-space, as the greedy ` +` does |
| RectifyIncludePaths.DirectiveEndComplete | scripts/maint/rectify_include_paths.py:48-54 | every line that starts with ` *# *word +` is found, so DirectiveEnd fails only on lines without that prefix |
| RectifyIncludePaths.FindLast | scripts/maint/rectify_include_paths.py:48-49 | the last occurrence of the suffix in the searched range, as the greedy match backtracks to it |
| RectifyIncludePaths.DefineTail | scripts/maint/rectify_include_paths.py:48-49 | a match of the define tail has a non-empty name and lies inside the line |
| RectifyIncludePaths.IncludeTail | scripts/maint/rectify_include_paths.py:52-53 | a match of the include tail has a quoted path longer than its extension and lies inside the line |
| RectifyIncludePaths.DefineTailShape | scripts/maint/rectify_include_paths.py:48-49 | the define name is [A-Z_]+ before the last _PRIVATE (or _INTERNAL_), with the rest up to the newline |
| RectifyIncludePaths.IncludeTailShape | scripts/maint/rectify_include_paths.py:52-53 | the include path holds no quote and ends with .h (or .inc) before a quote |
| RectifyIncludePaths.Output.Write | scripts/maint/rectify_include_paths.py:72-80 | a write appends one string |
| RectifyIncludePaths.Output.constructor | scripts/maint/rectify_include_paths.py:84-118 | the output file starts empty |
| RectifyIncludePaths.FixLine | scripts/maint/rectify_include_paths.py:60-82 | writes exactly one line iff FixLineText rewrites it: with a non-empty mapping only a non-DUPLICATE basename is rewritten; without one, any match is rewritten with the standard directive; the third group is kept |
| RectifyIncludePaths.FixedLines | scripts/maint/rectify_include_paths.py:84-118 | one output line per input line |
| RectifyIncludePaths.FixIncludeLine | scripts/maint/rectify_include_paths.py:86-118 | the four patterns are tried in order and the first rewrite is written, or else the line itself |
| RectifyIncludePaths.FixIncludes | scripts/maint/rectify_include_paths.py:84-118 | the output is exactly the fixed lines, in order |
| RectifyFixedPoint.DefineFixedPoint | scripts/maint/rectify_include_paths.py:84-98 | a rewritten define line is left unchanged by a second pass |
| RectifyFixedPoint.IncludeFixedPoint | scripts/maint/rectify_include_paths.py:100-116 | a rewritten include line is left unchanged by a second pass over a canonical map |
| RectifyFixedPoint.FixedLineIdempotent | scripts/maint/rectify_include_paths.py:84-118 | fixing a line twice equals fixing it once |
| RectifyFixedPoint.FixedLinesIdempotent | scripts/maint/rectify_include_paths.py:84-118 | running fix_includes on its own output, with the same canonical map, changes nothing |
| PyText.BaseName | scripts/maint/rectify_include_paths.py:56-58 | get_base_header_name is the last path component: it holds no '/', ends the path, and follows a '/' or is the whole path |
| PyText.SplitExtRoot | scripts/maint/add_c_file.py:58 | splitext's root is the path or a prefix of it that is followed by '.' |
| PyText.Lower | scripts/maint/add_c_file.py:215-227 | lower-cases each letter and keeps the length |
| PyText.StripEmpty | scripts/maint/add_c_file.py:149 | line.strip() == "" iff the line is blank |
| PyText.LeadingSpace | scripts/maint/add_c_file.py:149 | the run of white space that strip() removes at the front |
| PyText.TrailingSpace | scripts/maint/add_c_file.py:149 | the run of white space that strip() removes at the back |
| PyText.ToUpperAscii | scripts/maint/add_c_file.py:44-50 | upper() maps exactly a-z to A-Z and keeps every other character |
| PyText.LowerIdempotent | scripts/maint/add_c_file.py:215-227 | lower-casing twice equals lower-casing once |
| PyText.RFind | scripts/maint/rectify_include_paths.py:56-58 | the last position of a character, or -1 when it does not occur |
| Text.SplitJoin | src/rust/protover/protover.rs:431 | joining parts that avoid the separator and splitting again gives the parts back |
| Text.JoinSplit | src/rust/protover/protover.rs:431 | splitting on a character and joining gives the string back |

## Left out

- **Integer widths:**
  - C `unsigned long` is taken as 64 bits: the argument of `format_number_sigsafe` is a `uint64`.
  - C `unsigned` is taken as 32 bits: `round_to_next_multiple_of` uses `uint32`.
- **Aborts become preconditions:**
  - MulDiv.RoundToNextMultipleOf, MulDiv.RoundUint32ToNextMultipleOf, MulDiv.RoundUint64ToNextMultipleOf: `requires divisor > 0` stands for `raw_assert(divisor > 0)`. The abort is not modelled.
  - MulDiv.SimplifyFraction64: `requires denom > 0`. The source's `raw_assert` checks only the pointer, so a zero denominator divides by zero in C. The out-pointers are modelled as two returned values, not as writes through `*numer` and `*denom`.
  - TorErr.SigsafeLogFds.SetSigsafeErrFds and ControlTrace.ControlSafeLogFds.SetControlSafeDebugFds: `requires 0 <= n`. A negative n makes `memcpy` or `tor_malloc` undefined behaviour in C.
- **Logging and fd I/O:**
  - The `log_warn`, `log_info`, `log_notice` and COMPLAIN calls in relay_config.c and dirauth_config.c are not modelled. Only the returned verdicts and messages are.
  - The results of the `write()` calls are parameters: `written` in RawLog.RawWrite and `results` in TorErr.SigsafeLogFds.ErrSigsafeWrite. The other log methods return the list of (fd, chunk) writes instead of performing them.
  - `time()` is the parameter `now`.
  - `dump_stack_symbols_to_error_fds` (called from `tor_raw_assertion_failed_msg_`) is not part of this model.
  - `tor_log_raw_write`, the body of `tor_log_raw_ap`, `tor_raw_assertion_failed_msg_` and `tor_control_conn_to_str_dup` are modelled beyond the core, as write lists. They reach the fds through the registries.
- **Helpers from files not part of this model become parameters or abstract predicates:**
  - `is_legal_nickname_or_hexdigest` is `isLegal`;
  - `server_mode` is `serverMode`;
  - `port_binds_ipv4` is `bindsIPv4`;
  - the `resolve_my_address` outcome is `addressResolves`;
  - the system memory query for `total_mem == 0` is `systemMemory` (None for a failed query);
  - the `%p` text of the connection pointer is `pointerText` in ControlTrace.ConnToStrDup;
  - `smartlist_split_string` is the `split` parameter of NormalizeNicknameList.
- RelayConfig.SplitNicknames: smartlist_split.c is not part of this model. SplitNicknames models `smartlist_split_string(…, ",", SPLIT_SKIP_SPACE|SPLIT_IGNORE_BLANK|SPLIT_STRIP_SPACE, 0)` as the flags are documented:
  - split on commas;
  - trim C white space at both ends;
  - drop empty pieces;
  - remove every remaining space character.
- **Header constants.** These come from headers that are not part of this model, and are written as named constants:
  - the dirvote.h minima: MIN_VOTE_SECONDS, MIN_DIST_SECONDS, MIN_VOTE_INTERVAL and their _TESTING variants;
  - TOR_SIGSAFE_LOG_MAX_FDS = 8;
  - the or.h dirinfo bits V3_DIRINFO = 4 and BRIDGE_DIRINFO = 16;
  - DIRCACHE_MIN_MEM_MB = 300.
- **Case mapping is ASCII-only:**
  - Automake.ControlKind, PyText.ToUpperAscii and PyText.Lower: Python's `re.I`, `str.upper` and `str.lower` use Unicode case mapping. For example, `"ß".upper() == "SS"`, and under `re.I` "ſ" (U+017F) matches "s".
  - The model is exact for ASCII, which is what include.am files and tor paths hold.
  - strcasecmp in `compute_publishserverdescriptor` is ASCII.
- **Filesystem in the scripts:**
  - `os.walk` is given as a value: a sequence of (dirpath, file names) steps.
  - The `exclude(["ext", "win32"], dirnames)` pruning inside the walk is modelled by RectifyIncludePaths.Exclude, but it is not connected to which directories the walk then visits.
  - `os.path.relpath`/`normpath` inputs are taken as already-normalised POSIX paths relative to the top of the tree (AddCFile.SrcdirFile).
  - `run()`, file creation from templates, `open`, `os.rename`, `warn` and the main loop of rectify_include_paths.py are not modelled.
- **Operations of the core files not modelled:**
  - relay_config.c: `options_validate_relay_os` (uname), `options_validate_relay_info` (nickname and UTF-8 checks in other files), `parse_ports_relay` and `update_port_set_relay` (foreign `parse_port_config` and `count_real_listeners`), and `options_validate_relay_bandwidth`.
  - dirauth_config.c: `options_warn_about_relative_paths_dirauth`, `options_validate_dirauth_bandwidth`, `options_act_dirauth_mtbf`, and the effects of `options_act_dirauth` other than the reschedule decision.
  - protover.rs: `compute_for_old_tor(_cstr)`, which depends on the C function `tor_version_as_new_as`.
  - protover.rs: `UnvalidatedProtoEntry::from_str_any_len` and `From<ProtoEntry> for UnvalidatedProtoEntry`.
  - protover.rs: the `Display` impls, and the FFI `get_supported_protocols_cstr` beyond its text.
  - `ProtoEntry`/`UnvalidatedProtoEntry` `insert`, `remove`, `get`, `len` and `is_empty` are plain Dafny map operations on the value model. In-place update of the HashMap is not modelled.
  - protoset.rs: `ProtoSet::and_not_in` is not part of the file. `get_unsupported` is modelled with set difference, which is what its documentation and tests require.
- ProtoverVote.Compute: `requires` that every input set is well formed. ProtoSet's fields are private, and every constructor of protoset.rs gives such sets.
- Protover.ParseProtoEntryToString, Protover.ParseUnvalidatedToString: the round trip is stated for non-empty entries only, because "" does not parse.
- RelayConfig.EffectiveTotalMem: for `total_mem == 0` the capping of the system memory (SIZE_MAX, MaxMemInQueues) is only bounded, not computed.

## Findings

| source | as written | input that shows it | evidently intended | confidence | as-written member | corrected member |
|---|---|---|---|---|---|---|
| src/lib/intmath/muldiv.c:94 | `uint64_t ab = a * b;` multiplies two `uint32_t` values in 32-bit arithmetic before widening, so the product wraps and the cap branch never fires | a = b = 65536: the result is 0 instead of UINT32_MAX | min(a·b, UINT32_MAX), as the comment above the function says | not executed | MulDiv.MulU32NowrapAsWritten, MulDiv.MulU32NowrapWraps | MulDiv.MulU32Nowrap, MulDiv.MulU32NowrapAgreement |
| src/lib/intmath/muldiv.c:40-41 | the test `UINT32_MAX - divisor + 1 < number` returns UINT32_MAX whenever number + divisor - 1 would overflow, even when a multiple of divisor at or above number is still representable | number = 4294967290, divisor = 7: the result is 4294967295, which is not a multiple of 7, although 4294967292 = 7 · 613566756 is representable | the least multiple of divisor at or above number, and UINT32_MAX only when no such multiple can be expressed, as the comment above the function says | not executed | MulDiv.RoundUint32MissesRepresentableMultiple | MulDiv.RoundUpOrMax, MulDiv.RoundUint32Agrees |

=== FILE: add_c_file.dfy ===
/**
 * scripts/maint/add_c_file.py: the names a new C file and its header get
 * (the header's guard macro, the `.c`/`.h` file names, the include.am
 * that lists them) and the sort-of-parsed automake file into which the
 * new names are inserted.
 *
 * Paths are relative to the top-level tor directory and already
 * normalised (no `.` or `..` components, no repeated or trailing `/`).
 */
module AddCFile {
  import opened Wrappers
  import opened Text
  import opened PyText

  // -----------------------------------------------------------------------
  // Names

  /**
   * srcdir_file: the path relative to tor's src directory
   * (os.path.normpath(os.path.relpath(name, 'src'))) for a normalised
   * relative path.
   */
  function SrcdirFile(name: string): (rel: string)
    ensures StartsWith(name, "src/") ==> name == "src/" + rel
  {
    if name == "src" then "."
    else if StartsWith(name, "src/") then name[4..]
    else "../" + name
  }

  /** One character of a guard macro: '.' and '/' become '_', letters are upper-cased. */
  function MacroChar(c: char): char {
    if c == '.' || c == '/' then '_' else ToUpperAscii(c)
  }

  /** The characters of a path as they appear in a guard macro. */
  function MacroText(path: string): (r: string)
    ensures |r| == |path|
    ensures forall i :: 0 <= i < |path| ==> r[i] == MacroChar(path[i])
  {
    seq(|path|, i requires 0 <= i < |path| => MacroChar(path[i]))
  }

  lemma MacroTextAppend(a: string, b: string)
    ensures MacroText(a + b) == MacroText(a) + MacroText(b)
  {
    var l, r := MacroText(a + b), MacroText(a) + MacroText(b);
    forall k | 0 <= k < |l|
      ensures l[k] == r[k]
    {
      if k < |a| {
        assert (a + b)[k] == a[k];
      } else {
        assert (a + b)[k] == b[k - |a|];
      }
    }
  }

  /** guard_macro: "TOR_" and the src-relative path with '.' and '/' turned into '_', upper-cased. */
  function GuardMacro(name: string): string {
    "TOR_" + MacroText(SrcdirFile(name))
  }

  /** A guard macro holds no '.', no '/' and no lower-case ASCII letter. */
  lemma GuardMacroShape(name: string)
    ensures StartsWith(GuardMacro(name), "TOR_")
    ensures '.' !in GuardMacro(name) && '/' !in GuardMacro(name)
    ensures forall i :: 0 <= i < |GuardMacro(name)| ==> !('a' <= GuardMacro(name)[i] <= 'z')
  {
    var body := MacroText(SrcdirFile(name));
    var macro := GuardMacro(name);
    assert macro == "TOR_" + body;
    forall i | 0 <= i < |macro|
      ensures macro[i] != '.' && macro[i] != '/' && !('a' <= macro[i] <= 'z')
    {
      if i < 4 {
        assert macro[i] == "TOR_"[i];
      } else {
        assert macro[i] == body[i - 4];
      }
    }
  }

  /** The guard macro of the header in the script's own usage example. */
  lemma GuardMacroExample()
    ensures GuardMacro("src/feature/dirauth/ocelot.h") == "TOR_FEATURE_DIRAUTH_OCELOT_H"
  {
    var path := "feature/" + ("dirauth/" + "ocelot.h");
    ExampleSpelling();
    SrcdirOfSrc(path);
    MacroTextAppend("feature/", "dirauth/" + "ocelot.h");
    MacroTextAppend("dirauth/", "ocelot.h");
    MacroWords();
  }

  /** The example's path and macro, spelt out word by word. */
  lemma ExampleSpelling()
    ensures "src/feature/dirauth/ocelot.h" == "src/" + ("feature/" + ("dirauth/" + "ocelot.h"))
    ensures "TOR_FEATURE_DIRAUTH_OCELOT_H" == "TOR_" + ("FEATURE_" + ("DIRAUTH_" + "OCELOT_H"))
  {
  }

  /** A path below src is taken relative to src by dropping "src/". */
  lemma SrcdirOfSrc(rel: string)
    ensures SrcdirFile("src/" + rel) == rel
  {
    assert ("src/" + rel)[..4] == "src/";
  }

  lemma MacroWords()
    ensures MacroText("feature/") == "FEATURE_"
    ensures MacroText("dirauth/") == "DIRAUTH_"
    ensures MacroText("ocelot.h") == "OCELOT_H"
  {
    assert MacroText("feature/") == "FEATURE_";
    assert MacroText("dirauth/") == "DIRAUTH_";
  }

  /** Characters a C identifier may contain. */
  predicate IsIdentifierChar(c: char) {
    IsCAlnum(c) || c == '_'
  }

  /** A path made of letters, digits, '_', '.' and '/' gives a macro that is a C identifier of capitals, digits and '_'. */
  lemma {:induction false} GuardMacroIdentifier(name: string)
    requires forall i :: 0 <= i < |SrcdirFile(name)| ==>
      IsIdentifierChar(SrcdirFile(name)[i]) || SrcdirFile(name)[i] in "./"
    ensures forall i :: 0 <= i < |GuardMacro(name)| ==>
      IsIdentifierChar(GuardMacro(name)[i]) && !('a' <= GuardMacro(name)[i] <= 'z')
  {
    var body := MacroText(SrcdirFile(name));
    var macro := GuardMacro(name);
    assert macro == "TOR_" + body;
    GuardMacroShape(name);
    forall i | 0 <= i < |macro|
      ensures IsIdentifierChar(macro[i])
    {
      if i < 4 {
        assert macro[i] == "TOR_"[i];
      } else {
        assert macro[i] == body[i - 4];
      }
    }
  }

  /** Different headers can share a guard macro: '.' and '/' both become '_'. */
  lemma GuardMacroCollision()
    ensures GuardMacro("src/lib/a_b.h") == GuardMacro("src/lib/a/b.h")
  {
  }

  /** makeext: the name with its extension (as posixpath.splitext finds it) replaced. */
  function MakeExt(name: string, ext: string): (r: string)
    ensures EndsWith(r, "." + ext)
    ensures StartsWith(r, SplitExtRoot(name))
  {
    var root := SplitExtRoot(name);
    assert (root + "." + ext)[..|root|] == root;
    assert (root + "." + ext)[|root| + 1..] == ext;
    root + "." + ext
  }

  /** The last c of a + b is in b when b holds one, and is the last c of a otherwise. */
  lemma {:induction false} RFindConcat(a: string, b: string, c: char)
    ensures c in b ==> RFind(a + b, c) == |a| + RFind(b, c)
    ensures c !in b ==> RFind(a + b, c) == RFind(a, c)
    decreases |b|
  {
    if b == [] {
      assert a + b == a;
    } else {
      var b' := b[..|b| - 1];
      assert (a + b)[..|a + b| - 1] == a + b';
      if b[|b| - 1] != c {
        RFindConcat(a, b', c);
        assert c in b ==> c in b' by {
          if c in b {
            var k :| 0 <= k < |b| && b[k] == c;
            assert b'[k] == c;
          }
        }
        assert c !in b ==> c !in b' by {
          if c in b' {
            var k :| 0 <= k < |b'| && b'[k] == c;
            assert b[k] == c;
          }
        }
      }
    }
  }

  /** The last c of a prefix of p that reaches past the last c of p is the last c of p. */
  lemma RFindPrefix(p: string, i: nat, c: char)
    requires RFind(p, c) < i <= |p|
    ensures RFind(p[..i], c) == RFind(p, c)
  {
    assert p == p[..i] + p[i..];
    RFindConcat(p[..i], p[i..], c);
  }

  /** A name whose last component has a character other than a dot keeps it in the root. */
  lemma {:induction false} RootKeepsNonDot(name: string)
    requires HasNonDot(BaseName(name))
    ensures HasNonDot(BaseName(SplitExtRoot(name)))
  {
    var sep := RFind(name, '/');
    var dot := RFind(name, '.');
    var root := SplitExtRoot(name);
    if root != name {
      RFindPrefix(name, dot, '/');
      assert root == name[..dot];
      assert BaseName(root) == root[sep + 1..];
      assert root[sep + 1..] == name[sep + 1..dot];
    }
  }

  /** The last '.' and the last '/' of `"." + ext`, for ext without either. */
  lemma DotExt(ext: string)
    requires '.' !in ext && '/' !in ext
    ensures RFind("." + ext, '.') == 0
    ensures '/' !in "." + ext
  {
    assert "." + ext == ['.'] + ext;
    RFindConcat(".", ext, '.');
    assert RFind(".", '.') == 0;
  }

  /** The root of `root + "." + ext` is root again, when ext has no '.' or '/' and root's last component has a non-dot character. */
  lemma {:induction false} SplitExtRootOfMade(root: string, ext: string)
    requires '.' !in ext && '/' !in ext
    requires HasNonDot(BaseName(root))
    ensures SplitExtRoot(root + "." + ext) == root
  {
    var m := root + ("." + ext);
    assert m == root + "." + ext;
    DotExt(ext);
    assert ("." + ext)[0] == '.';
    RFindConcat(root, "." + ext, '.');
    RFindConcat(root, "." + ext, '/');
    var sep := RFind(root, '/');
    assert RFind(m, '.') == |root|;
    assert RFind(m, '/') == sep;
    assert m[sep + 1..|root|] == root[sep + 1..];
    assert m[..|root|] == root;
  }

  /** makeext replaces only the final extension: doing it twice is doing it once with the second extension. */
  lemma {:induction false} MakeExtTwice(name: string, ext1: string, ext2: string)
    requires HasNonDot(BaseName(name))
    requires '.' !in ext1 && '/' !in ext1
    ensures MakeExt(MakeExt(name, ext1), ext2) == MakeExt(name, ext2)
  {
    RootKeepsNonDot(name);
    SplitExtRootOfMade(SplitExtRoot(name), ext1);
  }

  /** Without a character other than a dot in the last component there is no extension to replace, and makeext only appends. */
  lemma MakeExtTwiceEmptyName()
    ensures MakeExt(MakeExt("", "c"), "h") == ".c.h"
    ensures MakeExt("", "h") == ".h"
  {
    assert SplitExtRoot("") == "";
    assert MakeExt("", "c") == ".c";
    DotExt("c");
    assert RFind(".c", '/') == -1;
    assert !HasNonDot(".c"[0..0]);
    assert SplitExtRoot(".c") == ".c";
  }

  /** In a file name `dir + stem + "." + ext` whose stem has no '.', the extension is ext. */
  lemma {:induction false} MakeExtOfFileName(dir: string, stem: string, ext: string, ext2: string)
    requires dir == [] || dir[|dir| - 1] == '/'
    requires stem != [] && '.' !in stem && '/' !in stem
    requires '.' !in ext && '/' !in ext
    ensures MakeExt(dir + stem + "." + ext, ext2) == dir + stem + "." + ext2
  {
    RFindConcat(dir, stem, '/');
    assert RFind(dir, '/') == |dir| - 1;
    assert BaseName(dir + stem) == stem by {
      assert (dir + stem)[|dir|..] == stem;
    }
    assert stem[0] != '.';
    SplitExtRootOfMade(dir + stem, ext);
  }

  // -----------------------------------------------------------------------
  // get_include_am_location

  /** The characters of `[a-z0-9_]`. */
  predicate IsLibNameChar(c: char) {
    'a' <= c <= 'z' || '0' <= c <= '9' || c == '_'
  }

  /** The length of the longest prefix of s made of library-name characters. */
  function LibNameLength(s: string): (n: nat)
    ensures n <= |s|
    ensures forall i :: 0 <= i < n ==> IsLibNameChar(s[i])
    ensures n == |s| || !IsLibNameChar(s[n])
  {
    if s != [] && IsLibNameChar(s[0]) then 1 + LibNameLength(s[1..]) else 0
  }

  const LIB_DIR := "lib/"
  const CORE_DIR := "core/"
  const FEATURE_DIR := "feature/"
  const APP_DIR := "app/"
  const TEST_DIR := "test/"
  const CORE_INCLUDE_AM := "src/core/include.am"
  const TEST_INCLUDE_AM := "src/test/include.am"

  /** The group of `^lib/([a-z0-9_]*)/` in td, if the pattern matches. */
  function LibDirectory(td: string): (lib: Option<string>)
    ensures lib.Some? ==> StartsWith(td, LIB_DIR + lib.value + "/")
    ensures lib.Some? ==> forall i :: 0 <= i < |lib.value| ==> IsLibNameChar(lib.value[i])
  {
    if StartsWith(td, LIB_DIR) then
      var n := LibNameLength(td[4..]);
      if 4 + n < |td| && td[4 + n] == '/' then
        assert td[..4 + n + 1] == LIB_DIR + td[4..4 + n] + "/";
        Some(td[4..4 + n])
      else None
    else None
  }

  /** The decision of get_include_am_location on a path relative to src. */
  function IncludeAmOfSrcPath(td: string): Option<string>
  {
    match LibDirectory(td)
    case Some(lib) => Some("src/lib/" + lib + "/include.am")
    case None =>
      if StartsWith(td, CORE_DIR) || StartsWith(td, FEATURE_DIR) || StartsWith(td, APP_DIR) then Some(CORE_INCLUDE_AM)
      else if StartsWith(td, TEST_DIR) then Some(TEST_INCLUDE_AM)
      else None
  }

  /** get_include_am_location: the include.am that should list a new file, if one can be guessed. */
  function GetIncludeAmLocation(fname: string): Option<string>
  {
    IncludeAmOfSrcPath(SrcdirFile(fname))
  }

  /** Paths that leave src (they start with "..") match none of the patterns. */
  lemma NothingAboveSrc(fname: string)
    requires !StartsWith(fname, "src/")
    ensures IncludeAmOfSrcPath(SrcdirFile(fname)) == None
  {
    var td := SrcdirFile(fname);
    assert td[0] == '.';
    assert !StartsWith(td, LIB_DIR) && !StartsWith(td, CORE_DIR) && !StartsWith(td, FEATURE_DIR);
    assert !StartsWith(td, APP_DIR) && !StartsWith(td, TEST_DIR);
  }

  /** The longest run of library-name characters of `lib + "/" + rest` is lib. */
  lemma {:induction false} LibNameOfRun(lib: string, rest: string)
    requires forall i :: 0 <= i < |lib| ==> IsLibNameChar(lib[i])
    ensures LibNameLength(lib + "/" + rest) == |lib|
    decreases |lib|
  {
    if lib != [] {
      assert (lib + "/" + rest)[1..] == lib[1..] + "/" + rest;
      LibNameOfRun(lib[1..], rest);
    }
  }

  /** A file in a library directory goes to that library's include.am. */
  lemma {:induction false} IncludeAmOfLibrary(lib: string, rest: string)
    requires forall i :: 0 <= i < |lib| ==> IsLibNameChar(lib[i])
    ensures GetIncludeAmLocation("src/lib/" + lib + "/" + rest) == Some("src/lib/" + lib + "/include.am")
  {
    var name := "src/lib/" + lib + "/" + rest;
    var td := LIB_DIR + (lib + "/" + rest);
    assert name == "src/" + td;
    assert StartsWith(name, "src/");
    assert SrcdirFile(name) == td;
    assert td[..4] == LIB_DIR;
    assert td[4..] == lib + "/" + rest;
    LibNameOfRun(lib, rest);
    assert td[4 + |lib|] == '/';
    assert td[4..4 + |lib|] == lib;
    assert LibDirectory(td) == Some(lib);
  }

  /** Files under core/, feature/ and app/ go to src/core/include.am. */
  lemma IncludeAmOfCoreTree(top: string, rest: string)
    requires top in {CORE_DIR, FEATURE_DIR, APP_DIR}
    ensures GetIncludeAmLocation("src/" + top + rest) == Some(CORE_INCLUDE_AM)
  {
    var name := "src/" + top + rest;
    var td := top + rest;
    assert name == "src/" + td;
    assert SrcdirFile(name) == td;
    assert td[..|top|] == top;
    assert td[0] != 'l';
  }

  /** Files under test/ go to src/test/include.am. */
  lemma IncludeAmOfTestTree(rest: string)
    ensures GetIncludeAmLocation("src/" + TEST_DIR + rest) == Some(TEST_INCLUDE_AM)
  {
    var name := "src/" + TEST_DIR + rest;
    var td := TEST_DIR + rest;
    assert name == "src/" + td;
    assert SrcdirFile(name) == td;
    assert td[..5] == TEST_DIR;
    assert td[0] != 'l' && td[0] != 'c' && td[0] != 'f' && td[0] != 'a';
  }

  /** Files directly in src, and files outside it, get no include.am. */
  lemma IncludeAmOutsideTrees(name: string)
    requires !StartsWith(name, "src/") || '/' !in name[4..]
    ensures GetIncludeAmLocation(name) == None
  {
    if !StartsWith(name, "src/") {
      NothingAboveSrc(name);
    } else {
      var td := name[4..];
      SlashOfPrefix(td, LIB_DIR);
      SlashOfPrefix(td, CORE_DIR);
      SlashOfPrefix(td, FEATURE_DIR);
      SlashOfPrefix(td, APP_DIR);
      SlashOfPrefix(td, TEST_DIR);
    }
  }

  /** A string that starts with a prefix ending in '/' holds a '/'. */
  lemma SlashOfPrefix(s: string, prefix: string)
    ensures StartsWith(s, prefix) && prefix != [] && prefix[|prefix| - 1] == '/' ==> '/' in s
  {
    if StartsWith(s, prefix) && prefix != [] && prefix[|prefix| - 1] == '/' {
      assert s[|prefix| - 1] == '/';
    }
  }

  /** A prefix that ends in '/' is a prefix of d + b, for b without '/', exactly when it is one of d, provided d is empty or ends in '/'. */
  lemma PrefixThroughSlash(d: string, b: string, prefix: string)
    requires '/' !in b
    requires prefix != [] && prefix[|prefix| - 1] == '/'
    requires d == [] || d[|d| - 1] == '/'
    ensures StartsWith(d + b, prefix) <==> StartsWith(d, prefix)
  {
    if StartsWith(d, prefix) {
      assert (d + b)[..|prefix|] == d[..|prefix|];
    }
  }

  /** When u holds a '/', the run of library-name characters of u + b and what follows it lie in u. */
  lemma {:induction false} LibRunInDirectory(u: string, b: string)
    requires '/' in u
    ensures LibNameLength(u + b) == LibNameLength(u) < |u|
    decreases |u|
  {
    if u[0] != '/' && IsLibNameChar(u[0]) {
      assert (u + b)[1..] == u[1..] + b;
      assert '/' in u[1..] by {
        var k :| 0 <= k < |u| && u[k] == '/';
        assert u[1..][k - 1] == '/';
      }
      LibRunInDirectory(u[1..], b);
    }
  }

  /** When u has no '/', u + b (b without '/') has no '/' after its run of library-name characters. */
  lemma {:induction false} LibRunPastDirectory(u: string, b: string)
    requires '/' !in u && '/' !in b
    ensures LibNameLength(u + b) == |u + b| || (u + b)[LibNameLength(u + b)] != '/'
  {
  }

  /** The library-directory match depends on the directory only. */
  lemma {:induction false} LibDirectoryByDirectory(t: string, b1: string, b2: string)
    requires '/' !in b1 && '/' !in b2
    requires t == [] || t[|t| - 1] == '/'
    ensures LibDirectory(t + b1) == LibDirectory(t + b2)
  {
    PrefixThroughSlash(t, b1, LIB_DIR);
    PrefixThroughSlash(t, b2, LIB_DIR);
    if StartsWith(t, LIB_DIR) {
      var u := t[4..];
      assert (t + b1)[4..] == u + b1;
      assert (t + b2)[4..] == u + b2;
      if '/' in u {
        LibRunInDirectory(u, b1);
        LibRunInDirectory(u, b2);
        var n := LibNameLength(u);
        assert (t + b1)[4 + n] == u[n] == (t + b2)[4 + n];
        assert (t + b1)[4..4 + n] == u[..n] == (t + b2)[4..4 + n];
      } else {
        LibRunPastDirectory(u, b1);
        LibRunPastDirectory(u, b2);
      }
    }
  }

  /** Below src, where a file goes depends on its directory only. */
  lemma {:induction false} SrcPathByDirectory(t: string, b1: string, b2: string)
    requires '/' !in b1 && '/' !in b2
    requires t == [] || t[|t| - 1] == '/'
    ensures IncludeAmOfSrcPath(t + b1) == IncludeAmOfSrcPath(t + b2)
  {
    LibDirectoryByDirectory(t, b1, b2);
    PrefixThroughSlash(t, b1, CORE_DIR);
    PrefixThroughSlash(t, b2, CORE_DIR);
    PrefixThroughSlash(t, b1, FEATURE_DIR);
    PrefixThroughSlash(t, b2, FEATURE_DIR);
    PrefixThroughSlash(t, b1, APP_DIR);
    PrefixThroughSlash(t, b2, APP_DIR);
    PrefixThroughSlash(t, b1, TEST_DIR);
    PrefixThroughSlash(t, b2, TEST_DIR);
  }

  /** Where a file goes depends on its directory only. */
  lemma {:induction false} IncludeAmByDirectory(d: string, b1: string, b2: string)
    requires '/' !in b1 && '/' !in b2
    requires d == [] || d[|d| - 1] == '/'
    ensures GetIncludeAmLocation(d + b1) == GetIncludeAmLocation(d + b2)
  {
    PrefixThroughSlash(d, b1, "src/");
    PrefixThroughSlash(d, b2, "src/");
    if StartsWith(d, "src/") {
      var t := d[4..];
      assert SrcdirFile(d + b1) == t + b1;
      assert SrcdirFile(d + b2) == t + b2;
      SrcPathByDirectory(t, b1, b2);
    } else {
      NothingAboveSrc(d + b1);
      NothingAboveSrc(d + b2);
    }
  }

  /** A C file and its header (same root, extensions without '/') are listed in the same include.am. */
  lemma {:induction false} SourceAndHeaderShareIncludeAm(name: string, ext1: string, ext2: string)
    requires '/' !in ext1 && '/' !in ext2
    ensures GetIncludeAmLocation(MakeExt(name, ext1)) == GetIncludeAmLocation(MakeExt(name, ext2))
  {
    var root := SplitExtRoot(name);
    var d, base := DirectoryPart(root);
    var b1 := ExtendedBase(d, base, ext1);
    var b2 := ExtendedBase(d, base, ext2);
    IncludeAmByDirectory(d, b1, b2);
  }

  /** A path is its directory (empty or ending in '/') followed by a last component without '/'. */
  lemma DirectoryPart(p: string) returns (d: string, base: string)
    ensures p == d + base && '/' !in base
    ensures d == [] || d[|d| - 1] == '/'
  {
    var i := RFind(p, '/') + 1;
    d, base := p[..i], p[i..];
    assert p == d + base;
    assert forall k :: 0 <= k < |base| ==> base[k] == p[i + k];
  }

  /** Giving d + base an extension without '/' keeps the directory d. */
  lemma ExtendedBase(d: string, base: string, ext: string) returns (b: string)
    requires '/' !in base && '/' !in ext
    ensures b == base + "." + ext && '/' !in b
    ensures (d + base) + "." + ext == d + b
  {
    b := base + "." + ext;
    assert forall k :: 0 <= k < |b| ==> b[k] in base || b[k] == '.' || b[k] in ext;
  }
}

=== FILE: addsub.dfy ===
/**
 * Saturating addition of fixed-width unsigned integers (src/lib/intmath/addsub.c):
 * the sum, capped at the type's maximum instead of wrapping around.
 */
module AddSub {
  import opened MachineInts

  /** The overflow test `a > MAX - b` never overflows and holds exactly when a + b does not fit. */
  function AddNowrap(a: nat, b: nat, max: nat): (r: nat)
    requires a <= max && b <= max
    ensures r == if a + b <= max then a + b else max
  {
    if a > max - b then max else a + b
  }

  /** tor_add_u32_nowrap */
  function AddU32Nowrap(a: uint32, b: uint32): (r: uint32)
    ensures r == if a + b <= U32_MAX then a + b else U32_MAX
  {
    AddNowrap(a, b, U32_MAX)
  }

  /** tor_add_u64_nowrap */
  function AddU64Nowrap(a: uint64, b: uint64): (r: uint64)
    ensures r == if a + b <= U64_MAX then a + b else U64_MAX
  {
    AddNowrap(a, b, U64_MAX)
  }

  /** Saturating addition never loses either operand, is symmetric and has zero as identity. */
  lemma AddNowrapProperties(a: nat, b: nat, max: nat)
    requires a <= max && b <= max
    ensures a <= AddNowrap(a, b, max) && b <= AddNowrap(a, b, max) <= max
    ensures AddNowrap(a, b, max) == AddNowrap(b, a, max)
    ensures AddNowrap(a, 0, max) == a
  {
  }
}

=== FILE: arithmetic.dfy ===
/** Small facts about integer multiplication, division and remainder, each proved in isolation. */
module Arithmetic {
  /** Euclidean division: the quotient and remainder recompose the dividend. */
  lemma DivMod(m: int, d: int)
    requires d > 0
    ensures m == d * (m / d) + m % d && 0 <= m % d < d
  {
  }

  /** A multiple of d strictly between -d and d is zero. */
  lemma MulSmall(d: int, k: int)
    requires d > 0
    ensures -d < d * k < d ==> k == 0
  {
    if k >= 1 {
      MulMonoInt(d, 1, k);
    } else if k <= -1 {
      MulMonoInt(d, k, -1);
    }
  }

  lemma MulMonoInt(d: int, a: int, b: int)
    requires d >= 0 && a <= b
    ensures d * a <= d * b
  {
    assert d * b - d * a == d * (b - a);
  }

  /** Multiplying by a positive number keeps a strict order. */
  lemma MulLess(d: int, k: int, j: int)
    requires d > 0
    ensures d * k < d * j ==> k < j
  {
    if k >= j {
      MulMonoInt(d, j, k);
    }
  }

  /** Euclidean division has one quotient and one remainder. */
  lemma ModUnique(d: int, m: int, q: int, r: int)
    requires d > 0 && m == d * q + r && 0 <= r < d
    ensures m % d == r && m / d == q
  {
    DivMod(m, d);
    var q0, r0 := m / d, m % d;
    assert d * (q - q0) == d * q - d * q0;
    MulSmall(d, q - q0);
  }

  /** A multiple of d leaves no remainder. */
  lemma MultipleMod(d: int, k: int)
    requires d > 0
    ensures (d * k) % d == 0 && (d * k) / d == k
  {
    ModUnique(d, d * k, k, 0);
  }

  /** Products of non-negative numbers are monotonic in both factors. */
  lemma MulMono(p: nat, q: nat, a: nat, b: nat)
    requires p <= a && q <= b
    ensures p * q <= a * b
  {
    MulMonoInt(q, p, a);
    MulMonoInt(a, q, b);
    assert p * q == q * p && a * q == q * a;
  }

  /** A number that divides n evenly recomposes it. */
  lemma ExactDiv(n: int, d: int)
    requires d > 0 && n % d == 0
    ensures n == d * (n / d)
  {
    DivMod(n, d);
  }
}

=== FILE: automake.dfy ===
/**
 * The automake side of scripts/maint/add_c_file.py: an include.am file read
 * as chunks of lines separated by blank lines, where a chunk that opens with
 * an `# ADD_C_FILE: INSERT <kind> HERE` comment lists file names into which
 * a new file is inserted in alphabetical order.
 *
 * Reading a file line by line and writing it back become a sequence of
 * lines in and a string out.
 */
module Automake {
  import opened Wrappers
  import opened Text
  import opened PyText

  // -----------------------------------------------------------------------
  // The two regular expressions, as explicit matchers

  /** The end of the run of non-white-space characters that starts at i (`\S*` from i). */
  function SkipNonSpace(s: string, i: nat): (j: nat)
    requires i <= |s|
    ensures i <= j <= |s|
    ensures forall k :: i <= k < j ==> !IsPySpace(s[k])
    ensures j == |s| || IsPySpace(s[j])
    decreases |s| - i
  {
    if i == |s| || IsPySpace(s[i]) then i else SkipNonSpace(s, i + 1)
  }

  /** The end of the run of white space that starts at i (`\s*` from i). */
  function SkipSpace(s: string, i: nat): (j: nat)
    requires i <= |s|
    ensures i <= j <= |s|
    ensures forall k :: i <= k < j ==> IsPySpace(s[k])
    ensures j == |s| || !IsPySpace(s[j])
    decreases |s| - i
  {
    if i == |s| || !IsPySpace(s[i]) then i else SkipSpace(s, i + 1)
  }

  /** A non-empty run of non-white-space characters (what `\S+` matches). */
  predicate IsToken(s: string) {
    s != [] && forall i :: 0 <= i < |s| ==> !IsPySpace(s[i])
  }

  /** A non-empty run of white space (what `\s+` matches). */
  predicate IsSpacing(s: string) {
    s != [] && IsBlank(s)
  }

  lemma {:induction false} SkipNonSpaceTo(s: string, i: nat, j: nat)
    requires i <= j <= |s|
    requires forall k :: i <= k < j ==> !IsPySpace(s[k])
    requires j == |s| || IsPySpace(s[j])
    ensures SkipNonSpace(s, i) == j
    decreases j - i
  {
    if i < j {
      SkipNonSpaceTo(s, i + 1, j);
    }
  }

  lemma {:induction false} SkipSpaceTo(s: string, i: nat, j: nat)
    requires i <= j <= |s|
    requires forall k :: i <= k < j ==> IsPySpace(s[k])
    requires j == |s| || !IsPySpace(s[j])
    ensures SkipSpace(s, i) == j
    decreases j - i
  {
    if i < j {
      SkipSpaceTo(s, i + 1, j);
    }
  }

  const CONTROL_START := "# ADD_C_FILE: INSERT "
  const CONTROL_END := " HERE"

  /**
   * The kind a control line names: group 1 of
   * `re.match(r'# ADD_C_FILE: INSERT (\S*) HERE', line, re.I)`.
   * Since `\S*` cannot take the space that follows it, the group is the
   * whole run of non-white-space characters after the prefix.
   */
  function ControlKind(line: string): (kind: Option<string>)
    ensures kind.Some? ==>
      var k := kind.value;
      var n := |CONTROL_START| + |k|;
      n + |CONTROL_END| <= |line|
      && EqualsIgnoringCase(line[..|CONTROL_START|], CONTROL_START)
      && line[|CONTROL_START|..n] == k
      && (forall i :: 0 <= i < |k| ==> !IsPySpace(k[i]))
      && EqualsIgnoringCase(line[n..n + |CONTROL_END|], CONTROL_END)
  {
    var p := |CONTROL_START|;
    if p <= |line| && EqualsIgnoringCase(line[..p], CONTROL_START) then
      var n := SkipNonSpace(line, p);
      if n + |CONTROL_END| <= |line| && EqualsIgnoringCase(line[n..n + |CONTROL_END|], CONTROL_END) then
        Some(line[p..n])
      else None
    else None
  }

  /** Every control line written with a kind free of white space names that kind. */
  lemma ControlKindOfLine(start: string, kind: string, end: string, tail: string)
    requires EqualsIgnoringCase(start, CONTROL_START) && EqualsIgnoringCase(end, CONTROL_END)
    requires forall i :: 0 <= i < |kind| ==> !IsPySpace(kind[i])
    ensures ControlKind(start + kind + end + tail) == Some(kind)
  {
    var line := start + kind + end + tail;
    var p, n := |CONTROL_START|, |CONTROL_START| + |kind|;
    assert line[..p] == start;
    assert ToLowerC(end[0]) == ToLowerC(CONTROL_END[0]);
    assert line[n] == end[0] == ' ';
    SkipNonSpaceTo(line, p, n);
    assert line[n..n + |CONTROL_END|] == end;
    assert line[p..n] == kind;
  }

  /** A control line is never blank: it starts with '#'. */
  lemma ControlLineNotBlank(line: string)
    requires ControlKind(line).Some?
    ensures !IsBlank(line)
  {
    assert ToLowerC(line[0]) == ToLowerC(CONTROL_START[0]);
  }

  /**
   * `re.match(r'(\s+)(\S+)(\s+)\\', line)`: the leading white space, the
   * file name and the white space before a continuation backslash. Each
   * group can only be the whole run it starts.
   */
  function ContinuationMatch(line: string): Option<(string, string, string)> {
    var a := SkipSpace(line, 0);
    var b := SkipNonSpace(line, a);
    var c := SkipSpace(line, b);
    if 0 < a < b < c < |line| && line[c] == '\\' then Some((line[..a], line[a..b], line[b..c]))
    else None
  }

  /** A match is white space, a name and white space, followed by a backslash. */
  lemma ContinuationMatchShape(line: string)
    ensures var m := ContinuationMatch(line);
      m.Some? ==>
        IsSpacing(m.value.0) && IsToken(m.value.1) && IsSpacing(m.value.2)
        && StartsWith(line, m.value.0 + m.value.1 + m.value.2 + "\\")
  {
    var a := SkipSpace(line, 0);
    var b := SkipNonSpace(line, a);
    var c := SkipSpace(line, b);
    if ContinuationMatch(line).Some? {
      assert line[..c + 1] == line[..a] + line[a..b] + line[b..c] + "\\";
    }
  }

  /** A line built from spacing, a name, spacing and a backslash is a continuation line carrying that name. */
  lemma ContinuationOfLine(pre: string, name: string, post: string, tail: string)
    requires IsSpacing(pre) && IsToken(name) && IsSpacing(post)
    ensures ContinuationMatch(pre + name + post + "\\" + tail) == Some((pre, name, post))
  {
    var line := pre + name + post + "\\" + tail;
    var a, b, c := |pre|, |pre| + |name|, |pre| + |name| + |post|;
    assert line[..a] == pre && line[a..b] == name && line[b..c] == post && line[c] == '\\';
    SkipSpaceTo(line, 0, a);
    SkipNonSpaceTo(line, a, b);
    SkipSpaceTo(line, b, c);
  }

  // -----------------------------------------------------------------------
  // Chunks as values

  /** An AutomakeChunk's state: its stored lines, its kind and whether it ended on a blank line. */
  datatype Chunk = Chunk(lines: seq<string>, kind: string, hasBlank: bool)

  const EMPTY_CHUNK := Chunk([], "", false)

  /** The exceptions the script lets escape. */
  datatype PyError = ValueError(msg: string) | IndexError

  const NOT_PRECEDED := "control line not preceded by a blank line"

  /**
   * addLine on a chunk value: the new chunk and whether the chunk has ended.
   * A line is blank (`line.strip() == ""`) exactly when it is all white
   * space (PyText.StripEmpty).
   */
  function AddLineTo(c: Chunk, line: string): Result<(Chunk, bool), PyError> {
    var control := ControlKind(line);
    if control.Some? && c.lines != [] then Err(ValueError(NOT_PRECEDED))
    else
      var kind := if control.Some? then control.value else c.kind;
      if IsBlank(line) then Ok((Chunk(c.lines, kind, true), true))
      else Ok((Chunk(c.lines + [line], kind, c.hasBlank), false))
  }

  /**
   * The three cases of addLine: a control line sets the kind and may not
   * follow stored lines; a blank line ends the chunk without being stored;
   * any other line is stored.
   */
  lemma AddLineCases(c: Chunk, line: string)
    ensures AddLineTo(c, line).Err? <==> ControlKind(line).Some? && c.lines != []
    ensures AddLineTo(c, line).Err? ==> AddLineTo(c, line).error == ValueError(NOT_PRECEDED)
    ensures AddLineTo(c, line).Ok? ==>
      var (next, closed) := AddLineTo(c, line).value;
      next.kind == (if ControlKind(line).Some? then ControlKind(line).value else c.kind)
      && (closed <==> Strip(line) == "")
      && (closed ==> next.hasBlank && next.lines == c.lines)
      && (!closed ==> next.hasBlank == c.hasBlank && next.lines == c.lines + [line])
  {
    StripEmpty(line);
  }

  /**
   * A chunk as parsing leaves it: no stored line is blank, only the first
   * may be a control line, and the kind is the one it names ("" without one).
   */
  predicate WellFormed(c: Chunk) {
    (forall i :: 0 <= i < |c.lines| ==> !IsBlank(c.lines[i]))
    && (forall i :: 0 < i < |c.lines| ==> ControlKind(c.lines[i]).None?)
    && c.kind == (if c.lines != [] && ControlKind(c.lines[0]).Some? then ControlKind(c.lines[0]).value else "")
  }

  /** A line as dump writes it: with a newline added when it lacks one. */
  function LineText(line: string): string
  {
    if EndsWith(line, "\n") then line else line + "\n"
  }

  function LinesText(lines: seq<string>): string {
    if lines == [] then "" else LinesText(lines[..|lines| - 1]) + LineText(lines[|lines| - 1])
  }

  /** What AutomakeChunk.dump writes. */
  function ChunkText(c: Chunk): string {
    LinesText(c.lines) + (if c.hasBlank then "\n" else "")
  }

  /** What ParsedAutomake.dump writes. */
  function FileText(cs: seq<Chunk>): string {
    if cs == [] then "" else FileText(cs[..|cs| - 1]) + ChunkText(cs[|cs| - 1])
  }

  // -----------------------------------------------------------------------
  // Reading a file into chunks (the loop at the end of run)

  /** The chunks closed so far and the chunk being filled, after the given lines. */
  function ParseState(input: seq<string>): Result<(seq<Chunk>, Chunk), PyError> {
    if input == [] then Ok(([], EMPTY_CHUNK))
    else ReadLine(ParseState(input[..|input| - 1]), input[|input| - 1])
  }

  /** One turn of the reading loop: the line goes to the current chunk, which is closed when it ends. */
  function ReadLine(state: Result<(seq<Chunk>, Chunk), PyError>, line: string): Result<(seq<Chunk>, Chunk), PyError> {
    match state
    case Err(e) => Err(e)
    case Ok((done, cur)) =>
      match AddLineTo(cur, line)
      case Err(e) => Err(e)
      case Ok((next, closed)) =>
        if closed then Ok((done + [next], EMPTY_CHUNK)) else Ok((done, next))
  }

  lemma ParseStatePrefix(input: seq<string>, k: nat)
    requires k < |input|
    ensures ParseState(input[..k + 1]) == ReadLine(ParseState(input[..k]), input[k])
  {
    assert input[..k + 1][..k] == input[..k];
  }

  /** The chunks a file is read into: every closed chunk and then the last one. */
  function ParseChunks(input: seq<string>): Result<seq<Chunk>, PyError> {
    match ParseState(input)
    case Err(e) => Err(e)
    case Ok((done, cur)) => Ok(done + [cur])
  }

  /** The text of the lines with each blank line reduced to a bare newline. */
  function Normalized(input: seq<string>): string {
    if input == [] then ""
    else
      var line := input[|input| - 1];
      Normalized(input[..|input| - 1]) + (if IsBlank(line) then "\n" else LineText(line))
  }

  /** Adding a line to a well-formed chunk keeps it well formed. */
  lemma AddLineKeepsWellFormed(c: Chunk, line: string)
    requires WellFormed(c) && AddLineTo(c, line).Ok?
    ensures WellFormed(AddLineTo(c, line).value.0)
  {
    var next := AddLineTo(c, line).value.0;
    var control := ControlKind(line);
    if control.Some? {
      ControlLineNotBlank(line);
      assert next == Chunk([line], control.value, c.hasBlank);
    } else if IsBlank(line) {
      assert next == Chunk(c.lines, c.kind, true);
    } else {
      assert next == Chunk(c.lines + [line], c.kind, c.hasBlank);
      forall i | 0 <= i < |next.lines|
        ensures !IsBlank(next.lines[i]) && (0 < i ==> ControlKind(next.lines[i]).None?)
      {
        if i < |c.lines| {
          assert next.lines[i] == c.lines[i];
        }
      }
    }
  }

  /** The chunk being filled holds the non-blank lines since the last blank one; closed chunks ended on a blank line. */
  lemma {:induction false} ParseStateShape(input: seq<string>)
    requires ParseState(input).Ok?
    ensures var (done, cur) := ParseState(input).value;
      !cur.hasBlank
      && (cur.lines != [] <==> input != [] && !IsBlank(input[|input| - 1]))
      && forall i :: 0 <= i < |done| ==> done[i].hasBlank
  {
    if input != [] {
      ParseStateShape(input[..|input| - 1]);
    }
  }

  /** Every chunk read is well formed. */
  lemma {:induction false} ParseStateWellFormed(input: seq<string>)
    requires ParseState(input).Ok?
    ensures WellFormed(ParseState(input).value.1)
    ensures forall i :: 0 <= i < |ParseState(input).value.0| ==> WellFormed(ParseState(input).value.0[i])
  {
    if input != [] {
      var init := input[..|input| - 1];
      var line := input[|input| - 1];
      ParseStateWellFormed(init);
      var (done, cur) := ParseState(init).value;
      AddLineKeepsWellFormed(cur, line);
      var (next, closed) := AddLineTo(cur, line).value;
      if closed {
        assert ParseState(input).value == (done + [next], EMPTY_CHUNK);
      } else {
        assert ParseState(input).value == (done, next);
      }
    }
  }

  /** Once reading fails, reading more lines cannot repair it. */
  lemma {:induction false} ParseErrorSticks(input: seq<string>, k: nat)
    requires k <= |input| && ParseState(input[..k]).Err?
    ensures ParseState(input) == Err(ValueError(NOT_PRECEDED))
    decreases |input| - k
  {
    if k == |input| {
      assert input[..k] == input;
      ParseErrorOnlyValueError(input);
    } else {
      ParseErrorOnlyValueError(input[..k]);
      assert input[..k + 1][..k] == input[..k];
      ParseErrorSticks(input, k + 1);
    }
  }

  lemma {:induction false} ParseErrorOnlyValueError(input: seq<string>)
    ensures ParseState(input).Err? ==> ParseState(input) == Err(ValueError(NOT_PRECEDED))
  {
    if input != [] {
      ParseErrorOnlyValueError(input[..|input| - 1]);
    }
  }

  /** Reading fails exactly when a control line directly follows a non-blank line. */
  lemma {:induction false} ParseFailsIff(input: seq<string>)
    ensures ParseChunks(input).Err? <==>
      exists i :: 0 < i < |input| && ControlKind(input[i]).Some? && !IsBlank(input[i - 1])
    ensures ParseChunks(input).Err? ==> ParseChunks(input).error == ValueError(NOT_PRECEDED)
  {
    ParseErrorOnlyValueError(input);
    if input != [] {
      var init := input[..|input| - 1];
      var line := input[|input| - 1];
      ParseFailsIff(init);
      assert forall i :: 0 <= i < |init| ==> init[i] == input[i];
      if ParseState(init).Ok? {
        ParseStateShape(init);
        if ParseState(input).Err? {
          assert ControlKind(input[|input| - 1]).Some? && !IsBlank(input[|input| - 2]);
        }
      }
    }
  }

  /** Reading a file and dumping it gives back every non-blank line, newline-terminated, and each blank line as an empty one. */
  lemma {:induction false} ParseDumpRoundTrip(input: seq<string>)
    requires ParseChunks(input).Ok?
    ensures FileText(ParseChunks(input).value) == Normalized(input)
  {
    ParseStateText(input);
  }

  lemma {:induction false} ParseStateText(input: seq<string>)
    requires ParseState(input).Ok?
    ensures FileText(ParseState(input).value.0) + ChunkText(ParseState(input).value.1) == Normalized(input)
    ensures !ParseState(input).value.1.hasBlank
  {
    if input != [] {
      var init, line := input[..|input| - 1], input[|input| - 1];
      ParseStateText(init);
      var (done, cur) := ParseState(init).value;
      ReadLineText(done, cur, line);
      assert ParseState(input) == ReadLine(Ok((done, cur)), line);
      var piece := if IsBlank(line) then "\n" else LineText(line);
      assert Normalized(input) == Normalized(init) + piece;
      AppendAssoc(FileText(done), ChunkText(cur), piece);
    }
  }

  /** One line read into the current chunk adds its normalized text to what the chunks write. */
  lemma ReadLineText(done: seq<Chunk>, cur: Chunk, line: string)
    requires !cur.hasBlank && ReadLine(Ok((done, cur)), line).Ok?
    ensures var (done', cur') := ReadLine(Ok((done, cur)), line).value;
      FileText(done') + ChunkText(cur') == FileText(done) + (ChunkText(cur) + (if IsBlank(line) then "\n" else LineText(line)))
      && !cur'.hasBlank
  {
    AddLineCases(cur, line);
    StripEmpty(line);
    var (next, closed) := AddLineTo(cur, line).value;
    var before := LinesText(cur.lines);
    assert ChunkText(cur) == before;
    if closed {
      assert ReadLine(Ok((done, cur)), line).value == (done + [next], EMPTY_CHUNK);
      assert FileText(done + [next]) == FileText(done) + ChunkText(next) by {
        assert (done + [next])[..|done|] == done;
      }
      assert ChunkText(next) == before + "\n";
      assert ChunkText(EMPTY_CHUNK) == "";
    } else {
      assert ReadLine(Ok((done, cur)), line).value == (done, next);
      assert LinesText(next.lines) == before + LineText(line) by {
        assert next.lines[..|cur.lines|] == cur.lines;
      }
      AppendAssoc(FileText(done), before, LineText(line));
    }
  }

  lemma AppendAssoc(a: string, b: string, c: string)
    ensures (a + b) + c == a + (b + c)
  {
  }

  /** A file whose lines all end in a newline and whose blank lines are bare newlines is written back unchanged. */
  lemma {:induction false} ParseDumpIdentity(input: seq<string>)
    requires ParseChunks(input).Ok?
    requires forall i :: 0 <= i < |input| ==> EndsWith(input[i], "\n")
    requires forall i :: 0 <= i < |input| && IsBlank(input[i]) ==> input[i] == "\n"
    ensures FileText(ParseChunks(input).value) == Concat(input)
  {
    ParseDumpRoundTrip(input);
    NormalizedOfTerminated(input);
  }

  function Concat(lines: seq<string>): string {
    if lines == [] then "" else Concat(lines[..|lines| - 1]) + lines[|lines| - 1]
  }

  lemma {:induction false} NormalizedOfTerminated(input: seq<string>)
    requires forall i :: 0 <= i < |input| ==> EndsWith(input[i], "\n")
    requires forall i :: 0 <= i < |input| && IsBlank(input[i]) ==> input[i] == "\n"
    ensures Normalized(input) == Concat(input)
  {
    if input != [] {
      NormalizedOfTerminated(input[..|input| - 1]);
    }
  }

  // -----------------------------------------------------------------------
  // insertMember on the list of lines

  const DEFAULT_PRESPACE := "\t"
  const DEFAULT_POSTSPACE := "\t\t"

  /** The position of the first continuation line whose file name sorts after member. */
  function FirstGreater(lines: seq<string>, member: string): (i: Option<nat>)
    ensures i.Some? ==> (i.value < |lines| && ContinuationMatch(lines[i.value]).Some?
      && StringLess(member, ContinuationMatch(lines[i.value]).value.1))
    ensures forall j :: 0 <= j < |lines| && (i.None? || j < i.value) && ContinuationMatch(lines[j]).Some? ==>
      !StringLess(member, ContinuationMatch(lines[j]).value.1)
  {
    if lines == [] then None
    else
      var n := |lines| - 1;
      match FirstGreater(lines[..n], member)
      case Some(i) => Some(i)
      case None =>
        var m := ContinuationMatch(lines[n]);
        if m.Some? && StringLess(member, m.value.1) then Some(n) else None
  }

  /** The white space around the name of the last continuation line, or the defaults when there is none. */
  function LastSpaces(lines: seq<string>): (string, string) {
    if lines == [] then (DEFAULT_PRESPACE, DEFAULT_POSTSPACE)
    else
      var m := ContinuationMatch(lines[|lines| - 1]);
      if m.Some? then (m.value.0, m.value.2) else LastSpaces(lines[..|lines| - 1])
  }

  /** The lines after insertMember(member), or the IndexError it raises on an empty chunk. */
  function InsertedLines(lines: seq<string>, member: string): Result<seq<string>, PyError> {
    match FirstGreater(lines, member)
    case Some(i) =>
      var (pre, _, post) := ContinuationMatch(lines[i]).value;
      Ok(lines[..i] + [pre + member + post + "\\\n"] + lines[i..])
    case None =>
      if lines == [] then Err(IndexError)
      else
        var (pre, post) := LastSpaces(lines);
        Ok(EndedLines(lines, member, pre, post))
  }

  lemma EndedLinesParts(lines: seq<string>, member: string, pre: string, post: string, r: seq<string>)
    requires lines != [] && |r| == |lines| + 1
    requires r[..|lines| - 1] == lines[..|lines| - 1]
    requires r[|lines| - 1] == ContinuedLine(pre, lines[|lines| - 1], post)
    requires r[|lines|] == pre + member + "\n"
    ensures r == EndedLines(lines, member, pre, post)
  {
    var n := |lines| - 1;
    assert r == r[..n] + r[n..];
    assert r[n..] == [r[n], r[n + 1]];
  }

  /** insert_at_end on a non-empty chunk: the stripped last line gains a backslash and the member line follows it. */
  function EndedLines(lines: seq<string>, member: string, pre: string, post: string): seq<string>
    requires lines != []
  {
    var n := |lines| - 1;
    lines[..n] + [ContinuedLine(pre, lines[n], post), pre + member + "\n"]
  }

  /** The last line as insert_at_end rewrites it: stripped, between the spacing, with a backslash. */
  function ContinuedLine(pre: string, line: string, post: string): string {
    pre + Strip(line) + post + "\\\n"
  }

  /**
   * insertMember adds exactly one line and changes no other: either the
   * member goes right before the first continuation line whose name sorts
   * after it, with that line's spacing, or every name sorts before it and
   * it becomes the last line, after the old last line gained a backslash.
   */
  lemma InsertAddsOneLine(lines: seq<string>, member: string)
    ensures InsertedLines(lines, member).Err? <==> lines == []
    ensures InsertedLines(lines, member).Ok? ==>
      var r := InsertedLines(lines, member).value;
      |r| == |lines| + 1 &&
      match FirstGreater(lines, member)
      case Some(i) =>
        r[..i] == lines[..i] && r[i + 1..] == lines[i..]
        && ContinuationMatch(lines[i]).Some?
        && r[i] == ContinuationMatch(lines[i]).value.0 + member + ContinuationMatch(lines[i]).value.2 + "\\\n"
        && StringLess(member, ContinuationMatch(lines[i]).value.1)
      case None =>
        r[..|lines| - 1] == lines[..|lines| - 1]
        && EndsWith(r[|lines| - 1], "\\\n") && EndsWith(r[|lines|], member + "\n")
        && forall j :: 0 <= j < |lines| && ContinuationMatch(lines[j]).Some? ==>
             !StringLess(member, ContinuationMatch(lines[j]).value.1)
  {
    if InsertedLines(lines, member).Ok? && FirstGreater(lines, member).None? {
      var (pre, post) := LastSpaces(lines);
      var n := |lines| - 1;
      assert pre + Strip(lines[n]) + post + "\\\n" == (pre + Strip(lines[n]) + post) + "\\\n";
      assert pre + member + "\n" == pre + (member + "\n");
    }
  }

  /** The file names of the continuation lines, in order. */
  function Names(lines: seq<string>): seq<string> {
    if lines == [] then []
    else
      var m := ContinuationMatch(lines[|lines| - 1]);
      Names(lines[..|lines| - 1]) + (if m.Some? then [m.value.1] else [])
  }

  lemma {:induction false} NamesAppend(a: seq<string>, b: seq<string>)
    ensures Names(a + b) == Names(a) + Names(b)
    decreases |b|
  {
    if b != [] {
      assert (a + b)[..|a + b| - 1] == a + b[..|b| - 1];
      NamesAppend(a, b[..|b| - 1]);
    } else {
      assert a + b == a;
    }
  }

  lemma {:induction false} NamesBelow(lines: seq<string>, member: string)
    requires forall j :: 0 <= j < |lines| && ContinuationMatch(lines[j]).Some? ==>
      !StringLess(member, ContinuationMatch(lines[j]).value.1)
    ensures forall x :: x in Names(lines) ==> !StringLess(member, x)
  {
    if lines != [] {
      NamesBelow(lines[..|lines| - 1], member);
    }
  }

  /** Names in non-decreasing order. */
  predicate Sorted(names: seq<string>) {
    forall i, j :: 0 <= i < j < |names| ==> !StringLess(names[j], names[i])
  }

  /** A name placed after every name not above it and before a name above it keeps a sorted list sorted. */
  lemma SortedInsert(before: seq<string>, member: string, after: seq<string>)
    requires Sorted(before + after)
    requires forall x :: x in before ==> !StringLess(member, x)
    requires after != [] && StringLess(member, after[0])
    ensures Sorted(before + [member] + after)
  {
    var all := before + after;
    forall j | 0 <= j < |after| ensures !StringLess(after[j], member) {
      if j == 0 {
        StringLessIrreflexive(after[0]);
      } else {
        assert after[j] == all[|before| + j] && after[0] == all[|before|];
      }
      if StringLess(after[j], member) {
        StringLessTransitive(after[j], member, after[0]);
      }
    }
    var s := before + [member] + after;
    forall a, b | 0 <= a < b < |s| ensures !StringLess(s[b], s[a]) {
      if b < |before| {
        assert s[a] == all[a] && s[b] == all[b];
      } else if a < |before| && b == |before| {
        assert s[a] in before;
      } else if a < |before| {
        assert s[a] == all[a] && s[b] == all[b - 1];
      } else if a == |before| {
        assert s[b] == after[b - |before| - 1];
      } else {
        assert s[a] == all[a - 1] && s[b] == all[b - 1];
      }
    }
  }

  /**
   * When some listed name sorts after a (white-space free) member, the
   * member joins the listed names at its place in order.
   */
  lemma {:induction false} InsertedNames(lines: seq<string>, member: string)
    requires IsToken(member) && FirstGreater(lines, member).Some?
    ensures var i := FirstGreater(lines, member).value;
      Names(InsertedLines(lines, member).value) == Names(lines[..i]) + [member] + Names(lines[i..])
      && (forall x :: x in Names(lines[..i]) ==> !StringLess(member, x))
      && Names(lines[i..]) != [] && StringLess(member, Names(lines[i..])[0])
      && Names(lines) == Names(lines[..i]) + Names(lines[i..])
  {
    var i := FirstGreater(lines, member).value;
    var (pre, name, post) := ContinuationMatch(lines[i]).value;
    var added := pre + member + post + "\\\n";
    var before, after := lines[..i], lines[i..];
    assert Names(InsertedLines(lines, member).value) == Names(before) + [member] + Names(after) by {
      assert InsertedLines(lines, member).value == before + [added] + after;
      NamesOfAdded(lines[i], member);
      NamesAppend(before + [added], after);
      NamesAppend(before, [added]);
    }
    assert Names(lines) == Names(before) + Names(after) by {
      assert before + after == lines;
      NamesAppend(before, after);
    }
    NamesBelow(before, member);
    NamesFrom(after);
  }

  /** The line insertMember adds, with the spacing of a continuation line, lists exactly the member. */
  lemma NamesOfAdded(line: string, member: string)
    requires IsToken(member) && ContinuationMatch(line).Some?
    ensures var (pre, _, post) := ContinuationMatch(line).value;
      Names([pre + member + post + "\\\n"]) == [member]
  {
    ContinuationMatchShape(line);
    var (pre, _, post) := ContinuationMatch(line).value;
    var added := pre + member + post + "\\\n";
    assert added == pre + member + post + "\\" + "\n";
    ContinuationOfLine(pre, member, post, "\n");
    assert [added][..0] == [];
  }

  /** The names of lines that start with a continuation line start with its name. */
  lemma NamesFrom(lines: seq<string>)
    requires lines != [] && ContinuationMatch(lines[0]).Some?
    ensures Names(lines) == [ContinuationMatch(lines[0]).value.1] + Names(lines[1..])
  {
    var first := [lines[0]];
    assert Names(first) == [ContinuationMatch(lines[0]).value.1] by {
      assert first[..0] == [];
    }
    assert Names(lines) == Names(first) + Names(lines[1..]) by {
      assert lines == first + lines[1..];
      NamesAppend(first, lines[1..]);
    }
  }

  /** Inserting a (white-space free) member before a greater name keeps a chunk whose names were in order in order. */
  lemma InsertKeepsOrder(lines: seq<string>, member: string)
    requires IsToken(member) && FirstGreater(lines, member).Some?
    requires Sorted(Names(lines))
    ensures Sorted(Names(InsertedLines(lines, member).value))
  {
    var i := FirstGreater(lines, member).value;
    InsertedNames(lines, member);
    SortedInsert(Names(lines[..i]), member, Names(lines[i..]));
  }

  // -----------------------------------------------------------------------
  // The classes

  /** Part of an automake file; a chunk decorated with an ADD_C_FILE comment has the kind it names. */
  class AutomakeChunk {
    var lines: seq<string>
    var kind: string
    var hasBlank: bool

    function Value(): Chunk
      reads this
    {
      Chunk(lines, kind, hasBlank)
    }

    constructor ()
      ensures Value() == EMPTY_CHUNK
    {
      lines := [];
      kind := "";
      hasBlank := false;
    }

    /** addLine: the chunk takes the line as AddLineTo says (see AddLineCases); the result says whether the chunk has ended. */
    method AddLine(line: string) returns (r: Result<bool, PyError>)
      modifies this
      ensures AddLineTo(old(Value()), line).Err? ==>
        r == Err(AddLineTo(old(Value()), line).error) && Value() == old(Value())
      ensures AddLineTo(old(Value()), line).Ok? ==>
        r == Ok(AddLineTo(old(Value()), line).value.1) && Value() == AddLineTo(old(Value()), line).value.0
    {
      ghost var before := Value();
      StripEmpty(line);
      var m := ControlKind(line);
      if m.Some? {
        if lines != [] {
          return Err(ValueError(NOT_PRECEDED));
        }
        kind := m.value;
      }
      if Strip(line) == "" {
        hasBlank := true;
        assert AddLineTo(before, line) == Ok((Value(), true));
        return Ok(true);
      }
      lines := lines + [line];
      assert AddLineTo(before, line) == Ok((Value(), false));
      return Ok(false);
    }

    /** insert_before: the member line goes in at position lineno. */
    method InsertBefore(lineno: nat, member: string, prespace: string, postspace: string)
      requires lineno <= |lines|
      modifies this
      ensures lines == old(lines[..lineno]) + [prespace + member + postspace + "\\\n"] + old(lines[lineno..])
      ensures kind == old(kind) && hasBlank == old(hasBlank)
    {
      lines := lines[..lineno] + [prespace + member + postspace + "\\\n"] + lines[lineno..];
    }

    /** insert_at_end: the last line is continued and the member line appended; IndexError on an empty chunk. */
    method InsertAtEnd(member: string, prespace: string, postspace: string) returns (err: Option<PyError>)
      modifies this
      ensures old(lines) == [] ==> err == Some(IndexError) && Value() == old(Value())
      ensures old(lines) != [] ==> (err == None
        && lines == EndedLines(old(lines), member, prespace, postspace)
        && kind == old(kind) && hasBlank == old(hasBlank))
    {
      if lines == [] {
        return Some(IndexError);
      }
      ghost var before := lines;
      var n := |lines| - 1;
      var continued := ContinuedLine(prespace, lines[n], postspace);
      var added := prespace + member + "\n";
      lines := lines[n := continued];
      lines := lines + [added];
      EndedLinesParts(before, member, prespace, postspace, lines);
      return None;
    }

    /** insertMember: add member in alphabetical order with the spacing of its neighbours. */
    method InsertMember(member: string) returns (err: Option<PyError>)
      modifies this
      ensures InsertedLines(old(lines), member).Err? ==> err == Some(IndexError) && Value() == old(Value())
      ensures InsertedLines(old(lines), member).Ok? ==>
        err == None && lines == InsertedLines(old(lines), member).value
        && kind == old(kind) && hasBlank == old(hasBlank)
    {
      var prespace, postspace := DEFAULT_PRESPACE, DEFAULT_POSTSPACE;
      var lineno := 0;
      while lineno < |lines|
        invariant lines == old(lines) && kind == old(kind) && hasBlank == old(hasBlank)
        invariant lineno <= |lines|
        invariant FirstGreater(lines[..lineno], member) == None
        invariant (prespace, postspace) == LastSpaces(lines[..lineno])
      {
        var line := lines[lineno];
        var m := ContinuationMatch(line);
        if m.Some? {
          var fname;
          prespace, fname, postspace := m.value.0, m.value.1, m.value.2;
          if StringLess(member, fname) {
            FirstGreaterOfPrefix(lines, member, lineno);
            ghost var before := lines;
            InsertBefore(lineno, member, prespace, postspace);
            assert InsertedLines(before, member).value == lines;
            return None;
          }
        }
        ScanStep(lines, member, lineno);
        lineno := lineno + 1;
      }
      assert lines[..lineno] == lines;
      assert lines != [] ==> InsertedLines(lines, member) == Ok(EndedLines(lines, member, prespace, postspace));
      err := InsertAtEnd(member, prespace, postspace);
    }

    /** dump: the text this chunk writes. */
    method Dump() returns (out: string)
      ensures out == ChunkText(Value())
    {
      out := "";
      for i := 0 to |lines|
        invariant out == LinesText(lines[..i])
      {
        assert lines[..i + 1][..i] == lines[..i];
        out := out + lines[i];
        if !EndsWith(lines[i], "\n") {
          out := out + "\n";
        }
      }
      assert lines[..|lines|] == lines;
      if hasBlank {
        out := out + "\n";
      }
    }
  }

  /** A line the scan of insertMember passes over: no greater name yet, and the spacing is that of the last continuation line. */
  lemma ScanStep(lines: seq<string>, member: string, k: nat)
    requires k < |lines| && FirstGreater(lines[..k], member) == None
    requires ContinuationMatch(lines[k]).Some? ==> !StringLess(member, ContinuationMatch(lines[k]).value.1)
    ensures FirstGreater(lines[..k + 1], member) == None
    ensures LastSpaces(lines[..k + 1]) ==
      if ContinuationMatch(lines[k]).Some? then (ContinuationMatch(lines[k]).value.0, ContinuationMatch(lines[k]).value.2)
      else LastSpaces(lines[..k])
  {
    assert lines[..k + 1][..k] == lines[..k];
    assert lines[..k + 1][k] == lines[k];
  }

  /** The first greater line found by the loop is the first greater line of the whole chunk. */
  lemma FirstGreaterOfPrefix(lines: seq<string>, member: string, k: nat)
    requires k < |lines| && FirstGreater(lines[..k], member) == None
    requires ContinuationMatch(lines[k]).Some? && StringLess(member, ContinuationMatch(lines[k]).value.1)
    ensures FirstGreater(lines, member) == Some(k)
  {
    assert lines[..k + 1][..k] == lines[..k];
    FirstGreaterExtends(lines, member, k + 1);
  }

  lemma {:induction false} FirstGreaterExtends(lines: seq<string>, member: string, k: nat)
    requires k <= |lines| && FirstGreater(lines[..k], member).Some?
    ensures FirstGreater(lines, member) == FirstGreater(lines[..k], member)
    decreases |lines|
  {
    if k < |lines| {
      var init := lines[..|lines| - 1];
      assert init[..k] == lines[..k];
      FirstGreaterExtends(init, member, k);
    } else {
      assert lines[..k] == lines;
    }
  }

  /** The chunk values of a sequence of chunks. */
  function ValuesOf(cs: seq<AutomakeChunk>): (vs: seq<Chunk>)
    reads cs
    ensures |vs| == |cs|
    ensures forall i :: 0 <= i < |cs| ==> vs[i] == cs[i].Value()
  {
    if cs == [] then [] else ValuesOf(cs[..|cs| - 1]) + [cs[|cs| - 1].Value()]
  }

  /** by_type as addChunk builds it from chunks cs whose values are vs: each lower-cased kind maps to the last chunk of that kind. */
  function KindMap(cs: seq<AutomakeChunk>, vs: seq<Chunk>): map<string, AutomakeChunk>
    requires |cs| == |vs|
  {
    if cs == [] then map[]
    else
      var n := |cs| - 1;
      KindMap(cs[..n], vs[..n])[Lower(vs[n].kind) := cs[n]]
  }

  /** The position of the last chunk value whose lower-cased kind is k. */
  function LastOfKind(vs: seq<Chunk>, k: string): (i: Option<nat>)
    ensures i.Some? ==> i.value < |vs| && Lower(vs[i.value].kind) == k
    ensures forall j :: 0 <= j < |vs| && (i.None? || i.value < j) ==> Lower(vs[j].kind) != k
  {
    if vs == [] then None
    else if Lower(vs[|vs| - 1].kind) == k then Some(|vs| - 1)
    else LastOfKind(vs[..|vs| - 1], k)
  }

  /** A kind is registered exactly when some chunk has it, and it names the last such chunk. */
  lemma {:induction false} KindMapLast(cs: seq<AutomakeChunk>, vs: seq<Chunk>, k: string)
    requires |cs| == |vs|
    ensures k in KindMap(cs, vs) <==> LastOfKind(vs, k).Some?
    ensures k in KindMap(cs, vs) ==> KindMap(cs, vs)[k] == cs[LastOfKind(vs, k).value]
  {
    if cs != [] {
      var n := |cs| - 1;
      KindMapLast(cs[..n], vs[..n], k);
    }
  }

  /** A sort-of-parsed automake file: its chunks in order, and the chunk registered for each kind. */
  class ParsedAutomake {
    var chunks: seq<AutomakeChunk>
    var byType: map<string, AutomakeChunk>

    constructor ()
      ensures chunks == [] && byType == map[]
    {
      chunks := [];
      byType := map[];
    }

    /** addChunk: append the chunk and register it under its lower-cased kind, replacing an earlier one. */
    method AddChunk(chunk: AutomakeChunk)
      modifies this
      ensures chunks == old(chunks) + [chunk]
      ensures byType == old(byType)[Lower(chunk.kind) := chunk]
    {
      chunks := chunks + [chunk];
      byType := byType[Lower(chunk.kind) := chunk];
    }

    /**
     * add_file: insert fname into the chunk registered for kind (compared
     * lower-cased). True when there is one; only that chunk changes.
     */
    method AddFile(fname: string, kind: string) returns (r: Result<bool, PyError>)
      modifies if Lower(kind) in byType then {byType[Lower(kind)]} else {}
      ensures Lower(kind) !in byType ==> r == Ok(false)
      ensures Lower(kind) in byType ==>
        var c := byType[Lower(kind)];
        var inserted := InsertedLines(old(c.lines), fname);
        (inserted.Err? ==> r == Err(IndexError) && c.Value() == old(c.Value()))
        && (inserted.Ok? ==> (r == Ok(true) && c.lines == inserted.value
            && c.kind == old(c.kind) && c.hasBlank == old(c.hasBlank)))
    {
      var key := Lower(kind);
      if key in byType {
        var err := byType[key].InsertMember(fname);
        if err.Some? {
          return Err(err.value);
        }
        return Ok(true);
      }
      return Ok(false);
    }

    /** dump: the text of every chunk in order. */
    method Dump() returns (out: string)
      ensures out == FileText(ValuesOf(chunks))
    {
      out := "";
      ghost var vs := ValuesOf(chunks);
      for i := 0 to |chunks|
        invariant out == FileText(vs[..i])
      {
        var text := chunks[i].Dump();
        FileTextStep(vs, i);
        out := out + text;
      }
      assert vs[..|chunks|] == vs;
    }
  }

  /** The text of the first i + 1 chunks is that of the first i followed by chunk i's. */
  lemma FileTextStep(vs: seq<Chunk>, i: nat)
    requires i < |vs|
    ensures FileText(vs[..i + 1]) == FileText(vs[..i]) + ChunkText(vs[i])
  {
    assert vs[..i + 1][..i] == vs[..i];
  }

  /** addChunk on a chunk not yet in the file: its value joins the values and by_type stays the map of the chunks. */
  method RegisterChunk(amfile: ParsedAutomake, cur: AutomakeChunk)
    requires cur !in amfile.chunks
    requires amfile.byType == KindMap(amfile.chunks, ValuesOf(amfile.chunks))
    modifies amfile
    ensures amfile.chunks == old(amfile.chunks) + [cur]
    ensures ValuesOf(amfile.chunks) == old(ValuesOf(amfile.chunks)) + [cur.Value()]
    ensures amfile.byType == KindMap(amfile.chunks, ValuesOf(amfile.chunks))
  {
    ghost var chunks := amfile.chunks;
    amfile.AddChunk(cur);
    assert amfile.chunks[..|amfile.chunks| - 1] == chunks;
  }

  /** A chunk that has ended is added to the file and a fresh chunk is returned to fill next. */
  method CloseChunk(amfile: ParsedAutomake, cur: AutomakeChunk) returns (next: AutomakeChunk)
    requires cur !in amfile.chunks
    requires amfile.byType == KindMap(amfile.chunks, ValuesOf(amfile.chunks))
    modifies amfile
    ensures ValuesOf(amfile.chunks) == old(ValuesOf(amfile.chunks)) + [cur.Value()]
    ensures amfile.byType == KindMap(amfile.chunks, ValuesOf(amfile.chunks))
    ensures fresh(next) && next.Value() == EMPTY_CHUNK && next !in amfile.chunks
  {
    RegisterChunk(amfile, cur);
    ghost var values := ValuesOf(amfile.chunks);
    next := new AutomakeChunk();
    assert ValuesOf(amfile.chunks) == values;
  }

  /**
   * One turn of the reading loop of run: the line goes to the current
   * chunk; when the chunk ends it is added to the file and a fresh chunk
   * becomes the current one.
   */
  method ReadLineInto(amfile: ParsedAutomake, cur: AutomakeChunk, line: string) returns (r: Result<AutomakeChunk, PyError>)
    requires cur !in amfile.chunks
    requires amfile.byType == KindMap(amfile.chunks, ValuesOf(amfile.chunks))
    modifies amfile, cur
    ensures var state := ReadLine(Ok((old(ValuesOf(amfile.chunks)), old(cur.Value()))), line);
      (state.Err? ==> r == Err(state.error))
      && (state.Ok? ==> (r.Ok? && r.value !in amfile.chunks
          && ValuesOf(amfile.chunks) == state.value.0 && r.value.Value() == state.value.1))
    ensures r.Ok? ==> fresh(r.value) || r.value == cur
    ensures amfile.byType == KindMap(amfile.chunks, ValuesOf(amfile.chunks))
  {
    ghost var chunks, done, c0 := amfile.chunks, ValuesOf(amfile.chunks), cur.Value();
    ghost var state := ReadLine(Ok((done, c0)), line);
    var closed := cur.AddLine(line);
    assert ValuesOf(chunks) == done by {
      assert forall i :: 0 <= i < |chunks| ==> chunks[i] != cur;
    }
    if closed.Err? {
      assert state == Err(closed.error);
      return Err(closed.error);
    }
    ghost var next := cur.Value();
    assert AddLineTo(c0, line) == Ok((next, closed.value));
    if closed.value {
      assert state == Ok((done + [next], EMPTY_CHUNK));
      var chunk := CloseChunk(amfile, cur);
      r := Ok(chunk);
    } else {
      assert state == Ok((done, next));
      assert amfile.chunks == chunks;
      r := Ok(cur);
    }
  }

  /**
   * The reading loop of run: each line goes to the current chunk, which is
   * added to the file when it ends; the last chunk is added at the end.
   */
  method ReadAutomake(input: seq<string>) returns (r: Result<ParsedAutomake, PyError>)
    ensures ParseChunks(input).Err? ==> r == Err(ParseChunks(input).error)
    ensures ParseChunks(input).Ok? ==> (r.Ok? && fresh(r.value)
      && ValuesOf(r.value.chunks) == ParseChunks(input).value
      && r.value.byType == KindMap(r.value.chunks, ParseChunks(input).value))
  {
    var amfile := new ParsedAutomake();
    var cur := new AutomakeChunk();
    for k := 0 to |input|
      invariant fresh(amfile) && fresh(cur)
      invariant cur !in amfile.chunks
      invariant ParseState(input[..k]) == Ok((ValuesOf(amfile.chunks), cur.Value()))
      invariant amfile.byType == KindMap(amfile.chunks, ValuesOf(amfile.chunks))
    {
      ParseStatePrefix(input, k);
      var next := ReadLineInto(amfile, cur, input[k]);
      if next.Err? {
        assert ParseChunks(input) == Err(next.error) by {
          ParseErrorOnlyValueError(input[..k + 1]);
          ParseErrorSticks(input, k + 1);
        }
        return Err(next.error);
      }
      cur := next.value;
    }
    ghost var done := ValuesOf(amfile.chunks);
    RegisterChunk(amfile, cur);
    assert ParseChunks(input) == Ok(done + [cur.Value()]) by {
      assert input[..|input|] == input;
    }
    return Ok(amfile);
  }
}

=== FILE: confline.dfy ===
/**
 * Configuration lines (config_line_t of tor's confline.h, which is not part
 * of this model), shared by the option checks.
 */
module ConfLines {
  import opened Wrappers

  /** A config line: its key and its value (None for a NULL value). A NULL list of lines is the empty sequence. */
  datatype ConfigLine = ConfigLine(key: string, value: Option<string>)
}

=== FILE: control_trace.dfy ===
/**
 * Control message traces (src/lib/control_trace/control_trace.c): a
 * separately allocated list of descriptors that debug traces of controller
 * messages and commands go to, through the raw logger in its plain format.
 */
module ControlTrace {
  import opened Wrappers
  import opened RawLog

  const CONTROL_TRACE_PREFIX: string := "Control Trace "
  const CONN_FORMAT_ERROR: string := "Conn Formatting Error"
  /** The shortest acceptable identifier is as long as "Conn: 0xffffffff". */
  const CONN_MIN_LENGTH: int := |"Conn: 0xffffffff"|

  /**
   * tor_control_conn_to_str_dup, given the text "%p" produced for the
   * connection pointer (None when formatting failed): "Conn: " and that
   * text, unless formatting failed or the result is shorter than
   * "Conn: 0xffffffff", in which case the error text.
   */
  function ConnToStrDup(pointerText: Option<string>): (r: string)
    ensures pointerText.Some? && r == "Conn: " + pointerText.value
      <==> pointerText.Some? && |"Conn: " + pointerText.value| >= CONN_MIN_LENGTH
    ensures r == CONN_FORMAT_ERROR || (|r| >= CONN_MIN_LENGTH && r[..6] == "Conn: ")
  {
    if pointerText.None? then CONN_FORMAT_ERROR
    else
      var formatted := "Conn: " + pointerText.value;
      if |formatted| < CONN_MIN_LENGTH then
        assert formatted[4] != CONN_FORMAT_ERROR[4];
        CONN_FORMAT_ERROR
      else formatted
  }

  /** The arguments of a message trace, after the prefix. */
  function MessageArgs(conn: string, msgType: string, msg: string): seq<string> {
    [conn, ", ", msgType, ": ", "Content: '", msg, "'."]
  }

  /** The arguments of a command trace, after the prefix. */
  function CommandArgs(conn: string, cmd: string, args: string): seq<string> {
    [conn, ", ", "Command: '", cmd, "', ", "Arguments: '", args, "'."]
  }

  /** The single line of text a trace descriptor receives for a message. */
  lemma MessageTraceLine(timebuf: string, conn: string, msgType: string, msg: string)
    ensures Concat(RawApChunks(timebuf, false, Some(CONTROL_TRACE_PREFIX), MessageArgs(conn, msgType, msg)))
      == "T=" + timebuf + " " + CONTROL_TRACE_PREFIX + conn + ", " + msgType + ": " + "Content: '" + msg + "'."
  {
    var head := ["T=", timebuf, " ", CONTROL_TRACE_PREFIX];
    var chunks := RawApChunks(timebuf, false, Some(CONTROL_TRACE_PREFIX), MessageArgs(conn, msgType, msg));
    assert chunks == head + MessageArgs(conn, msgType, msg);
    ConcatAppend(head, MessageArgs(conn, msgType, msg));
    ConcatList4(head);
    ConcatList7(MessageArgs(conn, msgType, msg));
  }

  /** The single line of text a trace descriptor receives for a command. */
  lemma CommandTraceLine(timebuf: string, conn: string, cmd: string, args: string)
    ensures Concat(RawApChunks(timebuf, false, Some(CONTROL_TRACE_PREFIX), CommandArgs(conn, cmd, args)))
      == "T=" + timebuf + " " + CONTROL_TRACE_PREFIX + conn + ", " + "Command: '" + cmd + "', "
         + "Arguments: '" + args + "'."
  {
    var head := ["T=", timebuf, " ", CONTROL_TRACE_PREFIX];
    var chunks := RawApChunks(timebuf, false, Some(CONTROL_TRACE_PREFIX), CommandArgs(conn, cmd, args));
    assert chunks == head + CommandArgs(conn, cmd, args);
    ConcatAppend(head, CommandArgs(conn, cmd, args));
    ConcatList4(head);
    ConcatList8(CommandArgs(conn, cmd, args));
  }

  lemma ConcatList4(s: seq<string>)
    requires |s| == 4
    ensures Concat(s) == s[0] + s[1] + s[2] + s[3]
  {
    assert Concat(s[3..]) == s[3] by {
      assert s[3..][1..] == [];
      assert s[3..][0] == s[3];
      assert s[3] + "" == s[3];
    }
    assert s[2..][1..] == s[3..];
    assert s[1..][1..] == s[2..];
    assert Concat(s[2..]) == s[2] + s[3];
    assert Concat(s[1..]) == s[1] + (s[2] + s[3]);
    assert Concat(s) == s[0] + (s[1] + (s[2] + s[3]));
  }

  lemma ConcatList7(s: seq<string>)
    requires |s| == 7
    ensures Concat(s) == s[0] + s[1] + s[2] + s[3] + s[4] + s[5] + s[6]
  {
    ConcatAppend(s[..4], s[4..]);
    assert s[..4] + s[4..] == s;
    ConcatList4(s[..4]);
    ConcatList3(s[4..]);
  }

  lemma ConcatList8(s: seq<string>)
    requires |s| == 8
    ensures Concat(s) == s[0] + s[1] + s[2] + s[3] + s[4] + s[5] + s[6] + s[7]
  {
    ConcatAppend(s[..4], s[4..]);
    assert s[..4] + s[4..] == s;
    ConcatList4(s[..4]);
    ConcatList4(s[4..]);
  }

  lemma ConcatList3(s: seq<string>)
    requires |s| == 3
    ensures Concat(s) == s[0] + s[1] + s[2]
  {
    assert Concat(s[2..]) == s[2] by {
      assert s[2..][1..] == [];
      assert s[2..][0] == s[2];
      assert s[2] + "" == s[2];
    }
    assert s[1..][1..] == s[2..];
    assert Concat(s[1..]) == s[1] + s[2];
    assert Concat(s) == s[0] + (s[1] + s[2]);
  }

  /** control_safe_log_fds and n_control_safe_log_fds */
  class ControlSafeLogFds {
    var fds: array?<int>
    var count: int

    ghost predicate Valid()
      reads this
    {
      0 <= count && (fds == null <==> count == 0) && (fds != null ==> fds.Length == count)
    }

    /** The descriptors in use. */
    ghost function InUse(): seq<int>
      reads this, fds
      requires Valid()
    {
      if fds == null then [] else fds[..]
    }

    /** No trace descriptors until logging sets them. */
    constructor()
      ensures Valid() && fds == null && InUse() == []
    {
      fds := null;
      count := 0;
    }

    /** tor_log_get_control_safe_debug_fds */
    method GetControlSafeDebugFds() returns (out: array?<int>, n: int)
      requires Valid()
      ensures out == fds && n == count
      ensures n == 0 <==> out == null
      ensures out != null ==> out[..] == InUse()
    {
      out := fds;
      n := count;
    }

    /**
     * tor_log_set_control_safe_debug_fds: replace the list by a freshly
     * allocated copy of the first n descriptors of src, or by no list at
     * all when n is 0.
     */
    method SetControlSafeDebugFds(src: seq<int>, n: int)
      requires Valid() && 0 <= n <= |src|
      modifies this
      ensures Valid() && count == n && InUse() == src[..n]
      ensures n > 0 ==> fresh(fds)
    {
      if n > 0 {
        var copy := new int[n];
        forall i | 0 <= i < n {
          copy[i] := src[i];
        }
        fds := copy;
      } else {
        fds := null;
      }
      count := n;
    }

    /** tor_log_reset_control_safe_debug_fds */
    method ResetControlSafeDebugFds()
      requires Valid()
      modifies this
      ensures Valid() && fds == null && count == 0
    {
      SetControlSafeDebugFds([], 0);
    }

    /** tor_log_debug_control_safe: a raw log message in the plain format to every trace descriptor. */
    method DebugControlSafe(logger: RawLogger, m: Option<string>, args: seq<string>, now: int)
      returns (writes: seq<(int, string)>)
      requires Valid()
      ensures writes == Writes(InUse(), RawApChunks(TimeBuf(logger.granularity, now), false, m, args))
    {
      var inUse := if fds == null then [] else fds[..];
      writes := logger.LogRawAp(inUse, false, m, args, now);
    }

    /**
     * tor_log_debug_control_safe_message: when there are trace descriptors,
     * "Control Trace ", the connection, the type and the quoted content.
     */
    method DebugControlSafeMessage(logger: RawLogger, connPointer: Option<string>, msgType: string,
                                   msg: string, now: int)
      returns (writes: seq<(int, string)>)
      requires Valid()
      ensures count == 0 ==> writes == []
      ensures count != 0 ==> writes == Writes(InUse(),
        RawApChunks(TimeBuf(logger.granularity, now), false, Some(CONTROL_TRACE_PREFIX),
                    MessageArgs(ConnToStrDup(connPointer), msgType, msg)))
    {
      writes := [];
      if count != 0 {
        var connFmt := ConnToStrDup(connPointer);
        writes := DebugControlSafe(logger, Some(CONTROL_TRACE_PREFIX),
                                   [connFmt, ", ", msgType, ": ", "Content: '", msg, "'."], now);
      }
    }

    /**
     * tor_log_debug_control_safe_command: when there are trace descriptors,
     * "Control Trace ", the connection, the quoted command and its quoted
     * arguments.
     */
    method DebugControlSafeCommand(logger: RawLogger, connPointer: Option<string>, cmd: string,
                                   args: string, now: int)
      returns (writes: seq<(int, string)>)
      requires Valid()
      ensures count == 0 ==> writes == []
      ensures count != 0 ==> writes == Writes(InUse(),
        RawApChunks(TimeBuf(logger.granularity, now), false, Some(CONTROL_TRACE_PREFIX),
                    CommandArgs(ConnToStrDup(connPointer), cmd, args)))
    {
      writes := [];
      if count != 0 {
        var connFmt := ConnToStrDup(connPointer);
        writes := DebugControlSafe(logger, Some(CONTROL_TRACE_PREFIX),
                                   [connFmt, ", ", "Command: '", cmd, "', ", "Arguments: '", args, "'."], now);
      }
    }
  }
}

=== FILE: dirauth_config.dfy ===
/**
 * Option checks of a directory authority (src/feature/dirauth/dirauth_config.c):
 * the voting-schedule and testing-network validators, the decision whether an
 * option change affects the voting timetable, the decisions of the statistics
 * action, and the normalisation done by the authority-mode validator.
 *
 * A validator's outcome is a Verdict: Rejected with the message REJECT() sets
 * (the check stops there), or Accepted with the warnings COMPLAIN() logged on
 * the way.
 */
module DirauthConfig {
  import opened Wrappers
  import opened ConfLines

  // Voting minima of dirvote.h (not part of this model).
  const MIN_VOTE_SECONDS: int := 2
  const MIN_VOTE_SECONDS_TESTING: int := 2
  const MIN_DIST_SECONDS: int := 2
  const MIN_DIST_SECONDS_TESTING: int := 2
  const MIN_VOTE_INTERVAL: int := 300
  const MIN_VOTE_INTERVAL_TESTING: int := (MIN_VOTE_SECONDS_TESTING + MIN_DIST_SECONDS_TESTING + 1) * 2
  const MIN_VOTE_INTERVAL_TESTING_INITIAL: int := MIN_VOTE_SECONDS_TESTING + MIN_DIST_SECONDS_TESTING + 1

  const ONE_DAY: int := 24 * 60 * 60
  const HALF_HOUR: int := 30 * 60
  const TWO_HOURS: int := 2 * 60 * 60

  const DELAYS_TOO_LONG_MSG := "V3AuthVoteDelay plus V3AuthDistDelay must be less than half V3AuthVotingInterval"
  const VOTE_DELAY_TOO_LOW_MSG := "V3AuthVoteDelay is way too low."
  const VOTE_DELAY_LOW_WARNING := "V3AuthVoteDelay is very low. This may lead to failure to vote for a consensus."
  const DIST_DELAY_TOO_LOW_MSG := "V3AuthDistDelay is way too low."
  const DIST_DELAY_LOW_WARNING := "V3AuthDistDelay is very low. This may lead to missing votes in a consensus."
  const N_INTERVALS_MSG := "V3AuthNIntervalsValid must be at least 2."
  const INTERVAL_TOO_LOW_MSG := "V3AuthVotingInterval is insanely low."
  const INTERVAL_LOW_WARNING := "V3AuthVotingInterval is very low. This may lead to failure to synchronise for a consensus."
  const INTERVAL_TOO_HIGH_MSG := "V3AuthVotingInterval is insanely high."
  const INTERVAL_UNEVEN_WARNING := "V3AuthVotingInterval does not divide evenly into 24 hours."

  const INITIAL_INTERVAL_TOO_LOW_MSG := "TestingV3AuthInitialVotingInterval is insanely low."
  const INITIAL_INTERVAL_UNEVEN_MSG := "TestingV3AuthInitialVotingInterval does not divide evenly into 30 minutes."
  const INITIAL_VOTE_DELAY_MSG := "TestingV3AuthInitialVoteDelay is way too low."
  const INITIAL_DIST_DELAY_MSG := "TestingV3AuthInitialDistDelay is way too low."
  const INITIAL_DELAYS_TOO_LONG_MSG := "TestingV3AuthInitialVoteDelay plus TestingV3AuthInitialDistDelay must be less than TestingV3AuthInitialVotingInterval"
  const START_OFFSET_TOO_HIGH_MSG := "TestingV3AuthVotingStartOffset is higher than the voting interval."
  const START_OFFSET_NEGATIVE_MSG := "TestingV3AuthVotingStartOffset must be non-negative."
  const LEARN_NEGATIVE_MSG := "TestingAuthDirTimeToLearnReachability must be non-negative."
  const LEARN_TOO_HIGH_WARNING := "TestingAuthDirTimeToLearnReachability is insanely high."


  /** The integer and boolean options the voting checks read. */
  datatype VotingOptions = VotingOptions(
    AuthoritativeDir: bool,
    V3AuthoritativeDir: bool,
    TestingTorNetwork: bool,
    V3AuthVotingInterval: int,
    V3AuthVoteDelay: int,
    V3AuthDistDelay: int,
    V3AuthNIntervalsValid: int,
    TestingV3AuthInitialVotingInterval: int,
    TestingV3AuthInitialVoteDelay: int,
    TestingV3AuthInitialDistDelay: int,
    TestingV3AuthVotingStartOffset: int,
    TestingAuthDirTimeToLearnReachability: int)

  /** Outcome of a validator: the REJECT message, or the COMPLAIN warnings. */
  datatype Verdict = Accepted(warnings: seq<string>) | Rejected(msg: string)

  /** Running one check after another: the first rejection wins, warnings accumulate. */
  function AndThen(first: Verdict, second: Verdict): (v: Verdict)
    ensures v.Accepted? <==> first.Accepted? && second.Accepted?
    ensures first.Rejected? ==> v == first
    ensures first.Accepted? && second.Rejected? ==> v == second
    ensures v.Accepted? ==> v.warnings == first.warnings + second.warnings
  {
    match first
    case Rejected(_) => first
    case Accepted(w1) =>
      match second
      case Rejected(_) => second
      case Accepted(w2) => Accepted(w1 + w2)
  }

  /** C's `x / 2` on int, which truncates toward zero. */
  function HalfTruncated(x: int): (h: int)
    ensures -1 <= x - 2 * h <= 1
    ensures x >= 0 ==> x - 2 * h >= 0
    ensures x <= 0 ==> x - 2 * h <= 0
  {
    if x >= 0 then x / 2 else -((-x) / 2)
  }

  /** authdir_mode_v3 (authmode.c is not part of this model). */
  predicate AuthdirModeV3(o: VotingOptions)
  {
    o.AuthoritativeDir && o.V3AuthoritativeDir
  }

  // ---------------------------------------------------------------------
  // options_validate_dirauth_schedule

  /** A delay below `minimum` is rejected, unless a testing network keeps it at or above `testingMinimum`; then it only warns. */
  function LowerBoundRule(value: int, minimum: int, testing: bool, testingMinimum: int,
                          rejectMsg: string, warning: string): (v: Verdict)
    ensures v.Rejected? <==> value < minimum && (!testing || value < testingMinimum)
    ensures v.Rejected? ==> v.msg == rejectMsg
    ensures v.Accepted? ==> v.warnings == (if value < minimum then [warning] else [])
  {
    if value < minimum then
      if testing then
        if value < testingMinimum then Rejected(rejectMsg) else Accepted([warning])
      else Rejected(rejectMsg)
    else Accepted([])
  }

  /** The voting-interval rule: too low (with the testing exception), too high, or not dividing a day. */
  function VotingIntervalRule(o: VotingOptions): Verdict
  {
    var interval := o.V3AuthVotingInterval;
    if interval < MIN_VOTE_INTERVAL then
      if o.TestingTorNetwork then
        if interval < MIN_VOTE_INTERVAL_TESTING then Rejected(INTERVAL_TOO_LOW_MSG)
        else Accepted([INTERVAL_LOW_WARNING])
      else Rejected(INTERVAL_TOO_LOW_MSG)
    else if interval > ONE_DAY then Rejected(INTERVAL_TOO_HIGH_MSG)
    else if ONE_DAY % interval != 0 then Accepted([INTERVAL_UNEVEN_WARNING])
    else Accepted([])
  }

  /** options_validate_dirauth_schedule: the checks in the order the source makes them. */
  function ValidateSchedule(o: VotingOptions): Verdict
  {
    var sumRule :=
      if o.V3AuthVoteDelay + o.V3AuthDistDelay >= HalfTruncated(o.V3AuthVotingInterval)
      then Rejected(DELAYS_TOO_LONG_MSG) else Accepted([]);
    var voteRule := LowerBoundRule(o.V3AuthVoteDelay, MIN_VOTE_SECONDS, o.TestingTorNetwork,
                                   MIN_VOTE_SECONDS_TESTING, VOTE_DELAY_TOO_LOW_MSG, VOTE_DELAY_LOW_WARNING);
    var distRule := LowerBoundRule(o.V3AuthDistDelay, MIN_DIST_SECONDS, o.TestingTorNetwork,
                                   MIN_DIST_SECONDS_TESTING, DIST_DELAY_TOO_LOW_MSG, DIST_DELAY_LOW_WARNING);
    var nIntervalsRule := if o.V3AuthNIntervalsValid < 2 then Rejected(N_INTERVALS_MSG) else Accepted([]);
    AndThen(sumRule, AndThen(voteRule, AndThen(distRule, AndThen(nIntervalsRule, VotingIntervalRule(o)))))
  }

  /** The lowest voting interval accepted, with and without a testing network. */
  function MinVotingInterval(testing: bool): int
  {
    if testing then MIN_VOTE_INTERVAL_TESTING else MIN_VOTE_INTERVAL
  }

  /** A schedule is accepted exactly when every bound holds. */
  lemma ScheduleAccepted(o: VotingOptions)
    ensures ValidateSchedule(o).Accepted? <==>
      o.V3AuthVoteDelay + o.V3AuthDistDelay < HalfTruncated(o.V3AuthVotingInterval)
      && o.V3AuthVoteDelay >= (if o.TestingTorNetwork then MIN_VOTE_SECONDS_TESTING else MIN_VOTE_SECONDS)
      && o.V3AuthDistDelay >= (if o.TestingTorNetwork then MIN_DIST_SECONDS_TESTING else MIN_DIST_SECONDS)
      && o.V3AuthNIntervalsValid >= 2
      && MinVotingInterval(o.TestingTorNetwork) <= o.V3AuthVotingInterval <= ONE_DAY
  {
  }

  /** In an accepted schedule, voting and distribution together fit in half a voting interval, with a second to spare. */
  lemma {:induction false} ScheduleDelaysFit(o: VotingOptions)
    requires ValidateSchedule(o).Accepted?
    ensures 2 * (o.V3AuthVoteDelay + o.V3AuthDistDelay + 1) <= o.V3AuthVotingInterval
    ensures o.V3AuthVotingInterval > 0
  {
    ScheduleAccepted(o);
  }

  /** An accepted schedule warns exactly when a value is below the normal minimum or the interval does not divide a day. */
  lemma ScheduleWarnings(o: VotingOptions)
    requires ValidateSchedule(o).Accepted?
    ensures VOTE_DELAY_LOW_WARNING in ValidateSchedule(o).warnings <==> o.V3AuthVoteDelay < MIN_VOTE_SECONDS
    ensures DIST_DELAY_LOW_WARNING in ValidateSchedule(o).warnings <==> o.V3AuthDistDelay < MIN_DIST_SECONDS
    ensures INTERVAL_LOW_WARNING in ValidateSchedule(o).warnings <==> o.V3AuthVotingInterval < MIN_VOTE_INTERVAL
    ensures INTERVAL_UNEVEN_WARNING in ValidateSchedule(o).warnings <==>
      o.V3AuthVotingInterval >= MIN_VOTE_INTERVAL && ONE_DAY % o.V3AuthVotingInterval != 0
  {
  }

  /**
   * With the minima of dirvote.h the testing exception for the two delays
   * never applies: a testing network changes the schedule check only
   * through the voting interval.
   */
  lemma TestingRelaxesOnlyInterval(o: VotingOptions)
    requires o.TestingTorNetwork
    ensures ValidateSchedule(o).Accepted? <==>
      ValidateSchedule(o.(TestingTorNetwork := false)).Accepted?
      || (ValidateSchedule(o.(V3AuthVotingInterval := MIN_VOTE_INTERVAL, TestingTorNetwork := false)).Accepted?
          && o.V3AuthVoteDelay + o.V3AuthDistDelay < HalfTruncated(o.V3AuthVotingInterval)
          && MIN_VOTE_INTERVAL_TESTING <= o.V3AuthVotingInterval < MIN_VOTE_INTERVAL)
  {
    ScheduleAccepted(o);
    ScheduleAccepted(o.(TestingTorNetwork := false));
    ScheduleAccepted(o.(V3AuthVotingInterval := MIN_VOTE_INTERVAL, TestingTorNetwork := false));
  }

  // ---------------------------------------------------------------------
  // options_validate_dirauth_testing

  /** options_validate_dirauth_testing: the checks in the order the source makes them. */
  function ValidateTesting(o: VotingOptions): Verdict
  {
    var initial := o.TestingV3AuthInitialVotingInterval;
    var intervalRule :=
      if initial < MIN_VOTE_INTERVAL_TESTING_INITIAL then Rejected(INITIAL_INTERVAL_TOO_LOW_MSG)
      else if HALF_HOUR % initial != 0 then Rejected(INITIAL_INTERVAL_UNEVEN_MSG)
      else Accepted([]);
    var voteRule :=
      if o.TestingV3AuthInitialVoteDelay < MIN_VOTE_SECONDS_TESTING then Rejected(INITIAL_VOTE_DELAY_MSG)
      else Accepted([]);
    var distRule :=
      if o.TestingV3AuthInitialDistDelay < MIN_DIST_SECONDS_TESTING then Rejected(INITIAL_DIST_DELAY_MSG)
      else Accepted([]);
    var sumRule :=
      if o.TestingV3AuthInitialVoteDelay + o.TestingV3AuthInitialDistDelay >= initial
      then Rejected(INITIAL_DELAYS_TOO_LONG_MSG) else Accepted([]);
    var offsetRule :=
      if o.TestingV3AuthVotingStartOffset > Min(initial, o.V3AuthVotingInterval) then Rejected(START_OFFSET_TOO_HIGH_MSG)
      else if o.TestingV3AuthVotingStartOffset < 0 then Rejected(START_OFFSET_NEGATIVE_MSG)
      else Accepted([]);
    var learnRule :=
      if o.TestingAuthDirTimeToLearnReachability < 0 then Rejected(LEARN_NEGATIVE_MSG)
      else if o.TestingAuthDirTimeToLearnReachability > TWO_HOURS then Accepted([LEARN_TOO_HIGH_WARNING])
      else Accepted([]);
    AndThen(intervalRule, AndThen(voteRule, AndThen(distRule, AndThen(sumRule, AndThen(offsetRule, learnRule)))))
  }

  function Min(a: int, b: int): (m: int)
    ensures m <= a && m <= b && (m == a || m == b)
  {
    if a < b then a else b
  }

  /** The testing options are accepted exactly when every bound holds. */
  lemma TestingAccepted(o: VotingOptions)
    ensures ValidateTesting(o).Accepted? <==>
      MIN_VOTE_INTERVAL_TESTING_INITIAL <= o.TestingV3AuthInitialVotingInterval
      && HALF_HOUR % o.TestingV3AuthInitialVotingInterval == 0
      && o.TestingV3AuthInitialVoteDelay >= MIN_VOTE_SECONDS_TESTING
      && o.TestingV3AuthInitialDistDelay >= MIN_DIST_SECONDS_TESTING
      && o.TestingV3AuthInitialVoteDelay + o.TestingV3AuthInitialDistDelay < o.TestingV3AuthInitialVotingInterval
      && 0 <= o.TestingV3AuthVotingStartOffset
      && o.TestingV3AuthVotingStartOffset <= o.TestingV3AuthInitialVotingInterval
      && o.TestingV3AuthVotingStartOffset <= o.V3AuthVotingInterval
      && o.TestingAuthDirTimeToLearnReachability >= 0
  {
  }

  /** The only warning of an accepted testing configuration is a learning time above two hours. */
  lemma TestingWarnings(o: VotingOptions)
    requires ValidateTesting(o).Accepted?
    ensures ValidateTesting(o).warnings ==
      (if o.TestingAuthDirTimeToLearnReachability > TWO_HOURS then [LEARN_TOO_HIGH_WARNING] else [])
  {
  }

  /** An accepted initial voting interval divides half an hour into whole rounds. */
  lemma {:induction false} InitialIntervalDividesHalfHour(o: VotingOptions)
    requires ValidateTesting(o).Accepted?
    ensures 5 <= o.TestingV3AuthInitialVotingInterval <= HALF_HOUR
    ensures (HALF_HOUR / o.TestingV3AuthInitialVotingInterval) * o.TestingV3AuthInitialVotingInterval == HALF_HOUR
  {
    TestingAccepted(o);
    var i := o.TestingV3AuthInitialVotingInterval;
    assert HALF_HOUR == (HALF_HOUR / i) * i + HALF_HOUR % i;
  }

  // ---------------------------------------------------------------------
  // options_transition_affects_dirauth_timing and options_act_dirauth

  /** The seven options whose change moves the voting timetable. */
  datatype Timing = Timing(
    votingInterval: int, voteDelay: int, distDelay: int,
    initialVotingInterval: int, initialVoteDelay: int, initialDistDelay: int,
    votingStartOffset: int)

  function TimingOf(o: VotingOptions): Timing
  {
    Timing(o.V3AuthVotingInterval, o.V3AuthVoteDelay, o.V3AuthDistDelay,
           o.TestingV3AuthInitialVotingInterval, o.TestingV3AuthInitialVoteDelay,
           o.TestingV3AuthInitialDistDelay, o.TestingV3AuthVotingStartOffset)
  }

  /** options_transition_affects_dirauth_timing, field by field as the source compares them. */
  predicate TransitionAffectsTiming(prev: VotingOptions, next: VotingOptions)
  {
    if AuthdirModeV3(prev) != AuthdirModeV3(next) then true
    else if !AuthdirModeV3(next) then false
    else (prev.V3AuthVotingInterval != next.V3AuthVotingInterval
          || prev.V3AuthVoteDelay != next.V3AuthVoteDelay
          || prev.V3AuthDistDelay != next.V3AuthDistDelay
          || prev.TestingV3AuthInitialVotingInterval != next.TestingV3AuthInitialVotingInterval
          || prev.TestingV3AuthInitialVoteDelay != next.TestingV3AuthInitialVoteDelay
          || prev.TestingV3AuthInitialDistDelay != next.TestingV3AuthInitialDistDelay
          || prev.TestingV3AuthVotingStartOffset != next.TestingV3AuthVotingStartOffset)
  }

  /** The timetable is affected iff the v3 mode flips, or a v3 authority changes one of the seven timing options. */
  lemma TransitionAffectsTimingIff(prev: VotingOptions, next: VotingOptions)
    ensures TransitionAffectsTiming(prev, next) <==>
      AuthdirModeV3(prev) != AuthdirModeV3(next)
      || (AuthdirModeV3(next) && TimingOf(prev) != TimingOf(next))
  {
  }

  /** Keeping the options never affects the timetable, and the decision does not depend on the direction of the change. */
  lemma TransitionAffectsTimingSymmetric(prev: VotingOptions, next: VotingOptions)
    ensures !TransitionAffectsTiming(prev, prev)
    ensures TransitionAffectsTiming(prev, next) == TransitionAffectsTiming(next, prev)
  {
  }

  /** Options no authority reads (anything outside the mode flags and the seven timing options) never affect the timetable. */
  lemma OtherOptionsDoNotAffectTiming(prev: VotingOptions, next: VotingOptions)
    requires AuthdirModeV3(prev) == AuthdirModeV3(next)
    requires TimingOf(prev) == TimingOf(next)
    ensures !TransitionAffectsTiming(prev, next)
  {
  }

  /**
   * options_act_dirauth: whether the voting schedule is recalculated and
   * the vote rescheduled (only when there were previous options).
   */
  function ActDirauthReschedules(prev: Option<VotingOptions>, next: VotingOptions): (r: bool)
    ensures r <==> prev.Some? && TransitionAffectsTiming(prev.value, next)
  {
    match prev
    case None => false
    case Some(p) => TransitionAffectsTiming(p, next)
  }

  // ---------------------------------------------------------------------
  // options_act_dirauth_stats

  /** Calls the statistics action makes into the history module (rep_hist_*, not part of this model). */
  datatype StatsEvent = DescStatsInit | DescStatsTerm

  /**
   * options_act_dirauth_stats: the new value of *print_notice_out and the
   * events, given BridgeAuthoritativeDir of the previous options (None when
   * there are none) and of the new ones.
   */
  function ActDirauthStats(prevBridgeAuth: Option<bool>, bridgeAuth: bool, printNotice: bool): (r: (bool, seq<StatsEvent>))
    ensures r.0 <==> printNotice || (bridgeAuth && prevBridgeAuth != Some(true))
    ensures DescStatsInit in r.1 <==> bridgeAuth && prevBridgeAuth != Some(true)
    ensures DescStatsTerm in r.1 <==> prevBridgeAuth == Some(true) && !bridgeAuth
    ensures |r.1| <= 1
  {
    var newlyEnabled := bridgeAuth && (prevBridgeAuth.None? || !prevBridgeAuth.value);
    var started := if bridgeAuth then (if newlyEnabled then [DescStatsInit] else []) else [];
    var notice := if bridgeAuth && newlyEnabled then true else printNotice;
    var stopped := if prevBridgeAuth.Some? && prevBridgeAuth.value && !bridgeAuth then [DescStatsTerm] else [];
    (notice, started + stopped)
  }

  /** Acting again on unchanged options starts and stops nothing and leaves the notice flag as it was. */
  lemma ActDirauthStatsRepeatable(bridgeAuth: bool, printNotice: bool)
    ensures ActDirauthStats(Some(bridgeAuth), bridgeAuth, printNotice) == (printNotice, [])
  {
  }

  /** The notice flag is only ever set, never cleared. */
  lemma ActDirauthStatsNoticeSticky(prevBridgeAuth: Option<bool>, bridgeAuth: bool)
    ensures ActDirauthStats(prevBridgeAuth, bridgeAuth, true).0
  {
  }

  // ---------------------------------------------------------------------
  // options_validate_dirauth_mode

  /** The reasons options_validate_dirauth_mode rejects an authority's options. */
  datatype ModeRejection =
    | AddressUnresolved
    | NoContactInfo
    | NoRecommendedVersions
    | NoAuthorityKind
    | NoDirPort
    | NoORPort
    | ClientOnlySet

  /** The message REJECT() sets for each reason. */
  function ModeMessage(r: ModeRejection): string
  {
    match r
    case AddressUnresolved => "Failed to resolve/guess local address. See logs for details."
    case NoContactInfo => "Authoritative directory servers must set ContactInfo"
    case NoRecommendedVersions => "Versioning authoritative dir servers must set Recommended*Versions."
    case NoAuthorityKind => "AuthoritativeDir is set, but none of (Bridge/V3)AuthoritativeDir is set."
    case NoDirPort => "Running as authoritative directory, but no DirPort set."
    case NoORPort => "Running as authoritative directory, but no ORPort set."
    case ClientOnlySet => "Running as authoritative directory, but ClientOnly also set."
  }

  /**
   * The rejections of options_validate_dirauth_mode for an authority, in the
   * source's order. `hasClientVersions` and `hasServerVersions` are whether
   * the lists are non-empty after being defaulted from RecommendedVersions.
   */
  function AuthorityRejection(addressResolves: bool, hasContactInfo: bool, testing: bool,
                              versioning: bool, hasClientVersions: bool, hasServerVersions: bool,
                              bridgeAuth: bool, v3Auth: bool,
                              dirPortSet: bool, orPortSet: bool, clientOnly: bool): (r: Option<ModeRejection>)
    ensures r.None? <==>
      addressResolves && (hasContactInfo || testing)
      && (versioning ==> hasClientVersions && hasServerVersions)
      && (bridgeAuth || v3Auth) && dirPortSet && orPortSet && !clientOnly
    ensures !addressResolves ==> r == Some(AddressUnresolved)
    ensures addressResolves && !(bridgeAuth || v3Auth) && (hasContactInfo || testing) && !versioning ==>
      r == Some(NoAuthorityKind)
  {
    if !addressResolves then Some(AddressUnresolved)
    else if !hasContactInfo && !testing then Some(NoContactInfo)
    else if versioning && (!hasClientVersions || !hasServerVersions) then Some(NoRecommendedVersions)
    else if !(bridgeAuth || v3Auth) then Some(NoAuthorityKind)
    else if !dirPortSet then Some(NoDirPort)
    else if !orPortSet then Some(NoORPort)
    else if clientOnly then Some(ClientOnlySet)
    else None
  }

  /** A versioning authority needs no per-kind lists when RecommendedVersions is set: the defaults fill both. */
  lemma RecommendedVersionsSuffice(rv: seq<ConfigLine>, rcv: seq<ConfigLine>, rsv: seq<ConfigLine>)
    requires rv != []
    ensures DefaultedVersions(rcv, rv) != [] && DefaultedVersions(rsv, rv) != []
  {
  }

  /** A Recommended*Versions list after the default: RecommendedVersions when it was unset (NULL is the empty list). */
  function DefaultedVersions(lines: seq<ConfigLine>, recommended: seq<ConfigLine>): (r: seq<ConfigLine>)
    ensures lines != [] ==> r == lines
    ensures lines == [] ==> r == recommended
  {
    if lines == [] then recommended else lines
  }

  /** The options options_validate_dirauth_mode reads and normalises. */
  class DirauthModeOptions {
    var voting: VotingOptions
    var ContactInfo: Option<string>
    var RecommendedVersions: seq<ConfigLine>
    var RecommendedClientVersions: seq<ConfigLine>
    var RecommendedServerVersions: seq<ConfigLine>
    var VersioningAuthoritativeDir: bool
    var BridgeAuthoritativeDir: bool
    var UseEntryGuards: bool
    var DownloadExtraInfo: bool
    var DirPort_set: bool
    var ORPort_set: bool
    var ClientOnly: bool
    var MinUptimeHidServDirectoryV2: int

    /** What the checks before the rejection of a versioning authority need: an address and contact information. */
    predicate PassesContactChecks(addressResolves: bool)
      reads this
    {
      voting.AuthoritativeDir && addressResolves && (ContactInfo.Some? || voting.TestingTorNetwork)
    }

    /** The rejection this validator would give, if any, with the current options. */
    function Rejection(addressResolves: bool): (r: Option<ModeRejection>)
      reads this
    {
      if !voting.AuthoritativeDir then None
      else AuthorityRejection(addressResolves, ContactInfo.Some?, voting.TestingTorNetwork,
                              VersioningAuthoritativeDir,
                              DefaultedVersions(RecommendedClientVersions, RecommendedVersions) != [],
                              DefaultedVersions(RecommendedServerVersions, RecommendedVersions) != [],
                              BridgeAuthoritativeDir, voting.V3AuthoritativeDir,
                              DirPort_set, ORPort_set, ClientOnly)
    }

    /** Missing Recommended{Client,Server}Versions default to RecommendedVersions. */
    method DefaultRecommendedVersions()
      modifies this`RecommendedClientVersions, this`RecommendedServerVersions
      ensures RecommendedClientVersions == DefaultedVersions(old(RecommendedClientVersions), RecommendedVersions)
      ensures RecommendedServerVersions == DefaultedVersions(old(RecommendedServerVersions), RecommendedVersions)
    {
      if RecommendedClientVersions == [] {
        RecommendedClientVersions := RecommendedVersions;
      }
      if RecommendedServerVersions == [] {
        RecommendedServerVersions := RecommendedVersions;
      }
    }

    /** An authority never uses entry guards, and a v3 authority always downloads extra-info documents. */
    method DisableClientBehaviour()
      modifies this`UseEntryGuards, this`DownloadExtraInfo
      ensures !UseEntryGuards
      ensures DownloadExtraInfo == (old(DownloadExtraInfo) || AuthdirModeV3(voting))
    {
      if UseEntryGuards {
        UseEntryGuards := false;
      }
      if !DownloadExtraInfo && AuthdirModeV3(voting) {
        DownloadExtraInfo := true;
      }
    }

    /** The checks and normalisation options_validate_dirauth_mode makes in authority mode. */
    method ValidateAuthority(addressResolves: bool) returns (err: Option<ModeRejection>)
      requires voting.AuthoritativeDir
      modifies this`RecommendedClientVersions, this`RecommendedServerVersions,
               this`UseEntryGuards, this`DownloadExtraInfo
      ensures err == old(Rejection(addressResolves))
      ensures old(PassesContactChecks(addressResolves)) ==>
        RecommendedClientVersions == DefaultedVersions(old(RecommendedClientVersions), RecommendedVersions)
        && RecommendedServerVersions == DefaultedVersions(old(RecommendedServerVersions), RecommendedVersions)
      ensures !old(PassesContactChecks(addressResolves)) ==>
        RecommendedClientVersions == old(RecommendedClientVersions)
        && RecommendedServerVersions == old(RecommendedServerVersions)
      ensures old(PassesContactChecks(addressResolves))
              && !(VersioningAuthoritativeDir && (RecommendedClientVersions == [] || RecommendedServerVersions == [])) ==>
        !UseEntryGuards && DownloadExtraInfo == (old(DownloadExtraInfo) || AuthdirModeV3(voting))
      ensures !old(PassesContactChecks(addressResolves))
              || (VersioningAuthoritativeDir && (RecommendedClientVersions == [] || RecommendedServerVersions == [])) ==>
        UseEntryGuards == old(UseEntryGuards) && DownloadExtraInfo == old(DownloadExtraInfo)
    {
      if !addressResolves {
        return Some(AddressUnresolved);
      }
      if ContactInfo.None? && !voting.TestingTorNetwork {
        return Some(NoContactInfo);
      }
      DefaultRecommendedVersions();
      if VersioningAuthoritativeDir && (RecommendedClientVersions == [] || RecommendedServerVersions == []) {
        return Some(NoRecommendedVersions);
      }
      DisableClientBehaviour();
      if !(BridgeAuthoritativeDir || voting.V3AuthoritativeDir) {
        return Some(NoAuthorityKind);
      }
      if !DirPort_set {
        return Some(NoDirPort);
      }
      if !ORPort_set {
        return Some(NoORPort);
      }
      if ClientOnly {
        return Some(ClientOnlySet);
      }
      return None;
    }

    /**
     * options_validate_dirauth_mode. `addressResolves` is the outcome of
     * resolve_my_address. Before a rejection the options keep the changes
     * made so far; a negative MinUptimeHidServDirectoryV2 is clamped to 0
     * whenever nothing is rejected, in authority mode or not.
     */
    method ValidateDirauthMode(addressResolves: bool) returns (err: Option<ModeRejection>)
      modifies this`RecommendedClientVersions, this`RecommendedServerVersions,
               this`UseEntryGuards, this`DownloadExtraInfo, this`MinUptimeHidServDirectoryV2
      ensures err == old(Rejection(addressResolves))
      ensures !voting.AuthoritativeDir ==>
        RecommendedClientVersions == old(RecommendedClientVersions)
        && RecommendedServerVersions == old(RecommendedServerVersions)
        && UseEntryGuards == old(UseEntryGuards) && DownloadExtraInfo == old(DownloadExtraInfo)
      ensures old(PassesContactChecks(addressResolves)) ==>
        RecommendedClientVersions == DefaultedVersions(old(RecommendedClientVersions), RecommendedVersions)
        && RecommendedServerVersions == DefaultedVersions(old(RecommendedServerVersions), RecommendedVersions)
      ensures voting.AuthoritativeDir && !old(PassesContactChecks(addressResolves)) ==>
        RecommendedClientVersions == old(RecommendedClientVersions)
        && RecommendedServerVersions == old(RecommendedServerVersions)
      ensures old(PassesContactChecks(addressResolves))
              && !(VersioningAuthoritativeDir && (RecommendedClientVersions == [] || RecommendedServerVersions == [])) ==>
        !UseEntryGuards && DownloadExtraInfo == (old(DownloadExtraInfo) || AuthdirModeV3(voting))
      ensures !old(PassesContactChecks(addressResolves))
              || (VersioningAuthoritativeDir && (RecommendedClientVersions == [] || RecommendedServerVersions == [])) ==>
        UseEntryGuards == old(UseEntryGuards) && DownloadExtraInfo == old(DownloadExtraInfo)
      ensures err.None? && voting.AuthoritativeDir ==>
        !UseEntryGuards && DownloadExtraInfo == (old(DownloadExtraInfo) || AuthdirModeV3(voting))
      ensures MinUptimeHidServDirectoryV2 ==
        (if err.None? && old(MinUptimeHidServDirectoryV2) < 0 then 0 else old(MinUptimeHidServDirectoryV2))
      ensures err.None? ==> MinUptimeHidServDirectoryV2 >= 0
    {
      if voting.AuthoritativeDir {
        err := ValidateAuthority(addressResolves);
        if err.Some? {
          return;
        }
      }
      if MinUptimeHidServDirectoryV2 < 0 {
        MinUptimeHidServDirectoryV2 := 0;
      }
      return None;
    }
  }
}

=== FILE: machine_ints.dfy ===
/** The fixed-width unsigned integer types of C and Rust, as ranges of integers. */
module MachineInts {
  const U32_MAX: int := 0xFFFF_FFFF
  const U64_MAX: int := 0xFFFF_FFFF_FFFF_FFFF

  type uint32 = x: int | 0 <= x <= U32_MAX
  type uint64 = x: int | 0 <= x <= U64_MAX
}

=== FILE: muldiv.dfy ===
/**
 * Integer helpers for multiplication, division and rounding
 * (src/lib/intmath/muldiv.c): rounding up to a multiple, the greatest common
 * divisor, reducing a fraction, and multiplication that saturates instead of
 * wrapping.
 */
module MulDiv {
  import opened MachineInts
  import opened Arithmetic

  const TWO_32: int := 0x1_0000_0000
  const UINT32_MAX: uint32 := U32_MAX

  /** r is the smallest multiple of divisor that is at least number. */
  predicate LeastMultipleAtLeast(r: int, number: int, divisor: int)
    requires divisor > 0
  {
    r % divisor == 0 && number <= r < number + divisor
  }

  /** What the three C rounding functions compute below their overflow test. */
  lemma RoundUpStep(number: nat, divisor: nat, max: nat)
    requires 0 < divisor <= max && number <= max - divisor + 1
    ensures (number + divisor - 1) - (number + divisor - 1) % divisor <= max
    ensures LeastMultipleAtLeast((number + divisor - 1) - (number + divisor - 1) % divisor, number, divisor)
  {
    var s := number + divisor - 1;
    DivMod(s, divisor);
    var q := s / divisor;
    assert s - s % divisor == divisor * q;
    MultipleMod(divisor, q);
  }

  /** round_to_next_multiple_of, with `unsigned` 32 bits wide. */
  function RoundToNextMultipleOf(number: uint32, divisor: uint32): (r: uint32)
    requires divisor > 0
    ensures number <= U32_MAX - divisor + 1 ==> LeastMultipleAtLeast(r, number, divisor)
    ensures number > U32_MAX - divisor + 1 ==> r == U32_MAX
  {
    if U32_MAX - divisor + 1 < number then U32_MAX
    else
      RoundUpStep(number, divisor, U32_MAX);
      (number + divisor - 1) - (number + divisor - 1) % divisor
  }

  /** round_uint32_to_next_multiple_of */
  function RoundUint32ToNextMultipleOf(number: uint32, divisor: uint32): (r: uint32)
    requires divisor > 0
    ensures number <= U32_MAX - divisor + 1 ==> LeastMultipleAtLeast(r, number, divisor)
    ensures number > U32_MAX - divisor + 1 ==> r == U32_MAX
  {
    if U32_MAX - divisor + 1 < number then U32_MAX
    else
      RoundUpStep(number, divisor, U32_MAX);
      (number + divisor - 1) - (number + divisor - 1) % divisor
  }

  /** round_uint64_to_next_multiple_of */
  function RoundUint64ToNextMultipleOf(number: uint64, divisor: uint64): (r: uint64)
    requires divisor > 0
    ensures number <= U64_MAX - divisor + 1 ==> LeastMultipleAtLeast(r, number, divisor)
    ensures number > U64_MAX - divisor + 1 ==> r == U64_MAX
  {
    if U64_MAX - divisor + 1 < number then U64_MAX
    else
      RoundUpStep(number, divisor, U64_MAX);
      (number + divisor - 1) - (number + divisor - 1) % divisor
  }

  /**
   * The rounding functions return the maximum although a multiple of the
   * divisor at least as large as the number is representable: 4294967292 is
   * 7 * 613566756, and the maximum itself is no multiple of 7.
   */
  lemma RoundUint32MissesRepresentableMultiple()
    ensures RoundUint32ToNextMultipleOf(4294967290, 7) == U32_MAX
    ensures LeastMultipleAtLeast(4294967292, 4294967290, 7) && 4294967292 <= U32_MAX
    ensures U32_MAX % 7 != 0
  {
  }

  /**
   * Rounding up as documented: the smallest multiple of divisor that is at
   * least number, or max when no multiple in [number, max] exists.
   */
  function RoundUpOrMax(number: nat, divisor: nat, max: nat): (r: nat)
    requires 0 < divisor && number <= max
    ensures r <= max
    ensures (exists m :: number <= m <= max && m % divisor == 0) ==> LeastMultipleAtLeast(r, number, divisor)
    ensures (forall m :: number <= m <= max ==> m % divisor != 0) ==> r == max
  {
    if number > max - max % divisor then
      NoMultipleAbove(number, divisor, max);
      max
    else
      LeastMultipleOf(number, divisor);
      MultipleWithinBound(number, divisor, max);
      number + (divisor - number % divisor) % divisor
  }

  lemma LeastMultipleOf(number: nat, divisor: nat)
    requires divisor > 0
    ensures LeastMultipleAtLeast(number + (divisor - number % divisor) % divisor, number, divisor)
  {
    DivMod(number, divisor);
    var q, m := number / divisor, number % divisor;
    if m == 0 {
      ModUnique(divisor, divisor, 1, 0);
      assert number == divisor * q;
      MultipleMod(divisor, q);
    } else {
      ModUnique(divisor, divisor - m, 0, divisor - m);
      assert number + (divisor - m) == divisor * (q + 1);
      MultipleMod(divisor, q + 1);
    }
  }

  /** Between max - max % divisor and max no number is a multiple of divisor. */
  lemma NoMultipleAbove(number: nat, divisor: nat, max: nat)
    requires 0 < divisor && number <= max && number > max - max % divisor
    ensures forall m :: number <= m <= max ==> m % divisor != 0
  {
    DivMod(max, divisor);
    var q := max / divisor;
    forall m | number <= m <= max ensures m % divisor != 0 {
      ModUnique(divisor, m, q, m - divisor * q);
    }
  }

  /** When number <= max - max % divisor the rounded value does not pass max. */
  lemma MultipleWithinBound(number: nat, divisor: nat, max: nat)
    requires 0 < divisor && number <= max - max % divisor
    ensures number + (divisor - number % divisor) % divisor <= max
  {
    LeastMultipleOf(number, divisor);
    var r := number + (divisor - number % divisor) % divisor;
    DivMod(max, divisor);
    var q := max / divisor;
    ExactDiv(r, divisor);
    var k := r / divisor;
    assert divisor * k < divisor * (q + 1);
    MulLess(divisor, k, q + 1);
    MulMonoInt(divisor, k, q);
  }

  /** The as-written rounding agrees with the documented one below the overflow test. */
  lemma RoundUint32Agrees(number: uint32, divisor: uint32)
    requires 0 < divisor && number <= U32_MAX - divisor + 1
    ensures RoundUint32ToNextMultipleOf(number, divisor) == RoundUpOrMax(number, divisor, U32_MAX)
  {
    var r := RoundUint32ToNextMultipleOf(number, divisor);
    assert r <= U32_MAX && LeastMultipleAtLeast(r, number, divisor);
    LeastMultipleUnique(r, RoundUpOrMax(number, divisor, U32_MAX), number, divisor);
  }

  lemma LeastMultipleUnique(r: int, s: int, number: int, divisor: int)
    requires divisor > 0 && LeastMultipleAtLeast(r, number, divisor) && LeastMultipleAtLeast(s, number, divisor)
    ensures r == s
  {
    ExactDiv(r, divisor);
    ExactDiv(s, divisor);
    var qr, qs := r / divisor, s / divisor;
    assert divisor * (qr - qs) == r - s;
    MulSmall(divisor, qr - qs);
  }

  /** d divides n; zero divides only zero. */
  predicate Divides(d: nat, n: int) {
    if d == 0 then n == 0 else n % d == 0
  }

  /** Euclid's algorithm, the reference for gcd64. */
  function Gcd(a: nat, b: nat): nat
    decreases b
  {
    if b == 0 then a else Gcd(b, a % b)
  }

  lemma DividesCombination(c: nat, x: int, y: int, q: int)
    requires Divides(c, x) && Divides(c, y)
    ensures Divides(c, q * x + y)
  {
    if c > 0 {
      ExactDiv(x, c);
      ExactDiv(y, c);
      var i, j := x / c, y / c;
      assert q * x + y == c * (q * i + j);
      MultipleMod(c, q * i + j);
    }
  }

  /** The gcd divides both arguments. */
  lemma {:induction false} GcdDivides(a: nat, b: nat)
    ensures Divides(Gcd(a, b), a) && Divides(Gcd(a, b), b)
    decreases b
  {
    if b > 0 {
      var r := a % b;
      GcdDivides(b, r);
      DivMod(a, b);
      assert a == (a / b) * b + r;
      DividesCombination(Gcd(b, r), b, r, a / b);
    }
  }

  /** Every common divisor of the arguments divides the gcd. */
  lemma {:induction false} GcdGreatest(a: nat, b: nat, c: nat)
    requires Divides(c, a) && Divides(c, b)
    ensures Divides(c, Gcd(a, b))
    decreases b
  {
    if b > 0 {
      var r := a % b;
      DivMod(a, b);
      assert r == (-(a / b)) * b + a;
      DividesCombination(c, b, a, -(a / b));
      GcdGreatest(b, r, c);
    }
  }

  /** The gcd is zero only for two zeros. */
  lemma {:induction false} GcdPositive(a: nat, b: nat)
    requires a > 0 || b > 0
    ensures Gcd(a, b) > 0
    decreases b
  {
    if b > 0 {
      GcdPositive(b, a % b);
    }
  }

  /** gcd64: Euclid's loop. */
  method Gcd64(a: uint64, b: uint64) returns (g: uint64)
    ensures g == Gcd(a, b)
  {
    var x, y := a, b;
    while y != 0
      invariant Gcd(x, y) == Gcd(a, b)
      decreases y
    {
      var t := y;
      y := x % y;
      x := t;
    }
    g := x;
  }

  /**
   * simplify_fraction64: divide numerator and denominator by their gcd.  The
   * result has the same ratio and is in lowest terms.
   */
  method SimplifyFraction64(numer: uint64, denom: uint64) returns (n: uint64, d: uint64)
    requires denom > 0
    ensures n * denom == numer * d
    ensures d > 0 && Gcd(n, d) == 1
    ensures numer == n * Gcd(numer, denom) && denom == d * Gcd(numer, denom)
  {
    var g := Gcd64(numer, denom);
    GcdPositive(numer, denom);
    GcdDivides(numer, denom);
    n := numer / g;
    d := denom / g;
    ReduceFraction(numer, denom, g, n, d);
  }

  /** The facts about dividing both terms by their gcd, apart from the loop. */
  lemma ReduceFraction(numer: nat, denom: nat, g: nat, n: nat, d: nat)
    requires denom > 0 && g == Gcd(numer, denom) && g > 0
    requires Divides(g, numer) && Divides(g, denom) && n == numer / g && d == denom / g
    ensures n * denom == numer * d && d > 0 && Gcd(n, d) == 1
    ensures numer == n * g && denom == d * g
  {
    ExactDiv(numer, g);
    ExactDiv(denom, g);
    PositiveFactor(g, d);
    SameRatio(g, n, d);
    LowestTerms(numer, denom, g, n, d);
  }

  lemma PositiveFactor(g: nat, d: nat)
    requires g * d > 0
    ensures d > 0
  {
  }

  lemma SameRatio(g: nat, n: nat, d: nat)
    ensures n * (g * d) == (g * n) * d
  {
  }

  /** Dividing both terms by their gcd leaves terms whose gcd is one. */
  lemma LowestTerms(numer: nat, denom: nat, g: nat, n: nat, d: nat)
    requires g == Gcd(numer, denom) && g > 0 && d > 0
    requires numer == g * n && denom == g * d
    ensures Gcd(n, d) == 1
  {
    var h := Gcd(n, d);
    GcdPositive(n, d);
    GcdDivides(n, d);
    ScaledDivides(h, g, n);
    ScaledDivides(h, g, d);
    GcdGreatest(numer, denom, h * g);
    DividesSelfScaled(h, g);
  }

  /** Only h = 1 makes h * g divide g. */
  lemma DividesSelfScaled(h: nat, g: nat)
    requires h > 0 && g > 0 && Divides(h * g, g)
    ensures h == 1
  {
    DividesLe(h * g, g);
    MulMonoInt(g, 1, h);
    assert g * (h - 1) == h * g - g;
    MulSmall(g, h - 1);
  }

  /** If h divides n then h * g divides g * n. */
  lemma ScaledDivides(h: nat, g: nat, n: nat)
    requires h > 0 && Divides(h, n)
    ensures Divides(h * g, g * n)
  {
    ExactDiv(n, h);
    var i := n / h;
    assert g * n == (h * g) * i;
    if g > 0 {
      MultipleMod(h * g, i);
    }
  }

  /** A positive multiple of c is at least c. */
  lemma DividesLe(c: nat, n: nat)
    requires n > 0
    ensures Divides(c, n) ==> c <= n
  {
    if c > 0 && n % c == 0 {
      ExactDiv(n, c);
      var k := n / c;
      MulSmall(c, k);
      MulMonoInt(c, 1, k);
    }
  }

  /**
   * tor_mul_u32_nowrap as written: both operands are 32-bit, so the product is
   * formed in 32-bit arithmetic and wraps before it is widened; the cap never
   * applies.
   */
  function MulU32NowrapAsWritten(a: uint32, b: uint32): (r: uint32)
    ensures r == (a * b) % TWO_32
  {
    var ab := (a * b) % TWO_32;
    if ab > U32_MAX then UINT32_MAX else ab
  }

  /** 65536 * 65536 wraps to zero instead of saturating. */
  lemma MulU32NowrapWraps()
    ensures 65536 * 65536 > U32_MAX
    ensures MulU32NowrapAsWritten(65536, 65536) == 0
  {
  }

  /** Saturating 32-bit multiplication as intended: the product widened before the comparison. */
  function MulU32Nowrap(a: uint32, b: uint32): (r: uint32)
    ensures r == if a * b <= U32_MAX then a * b else U32_MAX
  {
    MulMono(a, b, U32_MAX, U32_MAX);
    var ab: uint64 := a * b;
    if ab > U32_MAX then U32_MAX else ab
  }

  /** The two agree exactly when the product fits, or wraps onto the maximum itself. */
  lemma MulU32NowrapAgreement(a: uint32, b: uint32)
    ensures MulU32NowrapAsWritten(a, b) == MulU32Nowrap(a, b) <==> (a * b <= U32_MAX || (a * b) % TWO_32 == U32_MAX)
  {
    if a * b <= U32_MAX {
      ModUnique(TWO_32, a * b, 0, a * b);
    }
  }

  function Pow2(n: nat): (p: nat)
    ensures p >= 1
  {
    if n == 0 then 1 else 2 * Pow2(n - 1)
  }

  lemma {:induction false} Pow2Add(m: nat, n: nat)
    ensures Pow2(m + n) == Pow2(m) * Pow2(n)
    decreases m
  {
    if m > 0 {
      Pow2Add(m - 1, n);
      assert Pow2(m + n) == 2 * Pow2(m - 1 + n);
    }
  }

  lemma {:induction false} Pow2Mono(m: nat, n: nat)
    requires m <= n
    ensures Pow2(m) <= Pow2(n)
    decreases n
  {
    if m < n {
      Pow2Mono(m, n - 1);
    }
  }

  lemma Pow2At64()
    ensures Pow2(64) == U64_MAX + 1
  {
    assert Pow2(2) == 4;
    Pow2Add(2, 2);
    assert Pow2(4) == 16;
    Pow2Add(4, 4);
    assert Pow2(8) == 256;
    Pow2Add(8, 8);
    assert Pow2(16) == 65536;
    Pow2Add(16, 16);
    assert Pow2(32) == 4294967296;
    Pow2Add(32, 32);
  }

  /** tor_log2: the floor of the base-2 logarithm, and 0 for 0. */
  function Log2(x: nat): (l: nat)
    ensures x >= 1 ==> Pow2(l) <= x < Pow2(l + 1)
  {
    if x < 2 then 0 else 1 + Log2(x / 2)
  }

  /**
   * tor_mul_u64_wrap_classify: 1 when a * b surely exceeds UINT64_MAX, -1 when
   * it surely does not, 0 when the logarithms cannot tell.
   */
  function MulU64WrapClassify(a: uint64, b: uint64): (r: int)
    ensures -1 <= r <= 1
    ensures r == 1 ==> a * b > U64_MAX
    ensures r == -1 ==> a * b <= U64_MAX
  {
    if a < 2 || b < 2 then
      SmallFactor(a, b);
      -1
    else
      LogClassification(a, b);
      if Log2(a) + Log2(b) >= 64 then 1
      else if Log2(a) + Log2(b) <= 62 then -1
      else 0
  }

  /** What the sum of the logarithms tells about the product. */
  lemma LogClassification(a: nat, b: nat)
    requires a >= 2 && b >= 2
    ensures Log2(a) + Log2(b) >= 64 ==> a * b > U64_MAX
    ensures Log2(a) + Log2(b) <= 62 ==> a * b <= U64_MAX
  {
    var la, lb := Log2(a), Log2(b);
    ProductPow2Bounds(a, b, la, lb);
    Pow2At64();
    if la + lb >= 64 {
      Pow2Mono(64, la + lb);
    } else if la + lb <= 62 {
      Pow2Mono(la + lb + 2, 64);
    }
  }

  lemma SmallFactor(a: uint64, b: uint64)
    requires a < 2 || b < 2
    ensures a * b <= U64_MAX
  {
    if a == 0 || b == 0 {
      assert a * b == 0;
    } else if a == 1 {
      assert a * b == b;
    } else {
      assert a * b == a;
    }
  }

  /** The product lies between 2^(la + lb) and 2^(la + lb + 2). */
  lemma ProductPow2Bounds(a: nat, b: nat, la: nat, lb: nat)
    requires Pow2(la) <= a < Pow2(la + 1) && Pow2(lb) <= b < Pow2(lb + 1)
    ensures Pow2(la + lb) <= a * b < Pow2(la + lb + 2)
  {
    Pow2Add(la, lb);
    Pow2Add(la + 1, lb + 1);
    ProductBetween(a, b, Pow2(la), Pow2(lb), Pow2(la + 1), Pow2(lb + 1));
  }

  lemma ProductBetween(a: nat, b: nat, pa: nat, pb: nat, qa: nat, qb: nat)
    requires pa <= a < qa && pb <= b < qb
    ensures pa * pb <= a * b < qa * qb
  {
    MulMono(pa, pb, a, b);
    MulMono(a + 1, b + 1, qa, qb);
    assert (a + 1) * (b + 1) == a * b + a + b + 1;
  }

  lemma DivBound(a: nat, b: nat, max: nat)
    requires b > 0
    ensures a > max / b <==> a * b > max
  {
    DivMod(max, b);
    var q := max / b;
    if a > q {
      MulMonoInt(b, q + 1, a);
      assert b * a == a * b;
    } else {
      MulMonoInt(b, a, q);
      assert b * a == a * b;
    }
  }

  /** tor_mul_u64_nowrap: the product, capped at UINT64_MAX. */
  function MulU64Nowrap(a: uint64, b: uint64): (r: uint64)
    ensures r == if a * b <= U64_MAX then a * b else U64_MAX
  {
    var wrapClass := MulU64WrapClassify(a, b);
    if wrapClass < 0 then a * b
    else if wrapClass > 0 then U64_MAX
    else
      DivBound(a, b, U64_MAX);
      if a > U64_MAX / b then U64_MAX else a * b
  }
}

=== FILE: numerals.dfy ===
/**
 * Positional numerals: the digits a number is written with in a radix from 2
 * to 16, and the value a string of such digits denotes.  Rust's `{}`
 * formatting of an unsigned integer and tor's signal-safe number formatting
 * both produce these digits.
 */
module Numerals {
  import Arithmetic

  /** The digit alphabet, upper case beyond nine. */
  const DIGIT_CHARS: string := "0123456789ABCDEF"

  predicate ValidRadix(radix: int) {
    2 <= radix <= 16
  }

  /** The value of one digit character, or -1 when it is not a digit. */
  function DigitValue(c: char): (d: int)
    ensures -1 <= d < 16
    ensures 0 <= d ==> DIGIT_CHARS[d] == c
  {
    if '0' <= c <= '9' then c as int - '0' as int
    else if 'A' <= c <= 'F' then c as int - 'A' as int + 10
    else -1
  }

  predicate IsDigitOf(c: char, radix: int) {
    0 <= DigitValue(c) < radix
  }

  predicate AllDigitsOf(s: string, radix: int) {
    forall i :: 0 <= i < |s| ==> IsDigitOf(s[i], radix)
  }

  /** Decimal digits are exactly the characters '0' to '9'. */
  lemma DecimalDigit(c: char)
    ensures IsDigitOf(c, 10) <==> '0' <= c <= '9'
  {
  }

  /** Each digit character denotes its own position in the alphabet. */
  lemma DigitCharValue(k: int)
    requires 0 <= k < 16
    ensures DigitValue(DIGIT_CHARS[k]) == k
  {
    assert DIGIT_CHARS[0] == '0' && DIGIT_CHARS[1] == '1' && DIGIT_CHARS[2] == '2' && DIGIT_CHARS[3] == '3';
    assert DIGIT_CHARS[4] == '4' && DIGIT_CHARS[5] == '5' && DIGIT_CHARS[6] == '6' && DIGIT_CHARS[7] == '7';
    assert DIGIT_CHARS[8] == '8' && DIGIT_CHARS[9] == '9' && DIGIT_CHARS[10] == 'A' && DIGIT_CHARS[11] == 'B';
    assert DIGIT_CHARS[12] == 'C' && DIGIT_CHARS[13] == 'D' && DIGIT_CHARS[14] == 'E' && DIGIT_CHARS[15] == 'F';
  }

  /** Euclidean division by the radix, and the quotient shrinks. */
  lemma DivRadix(x: nat, radix: nat)
    requires ValidRadix(radix) && x >= radix
    ensures x == radix * (x / radix) + x % radix
    ensures 0 <= x % radix < radix
    ensures 1 <= x / radix < x
  {
    Arithmetic.DivMod(x, radix);
    Arithmetic.MulSmall(radix, x / radix);
    Arithmetic.MulMonoInt(radix, 1, x / radix);
  }

  /** The number of digits x needs in the radix. */
  function NumDigits(x: nat, radix: nat): (n: nat)
    requires ValidRadix(radix)
    ensures n >= 1
  {
    if x < radix then 1 else 1 + NumDigits(x / radix, radix)
  }

  /** The digits of x, most significant first. */
  function Digits(x: nat, radix: nat): (s: string)
    requires ValidRadix(radix)
    ensures |s| == NumDigits(x, radix)
  {
    if x < radix then [DIGIT_CHARS[x]]
    else
      DivRadix(x, radix);
      Digits(x / radix, radix) + [DIGIT_CHARS[x % radix]]
  }

  /** Every character of the digits is a digit of the radix, and there is no leading zero. */
  lemma {:induction false} DigitsWellFormed(x: nat, radix: nat)
    requires ValidRadix(radix)
    ensures AllDigitsOf(Digits(x, radix), radix)
    ensures |Digits(x, radix)| > 1 ==> Digits(x, radix)[0] != '0'
  {
    if x < radix {
      DigitCharValue(x);
    } else {
      DivRadix(x, radix);
      DigitCharValue(x % radix);
      DigitsWellFormed(x / radix, radix);
      var t := Digits(x / radix, radix);
      if |t| == 1 {
        DigitCharValue(x / radix);
      }
    }
  }

  /** The value denoted by a string of digits, most significant first. */
  function ValueOf(s: string, radix: nat): nat
    requires ValidRadix(radix) && AllDigitsOf(s, radix)
  {
    if s == [] then 0
    else ValueOf(s[..|s| - 1], radix) * radix + DigitValue(s[|s| - 1])
  }

  /** Reading back the digits of x gives x. */
  lemma {:induction false} ValueOfDigits(x: nat, radix: nat)
    requires ValidRadix(radix)
    ensures AllDigitsOf(Digits(x, radix), radix) && ValueOf(Digits(x, radix), radix) == x
  {
    if x < radix {
      DigitCharValue(x);
      var s := Digits(x, radix);
      ValueOfSnoc([], s[0], radix);
      assert s == [] + [s[0]];
    } else {
      DivRadix(x, radix);
      ValueOfDigits(x / radix, radix);
      ValueOfDigitsStep(x, radix);
    }
  }

  /** One more digit: the value of the digits of x from those of x / radix. */
  lemma ValueOfDigitsStep(x: nat, radix: nat)
    requires ValidRadix(radix) && x >= radix
    requires AllDigitsOf(Digits(x / radix, radix), radix)
    requires ValueOf(Digits(x / radix, radix), radix) == x / radix
    ensures AllDigitsOf(Digits(x, radix), radix) && ValueOf(Digits(x, radix), radix) == x
  {
    DivRadix(x, radix);
    var q, r := x / radix, x % radix;
    DigitCharValue(r);
    var t, c := Digits(q, radix), DIGIT_CHARS[r];
    assert Digits(x, radix) == t + [c];
    forall i | 0 <= i < |t| + 1
      ensures IsDigitOf((t + [c])[i], radix)
    {
      if i < |t| {
        assert (t + [c])[i] == t[i];
      }
    }
    ValueOfSnoc(t, c, radix);
    assert ValueOf(t, radix) == q && DigitValue(c) == r;
    AppendedDigit(ValueOf(t + [c], radix), q, r, radix, x);
  }

  /** Appending digit r to the digits of q denotes q * radix + r, which is x. */
  lemma AppendedDigit(v: int, q: int, r: int, radix: int, x: int)
    requires v == q * radix + r && x == radix * q + r
    ensures v == x
  {
  }

  lemma ValueOfSnoc(t: string, c: char, radix: nat)
    requires ValidRadix(radix) && AllDigitsOf(t + [c], radix)
    ensures AllDigitsOf(t, radix)
    ensures ValueOf(t + [c], radix) == ValueOf(t, radix) * radix + DigitValue(c)
  {
    var s := t + [c];
    assert s[..|s| - 1] == t;
    assert forall i :: 0 <= i < |t| ==> t[i] == s[i];
  }

  /** The digits of distinct numbers differ. */
  lemma DigitsInjective(x: nat, y: nat, radix: nat)
    requires ValidRadix(radix)
    ensures Digits(x, radix) == Digits(y, radix) ==> x == y
  {
    ValueOfDigits(x, radix);
    ValueOfDigits(y, radix);
  }
}

=== FILE: protoset.dfy ===
/**
 * Sets of protocol versions (src/rust/protover/protoset.rs).  A set is kept
 * as a sequence of (low, high) ranges of 32-bit versions; the constructors
 * validate it, the string form is "low-high" or "low" per range joined by
 * commas, and the canonical builder groups a list of versions into maximal
 * runs.
 */
module ProtoSets {
  import opened MachineInts
  import opened Wrappers
  import opened Numerals
  import opened Sorting
  import opened Text

  type Version = uint32
  type Pair = (Version, Version)

  /** The errors of protocol parsing (errors.rs is not part of this model). */
  datatype ProtoverError =
    | Overlap
    | LowGreaterThanHigh
    | Unparseable
    | ExceedsMax
    | ExceedsExpansionLimit
    | UnknownProtocol
    | ExceedsNameLimit

  datatype ProtoSet = ProtoSet(pairs: seq<Pair>)

  /** ProtoSet::default() */
  const EMPTY: ProtoSet := ProtoSet([])

  /** The order sort_unstable puts pairs in: by low, then by high. */
  predicate PairLess(a: Pair, b: Pair) {
    a.0 < b.0 || (a.0 == b.0 && a.1 < b.1)
  }

  predicate VersionLess(a: Version, b: Version) {
    a < b
  }

  lemma PairLessIsStrictTotalOrder()
    ensures StrictTotalOrder(PairLess)
  {
  }

  lemma VersionLessIsStrictTotalOrder()
    ensures StrictTotalOrder(VersionLess)
  {
  }

  // ---------------------------------------------------------------------
  // from_sorted

  /**
   * What from_sorted finds wrong with one pair, given the high end of the
   * pair before it (0 for the first pair): a bound equal to u32::MAX, then
   * a low end below that previous high end, then a low end above the high
   * end.
   */
  function PairCheck(p: Pair, lastHigh: int): Option<ProtoverError> {
    if p.0 == U32_MAX || p.1 == U32_MAX then Some(ExceedsMax)
    else if p.0 < lastHigh then Some(Overlap)
    else if p.0 > p.1 then Some(LowGreaterThanHigh)
    else None
  }

  function PrevHigh(pairs: seq<Pair>, i: int): int
    requires 0 <= i < |pairs|
  {
    if i == 0 then 0 else pairs[i - 1].1
  }

  predicate PairPasses(pairs: seq<Pair>, i: int)
    requires 0 <= i < |pairs|
  {
    PairCheck(pairs[i], PrevHigh(pairs, i)).None?
  }

  /** Every pair passes from_sorted's checks. */
  predicate Chained(pairs: seq<Pair>) {
    forall i :: 0 <= i < |pairs| ==> PairPasses(pairs, i)
  }

  /** Pair i is the first to fail, and it fails with e. */
  predicate FirstFailure(pairs: seq<Pair>, i: int, e: ProtoverError) {
    && 0 <= i < |pairs|
    && (forall j :: 0 <= j < i ==> PairPasses(pairs, j))
    && PairCheck(pairs[i], PrevHigh(pairs, i)) == Some(e)
  }

  /** The scan of from_sorted from pair k on. */
  function ScanFrom(pairs: seq<Pair>, k: nat): Option<ProtoverError>
    requires k <= |pairs|
    decreases |pairs| - k
  {
    if k == |pairs| then None
    else if PairCheck(pairs[k], PrevHigh(pairs, k)).Some? then PairCheck(pairs[k], PrevHigh(pairs, k))
    else ScanFrom(pairs, k + 1)
  }

  lemma {:induction false} ScanFromSpec(pairs: seq<Pair>, k: nat)
    requires k <= |pairs| && forall j :: 0 <= j < k ==> PairPasses(pairs, j)
    ensures ScanFrom(pairs, k).None? <==> Chained(pairs)
    ensures ScanFrom(pairs, k).Some? ==> FirstFailure(pairs, k, ScanFrom(pairs, k).value)
                                         || exists i :: k < i < |pairs| && FirstFailure(pairs, i, ScanFrom(pairs, k).value)
    decreases |pairs| - k
  {
    if k < |pairs| && PairPasses(pairs, k) {
      ScanFromSpec(pairs, k + 1);
    }
  }

  /**
   * The result of from_sorted: the pairs themselves when every pair passes,
   * otherwise the error of the first pair that fails.
   */
  function Validated(pairs: seq<Pair>): (r: Result<ProtoSet, ProtoverError>)
    ensures r.Ok? <==> Chained(pairs)
    ensures r.Ok? ==> r.value == ProtoSet(pairs)
    ensures r.Err? ==> exists i :: FirstFailure(pairs, i, r.error)
  {
    ScanFromSpec(pairs, 0);
    match ScanFrom(pairs, 0)
    case None => Ok(ProtoSet(pairs))
    case Some(e) => Err(e)
  }

  /** ProtoSet::from_sorted */
  method FromSorted(pairs: seq<Pair>) returns (r: Result<ProtoSet, ProtoverError>)
    ensures r == Validated(pairs)
  {
    var lastHigh: int := 0;
    var i := 0;
    while i < |pairs|
      invariant 0 <= i <= |pairs|
      invariant lastHigh == if i == 0 then 0 else pairs[i - 1].1
      invariant ScanFrom(pairs, 0) == ScanFrom(pairs, i)
    {
      var (low, high) := pairs[i];
      if low == U32_MAX || high == U32_MAX {
        return Err(ExceedsMax);
      }
      if low < lastHigh {
        return Err(Overlap);
      } else if low > high {
        return Err(LowGreaterThanHigh);
      }
      lastHigh := high;
      i := i + 1;
    }
    return Ok(ProtoSet(pairs));
  }

  /** The sets the constructors produce: chained, and strictly ascending with no repeated pair. */
  predicate Valid(s: ProtoSet) {
    Chained(s.pairs) && Ascending(s.pairs, PairLess)
  }

  /** Every range has low <= high. */
  predicate WellFormed(s: ProtoSet) {
    forall i :: 0 <= i < |s.pairs| ==> s.pairs[i].0 <= s.pairs[i].1
  }

  lemma ValidIsWellFormed(s: ProtoSet)
    requires Valid(s)
    ensures WellFormed(s)
    ensures forall i :: 0 <= i < |s.pairs| ==> s.pairs[i].1 < U32_MAX
  {
    forall i | 0 <= i < |s.pairs|
      ensures s.pairs[i].0 <= s.pairs[i].1 < U32_MAX
    {
      assert PairPasses(s.pairs, i);
    }
  }

  /** ProtoSet::from_slice: sort the pairs, drop repeated ones, validate. */
  function FromSlice(pairs: seq<Pair>): (r: Result<ProtoSet, ProtoverError>)
    ensures r.Ok? ==> Valid(r.value)
  {
    PairLessIsStrictTotalOrder();
    Validated(SortDedup(pairs, PairLess))
  }

  /** from_slice depends only on which pairs occur, not on their order or repetition. */
  lemma FromSliceDependsOnElements(a: seq<Pair>, b: seq<Pair>)
    requires forall p :: p in a <==> p in b
    ensures FromSlice(a) == FromSlice(b)
  {
    PairLessIsStrictTotalOrder();
    SortDedupDependsOnElements(a, b, PairLess);
  }

  /** A chained, ascending sequence of pairs is accepted by from_slice as it is. */
  lemma FromSliceOfValid(s: ProtoSet)
    requires Valid(s)
    ensures FromSlice(s.pairs) == Ok(s)
  {
    PairLessIsStrictTotalOrder();
    SortDedupOfAscending(s.pairs, PairLess);
  }

  // ---------------------------------------------------------------------
  // expand, len, contains, is_empty

  /** low..high + 1 */
  function Range(lo: Version, hi: Version): (r: seq<Version>)
    ensures |r| == if lo <= hi then hi - lo + 1 else 0
    ensures forall k :: 0 <= k < |r| ==> r[k] == lo + k
  {
    if lo <= hi then seq(hi - lo + 1, k requires 0 <= k < hi - lo + 1 => (lo + k) as Version) else []
  }

  function ExpandPairs(pairs: seq<Pair>): seq<Version> {
    if pairs == [] then [] else Range(pairs[0].0, pairs[0].1) + ExpandPairs(pairs[1..])
  }

  /** ProtoSet::expand: each range's versions, range after range. */
  function Expand(s: ProtoSet): seq<Version> {
    ExpandPairs(s.pairs)
  }

  lemma {:induction false} ExpandAppend(a: seq<Pair>, b: seq<Pair>)
    ensures ExpandPairs(a + b) == ExpandPairs(a) + ExpandPairs(b)
  {
    if a == [] {
      assert a + b == b;
    } else {
      assert (a + b)[1..] == a[1..] + b;
      ExpandAppend(a[1..], b);
    }
  }

  /** The sum of high - low + 1 over the ranges, first to last. */
  function TotalWidth(pairs: seq<Pair>): int {
    if pairs == [] then 0
    else TotalWidth(pairs[..|pairs| - 1]) + (pairs[|pairs| - 1].1 as int - pairs[|pairs| - 1].0 as int + 1)
  }

  /** expand() yields exactly len() versions. */
  lemma {:induction false} ExpandLength(s: ProtoSet)
    requires WellFormed(s)
    ensures |Expand(s)| == TotalWidth(s.pairs)
    decreases |s.pairs|
  {
    if s.pairs != [] {
      var n := |s.pairs|;
      var init := ProtoSet(s.pairs[..n - 1]);
      ExpandLength(init);
      ExpandAppend(init.pairs, [s.pairs[n - 1]]);
      assert init.pairs + [s.pairs[n - 1]] == s.pairs;
    }
  }

  /** ProtoSet::len: the number of versions, counting a version shared by two ranges twice. */
  method Len(s: ProtoSet) returns (length: nat)
    requires WellFormed(s)
    ensures length == TotalWidth(s.pairs) == |Expand(s)|
  {
    length := 0;
    var i := 0;
    while i < |s.pairs|
      invariant 0 <= i <= |s.pairs|
      invariant length == TotalWidth(s.pairs[..i])
    {
      var (low, high) := s.pairs[i];
      assert s.pairs[..i + 1][..i] == s.pairs[..i];
      length := length + (high as int - low as int) + 1;
      i := i + 1;
    }
    assert s.pairs[..i] == s.pairs;
    ExpandLength(s);
  }

  /** Some range holds v. */
  predicate InRanges(s: ProtoSet, v: int) {
    exists i :: 0 <= i < |s.pairs| && s.pairs[i].0 <= v <= s.pairs[i].1
  }

  /** ProtoSet::contains */
  method Contains(s: ProtoSet, version: Version) returns (found: bool)
    ensures found == InRanges(s, version)
  {
    var i := 0;
    while i < |s.pairs|
      invariant 0 <= i <= |s.pairs|
      invariant forall j :: 0 <= j < i ==> !(s.pairs[j].0 <= version <= s.pairs[j].1)
    {
      var (low, high) := s.pairs[i];
      if low <= version && version <= high {
        return true;
      }
      i := i + 1;
    }
    return false;
  }

  /** A version is in some range exactly when the expansion yields it. */
  lemma {:induction false} InRangesIffExpanded(s: ProtoSet, v: int)
    ensures InRanges(s, v) <==> v in Expand(s)
    decreases |s.pairs|
  {
    if s.pairs != [] {
      var rest := ProtoSet(s.pairs[1..]);
      InRangesIffExpanded(rest, v);
      var r := Range(s.pairs[0].0, s.pairs[0].1);
      assert s.pairs[0].0 <= v <= s.pairs[0].1 ==> r[v - s.pairs[0].0] == v;
      if InRanges(rest, v) {
        var i :| 0 <= i < |rest.pairs| && rest.pairs[i].0 <= v <= rest.pairs[i].1;
        assert s.pairs[i + 1] == rest.pairs[i];
      }
      if InRanges(s, v) {
        var i :| 0 <= i < |s.pairs| && s.pairs[i].0 <= v <= s.pairs[i].1;
        assert i > 0 ==> rest.pairs[i - 1] == s.pairs[i];
      }
    }
  }

  /** A single range yields exactly the versions between its bounds. */
  lemma SingleRangeExpanded(low: Version, high: Version, v: int)
    ensures v in Expand(ProtoSet([(low, high)])) <==> low <= v <= high
  {
    var s := ProtoSet([(low, high)]);
    InRangesIffExpanded(s, v);
    assert s.pairs[0] == (low, high);
  }

  /** ProtoSet::is_empty: no ranges, which for well-formed ranges means no versions. */
  function IsEmpty(s: ProtoSet): (b: bool)
    ensures WellFormed(s) ==> (b <==> Expand(s) == [])
  {
    if s.pairs != [] then
      assert WellFormed(s) ==> |Range(s.pairs[0].0, s.pairs[0].1)| > 0;
      false
    else true
  }

  // ---------------------------------------------------------------------
  // from_str and to_string

  /** u32::from_str: an optional '+', then one or more decimal digits whose value fits in 32 bits. */
  function ParseU32(t: string): Option<Version> {
    var d := if |t| > 0 && t[0] == '+' then t[1..] else t;
    if d != [] && AllDigitsOf(d, 10) && ValueOf(d, 10) <= U32_MAX then Some(ValueOf(d, 10) as Version)
    else None
  }

  /** The decimal form of a version, as `{}` formats it. */
  function Decimal(x: Version): string {
    Digits(x, 10)
  }

  lemma DecimalChars(x: Version)
    ensures Decimal(x) != []
    ensures forall i :: 0 <= i < |Decimal(x)| ==> '0' <= Decimal(x)[i] <= '9'
  {
    DigitsWellFormed(x, 10);
    forall i | 0 <= i < |Decimal(x)|
      ensures '0' <= Decimal(x)[i] <= '9'
    {
      DecimalDigit(Decimal(x)[i]);
    }
  }

  /** Parsing the decimal form of a version gives the version back. */
  lemma ParseU32Decimal(x: Version)
    ensures ParseU32(Decimal(x)) == Some(x)
  {
    DecimalChars(x);
    ValueOfDigits(x, 10);
  }

  /** One comma-separated piece of a version string, parsed after trimming. */
  function ParsePiece(piece: string): (r: Result<Option<Pair>, ProtoverError>)
    ensures r == Ok(None) <==> Trim(piece) == ""
  {
    ParseTrimmed(Trim(piece))
  }

  /**
   * A trimmed piece: nothing when it is empty; with a '-', the numbers
   * before and after the first '-'; otherwise a single number.  A number
   * that does not parse is Unparseable, and u32::MAX as either bound is
   * ExceedsMax.
   */
  function ParseTrimmed(p: string): (r: Result<Option<Pair>, ProtoverError>)
    ensures r == Ok(None) <==> p == ""
    ensures r.Ok? && r.value.Some? ==> r.value.value.0 != U32_MAX && r.value.value.1 != U32_MAX
  {
    if p == "" then Ok(None)
    else if '-' in p then
      var i := IndexOf(p, '-');
      var lo, hi := ParseU32(p[..i]), ParseU32(p[i + 1..]);
      if lo.None? || hi.None? then Err(Unparseable)
      else if lo.value == U32_MAX || hi.value == U32_MAX then Err(ExceedsMax)
      else Ok(Some((lo.value, hi.value)))
    else
      var v := ParseU32(p);
      if v.None? then Err(Unparseable)
      else if v.value == U32_MAX then Err(ExceedsMax)
      else Ok(Some((v.value, v.value)))
  }

  /** What parsing one piece gives: nothing, a pair, or an error. */
  type PieceResult = Result<Option<Pair>, ProtoverError>

  /** The pairs parsed so far, ahead of what the remaining pieces give. */
  function Prepend(pairs: seq<Pair>, r: Result<seq<Pair>, ProtoverError>): Result<seq<Pair>, ProtoverError> {
    match r
    case Err(e) => Err(e)
    case Ok(rest) => Ok(pairs + rest)
  }

  /** The pairs of the pieces' results, in order, or the first error: the `?` of from_str's loop. */
  function Collect(results: seq<PieceResult>): Result<seq<Pair>, ProtoverError> {
    if results == [] then Ok([])
    else
      match results[0]
      case Err(e) => Err(e)
      case Ok(None) => Collect(results[1..])
      case Ok(Some(p)) => Prepend([p], Collect(results[1..]))
  }

  function PieceResults(pieces: seq<string>): (r: seq<PieceResult>)
    ensures |r| == |pieces|
    ensures forall i :: 0 <= i < |pieces| ==> r[i] == ParsePiece(pieces[i])
  {
    seq(|pieces|, i requires 0 <= i < |pieces| => ParsePiece(pieces[i]))
  }

  /** The pairs of the pieces, in order, or the first piece's error. */
  function ParsePieces(pieces: seq<string>): Result<seq<Pair>, ProtoverError> {
    Collect(PieceResults(pieces))
  }

  /**
   * ProtoSet::from_str: the trimmed string split on ',', each piece parsed;
   * no pairs at all is the empty set, otherwise the pairs are sorted,
   * deduplicated and validated as from_slice does.  What it accepts is
   * always a valid set.
   */
  function Parse(s: string): (r: Result<ProtoSet, ProtoverError>)
    ensures r.Ok? ==> Valid(r.value)
  {
    match ParsePieces(Split(Trim(s), ','))
    case Err(e) => Err(e)
    case Ok(pairs) => if pairs == [] then Ok(EMPTY) else FromSlice(pairs)
  }

  lemma PrependNothing(r: Result<seq<Pair>, ProtoverError>)
    ensures Prepend([], r) == r
  {
    if r.Ok? {
      assert [] + r.value == r.value;
    }
  }

  lemma PrependPrepend(pairs: seq<Pair>, x: seq<Pair>, r: Result<seq<Pair>, ProtoverError>)
    ensures Prepend(pairs, Prepend(x, r)) == Prepend(pairs + x, r)
  {
    if r.Ok? {
      assert pairs + x + r.value == pairs + (x + r.value);
    }
  }

  /** Collecting fails exactly when some result is an error, and then with the first error. */
  lemma {:induction false} CollectErr(results: seq<PieceResult>)
    ensures Collect(results).Err? <==> exists i :: 0 <= i < |results| && results[i].Err?
    ensures Collect(results).Err? ==>
      exists i :: 0 <= i < |results| && results[i] == Err(Collect(results).error)
                  && forall j :: 0 <= j < i ==> results[j].Ok?
  {
    if results != [] {
      var tail := results[1..];
      CollectErr(tail);
      assert forall i :: 0 < i < |results| ==> results[i] == tail[i - 1];
      if results[0].Ok? && Collect(tail).Err? {
        var i :| 0 <= i < |tail| && tail[i] == Err(Collect(tail).error)
                 && forall j :: 0 <= j < i ==> tail[j].Ok?;
        assert results[i + 1] == Err(Collect(results).error);
      }
    }
  }

  /** Results that are all blank collect to no pairs. */
  lemma {:induction false} CollectBlank(results: seq<PieceResult>)
    requires forall k :: 0 <= k < |results| ==> results[k] == Ok(None)
    ensures Collect(results) == Ok([])
  {
    if results != [] {
      CollectBlank(results[1..]);
    }
  }

  /** Results that are all pairs collect to those pairs. */
  lemma {:induction false} CollectAllPairs(results: seq<PieceResult>, pairs: seq<Pair>)
    requires |results| == |pairs|
    requires forall k :: 0 <= k < |results| ==> results[k] == Ok(Some(pairs[k]))
    ensures Collect(results) == Ok(pairs)
  {
    if results != [] {
      CollectAllPairs(results[1..], pairs[1..]);
      assert pairs == [pairs[0]] + pairs[1..];
    }
  }

  /** from_str fails exactly when some piece fails, and then with the first failing piece's error. */
  lemma ParsePiecesErr(pieces: seq<string>)
    ensures ParsePieces(pieces).Err? <==> exists i :: 0 <= i < |pieces| && ParsePiece(pieces[i]).Err?
    ensures ParsePieces(pieces).Err? ==>
      exists i :: 0 <= i < |pieces| && ParsePiece(pieces[i]) == Err(ParsePieces(pieces).error)
                  && forall j :: 0 <= j < i ==> ParsePiece(pieces[j]).Ok?
  {
    CollectErr(PieceResults(pieces));
  }

  /** A string of white space and commas alone is the empty set, as "" and ",,," are. */
  lemma ParseBlank(s: string)
    requires forall i :: 0 <= i < |s| ==> s[i] == ',' || IsWhitespace(s[i])
    ensures Parse(s) == Ok(EMPTY)
  {
    var pieces := Split(Trim(s), ',');
    SplitChars(Trim(s), ',');
    assert forall x :: x in Trim(s) ==> x in s;
    var results := PieceResults(pieces);
    forall k | 0 <= k < |pieces|
      ensures results[k] == Ok(None)
    {
      TrimBlank(pieces[k]);
    }
    CollectBlank(results);
  }

  /** A character other than a digit, '+' or '-' in a trimmed piece makes it Unparseable. */
  lemma StrayCharUnparseable(p: string, k: nat)
    requires k < |p| && !('0' <= p[k] <= '9') && p[k] != '+' && p[k] != '-'
    ensures ParseTrimmed(p) == Err(Unparseable)
  {
    if '-' in p {
      var i := IndexOf(p, '-');
      if k < i {
        StrayCharU32(p[..i], k);
      } else {
        StrayCharU32(p[i + 1..], k - i - 1);
      }
    } else {
      StrayCharU32(p, k);
    }
  }

  /** A string that is a single trimmed piece without commas fails from_str with that piece's error. */
  lemma ParseOnePieceErr(p: string)
    requires p != [] && !IsWhitespace(p[0]) && !IsWhitespace(p[|p| - 1]) && ',' !in p
    requires ParseTrimmed(p).Err?
    ensures Parse(p) == Err(ParseTrimmed(p).error)
  {
    TrimUnchanged(p);
    assert Split(p, ',') == [p];
    assert PieceResults([p]) == [ParseTrimmed(p)];
  }

  /** "-1" has no number before its '-', so from_str rejects it as Unparseable. */
  lemma ParseNegativeExample()
    ensures Parse("-1") == Err(Unparseable)
  {
    var p := "-1";
    assert IndexOf(p, '-') == 0 && p[..0] == "";
    ParseOnePieceErr(p);
  }

  /** "1-2-3": what follows the first '-' is not a number, so it is Unparseable. */
  lemma ParseTripleExample()
    ensures Parse("1-2-3") == Err(Unparseable)
  {
    var p := "1-2-3";
    assert IndexOf(p, '-') == 1 && p[2..] == "2-3";
    StrayCharU32("2-3", 1);
    ParseOnePieceErr(p);
  }

  /** The decimal text of any number is read back by u32::from_str exactly when it fits in a u32. */
  lemma ParseU32Digits(x: nat)
    ensures ParseU32(Digits(x, 10)) == (if x <= U32_MAX then Some(x as Version) else None)
  {
    DigitsWellFormed(x, 10);
    ValueOfDigits(x, 10);
    DecimalDigit(Digits(x, 10)[0]);
  }

  /** A number above u32::MAX, such as 4294967296, does not fit in a u32, so it is Unparseable. */
  lemma ParseTooLargeExample(x: nat)
    requires x > U32_MAX
    ensures Parse(Digits(x, 10)) == Err(Unparseable)
  {
    var p := Digits(x, 10);
    ParseU32Digits(x);
    NoHyphenDigits(x);
    ParseOnePieceErr(p);
  }

  /** u32::MAX (4294967295) parses as a number but is refused as a version with ExceedsMax. */
  lemma ParseMaxExample()
    ensures Parse(Digits(U32_MAX, 10)) == Err(ExceedsMax)
  {
    var p := Digits(U32_MAX, 10);
    ParseU32Digits(U32_MAX);
    NoHyphenDigits(U32_MAX);
    ParseOnePieceErr(p);
  }

  /** Decimal text is digits only: no '-', no ',' and no white space at its ends. */
  lemma NoHyphenDigits(x: nat)
    ensures var p := Digits(x, 10);
      && '-' !in p && ',' !in p && p != []
      && !IsWhitespace(p[0]) && !IsWhitespace(p[|p| - 1])
  {
    var p := Digits(x, 10);
    DigitsWellFormed(x, 10);
    forall i | 0 <= i < |p|
      ensures '0' <= p[i] <= '9'
    {
      DecimalDigit(p[i]);
    }
  }

  lemma StrayCharU32(t: string, k: nat)
    requires k < |t| && !('0' <= t[k] <= '9') && t[k] != '+'
    ensures ParseU32(t) == None
  {
    DecimalDigit(t[k]);
    if |t| > 0 && t[0] == '+' {
      assert t[1..][k - 1] == t[k];
    }
  }

  /** ProtoSet::from_str: the pieces' pairs are collected, then sorted, deduplicated and validated. */
  method FromStr(s: string) returns (r: Result<ProtoSet, ProtoverError>)
    ensures r == Parse(s)
  {
    var pieces := Split(Trim(s), ',');
    var collected := CollectPairs(pieces);
    if collected.Err? {
      return Err(collected.error);
    }
    var pairs := collected.value;
    if pairs == [] {
      return Ok(EMPTY);
    }
    PairLessIsStrictTotalOrder();
    r := FromSorted(SortDedup(pairs, PairLess));
  }

  /** The loop of from_str over the comma-separated pieces. */
  method CollectPairs(pieces: seq<string>) returns (r: Result<seq<Pair>, ProtoverError>)
    ensures r == ParsePieces(pieces)
  {
    ghost var results := PieceResults(pieces);
    var pairs: seq<Pair> := [];
    var i := 0;
    assert results[0..] == results;
    PrependNothing(Collect(results));
    while i < |pieces|
      invariant 0 <= i <= |pieces|
      invariant Collect(results) == Prepend(pairs, Collect(results[i..]))
    {
      var piece := ParsePiece(pieces[i]);
      assert results[i..][0] == piece;
      assert results[i..][1..] == results[i + 1..];
      if piece.Err? {
        return Err(piece.error);
      }
      if piece.value.Some? {
        PrependPrepend(pairs, [piece.value.value], Collect(results[i + 1..]));
        pairs := pairs + [piece.value.value];
      }
      i := i + 1;
    }
    assert pairs + [] == pairs;
    return Ok(pairs);
  }

  /** "low-high", or "low" alone when the range holds one version. */
  function PairString(p: Pair): string {
    if p.0 != p.1 then Decimal(p.0) + "-" + Decimal(p.1) else Decimal(p.0)
  }

  function PairStrings(pairs: seq<Pair>): seq<string> {
    seq(|pairs|, i requires 0 <= i < |pairs| => PairString(pairs[i]))
  }

  /** ProtoSet::to_string: the ranges in order, joined by ','. */
  function ToString(s: ProtoSet): string {
    Join(PairStrings(s.pairs), ',')
  }

  /** A version below ten renders as one digit. */
  lemma SmallDecimal(x: Version)
    requires x < 10
    ensures Decimal(x) == [DIGIT_CHARS[x]]
  {
  }

  /** A single range of one-digit versions renders as "a-b". */
  lemma SmallRangeString(a: Version, b: Version)
    requires a < b < 10
    ensures ToString(ProtoSet([(a, b)])) == [DIGIT_CHARS[a], '-', DIGIT_CHARS[b]]
  {
    SmallDecimal(a);
    SmallDecimal(b);
    assert PairStrings([(a, b)]) == [PairString((a, b))];
  }

  /** Two single one-digit versions render as "a,b". */
  lemma SmallPairString(a: Version, b: Version)
    requires a < 10 && b < 10
    ensures ToString(ProtoSet([(a, a), (b, b)])) == [DIGIT_CHARS[a], ',', DIGIT_CHARS[b]]
  {
    SmallDecimal(a);
    SmallDecimal(b);
    var ps := PairStrings([(a, a), (b, b)]);
    assert ps == [PairString((a, a)), PairString((b, b))];
    assert Join(ps, ',') == ps[0] + [','] + Join(ps[1..], ',');
  }

  /** A piece written by to_string is digits, perhaps with one '-', never blank. */
  lemma PairStringShape(p: Pair)
    ensures PairString(p) != []
    ensures ',' !in PairString(p)
    ensures '0' <= PairString(p)[0] <= '9' && '0' <= PairString(p)[|PairString(p)| - 1] <= '9'
  {
    DecimalChars(p.0);
    DecimalChars(p.1);
    if p.0 != p.1 {
      var t := Decimal(p.0) + "-" + Decimal(p.1);
      assert t[0] == Decimal(p.0)[0];
      assert t[|t| - 1] == Decimal(p.1)[|Decimal(p.1)| - 1];
      assert forall i :: 0 <= i < |t| ==> t[i] == '-' || '0' <= t[i] <= '9';
    }
  }

  /** to_string writes only digits, '-' and ','. */
  lemma ToStringAvoids(s: ProtoSet, d: char)
    requires d != ',' && d != '-' && !('0' <= d <= '9')
    ensures d !in ToString(s)
  {
    forall k | 0 <= k < |s.pairs|
      ensures d !in PairStrings(s.pairs)[k]
    {
      DecimalChars(s.pairs[k].0);
      DecimalChars(s.pairs[k].1);
    }
    JoinAvoids(PairStrings(s.pairs), ',', d);
  }

  /** Each piece to_string writes parses back to its pair, when no bound is u32::MAX. */
  lemma ParsePieceOfPairString(p: Pair)
    requires p.0 != U32_MAX && p.1 != U32_MAX
    ensures ParsePiece(PairString(p)) == Ok(Some(p))
  {
    PairStringShape(p);
    TrimUnchanged(PairString(p));
    ParseTrimmedPairString(p);
  }

  lemma ParseTrimmedPairString(p: Pair)
    requires p.0 != U32_MAX && p.1 != U32_MAX
    ensures ParseTrimmed(PairString(p)) == Ok(Some(p))
  {
    if p.0 != p.1 {
      ParseRangePiece(p.0, p.1);
    } else {
      ParseSinglePiece(p.0);
    }
  }

  lemma ParseSinglePiece(x: Version)
    requires x != U32_MAX
    ensures ParseTrimmed(Decimal(x)) == Ok(Some((x, x)))
  {
    DecimalChars(x);
    assert '-' !in Decimal(x);
    ParseU32Decimal(x);
  }

  lemma ParseRangePiece(lo: Version, hi: Version)
    requires lo != U32_MAX && hi != U32_MAX
    ensures ParseTrimmed(Decimal(lo) + "-" + Decimal(hi)) == Ok(Some((lo, hi)))
  {
    var a, b := Decimal(lo), Decimal(hi);
    var t := a + "-" + b;
    DecimalChars(lo);
    IndexAfterPrefix(a, '-', b);
    assert t[..|a|] == a;
    assert t[|a| + 1..] == b;
    ParseU32Decimal(lo);
    ParseU32Decimal(hi);
  }

  lemma ParsePiecesOfPairStrings(pairs: seq<Pair>)
    requires forall i :: 0 <= i < |pairs| ==> pairs[i].0 != U32_MAX && pairs[i].1 != U32_MAX
    ensures ParsePieces(PairStrings(pairs)) == Ok(pairs)
  {
    var results := PieceResults(PairStrings(pairs));
    forall k | 0 <= k < |pairs|
      ensures results[k] == Ok(Some(pairs[k]))
    {
      ParsePieceOfPairString(pairs[k]);
    }
    CollectAllPairs(results, pairs);
  }

  /** The joined string starts and ends with a digit. */
  lemma {:induction false} JoinedEnds(pairs: seq<Pair>)
    requires pairs != []
    ensures var t := ToString(ProtoSet(pairs));
      t != [] && '0' <= t[0] <= '9' && '0' <= t[|t| - 1] <= '9'
  {
    PairStringShape(pairs[0]);
    if |pairs| > 1 {
      JoinedEnds(pairs[1..]);
      assert PairStrings(pairs)[1..] == PairStrings(pairs[1..]);
    }
  }

  /** from_str(to_string(s)) == s for every valid set. */
  lemma ParseToString(s: ProtoSet)
    requires Valid(s)
    ensures Parse(ToString(s)) == Ok(s)
  {
    ValidIsWellFormed(s);
    var parts := PairStrings(s.pairs);
    var t := ToString(s);
    if s.pairs == [] {
      assert t == "";
      assert Split("", ',') == [""];
    } else {
      JoinedEnds(s.pairs);
      TrimUnchanged(t);
      forall k | 0 <= k < |parts|
        ensures ',' !in parts[k]
      {
        PairStringShape(s.pairs[k]);
      }
      SplitJoin(parts, ',');
      ParsePiecesOfPairStrings(s.pairs);
      FromSliceOfValid(s);
    }
  }

  // ---------------------------------------------------------------------
  // find_range and From<Vec<Version>>

  /** The fold of find_range: the running end moves to n only when n directly follows it. */
  function RunEnd(latest: Version, rest: seq<Version>): Version
    decreases |rest|
  {
    if rest == [] then latest
    else RunEnd(if latest + 1 == rest[0] then rest[0] else latest, rest[1..])
  }

  /** find_range: the first version and the end of the run of consecutive versions it starts. */
  function FindRange(list: seq<Version>): (r: Option<Pair>)
    ensures r.None? <==> list == []
    ensures r.Some? ==> r.value.0 == list[0]
  {
    if list == [] then None else Some((list[0], RunEnd(list[0], list[1..])))
  }

  /**
   * run = (first, last) is where list begins: list starts with first,
   * first + 1, ..., last, and the version after them, if any, is more
   * than last + 1.
   */
  predicate IsRun(list: seq<Version>, run: Pair) {
    && list != []
    && run.0 == list[0] && run.0 <= run.1 && run.1 - run.0 < |list|
    && (forall k :: 0 <= k <= run.1 - run.0 ==> list[k] == run.0 + k)
    && (run.1 - run.0 + 1 < |list| ==> list[run.1 - run.0 + 1] > run.1 + 1)
  }

  /** Past a gap the running end stays where it is. */
  lemma {:induction false} RunEndStuck(latest: Version, rest: seq<Version>)
    requires forall k :: 0 <= k < |rest| ==> rest[k] > latest + 1
    ensures RunEnd(latest, rest) == latest
    decreases |rest|
  {
    if rest != [] {
      RunEndStuck(latest, rest[1..]);
    }
  }

  /** Over ascending versions above latest, the fold walks exactly the consecutive ones. */
  lemma {:induction false} RunEndFacts(latest: Version, rest: seq<Version>)
    requires Ascending(rest, VersionLess)
    requires forall k :: 0 <= k < |rest| ==> rest[k] > latest
    ensures latest <= RunEnd(latest, rest) <= latest + |rest|
    ensures forall k :: 0 <= k < RunEnd(latest, rest) - latest ==> rest[k] == latest + k + 1
    ensures RunEnd(latest, rest) - latest < |rest| ==> rest[RunEnd(latest, rest) - latest] > RunEnd(latest, rest) + 1
    decreases |rest|
  {
    if rest != [] {
      var j := RunEnd(latest, rest);
      if latest + 1 == rest[0] {
        RunEndFacts(rest[0], rest[1..]);
        assert j == RunEnd(rest[0], rest[1..]);
        forall k | 0 <= k < j - latest
          ensures rest[k] == latest + k + 1
        {
          if k > 0 {
            assert rest[1..][k - 1] == rest[k];
          }
        }
        if j - latest < |rest| {
          assert rest[1..][j - rest[0]] == rest[j - latest];
        }
      } else {
        assert forall k :: 0 <= k < |rest[1..]| ==> rest[1..][k] == rest[k + 1] && VersionLess(rest[0], rest[k + 1]);
        RunEndStuck(latest, rest[1..]);
      }
    }
  }

  /** On an ascending list, find_range finds the maximal run at its head. */
  lemma FindRangeIsRun(list: seq<Version>)
    requires list != [] && Ascending(list, VersionLess)
    ensures IsRun(list, FindRange(list).value)
  {
    var tail := list[1..];
    assert forall k :: 0 <= k < |tail| ==> tail[k] == list[k + 1] && VersionLess(list[0], list[k + 1]);
    RunEndFacts(list[0], tail);
  }

  /** The runs of an ascending list, first to last: the ranges the loop of From<Vec> collects. */
  function Runs(list: seq<Version>): (r: seq<Pair>)
    requires Ascending(list, VersionLess)
    ensures list != [] ==> r != [] && r[0] == FindRange(list).value
    decreases |list|
  {
    if list == [] then []
    else
      FindRangeIsRun(list);
      var run := FindRange(list).value;
      [run] + Runs(list[run.1 - run.0 + 1..])
  }

  /** One turn of the From<Vec> loop: the run at the head, then the runs of what follows it. */
  lemma RunsCons(list: seq<Version>)
    requires list != [] && Ascending(list, VersionLess)
    ensures IsRun(list, FindRange(list).value)
    ensures Ascending(list[FindRange(list).value.1 - FindRange(list).value.0 + 1..], VersionLess)
    ensures Runs(list) == [FindRange(list).value] + Runs(list[FindRange(list).value.1 - FindRange(list).value.0 + 1..])
  {
    FindRangeIsRun(list);
  }

  /** From<Vec<Version>>: sort, deduplicate, group into runs and validate; a failure gives the empty set. */
  function FromVersions(v: seq<Version>): ProtoSet {
    VersionLessIsStrictTotalOrder();
    match Validated(Runs(SortDedup(v, VersionLess)))
    case Ok(s) => s
    case Err(_) => EMPTY
  }

  lemma AppendOne(pairs: seq<Pair>, p: Pair, later: seq<Pair>)
    ensures pairs + ([p] + later) == (pairs + [p]) + later
  {
  }

  /** From<Vec<Version>>, with the loop that slices off one run at a time. */
  method FromVec(v: seq<Version>) returns (s: ProtoSet)
    ensures s == FromVersions(v)
  {
    VersionLessIsStrictTotalOrder();
    var sorted := SortDedup(v, VersionLess);
    var rest := sorted;
    var pairs: seq<Pair> := [];
    assert pairs + Runs(rest) == Runs(sorted);
    while true
      invariant Ascending(rest, VersionLess)
      invariant pairs + Runs(rest) == Runs(sorted)
      decreases |rest|
    {
      var range := FindRange(rest);
      if range.None? {
        break;
      }
      var (first, last) := range.value;
      RunsCons(rest);
      var index := last - first;
      assert last == rest[index];
      AppendOne(pairs, (first, last), Runs(rest[index + 1..]));
      pairs := pairs + [(first, last)];
      rest := rest[index + 1..];
    }
    assert pairs == Runs(sorted);
    var r := FromSorted(pairs);
    s := if r.Ok? then r.value else EMPTY;
  }

  /** The versions of the runs are the list itself. */
  lemma {:induction false} RunsExpand(list: seq<Version>)
    requires Ascending(list, VersionLess)
    ensures ExpandPairs(Runs(list)) == list
    decreases |list|
  {
    if list != [] {
      RunsCons(list);
      var run := FindRange(list).value;
      var n := run.1 - run.0 + 1;
      RunsExpand(list[n..]);
      ExpandCons(run, Runs(list[n..]));
      RunIsRange(list, run);
      assert list == list[..n] + list[n..];
    }
  }

  lemma ExpandCons(p: Pair, rest: seq<Pair>)
    ensures ExpandPairs([p] + rest) == Range(p.0, p.1) + ExpandPairs(rest)
  {
    assert ([p] + rest)[1..] == rest;
  }

  /** The versions of a run are where the list begins. */
  lemma RunIsRange(list: seq<Version>, run: Pair)
    requires IsRun(list, run)
    ensures Range(run.0, run.1) == list[..run.1 - run.0 + 1]
  {
  }

  /** Each range is non-empty and ends more than one below the start of every later range. */
  predicate Separated(pairs: seq<Pair>) {
    && (forall i :: 0 <= i < |pairs| ==> pairs[i].0 <= pairs[i].1)
    && (forall i, j :: 0 <= i < j < |pairs| ==> pairs[i].1 as int + 1 < pairs[j].0)
  }

  /** The runs of an ascending list are separated and start no lower than the list. */
  lemma {:induction false} RunsSeparated(list: seq<Version>)
    requires Ascending(list, VersionLess)
    ensures Separated(Runs(list))
    ensures forall i :: 0 <= i < |Runs(list)| ==> list[0] <= Runs(list)[i].0
    decreases |list|
  {
    if list != [] {
      RunsCons(list);
      var run := FindRange(list).value;
      var n := run.1 - run.0 + 1;
      var rest := list[n..];
      RunsSeparated(rest);
      var r := Runs(list);
      assert r[1..] == Runs(rest);
      if n < |list| {
        assert forall i :: 0 < i < |r| ==> r[i] == Runs(rest)[i - 1] && rest[0] <= r[i].0;
        assert rest[0] == list[n];
      } else {
        assert rest == [];
      }
    }
  }

  /** Separated ranges with no bound at u32::MAX pass from_sorted and form a valid set. */
  lemma SeparatedIsValid(pairs: seq<Pair>)
    requires Separated(pairs)
    requires forall i :: 0 <= i < |pairs| ==> pairs[i].1 != U32_MAX
    ensures Chained(pairs) && Ascending(pairs, PairLess)
  {
    forall i | 0 <= i < |pairs|
      ensures PairPasses(pairs, i)
    {
      assert i > 0 ==> pairs[i - 1].1 as int + 1 < pairs[i].0;
    }
  }

  /**
   * Without u32::MAX among the versions, From<Vec> builds a valid set of
   * separated ranges whose expansion is ascending and holds exactly the
   * given versions.
   */
  lemma FromVersionsExpand(v: seq<Version>)
    requires U32_MAX !in v
    ensures Valid(FromVersions(v)) && Separated(FromVersions(v).pairs)
    ensures Ascending(Expand(FromVersions(v)), VersionLess)
    ensures forall x :: x in Expand(FromVersions(v)) <==> x in v
  {
    VersionLessIsStrictTotalOrder();
    var list := SortDedup(v, VersionLess);
    var runs := Runs(list);
    RunsExpand(list);
    RunsSeparated(list);
    forall i | 0 <= i < |runs|
      ensures runs[i].1 != U32_MAX
    {
      InRangesIffExpanded(ProtoSet(runs), runs[i].1);
    }
    SeparatedIsValid(runs);
  }

  /**
   * With u32::MAX among the versions, the run holding it ends at u32::MAX,
   * from_sorted rejects it, and From<Vec> falls back to the empty set.
   */
  lemma FromVersionsWithMax(v: seq<Version>)
    requires U32_MAX in v
    ensures FromVersions(v) == EMPTY
  {
    VersionLessIsStrictTotalOrder();
    var list := SortDedup(v, VersionLess);
    var runs := Runs(list);
    RunsExpand(list);
    InRangesIffExpanded(ProtoSet(runs), U32_MAX);
    var i :| 0 <= i < |runs| && runs[i].0 <= U32_MAX <= runs[i].1;
    assert !PairPasses(runs, i);
  }

  /** From<Vec> depends only on which versions occur. */
  lemma FromVersionsDependsOnElements(a: seq<Version>, b: seq<Version>)
    requires forall x :: x in a <==> x in b
    ensures FromVersions(a) == FromVersions(b)
  {
    VersionLessIsStrictTotalOrder();
    SortDedupDependsOnElements(a, b, VersionLess);
  }

  // ---------------------------------------------------------------------
  // retain

  /** The versions f keeps, in order. */
  function Filter(s: seq<Version>, f: Version -> bool): (r: seq<Version>)
    ensures forall x :: x in r <==> x in s && f(x)
  {
    if s == [] then []
    else (if f(s[0]) then [s[0]] else []) + Filter(s[1..], f)
  }

  /** ProtoSet::retain: the expansion filtered by f, rebuilt through From<Vec>. */
  function Retain(s: ProtoSet, f: Version -> bool): ProtoSet {
    FromVersions(Filter(Expand(s), f))
  }

  /** After retain a valid set is still valid and holds exactly its versions that f keeps. */
  lemma RetainKeeps(s: ProtoSet, f: Version -> bool)
    requires Valid(s)
    ensures Valid(Retain(s, f))
    ensures forall v :: v in Expand(Retain(s, f)) <==> v in Expand(s) && f(v)
  {
    ValidIsWellFormed(s);
    InRangesIffExpanded(s, U32_MAX);
    FromVersionsExpand(Filter(Expand(s), f));
  }

  // ---------------------------------------------------------------------
  // Examples

  /** Overlapping ranges are rejected once sorted. */
  lemma FromSliceOverlapExample()
    ensures FromSlice([(2, 4), (1, 3)]) == Err(Overlap)
  {
    PairLessIsStrictTotalOrder();
    var sorted := SortDedup([(2, 4), (1, 3)], PairLess);
    AscendingUnique(sorted, [(1, 3), (2, 4)], PairLess);
    assert !PairPasses(sorted, 1);
  }

  /** Ranges sharing an end point are accepted, and len counts the shared version twice. */
  lemma FromSliceSharedEndExample()
    ensures FromSlice([(1, 3), (3, 5)]) == Ok(ProtoSet([(1, 3), (3, 5)]))
    ensures TotalWidth([(1, 3), (3, 5)]) == 6 && |Expand(ProtoSet([(1, 3), (3, 5)]))| == 6
  {
    var s := ProtoSet([(1, 3), (3, 5)]);
    assert PairPasses(s.pairs, 0) && PairPasses(s.pairs, 1);
    FromSliceOfValid(s);
    ExpandLength(s);
  }
}

=== FILE: protover.dfy ===
/**
 * Protocol entries (src/rust/protover/protover.rs): strings such as
 * "Cons=1-2 Link=1-5" mapping subprotocol names to version sets, their
 * parsing and canonical string form, support queries against the versions
 * this relay supports, and the directory authorities' threshold vote.
 */
module Protover {
  import opened MachineInts
  import opened Wrappers
  import opened Sorting
  import opened Text
  import opened ProtoSets

  /** More versions than this in one vote, or more items than this in one entry, are refused. */
  const MAX_PROTOCOLS_TO_EXPAND: int := 0x1_0000

  /** The longest name, in UTF-8 bytes, an unknown protocol may have. */
  const MAX_PROTOCOL_NAME_LENGTH: int := 100

  // ---------------------------------------------------------------------
  // Protocol names

  /** The subprotocols tor knows. */
  datatype Protocol =
    | Cons | Desc | DirCache | HSDir | HSIntro | HSRend | Link | LinkAuth | Microdesc | Relay

  /** The name a protocol is written with (its Display form). */
  function ProtocolName(p: Protocol): string {
    match p
    case Cons => "Cons"
    case Desc => "Desc"
    case DirCache => "DirCache"
    case HSDir => "HSDir"
    case HSIntro => "HSIntro"
    case HSRend => "HSRend"
    case Link => "Link"
    case LinkAuth => "LinkAuth"
    case Microdesc => "Microdesc"
    case Relay => "Relay"
  }

  /** Protocol::from_str: exactly the ten names, case-sensitively. */
  function ParseProtocol(s: string): (r: Result<Protocol, ProtoverError>)
    ensures r.Ok? ==> ProtocolName(r.value) == s
    ensures r.Err? ==> r.error == ProtoverError.UnknownProtocol
  {
    if s == "Cons" then Ok(Cons)
    else if s == "Desc" then Ok(Desc)
    else if s == "DirCache" then Ok(DirCache)
    else if s == "HSDir" then Ok(HSDir)
    else if s == "HSIntro" then Ok(HSIntro)
    else if s == "HSRend" then Ok(HSRend)
    else if s == "Link" then Ok(Link)
    else if s == "LinkAuth" then Ok(LinkAuth)
    else if s == "Microdesc" then Ok(Microdesc)
    else if s == "Relay" then Ok(Relay)
    else Err(ProtoverError.UnknownProtocol)
  }

  /** Every protocol's name parses back to it, so the names and the protocols correspond one to one. */
  lemma ParseProtocolName(p: Protocol)
    ensures ParseProtocol(ProtocolName(p)) == Ok(p)
  {
  }

  /** A protocol name is never empty and holds neither '=' nor ' '. */
  lemma ProtocolNameShape(p: Protocol)
    ensures ProtocolName(p) != [] && '=' !in ProtocolName(p) && ' ' !in ProtocolName(p)
  {
  }

  /** The number of bytes c takes in UTF-8. */
  function Utf8Width(c: char): nat {
    if c as int < 0x80 then 1
    else if c as int < 0x800 then 2
    else if c as int < 0x1_0000 then 3
    else 4
  }

  /** str::len: the length of s in UTF-8 bytes. */
  function Utf8Len(s: string): (n: nat)
    ensures |s| <= n <= 4 * |s|
  {
    if s == [] then 0 else Utf8Width(s[0]) + Utf8Len(s[1..])
  }

  /** An ASCII string is as long in bytes as in characters. */
  lemma {:induction false} AsciiLen(s: string)
    requires forall i :: 0 <= i < |s| ==> s[i] as int < 0x80
    ensures Utf8Len(s) == |s|
  {
    if s != [] {
      AsciiLen(s[1..]);
    }
  }

  /** A protocol name tor may not know. */
  datatype UnknownProtocol = UnknownName(name: string)

  /**
   * UnknownProtocol::from_str: the empty name is Unparseable and a name
   * longer than MAX_PROTOCOL_NAME_LENGTH bytes exceeds the name limit.
   */
  function ParseUnknownProtocol(s: string): (r: Result<UnknownProtocol, ProtoverError>)
    ensures r.Ok? <==> s != "" && Utf8Len(s) <= MAX_PROTOCOL_NAME_LENGTH
    ensures r.Ok? ==> r.value.name == s
    ensures r.Err? ==> (r.error == Unparseable <==> s == "")
    ensures s != "" && Utf8Len(s) > MAX_PROTOCOL_NAME_LENGTH ==> r == Err(ExceedsNameLimit)
  {
    if s == "" then Err(Unparseable)
    else if Utf8Len(s) <= MAX_PROTOCOL_NAME_LENGTH then Ok(UnknownName(s))
    else Err(ExceedsNameLimit)
  }

  /** From<Protocol> for UnknownProtocol */
  function FromProtocol(p: Protocol): UnknownProtocol {
    UnknownName(ProtocolName(p))
  }

  /** Every known protocol is also an acceptable unknown-protocol name, and goes back to itself. */
  lemma FromProtocolParses(p: Protocol)
    ensures ParseUnknownProtocol(ProtocolName(p)) == Ok(FromProtocol(p))
    ensures ParseProtocol(FromProtocol(p).name) == Ok(p)
  {
    ProtocolNameShape(p);
    ProtocolNameShort(p);
    ParseProtocolName(p);
  }

  lemma ProtocolNameShort(p: Protocol)
    ensures |ProtocolName(p)| <= 9
  {
  }

  // ---------------------------------------------------------------------
  // Entries and their parsing

  /** ProtoEntry: the known protocols and their versions. */
  type ProtoEntry = map<Protocol, ProtoSet>

  /** UnvalidatedProtoEntry: any protocol names and their versions. */
  type UnvalidatedProtoEntry = map<UnknownProtocol, ProtoSet>

  /** What parsing one item gives: a key and its versions, or an error. */
  type Parsed<K> = Result<(K, ProtoSet), ProtoverError>

  /**
   * One space-separated item: the name before its first '=' and the
   * version set after it, parsed as ProtoSet::from_str does.  An item
   * without '=' is Unparseable.
   */
  function ParseSubproto(item: string): (r: Parsed<string>)
    ensures r.Ok? ==> '=' !in r.value.0 && Valid(r.value.1)
  {
    if '=' in item then
      var i := IndexOf(item, '=');
      match Parse(item[i + 1..])
      case Err(e) => Err(e)
      case Ok(versions) => Ok((item[..i], versions))
    else Err(Unparseable)
  }

  /** Every item that parsed has a name without '=' and a valid version set. */
  predicate WellParsed(parts: seq<Parsed<string>>) {
    forall i :: 0 <= i < |parts| && parts[i].Ok? ==> '=' !in parts[i].value.0 && Valid(parts[i].value.1)
  }

  /** parse_protocol_and_version_str: the items of an entry string, split on single spaces, each parsed. */
  function ParseProtocolAndVersionStr(entry: string): (r: seq<Parsed<string>>)
    ensures |r| == |Split(entry, ' ')| >= 1
    ensures forall i :: 0 <= i < |r| ==> r[i] == ParseSubproto(Split(entry, ' ')[i])
    ensures WellParsed(r)
  {
    var items := Split(entry, ' ');
    seq(|items|, i requires 0 <= i < |items| => ParseSubproto(items[i]))
  }

  /**
   * The items collected into a map, in order: the first error ends the
   * collection, and a later item replaces an earlier one with the same key.
   */
  function CollectMap<K>(results: seq<Parsed<K>>): Result<map<K, ProtoSet>, ProtoverError>
    decreases |results|
  {
    if results == [] then Ok(map[])
    else
      match CollectMap(results[..|results| - 1])
      case Err(e) => Err(e)
      case Ok(m) =>
        match results[|results| - 1]
        case Err(e) => Err(e)
        case Ok((k, v)) => Ok(m[k := v])
  }

  /** The checks ProtoEntry::from_str adds to item number position (counting from 1). */
  function ValidateKnown(position: int, r: Parsed<string>): (v: Parsed<Protocol>)
    ensures v.Ok? ==> r.Ok? && ProtocolName(v.value.0) == r.value.0 && v.value.1 == r.value.1
    ensures v.Ok? ==> position <= MAX_PROTOCOLS_TO_EXPAND
  {
    match r
    case Err(e) => Err(e)
    case Ok((name, versions)) =>
      match ParseProtocol(name)
      case Err(e) => Err(e)
      case Ok(p) => if position > MAX_PROTOCOLS_TO_EXPAND then Err(ExceedsMax) else Ok((p, versions))
  }

  /** The check UnvalidatedProtoEntry::from_str adds to each item. */
  function ValidateUnknown(r: Parsed<string>): (v: Parsed<UnknownProtocol>)
    ensures v.Ok? ==> r.Ok? && v.value.0.name == r.value.0 && v.value.1 == r.value.1
  {
    match r
    case Err(e) => Err(e)
    case Ok((name, versions)) =>
      match ParseUnknownProtocol(name)
      case Err(e) => Err(e)
      case Ok(p) => Ok((p, versions))
  }

  /** The parsed items with the checks of ProtoEntry::from_str, numbered from 1. */
  function KnownItems(parts: seq<Parsed<string>>): (r: seq<Parsed<Protocol>>)
    ensures |r| == |parts|
    ensures forall i :: 0 <= i < |r| ==> r[i] == ValidateKnown(i + 1, parts[i])
  {
    seq(|parts|, i requires 0 <= i < |parts| => ValidateKnown(i + 1, parts[i]))
  }

  /** The parsed items with the check of UnvalidatedProtoEntry::from_str. */
  function UnknownItems(parts: seq<Parsed<string>>): (r: seq<Parsed<UnknownProtocol>>)
    ensures |r| == |parts|
    ensures forall i :: 0 <= i < |r| ==> r[i] == ValidateUnknown(parts[i])
  {
    seq(|parts|, i requires 0 <= i < |parts| => ValidateUnknown(parts[i]))
  }

  /** ProtoEntry::from_str */
  function ParseProtoEntry(entry: string): Result<ProtoEntry, ProtoverError> {
    CollectMap(KnownItems(ParseProtocolAndVersionStr(entry)))
  }

  /** UnvalidatedProtoEntry::from_str */
  function ParseUnvalidated(entry: string): Result<UnvalidatedProtoEntry, ProtoverError> {
    CollectMap(UnknownItems(ParseProtocolAndVersionStr(entry)))
  }

  /** Collecting fails exactly when some item fails, and then with the first failing item's error. */
  lemma {:induction false} CollectMapErr<K>(results: seq<Parsed<K>>)
    ensures CollectMap(results).Err? <==> exists i :: 0 <= i < |results| && results[i].Err?
    ensures CollectMap(results).Err? ==>
      exists i :: 0 <= i < |results| && results[i] == Err(CollectMap(results).error)
                  && forall j :: 0 <= j < i ==> results[j].Ok?
    decreases |results|
  {
    if results != [] {
      var n := |results|;
      var init := results[..n - 1];
      CollectMapErr(init);
      assert forall i :: 0 <= i < n - 1 ==> init[i] == results[i];
      if CollectMap(init).Ok? && results[n - 1].Err? {
        assert forall j :: 0 <= j < n - 1 ==> results[j].Ok?;
      }
    }
  }

  /** Every item parsed. */
  predicate AllOk<K>(results: seq<Parsed<K>>) {
    forall i :: 0 <= i < |results| ==> results[i].Ok?
  }

  /** Item i is the last one with key k. */
  predicate LastWithKey<K(==)>(results: seq<Parsed<K>>, i: int, k: K)
    requires AllOk(results)
  {
    && 0 <= i < |results| && results[i].value.0 == k
    && forall j :: i < j < |results| ==> results[j].value.0 != k
  }

  /** When every item parses, the map holds exactly the items' keys. */
  lemma {:induction false} CollectMapAllOk<K>(results: seq<Parsed<K>>)
    requires AllOk(results)
    ensures CollectMap(results).Ok?
    ensures forall k :: k in CollectMap(results).value <==> exists i :: 0 <= i < |results| && results[i].value.0 == k
    decreases |results|
  {
    if results != [] {
      var n := |results|;
      var init := results[..n - 1];
      assert forall i :: 0 <= i < n - 1 ==> init[i] == results[i];
      CollectMapAllOk(init);
      var m := CollectMap(init).value;
      var last := results[n - 1].value;
      assert CollectMap(results).value == m[last.0 := last.1];
      forall k | exists i :: 0 <= i < n && results[i].value.0 == k
        ensures k in CollectMap(results).value
      {
        var i :| 0 <= i < n && results[i].value.0 == k;
        if i < n - 1 {
          assert init[i].value.0 == k;
        }
      }
    }
  }

  /** When every item parses, each key maps to the versions of the last item naming it. */
  lemma {:induction false} CollectMapLast<K>(results: seq<Parsed<K>>)
    requires AllOk(results)
    ensures CollectMap(results).Ok?
    ensures forall k :: k in CollectMap(results).value ==>
      exists i :: LastWithKey(results, i, k) && results[i].value.1 == CollectMap(results).value[k]
    decreases |results|
  {
    CollectMapAllOk(results);
    if results != [] {
      var n := |results|;
      var init := results[..n - 1];
      assert forall i :: 0 <= i < n - 1 ==> init[i] == results[i];
      CollectMapLast(init);
      var m := CollectMap(init).value;
      var last := results[n - 1].value;
      assert CollectMap(results).value == m[last.0 := last.1];
      forall k | k in CollectMap(results).value
        ensures exists i :: LastWithKey(results, i, k) && results[i].value.1 == CollectMap(results).value[k]
      {
        if k == last.0 {
          assert LastWithKey(results, n - 1, k);
        } else {
          var i :| LastWithKey(init, i, k) && init[i].value.1 == m[k];
          assert LastWithKey(results, i, k);
        }
      }
    }
  }

  /**
   * When each item's key is named by the corresponding parsed item, the
   * keys of the collected map are the names the items give.
   */
  lemma CollectMapNames<K>(results: seq<Parsed<K>>, parts: seq<Parsed<string>>, name: K -> string)
    requires AllOk(results) && |parts| == |results|
    requires forall i :: 0 <= i < |results| ==> parts[i].Ok? && parts[i].value.0 == name(results[i].value.0)
    requires forall k, k' :: name(k) == name(k') ==> k == k'
    ensures CollectMap(results).Ok?
    ensures forall k :: k in CollectMap(results).value <==>
      exists i :: 0 <= i < |parts| && parts[i].Ok? && parts[i].value.0 == name(k)
  {
    CollectMapAllOk(results);
  }

  /** Distinct protocols have distinct names. */
  lemma ProtocolNameInjective(p: Protocol, q: Protocol)
    requires ProtocolName(p) == ProtocolName(q)
    ensures p == q
  {
    ParseProtocolName(p);
    ParseProtocolName(q);
  }

  /**
   * Known items that collect into a map: there were at most
   * MAX_PROTOCOLS_TO_EXPAND of them, every set is valid, and the keys are
   * the protocols the items name.
   */
  lemma KnownItemsOk(parts: seq<Parsed<string>>)
    requires WellParsed(parts)
    requires CollectMap(KnownItems(parts)).Ok?
    ensures |parts| <= MAX_PROTOCOLS_TO_EXPAND
    ensures forall p :: p in CollectMap(KnownItems(parts)).value ==> Valid(CollectMap(KnownItems(parts)).value[p])
    ensures forall p :: p in CollectMap(KnownItems(parts)).value <==>
      exists i :: 0 <= i < |parts| && parts[i].Ok? && parts[i].value.0 == ProtocolName(p)
  {
    var results := KnownItems(parts);
    var m := CollectMap(results).value;
    CollectMapErr(results);
    if parts != [] {
      assert results[|results| - 1].Ok?;
    }
    CollectMapLast(results);
    forall p | p in m ensures Valid(m[p]) {
      var i :| LastWithKey(results, i, p) && results[i].value.1 == m[p];
      assert parts[i].Ok? && parts[i].value.1 == results[i].value.1;
    }
    forall p, q | ProtocolName(p) == ProtocolName(q) ensures p == q {
      ProtocolNameInjective(p, q);
    }
    CollectMapNames(results, parts, ProtocolName);
  }

  /** An item naming a protocol this version does not know makes the collection fail. */
  lemma KnownItemsUnknownName(parts: seq<Parsed<string>>, i: nat)
    requires i < |parts| && parts[i].Ok? && ParseProtocol(parts[i].value.0).Err?
    ensures CollectMap(KnownItems(parts)).Err?
  {
    assert KnownItems(parts)[i].Err?;
    CollectMapErr(KnownItems(parts));
  }

  /** The name an UnknownProtocol carries (its Display form). */
  function NameOf(u: UnknownProtocol): string {
    u.name
  }

  /**
   * Unknown items that collect into a map: every name is non-empty, at most
   * 100 bytes and free of '=', every set is valid, and the keys are the
   * names the items give.
   */
  lemma UnknownItemsOk(parts: seq<Parsed<string>>)
    requires WellParsed(parts)
    requires CollectMap(UnknownItems(parts)).Ok?
    ensures forall u :: u in CollectMap(UnknownItems(parts)).value ==>
      && u.name != "" && Utf8Len(u.name) <= MAX_PROTOCOL_NAME_LENGTH && '=' !in u.name
      && Valid(CollectMap(UnknownItems(parts)).value[u])
    ensures forall u :: u in CollectMap(UnknownItems(parts)).value <==>
      exists i :: 0 <= i < |parts| && parts[i].Ok? && parts[i].value.0 == u.name
  {
    var results := UnknownItems(parts);
    var m := CollectMap(results).value;
    CollectMapErr(results);
    CollectMapLast(results);
    forall u | u in m
      ensures u.name != "" && Utf8Len(u.name) <= MAX_PROTOCOL_NAME_LENGTH && '=' !in u.name && Valid(m[u])
    {
      var i :| LastWithKey(results, i, u) && results[i].value.1 == m[u];
      assert parts[i].Ok? && parts[i].value.1 == results[i].value.1;
    }
    CollectMapNames(results, parts, NameOf);
  }

  /**
   * A parsed ProtoEntry came from at most MAX_PROTOCOLS_TO_EXPAND items,
   * holds only valid sets, and its keys are the protocols its items name.
   */
  lemma ParseProtoEntryOk(entry: string)
    requires ParseProtoEntry(entry).Ok?
    ensures |Split(entry, ' ')| <= MAX_PROTOCOLS_TO_EXPAND
    ensures forall p :: p in ParseProtoEntry(entry).value ==> Valid(ParseProtoEntry(entry).value[p])
    ensures forall p :: p in ParseProtoEntry(entry).value <==>
      exists i :: 0 <= i < |ParseProtocolAndVersionStr(entry)| && ParseProtocolAndVersionStr(entry)[i].Ok?
                  && ParseProtocolAndVersionStr(entry)[i].value.0 == ProtocolName(p)
  {
    KnownItemsOk(ParseProtocolAndVersionStr(entry));
  }

  /** An item naming a protocol this version does not know makes ProtoEntry parsing fail. */
  lemma UnknownNameFails(entry: string, i: nat)
    requires i < |ParseProtocolAndVersionStr(entry)| && ParseProtocolAndVersionStr(entry)[i].Ok?
    requires ParseProtocol(ParseProtocolAndVersionStr(entry)[i].value.0).Err?
    ensures ParseProtoEntry(entry).Err?
  {
    KnownItemsUnknownName(ParseProtocolAndVersionStr(entry), i);
  }

  /**
   * A parsed UnvalidatedProtoEntry holds only non-empty names of at most
   * 100 bytes without '=', with valid sets, and its keys are the names its
   * items give.
   */
  lemma ParseUnvalidatedOk(entry: string)
    requires ParseUnvalidated(entry).Ok?
    ensures forall u :: u in ParseUnvalidated(entry).value ==>
      && u.name != "" && Utf8Len(u.name) <= MAX_PROTOCOL_NAME_LENGTH && '=' !in u.name
      && Valid(ParseUnvalidated(entry).value[u])
    ensures forall u :: u in ParseUnvalidated(entry).value <==>
      exists i :: 0 <= i < |ParseProtocolAndVersionStr(entry)| && ParseProtocolAndVersionStr(entry)[i].Ok?
                  && ParseProtocolAndVersionStr(entry)[i].value.0 == u.name
  {
    UnknownItemsOk(ParseProtocolAndVersionStr(entry));
  }

  /** The empty entry string is one empty item, which has no '='. */
  lemma EmptyEntryExample()
    ensures ParseProtoEntry("") == Err(Unparseable)
    ensures ParseUnvalidated("") == Err(Unparseable)
  {
    assert Split("", ' ') == [""];
  }

  /** The item "=" has an empty name and an empty version set. */
  lemma EmptyNameItem()
    ensures ParseProtocolAndVersionStr("=") == [Ok(("", EMPTY))]
  {
    SingleItem("=");
    EmptyNameSubproto();
  }

  /** An entry string without a space is a single item. */
  lemma SingleItem(entry: string)
    requires ' ' !in entry
    ensures ParseProtocolAndVersionStr(entry) == [ParseSubproto(entry)]
  {
    assert Split(entry, ' ') == [entry];
    var r := ParseProtocolAndVersionStr(entry);
    assert |r| == 1 && r[0] == ParseSubproto(entry);
  }

  lemma EmptyNameSubproto()
    ensures ParseSubproto("=") == Ok(("", EMPTY))
  {
    IndexAfterPrefix("", '=', "");
    assert "" + ['='] + "" == "=";
    assert "="[1..] == "" && "="[..0] == "";
    ParseBlank("");
  }

  /** An item with an empty name fails: as an unknown protocol in a ProtoEntry, as Unparseable otherwise. */
  lemma EmptyNameExample()
    ensures ParseProtoEntry("=") == Err(ProtoverError.UnknownProtocol)
    ensures ParseUnvalidated("=") == Err(Unparseable)
  {
    EmptyNameItem();
    var x: Parsed<string> := Ok(("", EMPTY));
    SingleItems(x);
    assert ValidateKnown(1, x) == Err(ProtoverError.UnknownProtocol);
    assert ValidateUnknown(x) == Err(Unparseable);
    CollectOne<Protocol>(ValidateKnown(1, x));
    CollectOne<UnknownProtocol>(ValidateUnknown(x));
  }

  lemma SingleItems(x: Parsed<string>)
    ensures KnownItems([x]) == [ValidateKnown(1, x)]
    ensures UnknownItems([x]) == [ValidateUnknown(x)]
  {
  }

  lemma CollectOne<K>(x: Parsed<K>)
    ensures x.Err? ==> CollectMap([x]) == Err(x.error)
  {
    assert [x][..0] == [];
  }

  // ---------------------------------------------------------------------
  // The string form of an entry

  /** One "name=versions" part of an entry's string form. */
  function RenderPart(name: string, versions: ProtoSet): string {
    name + "=" + ToString(versions)
  }

  /** order lists every key of m exactly once, as iterating the HashMap does in some order. */
  ghost predicate Enumerates<K(!new)>(order: seq<K>, m: map<K, ProtoSet>) {
    (forall k :: k in m <==> k in order) && Distinct(order)
  }

  /** The parts in iteration order. */
  function EntryParts<K>(m: map<K, ProtoSet>, order: seq<K>, name: K -> string): (r: seq<string>)
    requires forall i :: 0 <= i < |order| ==> order[i] in m
    ensures |r| == |order|
    ensures forall i :: 0 <= i < |r| ==> r[i] == RenderPart(name(order[i]), m[order[i]])
  {
    seq(|order|, i requires 0 <= i < |order| => RenderPart(name(order[i]), m[order[i]]))
  }

  /**
   * The to_string macro: the parts, visited in the map's iteration order
   * `order`, sorted lexicographically and joined by single spaces.
   */
  function EntryToString<K(!new)>(m: map<K, ProtoSet>, order: seq<K>, name: K -> string): string
    requires Enumerates(order, m)
  {
    Join(Sort(EntryParts(m, order, name), StringLess), ' ')
  }

  /** A part determines its name, when names hold no '='. */
  lemma RenderPartName(a: string, v: ProtoSet, b: string, w: ProtoSet)
    requires '=' !in a && '=' !in b
    requires RenderPart(a, v) == RenderPart(b, w)
    ensures a == b
  {
    IndexAfterPrefix(a, '=', ToString(v));
    IndexAfterPrefix(b, '=', ToString(w));
    assert a == RenderPart(a, v)[..|a|];
    assert b == RenderPart(b, w)[..|b|];
  }

  /** Names that identify their keys and hold no '='. */
  predicate GoodNames<K(!new)>(m: map<K, ProtoSet>, name: K -> string) {
    && (forall k :: k in m ==> '=' !in name(k))
    && (forall k, k' :: k in m && k' in m && name(k) == name(k') ==> k == k')
  }

  /** Distinct keys give distinct parts. */
  lemma EntryPartsDistinct<K(!new)>(m: map<K, ProtoSet>, order: seq<K>, name: K -> string)
    requires Enumerates(order, m) && GoodNames(m, name)
    ensures Distinct(EntryParts(m, order, name))
  {
    var parts := EntryParts(m, order, name);
    forall i, j | 0 <= i < j < |parts| ensures parts[i] != parts[j] {
      if parts[i] == parts[j] {
        RenderPartName(name(order[i]), m[order[i]], name(order[j]), m[order[j]]);
      }
    }
  }

  /** The sorted parts are the strictly ascending parts, one per key. */
  lemma SortedParts<K(!new)>(m: map<K, ProtoSet>, order: seq<K>, name: K -> string)
    requires Enumerates(order, m) && GoodNames(m, name)
    ensures StrictTotalOrder(StringLess)
    ensures Sort(EntryParts(m, order, name), StringLess) == SortDedup(EntryParts(m, order, name), StringLess)
    ensures forall y :: y in Sort(EntryParts(m, order, name), StringLess) <==>
      exists k :: k in m && y == RenderPart(name(k), m[k])
  {
    StringLessIsStrictTotalOrder();
    EntryPartsDistinct(m, order, name);
    SortOfDistinct(EntryParts(m, order, name), StringLess);
    var parts := EntryParts(m, order, name);
    forall y ensures y in parts <==> exists k :: k in m && y == RenderPart(name(k), m[k]) {
      if exists k :: k in m && y == RenderPart(name(k), m[k]) {
        var k :| k in m && y == RenderPart(name(k), m[k]);
        var i :| 0 <= i < |order| && order[i] == k;
        assert parts[i] == y;
      }
    }
  }

  /** The string form does not depend on the order the map is visited in. */
  lemma EntryToStringIndependent<K(!new)>(m: map<K, ProtoSet>, order: seq<K>, order': seq<K>, name: K -> string)
    requires Enumerates(order, m) && Enumerates(order', m) && GoodNames(m, name)
    ensures EntryToString(m, order, name) == EntryToString(m, order', name)
  {
    StringLessIsStrictTotalOrder();
    SortedParts(m, order, name);
    SortedParts(m, order', name);
    SortDedupDependsOnElements(EntryParts(m, order, name), EntryParts(m, order', name), StringLess);
  }

  /** A part parses back to its name and versions. */
  lemma ParseRenderedPart(name: string, v: ProtoSet)
    requires '=' !in name && Valid(v)
    ensures ParseSubproto(RenderPart(name, v)) == Ok((name, v))
  {
    var t := RenderPart(name, v);
    IndexAfterPrefix(name, '=', ToString(v));
    assert t[..|name|] == name;
    assert t[|name| + 1..] == ToString(v);
    ParseToString(v);
  }

  /** Item i is the name and versions of keys[i], and every key of m has an item. */
  ghost predicate ParsesTo<K(!new)>(pp: seq<Parsed<string>>, m: map<K, ProtoSet>, name: K -> string, keys: seq<K>) {
    && |keys| == |pp|
    && (forall i :: 0 <= i < |pp| ==> keys[i] in m && pp[i] == Ok((name(keys[i]), m[keys[i]])))
    && (forall k :: k in m ==> k in keys)
  }

  /** The key whose part y is. */
  ghost function PartKey<K(!new)>(y: string, m: map<K, ProtoSet>, name: K -> string): (k: K)
    requires exists k :: k in m && y == RenderPart(name(k), m[k])
    ensures k in m && y == RenderPart(name(k), m[k])
  {
    var k :| k in m && y == RenderPart(name(k), m[k]); k
  }

  /** Part i of an entry string is the part of keys[i], and every key of m has a part. */
  ghost predicate PartsOf<K(!new)>(items: seq<string>, m: map<K, ProtoSet>, name: K -> string, keys: seq<K>) {
    && |keys| == |items|
    && (forall i :: 0 <= i < |items| ==> keys[i] in m && items[i] == RenderPart(name(keys[i]), m[keys[i]]))
    && (forall k :: k in m ==> k in keys)
  }

  /** Splitting a rendered entry with at least one key on ' ' gives one part per key. */
  lemma RenderedParts<K(!new)>(m: map<K, ProtoSet>, order: seq<K>, name: K -> string)
    requires Enumerates(order, m) && GoodNames(m, name) && m != map[]
    requires forall k :: k in m ==> ' ' !in name(k)
    ensures |Split(EntryToString(m, order, name), ' ')| == |order|
    ensures exists keys :: PartsOf(Split(EntryToString(m, order, name), ' '), m, name, keys)
  {
    var parts := Sort(EntryParts(m, order, name), StringLess);
    SortedParts(m, order, name);
    var keys := seq(|parts|, i requires 0 <= i < |parts| => assert parts[i] in parts; PartKey(parts[i], m, name));
    forall j | 0 <= j < |parts| ensures ' ' !in parts[j] {
      ToStringAvoids(m[keys[j]], ' ');
    }
    var k0 :| k0 in m;
    assert k0 in order;
    SplitJoin(parts, ' ');
    forall k | k in m ensures k in keys {
      var y := RenderPart(name(k), m[k]);
      assert k in m && y == RenderPart(name(k), m[k]);
      assert y in parts;
      var i :| 0 <= i < |parts| && parts[i] == y;
      RenderPartName(name(k), m[k], name(keys[i]), m[keys[i]]);
    }
    assert PartsOf(parts, m, name, keys);
  }

  /** Parts of valid sets under names without '=' parse back to those names and sets. */
  lemma PartsParse<K(!new)>(entry: string, m: map<K, ProtoSet>, name: K -> string, keys: seq<K>)
    requires PartsOf(Split(entry, ' '), m, name, keys)
    requires forall k :: k in m ==> '=' !in name(k) && Valid(m[k])
    ensures ParsesTo(ParseProtocolAndVersionStr(entry), m, name, keys)
  {
    var items := Split(entry, ' ');
    var pp := ParseProtocolAndVersionStr(entry);
    forall i | 0 <= i < |pp| ensures pp[i] == Ok((name(keys[i]), m[keys[i]])) {
      ParseRenderedPart(name(keys[i]), m[keys[i]]);
    }
  }

  /** Items that all parse, agree with m, and cover its keys collect into m. */
  lemma CollectMapAll<K>(results: seq<Parsed<K>>, m: map<K, ProtoSet>)
    requires AllOk(results)
    requires forall i :: 0 <= i < |results| ==> results[i].value.0 in m && results[i].value.1 == m[results[i].value.0]
    requires forall k :: k in m ==> exists i :: 0 <= i < |results| && results[i].value.0 == k
    ensures CollectMap(results) == Ok(m)
  {
    CollectMapAllOk(results);
    CollectMapLast(results);
    var c := CollectMap(results).value;
    forall k | k in c ensures k in m && c[k] == m[k] {
      var i :| LastWithKey(results, i, k) && results[i].value.1 == c[k];
    }
    assert c == m;
  }

  /** Items naming known protocols with m's versions, few enough, collect into m. */
  lemma KnownItemsAll(pp: seq<Parsed<string>>, m: ProtoEntry, keys: seq<Protocol>)
    requires ParsesTo(pp, m, ProtocolName, keys) && |pp| <= MAX_PROTOCOLS_TO_EXPAND
    ensures CollectMap(KnownItems(pp)) == Ok(m)
  {
    var results := KnownItems(pp);
    forall i | 0 <= i < |results| ensures results[i] == Ok((keys[i], m[keys[i]])) {
      ParseProtocolName(keys[i]);
    }
    forall k | k in m ensures exists i :: 0 <= i < |results| && results[i].value.0 == k {
      var i :| 0 <= i < |keys| && keys[i] == k;
    }
    CollectMapAll(results, m);
  }

  /** Items with acceptable names and m's versions collect into m. */
  lemma UnknownItemsAll(pp: seq<Parsed<string>>, m: UnvalidatedProtoEntry, keys: seq<UnknownProtocol>)
    requires ParsesTo(pp, m, NameOf, keys)
    requires forall u :: u in m ==> u.name != "" && Utf8Len(u.name) <= MAX_PROTOCOL_NAME_LENGTH
    ensures CollectMap(UnknownItems(pp)) == Ok(m)
  {
    var results := UnknownItems(pp);
    forall i | 0 <= i < |results| ensures results[i] == Ok((keys[i], m[keys[i]])) {
    }
    forall u | u in m ensures exists i :: 0 <= i < |results| && results[i].value.0 == u {
      var i :| 0 <= i < |keys| && keys[i] == u;
    }
    CollectMapAll(results, m);
  }

  /** Without repeats there are at most ten protocols. */
  lemma AtMostTenProtocols(order: seq<Protocol>)
    requires Distinct(order)
    ensures |order| <= 10
  {
    DistinctCardinality(order);
    var all := {Cons, Desc, DirCache, HSDir, HSIntro, HSRend, Link, LinkAuth, Microdesc, Relay};
    assert (set p | p in order) <= all by {
      forall p | p in order ensures p in all {
        match p
        case Cons => case Desc => case DirCache => case HSDir => case HSIntro =>
        case HSRend => case Link => case LinkAuth => case Microdesc => case Relay =>
      }
    }
    SubsetCardinality((set p | p in order), all);
  }

  /**
   * from_str(to_string(e)) == e for every ProtoEntry with at least one
   * protocol and valid sets, whatever order its map is visited in.  (The
   * empty entry is written as "", which does not parse.)
   */
  lemma ParseProtoEntryToString(m: ProtoEntry, order: seq<Protocol>)
    requires Enumerates(order, m) && m != map[]
    requires forall p :: p in m ==> Valid(m[p])
    ensures ParseProtoEntry(EntryToString(m, order, ProtocolName)) == Ok(m)
  {
    forall p | p in m ensures '=' !in ProtocolName(p) && ' ' !in ProtocolName(p) {
      ProtocolNameShape(p);
    }
    forall p, q | p in m && q in m && ProtocolName(p) == ProtocolName(q) ensures p == q {
      ProtocolNameInjective(p, q);
    }
    var entry := EntryToString(m, order, ProtocolName);
    RenderedParts(m, order, ProtocolName);
    var keys :| PartsOf(Split(entry, ' '), m, ProtocolName, keys);
    PartsParse(entry, m, ProtocolName, keys);
    AtMostTenProtocols(order);
    KnownItemsAll(ParseProtocolAndVersionStr(entry), m, keys);
  }

  /**
   * The same for an UnvalidatedProtoEntry whose names are what parsing
   * accepts: non-empty, at most 100 bytes, without '=' or ' '.
   */
  lemma ParseUnvalidatedToString(m: UnvalidatedProtoEntry, order: seq<UnknownProtocol>)
    requires Enumerates(order, m) && m != map[]
    requires forall u :: u in m ==>
      && u.name != "" && Utf8Len(u.name) <= MAX_PROTOCOL_NAME_LENGTH && '=' !in u.name && ' ' !in u.name
      && Valid(m[u])
    ensures ParseUnvalidated(EntryToString(m, order, NameOf)) == Ok(m)
  {
    var entry := EntryToString(m, order, NameOf);
    RenderedParts(m, order, NameOf);
    var keys :| PartsOf(Split(entry, ' '), m, NameOf, keys);
    PartsParse(entry, m, NameOf, keys);
    UnknownItemsAll(ParseProtocolAndVersionStr(entry), m, keys);
  }

  // ---------------------------------------------------------------------
  // The protocols this tor supports, and the queries

  /** The table SUPPORTED_PROTOCOLS describes. */
  const SUPPORTED_TABLE: ProtoEntry := map[
    Cons := ProtoSet([(1, 2)]), Desc := ProtoSet([(1, 2)]), DirCache := ProtoSet([(1, 2)]),
    HSDir := ProtoSet([(1, 2)]), HSIntro := ProtoSet([(3, 4)]), HSRend := ProtoSet([(1, 2)]),
    Link := ProtoSet([(1, 5)]), LinkAuth := ProtoSet([(1, 1), (3, 3)]), Microdesc := ProtoSet([(1, 2)]),
    Relay := ProtoSet([(1, 2)])]

  /** ProtoEntry::supported */
  function Supported(): Result<ProtoEntry, ProtoverError> {
    ParseProtoEntry(SUPPORTED_PROTOCOLS)
  }

  /** get_supported_protocols_cstr, item by item. */
  const SUPPORTED_ITEMS: seq<string> := [
    "Cons=1-2", "Desc=1-2", "DirCache=1-2", "HSDir=1-2", "HSIntro=3-4", "HSRend=1-2",
    "Link=1-5", "LinkAuth=1,3", "Microdesc=1-2", "Relay=1-2"]

  /** get_supported_protocols_cstr: the protocols and versions this tor supports, the items separated by ' '. */
  const SUPPORTED_PROTOCOLS: string := Join(SUPPORTED_ITEMS, ' ')

  /** The protocol of each item. */
  const SUPPORTED_KEYS: seq<Protocol> :=
    [Cons, Desc, DirCache, HSDir, HSIntro, HSRend, Link, LinkAuth, Microdesc, Relay]

  /** One item, written as the name, '=' and the versions. */
  lemma RenderedItem(item: string, p: Protocol, name: string, versions: ProtoSet, text: string)
    requires name == ProtocolName(p) && text == ToString(versions) && item == name + "=" + text
    ensures item == RenderPart(ProtocolName(p), versions)
  {
  }

  /** Item i, among the first four, renders the protocol SUPPORTED_KEYS[i] with its versions in SUPPORTED_TABLE. */
  lemma SupportedItemRendersFirst(i: nat)
    requires i < 4
    ensures SUPPORTED_KEYS[i] in SUPPORTED_TABLE
    ensures SUPPORTED_ITEMS[i] == RenderPart(ProtocolName(SUPPORTED_KEYS[i]), SUPPORTED_TABLE[SUPPORTED_KEYS[i]])
  {
    if i == 0 {
      SmallRangeString(1, 2);
      RenderedItem(SUPPORTED_ITEMS[i], Cons, "Cons", SUPPORTED_TABLE[Cons], "1-2");
    } else if i == 1 {
      SmallRangeString(1, 2);
      RenderedItem(SUPPORTED_ITEMS[i], Desc, "Desc", SUPPORTED_TABLE[Desc], "1-2");
    } else if i == 2 {
      SmallRangeString(1, 2);
      RenderedItem(SUPPORTED_ITEMS[i], DirCache, "DirCache", SUPPORTED_TABLE[DirCache], "1-2");
    } else {
      SmallRangeString(1, 2);
      RenderedItem(SUPPORTED_ITEMS[i], HSDir, "HSDir", SUPPORTED_TABLE[HSDir], "1-2");
    }
  }

  /** Item i, among the fifth to the seventh, renders the protocol SUPPORTED_KEYS[i] with its versions in SUPPORTED_TABLE. */
  lemma SupportedItemRendersMiddle(i: nat)
    requires 4 <= i < 7
    ensures SUPPORTED_KEYS[i] in SUPPORTED_TABLE
    ensures SUPPORTED_ITEMS[i] == RenderPart(ProtocolName(SUPPORTED_KEYS[i]), SUPPORTED_TABLE[SUPPORTED_KEYS[i]])
  {
    if i == 4 {
      SmallRangeString(3, 4);
      RenderedItem(SUPPORTED_ITEMS[i], HSIntro, "HSIntro", SUPPORTED_TABLE[HSIntro], "3-4");
    } else if i == 5 {
      SmallRangeString(1, 2);
      RenderedItem(SUPPORTED_ITEMS[i], HSRend, "HSRend", SUPPORTED_TABLE[HSRend], "1-2");
    } else {
      SmallRangeString(1, 5);
      RenderedItem(SUPPORTED_ITEMS[i], Link, "Link", SUPPORTED_TABLE[Link], "1-5");
    }
  }

  /** Item i, among the last three, renders the protocol SUPPORTED_KEYS[i] with its versions in SUPPORTED_TABLE. */
  lemma SupportedItemRendersLast(i: nat)
    requires 7 <= i < 10
    ensures SUPPORTED_KEYS[i] in SUPPORTED_TABLE
    ensures SUPPORTED_ITEMS[i] == RenderPart(ProtocolName(SUPPORTED_KEYS[i]), SUPPORTED_TABLE[SUPPORTED_KEYS[i]])
  {
    if i == 7 {
      SmallPairString(1, 3);
      RenderedItem(SUPPORTED_ITEMS[i], LinkAuth, "LinkAuth", SUPPORTED_TABLE[LinkAuth], "1,3");
    } else if i == 8 {
      SmallRangeString(1, 2);
      RenderedItem(SUPPORTED_ITEMS[i], Microdesc, "Microdesc", SUPPORTED_TABLE[Microdesc], "1-2");
    } else {
      SmallRangeString(1, 2);
      RenderedItem(SUPPORTED_ITEMS[i], Relay, "Relay", SUPPORTED_TABLE[Relay], "1-2");
    }
  }

  /** SUPPORTED_KEYS lists every protocol. */
  lemma ProtocolListed(p: Protocol)
    ensures p in SUPPORTED_KEYS
  {
    match p
    case Cons =>
    case Desc =>
    case DirCache =>
    case HSDir =>
    case HSIntro =>
    case HSRend =>
    case Link =>
    case LinkAuth =>
    case Microdesc =>
    case Relay =>
  }

  lemma SupportedItemsRender()
    ensures PartsOf(SUPPORTED_ITEMS, SUPPORTED_TABLE, ProtocolName, SUPPORTED_KEYS)
  {
    forall i | 0 <= i < |SUPPORTED_ITEMS|
      ensures SUPPORTED_KEYS[i] in SUPPORTED_TABLE
      ensures SUPPORTED_ITEMS[i] == RenderPart(ProtocolName(SUPPORTED_KEYS[i]), SUPPORTED_TABLE[SUPPORTED_KEYS[i]])
    {
      if i < 4 {
        SupportedItemRendersFirst(i);
      } else if i < 7 {
        SupportedItemRendersMiddle(i);
      } else {
        SupportedItemRendersLast(i);
      }
    }
    forall k | k in SUPPORTED_TABLE ensures k in SUPPORTED_KEYS {
      ProtocolListed(k);
    }
  }

  lemma SupportedItemsNoSpace()
    ensures forall k :: 0 <= k < |SUPPORTED_ITEMS| ==> ' ' !in SUPPORTED_ITEMS[k]
  {
  }

  /** Splitting SUPPORTED_PROTOCOLS on ' ' gives its items. */
  lemma SupportedItemsSplit()
    ensures Split(SUPPORTED_PROTOCOLS, ' ') == SUPPORTED_ITEMS
  {
    SupportedItemsNoSpace();
    SplitJoin(SUPPORTED_ITEMS, ' ');
  }

  /** Every set of the table is valid, and no protocol name holds '='. */
  lemma SupportedTableValid()
    ensures forall k :: k in SUPPORTED_TABLE ==> '=' !in ProtocolName(k) && Valid(SUPPORTED_TABLE[k])
  {
    assert Valid(ProtoSet([(1, 2)])) && Valid(ProtoSet([(3, 4)])) && Valid(ProtoSet([(1, 5)]));
    assert Valid(ProtoSet([(1, 1), (3, 3)]));
    forall k | k in SUPPORTED_TABLE ensures '=' !in ProtocolName(k) {
      ProtocolNameShape(k);
    }
  }

  /** An entry whose items are SUPPORTED_ITEMS parses to the table. */
  lemma ParseSupportedItems(entry: string)
    requires Split(entry, ' ') == SUPPORTED_ITEMS
    ensures ParseProtoEntry(entry) == Ok(SUPPORTED_TABLE)
  {
    SupportedItemsRender();
    SupportedTableValid();
    PartsParse(entry, SUPPORTED_TABLE, ProtocolName, SUPPORTED_KEYS);
    KnownItemsAll(ParseProtocolAndVersionStr(entry), SUPPORTED_TABLE, SUPPORTED_KEYS);
  }

  /** ProtoEntry::supported succeeds, with the table SUPPORTED_PROTOCOLS describes. */
  lemma SupportedIsTable()
    ensures Supported() == Ok(SUPPORTED_TABLE)
  {
    SupportedItemsSplit();
    ParseSupportedItems(SUPPORTED_PROTOCOLS);
  }

  /** The versions of name that supported lists: none for a name that is not a known protocol or not in it. */
  function SupportedVersions(name: string, supported: ProtoEntry): ProtoSet {
    match ParseProtocol(name)
    case Err(_) => EMPTY
    case Ok(p) => if p in supported then supported[p] else EMPTY
  }

  /** A known protocol's name looks up that protocol. */
  lemma SupportedVersionsOf(p: Protocol, supported: ProtoEntry)
    ensures SupportedVersions(ProtocolName(p), supported) == if p in supported then supported[p] else EMPTY
  {
    ParseProtocolName(p);
  }

  /** ProtoSet::and_not_in (which is not part of this model), as set difference: the versions of s that other lacks. */
  function AndNotIn(s: ProtoSet, other: ProtoSet): ProtoSet {
    Retain(s, v => !InRanges(other, v))
  }

  /** The versions of u in e that supported lacks. */
  function UnsupportedVersions(e: UnvalidatedProtoEntry, u: UnknownProtocol, supported: ProtoEntry): ProtoSet
    requires u in e
  {
    AndNotIn(e[u], SupportedVersions(u.name, supported))
  }

  /** The filter_map of get_unsupported against a given table: each protocol with the versions left, if any. */
  function UnsupportedBy(e: UnvalidatedProtoEntry, supported: ProtoEntry): UnvalidatedProtoEntry {
    map u | u in e && !IsEmpty(UnsupportedVersions(e, u, supported)) :: UnsupportedVersions(e, u, supported)
  }

  /** UnvalidatedProtoEntry::get_unsupported: all of e when the table does not parse. */
  function GetUnsupported(e: UnvalidatedProtoEntry): UnvalidatedProtoEntry {
    match Supported()
    case Err(_) => e
    case Ok(supported) => UnsupportedBy(e, supported)
  }

  /** For a valid set: the versions left are those supported lacks, and they form a valid set. */
  lemma UnsupportedVersionsSpec(e: UnvalidatedProtoEntry, u: UnknownProtocol, supported: ProtoEntry)
    requires u in e && Valid(e[u])
    ensures Valid(UnsupportedVersions(e, u, supported))
    ensures forall v :: v in Expand(UnsupportedVersions(e, u, supported)) <==>
      v in Expand(e[u]) && !InRanges(SupportedVersions(u.name, supported), v)
    ensures IsEmpty(UnsupportedVersions(e, u, supported)) <==> Expand(UnsupportedVersions(e, u, supported)) == []
  {
    var other := SupportedVersions(u.name, supported);
    RetainKeeps(e[u], v => !InRanges(other, v));
    ValidIsWellFormed(UnsupportedVersions(e, u, supported));
  }

  /**
   * For valid sets, the unsupported entry keeps a protocol exactly when
   * some of its versions are not supported, and keeps for it exactly those
   * versions, as a valid set.
   */
  lemma UnsupportedBySpec(e: UnvalidatedProtoEntry, supported: ProtoEntry, u: UnknownProtocol)
    requires u in e && Valid(e[u])
    ensures u in UnsupportedBy(e, supported) <==>
      exists v :: v in Expand(e[u]) && !InRanges(SupportedVersions(u.name, supported), v)
    ensures u in UnsupportedBy(e, supported) ==>
      Valid(UnsupportedBy(e, supported)[u]) &&
      forall v :: v in Expand(UnsupportedBy(e, supported)[u]) <==>
        v in Expand(e[u]) && !InRanges(SupportedVersions(u.name, supported), v)
  {
    UnsupportedVersionsSpec(e, u, supported);
    var left := UnsupportedVersions(e, u, supported);
    if Expand(left) != [] {
      assert Expand(left)[0] in Expand(left);
    }
  }

  /** UnvalidatedProtoEntry::supports_protocol: proto is listed and its set contains vers. */
  function SupportsProtocol(e: UnvalidatedProtoEntry, proto: UnknownProtocol, vers: Version): bool {
    proto in e && InRanges(e[proto], vers)
  }

  /** supports_protocol holds exactly when the expansion of proto's set yields vers. */
  lemma SupportsProtocolExpanded(e: UnvalidatedProtoEntry, proto: UnknownProtocol, vers: Version)
    ensures SupportsProtocol(e, proto, vers) <==> proto in e && vers in Expand(e[proto])
  {
    if proto in e {
      InRangesIffExpanded(e[proto], vers);
    }
  }

  /** UnvalidatedProtoEntry::supports_protocol_or_later: proto is listed and some range ends at or above vers. */
  function SupportsProtocolOrLater(e: UnvalidatedProtoEntry, proto: UnknownProtocol, vers: Version): bool {
    proto in e && exists i :: 0 <= i < |e[proto].pairs| && e[proto].pairs[i].1 >= vers
  }

  /** For a valid set: some version at or above vers is supported. */
  lemma SupportsProtocolOrLaterExpanded(e: UnvalidatedProtoEntry, proto: UnknownProtocol, vers: Version)
    requires proto in e ==> Valid(e[proto])
    ensures SupportsProtocolOrLater(e, proto, vers) <==>
      proto in e && exists w :: w in Expand(e[proto]) && w >= vers
  {
    if proto in e {
      var s := e[proto];
      ValidIsWellFormed(s);
      if exists i :: 0 <= i < |s.pairs| && s.pairs[i].1 >= vers {
        var i :| 0 <= i < |s.pairs| && s.pairs[i].1 >= vers;
        InRangesIffExpanded(s, s.pairs[i].1);
      }
      if exists w :: w in Expand(s) && w >= vers {
        var w :| w in Expand(s) && w >= vers;
        InRangesIffExpanded(s, w);
      }
    }
  }

  /** is_supported_here: the supported table lists proto with vers; false when the table does not parse. */
  function IsSupportedHere(proto: Protocol, vers: Version): bool {
    match Supported()
    case Err(_) => false
    case Ok(supported) => proto in supported && InRanges(supported[proto], vers)
  }

  /** is_supported_here asks the table SUPPORTED_PROTOCOLS describes. */
  lemma IsSupportedHereTable(proto: Protocol, vers: Version)
    ensures IsSupportedHere(proto, vers) <==>
      proto in SUPPORTED_TABLE && vers in Expand(SUPPORTED_TABLE[proto])
  {
    SupportedIsTable();
    if proto in SUPPORTED_TABLE {
      InRangesIffExpanded(SUPPORTED_TABLE[proto], vers);
    }
  }

  /** This tor supports Link version 1 but not Link version 10. */
  lemma IsSupportedHereExamples()
    ensures IsSupportedHere(Link, 1) && !IsSupportedHere(Link, 10)
  {
    IsSupportedHereTable(Link, 1);
    IsSupportedHereTable(Link, 10);
    LinkSupported();
    SingleRangeExpanded(1, 5, 1);
    SingleRangeExpanded(1, 5, 10);
  }

  lemma LinkSupported()
    ensures Link in SUPPORTED_TABLE && SUPPORTED_TABLE[Link] == ProtoSet([(1, 5)])
  {
  }

  /** The entry "Link=3-4 Cons=1 Doggo=3-5" supports Cons 1 and Doggo 4 but not Cons 5. */
  lemma SupportsProtocolExamples()
    ensures var e := map[UnknownName("Link") := ProtoSet([(3, 4)]), UnknownName("Cons") := ProtoSet([(1, 1)]),
                         UnknownName("Doggo") := ProtoSet([(3, 5)])];
      SupportsProtocol(e, UnknownName("Cons"), 1) && !SupportsProtocol(e, UnknownName("Cons"), 5) &&
      SupportsProtocol(e, UnknownName("Doggo"), 4)
  {
    var e := map[UnknownName("Link") := ProtoSet([(3, 4)]), UnknownName("Cons") := ProtoSet([(1, 1)]),
                 UnknownName("Doggo") := ProtoSet([(3, 5)])];
    assert e[UnknownName("Cons")] == ProtoSet([(1, 1)]);
    assert e[UnknownName("Doggo")] == ProtoSet([(3, 5)]);
    assert ProtoSet([(1, 1)]).pairs[0] == (1, 1);
    assert ProtoSet([(3, 5)]).pairs[0] == (3, 5);
  }

  /** The entry "Link=3-4 Cons=5" supports Cons 5 or later and Cons 4 or later, but not Cons 6 or later. */
  lemma SupportsProtocolOrLaterExamples()
    ensures var e := map[UnknownName("Link") := ProtoSet([(3, 4)]), UnknownName("Cons") := ProtoSet([(5, 5)])];
      SupportsProtocolOrLater(e, UnknownName("Cons"), 5) && SupportsProtocolOrLater(e, UnknownName("Cons"), 4) &&
      !SupportsProtocolOrLater(e, UnknownName("Cons"), 6)
  {
    var e := map[UnknownName("Link") := ProtoSet([(3, 4)]), UnknownName("Cons") := ProtoSet([(5, 5)])];
    assert e[UnknownName("Cons")].pairs[0].1 == 5;
  }

  /** This tor supports Link versions 1 to 5. */
  lemma SupportedLinkVersions()
    ensures SupportedVersions("Link", SUPPORTED_TABLE) == ProtoSet([(1, 5)])
  {
    SupportedVersionsOf(Link, SUPPORTED_TABLE);
  }

  /** get_unsupported compares with the table SUPPORTED_PROTOCOLS describes. */
  lemma GetUnsupportedTable(e: UnvalidatedProtoEntry)
    ensures GetUnsupported(e) == UnsupportedBy(e, SUPPORTED_TABLE)
  {
    SupportedIsTable();
  }

  /** Link versions 1 and 2 are supported, so Link is not reported. */
  lemma LinkOneTwoSupported(e: UnvalidatedProtoEntry)
    requires UnknownName("Link") in e && e[UnknownName("Link")] == ProtoSet([(1, 2)])
    ensures UnknownName("Link") !in UnsupportedBy(e, SUPPORTED_TABLE)
  {
    var link, l := UnknownName("Link"), ProtoSet([(1, 2)]);
    assert Valid(l);
    SupportedLinkVersions();
    UnsupportedBySpec(e, SUPPORTED_TABLE, link);
    forall v | v in Expand(l) ensures InRanges(ProtoSet([(1, 5)]), v) {
      InRangesIffExpanded(l, v);
      assert l.pairs[0] == (1, 2);
      assert ProtoSet([(1, 5)]).pairs[0] == (1, 5);
    }
  }

  /** Wombat is no protocol of this tor, so all of its versions are reported. */
  lemma WombatNineUnsupported(e: UnvalidatedProtoEntry)
    requires UnknownName("Wombat") in e && e[UnknownName("Wombat")] == ProtoSet([(9, 9)])
    ensures UnknownName("Wombat") in UnsupportedBy(e, SUPPORTED_TABLE)
    ensures forall v :: v in Expand(UnsupportedBy(e, SUPPORTED_TABLE)[UnknownName("Wombat")]) <==> v == 9
  {
    var wombat, w := UnknownName("Wombat"), ProtoSet([(9, 9)]);
    assert Valid(w);
    forall v ensures v in Expand(w) <==> v == 9 {
      SingleRangeExpanded(9, 9, v);
    }
    assert 9 in Expand(w);
    assert ParseProtocol("Wombat").Err?;
    UnknownUnsupported(e, SUPPORTED_TABLE, wombat);
  }

  /** A protocol this version cannot parse is reported with all of its versions. */
  lemma UnknownUnsupported(e: UnvalidatedProtoEntry, supported: ProtoEntry, u: UnknownProtocol)
    requires u in e && Valid(e[u]) && Expand(e[u]) != [] && ParseProtocol(u.name).Err?
    ensures u in UnsupportedBy(e, supported)
    ensures forall v :: v in Expand(UnsupportedBy(e, supported)[u]) <==> v in Expand(e[u])
  {
    assert SupportedVersions(u.name, supported) == EMPTY;
    assert forall v :: !InRanges(EMPTY, v);
    UnsupportedBySpec(e, supported, u);
    assert Expand(e[u])[0] in Expand(e[u]);
  }

  /** Of "Link=1-2 Wombat=9", this tor lacks only Wombat version 9 (get_unsupported compares with SUPPORTED_TABLE). */
  lemma GetUnsupportedExample(e: UnvalidatedProtoEntry)
    requires e.Keys == {UnknownName("Link"), UnknownName("Wombat")}
    requires UnknownName("Link") in e && e[UnknownName("Link")] == ProtoSet([(1, 2)])
    requires UnknownName("Wombat") in e && e[UnknownName("Wombat")] == ProtoSet([(9, 9)])
    ensures UnsupportedBy(e, SUPPORTED_TABLE).Keys == {UnknownName("Wombat")}
  {
    LinkOneTwoSupported(e);
    WombatNineUnsupported(e);
  }
}

=== FILE: protover_vote.dfy ===
// The counting side of protover.rs: UnvalidatedProtoEntry::len and
// ProtoverVote::compute, the threshold vote directory authorities take
// over the protocol lists relays advertise.

module ProtoverVote {
  import opened MachineInts
  import opened ProtoSets
  import opened Protover

  // ---------------------------------------------------------------------
  // UnvalidatedProtoEntry::len

  /** The sum of len() over the sets of e, in no particular order. */
  ghost function EntryWidth(e: UnvalidatedProtoEntry): int
    decreases |e.Keys|
  {
    if e == map[] then 0
    else
      var p :| p in e;
      TotalWidth(e[p].pairs) + EntryWidth(e - {p})
  }

  /** The sum does not depend on which protocol is taken first. */
  lemma {:induction false} EntryWidthRemove(e: UnvalidatedProtoEntry, p: UnknownProtocol)
    requires p in e
    ensures EntryWidth(e) == TotalWidth(e[p].pairs) + EntryWidth(e - {p})
    decreases |e.Keys|
  {
    var q :| q in e && EntryWidth(e) == TotalWidth(e[q].pairs) + EntryWidth(e - {q});
    if q != p {
      EntryWidthRemove(e - {q}, p);
      EntryWidthRemove(e - {p}, q);
      assert (e - {q}) - {p} == (e - {p}) - {q};
    }
  }

  /** UnvalidatedProtoEntry::len: the sum of the lengths of its sets. */
  method EntryLen(e: UnvalidatedProtoEntry) returns (n: int)
    requires forall p :: p in e ==> WellFormed(e[p])
    ensures n == EntryWidth(e)
  {
    n := 0;
    var rest := e;
    while rest != map[]
      invariant forall p :: p in rest ==> p in e && rest[p] == e[p]
      invariant n + EntryWidth(rest) == EntryWidth(e)
      decreases |rest.Keys|
    {
      var p :| p in rest;
      var width := Len(rest[p]);
      EntryWidthRemove(rest, p);
      n := n + width;
      rest := rest - {p};
    }
  }

  // ---------------------------------------------------------------------
  // What the vote counts

  /** How many times v occurs in xs. */
  function Occurrences(xs: seq<Version>, v: Version): nat {
    if xs == [] then 0
    else Occurrences(xs[..|xs| - 1], v) + (if xs[|xs| - 1] == v then 1 else 0)
  }

  /** An entry takes part in the vote unless its len() exceeds MAX_PROTOCOLS_TO_EXPAND. */
  ghost predicate Counted(e: UnvalidatedProtoEntry) {
    EntryWidth(e) <= MAX_PROTOCOLS_TO_EXPAND
  }

  /** The votes e casts for version v of p: once per time expand() yields it. */
  function EntryCount(e: UnvalidatedProtoEntry, p: UnknownProtocol, v: Version): nat {
    if p in e then Occurrences(Expand(e[p]), v) else 0
  }

  /** The votes for version v of p over the entries that take part. */
  ghost function Tally(entries: seq<UnvalidatedProtoEntry>, p: UnknownProtocol, v: Version): nat {
    if entries == [] then 0
    else
      var last := entries[|entries| - 1];
      Tally(entries[..|entries| - 1], p, v) + (if Counted(last) then EntryCount(last, p, v) else 0)
  }

  /** Version v of p is in the outcome: it was voted for at least once and by at least threshold votes. */
  ghost predicate Wins(entries: seq<UnvalidatedProtoEntry>, threshold: nat, p: UnknownProtocol, v: Version) {
    Tally(entries, p, v) >= 1 && Tally(entries, p, v) >= threshold
  }

  // ---------------------------------------------------------------------
  // ProtoverVote::compute

  /** all_count: for each protocol, the votes for each version seen. */
  type Counts = map<UnknownProtocol, map<Version, nat>>

  /** The count for version v of p, zero when it has none. */
  function CountIn(counts: Counts, p: UnknownProtocol, v: Version): nat {
    if p in counts && v in counts[p] then counts[p][v] else 0
  }

  /** A version only gets a counter when it is voted for. */
  ghost predicate Positive(counts: Counts) {
    forall p, v :: p in counts && v in counts[p] ==> counts[p][v] >= 1
  }

  /** The innermost loop of compute: one more vote for every version xs yields, under p. */
  method CountVersions(counts: Counts, p: UnknownProtocol, xs: seq<Version>) returns (r: Counts)
    requires Positive(counts)
    ensures Positive(r)
    ensures forall q, v :: CountIn(r, q, v) == CountIn(counts, q, v) + (if q == p then Occurrences(xs, v) else 0)
  {
    var versions: map<Version, nat> := if p in counts then counts[p] else map[];
    var j := 0;
    while j < |xs|
      invariant 0 <= j <= |xs|
      invariant forall v :: v in versions ==> versions[v] >= 1
      invariant forall v :: (if v in versions then versions[v] else 0) == CountIn(counts, p, v) + Occurrences(xs[..j], v)
    {
      var x := xs[j];
      var counter := if x in versions then versions[x] else 0;
      versions := versions[x := counter + 1];
      assert xs[..j + 1][..j] == xs[..j];
      j := j + 1;
    }
    assert xs[..j] == xs;
    r := counts[p := versions];
  }

  /** The loop over one vote: every protocol of the entry adds its expansion. */
  method CountEntry(counts: Counts, vote: UnvalidatedProtoEntry) returns (r: Counts)
    requires Positive(counts)
    ensures Positive(r)
    ensures forall q, v :: CountIn(r, q, v) == CountIn(counts, q, v) + EntryCount(vote, q, v)
  {
    r := counts;
    var todo := vote.Keys;
    while todo != {}
      invariant todo <= vote.Keys
      invariant Positive(r)
      invariant forall q, v ::
        CountIn(r, q, v) == CountIn(counts, q, v) + (if q !in todo then EntryCount(vote, q, v) else 0)
      decreases |todo|
    {
      var p :| p in todo;
      r := CountVersions(r, p, Expand(vote[p]));
      todo := todo - {p};
    }
  }

  /** The first loop of compute: count every entry that is not too long. */
  method CountVotes(entries: seq<UnvalidatedProtoEntry>) returns (counts: Counts)
    requires forall i, p :: 0 <= i < |entries| && p in entries[i] ==> WellFormed(entries[i][p])
    ensures Positive(counts)
    ensures forall p, v :: CountIn(counts, p, v) == Tally(entries, p, v)
  {
    counts := map[];
    var i := 0;
    while i < |entries|
      invariant 0 <= i <= |entries|
      invariant Positive(counts)
      invariant forall p, v :: CountIn(counts, p, v) == Tally(entries[..i], p, v)
    {
      var vote := entries[i];
      assert entries[..i + 1][..i] == entries[..i];
      var n := EntryLen(vote);
      if n > MAX_PROTOCOLS_TO_EXPAND {
        i := i + 1;
        continue;
      }
      counts := CountEntry(counts, vote);
      i := i + 1;
    }
    assert entries[..i] == entries;
  }

  /** versions.keys().cloned().collect(): the keys, each once, in some order. */
  method KeysOf(versions: map<Version, nat>) returns (keys: seq<Version>)
    ensures forall v :: v in keys <==> v in versions
  {
    keys := [];
    var rest := versions.Keys;
    while rest != {}
      invariant rest <= versions.Keys
      invariant forall v :: v in keys <==> v in versions && v !in rest
      decreases |rest|
    {
      var v :| v in rest;
      keys := keys + [v];
      rest := rest - {v};
    }
  }

  /**
   * The set compute outputs for versions kept: empty when u32::MAX is among
   * them (From<Vec> fails and falls back to the default), otherwise exactly
   * the kept versions as separated runs.
   */
  ghost predicate Outcome(s: ProtoSet, kept: Version -> bool) {
    if kept(U32_MAX) then s == EMPTY
    else Valid(s) && Separated(s.pairs) && forall v :: v in Expand(s) <==> kept(v)
  }

  /** The set built from the versions of counts that reach threshold. */
  lemma OutcomeOfKept(voted: seq<Version>, versions: map<Version, nat>, threshold: nat)
    requires forall v :: v in voted <==> v in versions && versions[v] >= threshold
    ensures Outcome(FromVersions(voted), v => v in versions && versions[v] >= threshold)
  {
    if U32_MAX in voted {
      FromVersionsWithMax(voted);
    } else {
      FromVersionsExpand(voted);
    }
  }

  /** The second loop of compute: keep the versions with at least threshold votes, drop protocols left with none. */
  method Select(counts: Counts, threshold: nat) returns (r: UnvalidatedProtoEntry)
    ensures forall p :: p in r <==> p in counts && exists v :: v in counts[p] && counts[p][v] >= threshold
    ensures forall p :: p in r ==> p in counts && Outcome(r[p], v => v in counts[p] && counts[p][v] >= threshold)
  {
    r := map[];
    var todo := counts.Keys;
    while todo != {}
      invariant todo <= counts.Keys
      invariant forall p :: p in r ==> p in counts && p !in todo
      invariant forall p :: p in counts && p !in todo ==>
        (p in r <==> exists v :: v in counts[p] && counts[p][v] >= threshold)
      invariant forall p :: p in r ==> Outcome(r[p], v => v in counts[p] && counts[p][v] >= threshold)
      decreases |todo|
    {
      var p :| p in todo;
      var versions := counts[p];
      var kept := map v | v in versions && versions[v] >= threshold :: versions[v];
      if kept != map[] {
        var voted := KeysOf(kept);
        var votedSet := FromVec(voted);
        OutcomeOfKept(voted, versions, threshold);
        r := r[p := votedSet];
      } else {
        assert forall v :: v in versions && versions[v] >= threshold ==> v in kept;
      }
      todo := todo - {p};
    }
  }

  /**
   * ProtoverVote::compute: no entries give an empty result; otherwise p is
   * in the result exactly when some version of it wins, and its set holds
   * exactly the winning versions (or is empty when u32::MAX wins).
   */
  method Compute(entries: seq<UnvalidatedProtoEntry>, threshold: nat) returns (r: UnvalidatedProtoEntry)
    requires forall i, p :: 0 <= i < |entries| && p in entries[i] ==> WellFormed(entries[i][p])
    ensures entries == [] ==> r == map[]
    ensures forall p :: p in r <==> exists v :: Wins(entries, threshold, p, v)
    ensures forall p :: p in r ==> Outcome(r[p], (v: Version) => Wins(entries, threshold, p, v))
  {
    if entries == [] {
      return map[];
    }
    var counts := CountVotes(entries);
    r := Select(counts, threshold);
    forall p, v ensures (p in counts && v in counts[p] && counts[p][v] >= threshold) <==> Wins(entries, threshold, p, v) {
      assert CountIn(counts, p, v) == Tally(entries, p, v);
    }
    forall p | p in r ensures Outcome(r[p], (v: Version) => Wins(entries, threshold, p, v)) {
      assert Outcome(r[p], v => v in counts[p] && counts[p][v] >= threshold);
    }
  }

  // ---------------------------------------------------------------------
  // Properties of the tally

  /** Votes add up: tallying two lists of entries one after the other is tallying them together. */
  lemma {:induction false} TallyAppend(a: seq<UnvalidatedProtoEntry>, b: seq<UnvalidatedProtoEntry>, p: UnknownProtocol, v: Version)
    ensures Tally(a + b, p, v) == Tally(a, p, v) + Tally(b, p, v)
    decreases |b|
  {
    if b == [] {
      assert a + b == a;
    } else {
      var n := |b|;
      assert (a + b)[..|a + b| - 1] == a + b[..n - 1];
      assert (a + b)[|a + b| - 1] == b[n - 1];
      TallyAppend(a, b[..n - 1], p, v);
    }
  }

  /** An entry with one protocol is counted when the width of its set is within the limit. */
  lemma SingleEntryWidth(p: UnknownProtocol, s: ProtoSet)
    ensures EntryWidth(map[p := s]) == TotalWidth(s.pairs)
  {
    EntryWidthRemove(map[p := s], p);
    assert map[p := s] - {p} == map[];
  }

  /** The votes of one single-protocol entry. */
  lemma SingleEntryTally(p: UnknownProtocol, s: ProtoSet, q: UnknownProtocol, v: Version)
    requires TotalWidth(s.pairs) <= MAX_PROTOCOLS_TO_EXPAND
    ensures Tally([map[p := s]], q, v) == if q == p then Occurrences(Expand(s), v) else 0
  {
    SingleEntryWidth(p, s);
    assert [map[p := s]][..0] == [];
  }

  /** Voting over "Link=3-4" and "Link=3" with threshold 2 keeps Link version 3 alone. */
  lemma ComputeExample(e1: UnvalidatedProtoEntry, e2: UnvalidatedProtoEntry)
    requires e1 == map[UnknownName("Link") := ProtoSet([(3, 4)])]
    requires e2 == map[UnknownName("Link") := ProtoSet([(3, 3)])]
    ensures forall p, v :: Wins([e1, e2], 2, p, v) <==> p == UnknownName("Link") && v == 3
  {
    var link := UnknownName("Link");
    assert Expand(ProtoSet([(3, 4)])) == [3, 4] by {
      assert Range(3, 4) == [3, 4];
    }
    assert Expand(ProtoSet([(3, 3)])) == [3] by {
      assert Range(3, 3) == [3];
    }
    assert [3, 4][..1] == [3];
    forall p, v ensures Tally([e1, e2], p, v) == if p == link then (if v == 3 then 2 else if v == 4 then 1 else 0) else 0 {
      TallyAppend([e1], [e2], p, v);
      assert [e1] + [e2] == [e1, e2];
      SingleEntryTally(link, ProtoSet([(3, 4)]), p, v);
      SingleEntryTally(link, ProtoSet([(3, 3)]), p, v);
    }
  }
}

=== FILE: pytext.dfy ===
/**
 * The parts of Python's `str` and `posixpath` that the maintenance scripts
 * use: white space as `str.isspace` and the regular-expression class `\s`
 * see it, `str.strip`, ASCII case mapping, `posixpath.split`/`basename`
 * and `posixpath.splitext`.
 */
module PyText {
  import opened Text

  /** str.isspace, and the class \s of a regular expression on str: Unicode white space plus the separators U+001C..U+001F. */
  predicate IsPySpace(c: char) {
    IsWhitespace(c) || '\U{1C}' <= c <= '\U{1F}'
  }

  predicate StartsWith(s: string, prefix: string) {
    |prefix| <= |s| && s[..|prefix|] == prefix
  }

  predicate EndsWith(s: string, suffix: string) {
    |suffix| <= |s| && s[|s| - |suffix|..] == suffix
  }

  /** Every character of s is white space (so `s.strip() == ""`). */
  predicate IsBlank(s: string) {
    forall i :: 0 <= i < |s| ==> IsPySpace(s[i])
  }

  /** Where str.lstrip() starts: the end of the leading white space. */
  function LeadingSpace(s: string): (i: nat)
    ensures i <= |s|
    ensures IsBlank(s[..i])
    ensures i == |s| || !IsPySpace(s[i])
  {
    if s != [] && IsPySpace(s[0]) then
      var i := 1 + LeadingSpace(s[1..]);
      assert s[..i] == [s[0]] + s[1..][..i - 1];
      i
    else 0
  }

  /** Where str.rstrip() ends: the start of the trailing white space. */
  function TrailingSpace(s: string): (j: nat)
    ensures j <= |s|
    ensures IsBlank(s[j..])
    ensures j == 0 || !IsPySpace(s[j - 1])
  {
    if s != [] && IsPySpace(s[|s| - 1]) then
      var j := TrailingSpace(s[..|s| - 1]);
      assert s[j..] == s[..|s| - 1][j..] + [s[|s| - 1]];
      j
    else |s|
  }

  /** str.lstrip() */
  function LStrip(s: string): string {
    s[LeadingSpace(s)..]
  }

  /** str.rstrip() */
  function RStrip(s: string): string {
    s[..TrailingSpace(s)]
  }

  /** str.strip() */
  function Strip(s: string): string {
    RStrip(LStrip(s))
  }

  /** A string strips to nothing exactly when it is all white space. */
  lemma {:induction false} StripEmpty(s: string)
    ensures Strip(s) == "" <==> IsBlank(s)
  {
    var i := LeadingSpace(s);
    var l := s[i..];
    if TrailingSpace(l) == 0 {
      assert l[0..] == l;
      assert s == s[..i] + l;
      BlankConcat(s[..i], l);
    }
    if IsBlank(s) {
      assert i == |s|;
    }
  }

  lemma BlankConcat(a: string, b: string)
    requires IsBlank(a) && IsBlank(b)
    ensures IsBlank(a + b)
  {
    forall k | 0 <= k < |a + b|
      ensures IsPySpace((a + b)[k])
    {
      if k < |a| {
        assert (a + b)[k] == a[k];
      } else {
        assert (a + b)[k] == b[k - |a|];
      }
    }
  }

  /** A stripped string neither starts nor ends with white space. */
  lemma StripEnds(s: string)
    ensures Strip(s) == [] || (!IsPySpace(Strip(s)[0]) && !IsPySpace(Strip(s)[|Strip(s)| - 1]))
  {
  }

  /** str.upper on ASCII letters. */
  function ToUpperAscii(c: char): (u: char)
    ensures 'a' <= c <= 'z' ==> 'A' <= u <= 'Z' && u as int == c as int - 32
    ensures !('a' <= c <= 'z') ==> u == c
  {
    if 'a' <= c <= 'z' then (c as int - 32) as char else c
  }

  /** str.lower, on ASCII letters. */
  function Lower(s: string): (r: string)
    ensures |r| == |s|
    ensures forall i :: 0 <= i < |s| ==> r[i] == ToLowerC(s[i])
  {
    seq(|s|, i requires 0 <= i < |s| => ToLowerC(s[i]))
  }

  /** Lowering twice is lowering once. */
  lemma LowerIdempotent(s: string)
    ensures Lower(Lower(s)) == Lower(s)
  {
  }

  /** The position of the last c in s, or -1 (str.rfind). */
  function RFind(s: string, c: char): (r: int)
    ensures -1 <= r < |s|
    ensures r >= 0 ==> s[r] == c
    ensures forall k :: r < k < |s| ==> s[k] != c
  {
    if s == [] then -1
    else if s[|s| - 1] == c then |s| - 1
    else RFind(s[..|s| - 1], c)
  }

  /** posixpath.split(p)[1] and posixpath.basename(p): what follows the last '/'. */
  function BaseName(p: string): (b: string)
    ensures '/' !in b
    ensures EndsWith(p, b)
    ensures b == p || p[|p| - |b| - 1] == '/'
  {
    var i := RFind(p, '/') + 1;
    assert forall k :: 0 <= k < |p[i..]| ==> p[i..][k] == p[i + k];
    p[i..]
  }

  /** Whether some character of s is not a dot. */
  predicate HasNonDot(s: string) {
    exists k :: 0 <= k < |s| && s[k] != '.'
  }

  /**
   * posixpath.splitext(p)[0]: p without its extension. The extension starts
   * at the last dot of the last path component, provided a character other
   * than a dot precedes it in that component; otherwise there is none.
   */
  function SplitExtRoot(p: string): (root: string)
    ensures root == p || (StartsWith(p, root) && p[|root|] == '.')
  {
    var sep := RFind(p, '/');
    var dot := RFind(p, '.');
    if dot > sep && HasNonDot(p[sep + 1..dot]) then
      assert p[..dot][..] == p[..|p[..dot]|];
      p[..dot]
    else p
  }
}

=== FILE: raw_log.dfy ===
/**
 * Signal-safe logging to raw file descriptors (src/lib/err/raw_log.c): the
 * log granularity setting, the strings a raw log call writes, and
 * formatting of numbers into a caller's buffer without any library call.
 */
module RawLog {
  import opened MachineInts
  import opened Numerals
  import opened Wrappers
  import Arithmetic

  /** The line of equals signs (sixty of them, then a space) that opens an error-format message. */
  const ERROR_SEPARATOR: string :=
    "==========================================" + "================== "

  /** The size of the timestamp buffer, `char timebuf[33]`. */
  const TIMEBUF_SIZE: int := 33

  /**
   * tor_log_raw_write: each descriptor is asked to take the whole string;
   * written[i] is what the write to the i-th descriptor returned.  The result
   * is 0 when every write was complete and -1 otherwise.
   */
  method RawWrite(written: seq<int>, len: nat) returns (status: int)
    ensures status == 0 || status == -1
    ensures status == 0 <==> forall i :: 0 <= i < |written| ==> written[i] == len
  {
    var err := 0;
    var i := 0;
    while i < |written|
      invariant 0 <= i <= |written|
      invariant 0 <= err
      invariant err == 0 <==> forall j :: 0 <= j < i ==> written[j] == len
    {
      if written[i] != len {
        err := err + 1;
      }
      i := i + 1;
    }
    status := if err != 0 then -1 else 0;
  }

  /** Every chunk goes to every descriptor: chunk by chunk, descriptor by descriptor. */
  function Writes(fds: seq<int>, chunks: seq<string>): (w: seq<(int, string)>)
    ensures |w| == |chunks| * |fds|
  {
    if chunks == [] then [] else ChunkToAll(fds, chunks[0]) + Writes(fds, chunks[1..])
  }

  function ChunkToAll(fds: seq<int>, chunk: string): (w: seq<(int, string)>)
    ensures |w| == |fds|
    ensures forall i :: 0 <= i < |fds| ==> w[i] == (fds[i], chunk)
  {
    if fds == [] then [] else [(fds[0], chunk)] + ChunkToAll(fds[1..], chunk)
  }

  lemma {:induction false} WritesAppend(fds: seq<int>, a: seq<string>, b: seq<string>)
    ensures Writes(fds, a + b) == Writes(fds, a) + Writes(fds, b)
  {
    if a == [] {
      assert a + b == b;
    } else {
      assert (a + b)[0] == a[0];
      assert (a + b)[1..] == a[1..] + b;
      WritesAppend(fds, a[1..], b);
    }
  }

  /** The strings written to one descriptor, in order. */
  function WrittenTo(w: seq<(int, string)>, fd: int): seq<string> {
    if w == [] then []
    else (if w[0].0 == fd then [w[0].1] else []) + WrittenTo(w[1..], fd)
  }

  lemma {:induction false} WrittenToAppend(a: seq<(int, string)>, b: seq<(int, string)>, fd: int)
    ensures WrittenTo(a + b, fd) == WrittenTo(a, fd) + WrittenTo(b, fd)
  {
    if a == [] {
      assert a + b == b;
    } else {
      var ab := a + b;
      var head := if a[0].0 == fd then [a[0].1] else [];
      assert ab[0] == a[0];
      assert ab[1..] == a[1..] + b;
      assert WrittenTo(ab, fd) == head + WrittenTo(a[1..] + b, fd);
      WrittenToAppend(a[1..], b, fd);
      assert WrittenTo(a, fd) == head + WrittenTo(a[1..], fd);
    }
  }

  lemma {:induction false} ChunkReachesFdOnce(fds: seq<int>, chunk: string, fd: int)
    requires multiset(fds)[fd] == 1
    ensures WrittenTo(ChunkToAll(fds, chunk), fd) == [chunk]
  {
    assert fds == [fds[0]] + fds[1..];
    if fds[0] == fd {
      ChunkMissesOtherFd(fds[1..], chunk, fd);
    } else {
      ChunkReachesFdOnce(fds[1..], chunk, fd);
    }
  }

  lemma {:induction false} ChunkMissesOtherFd(fds: seq<int>, chunk: string, fd: int)
    requires fd !in fds
    ensures WrittenTo(ChunkToAll(fds, chunk), fd) == []
  {
    if fds != [] {
      ChunkMissesOtherFd(fds[1..], chunk, fd);
    }
  }

  /** A descriptor listed once receives every chunk, once each and in order. */
  lemma {:induction false} EachFdGetsAllChunks(fds: seq<int>, chunks: seq<string>, fd: int)
    requires multiset(fds)[fd] == 1
    ensures WrittenTo(Writes(fds, chunks), fd) == chunks
  {
    if chunks != [] {
      WrittenToAppend(ChunkToAll(fds, chunks[0]), Writes(fds, chunks[1..]), fd);
      ChunkReachesFdOnce(fds, chunks[0], fd);
      EachFdGetsAllChunks(fds, chunks[1..], fd);
      assert chunks == [chunks[0]] + chunks[1..];
    }
  }

  /** C's `%`, which truncates toward zero: the remainder takes the sign of the dividend. */
  function CRem(a: int, g: int): (r: int)
    requires g > 0
    ensures -g < r < g
    ensures a >= 0 ==> r == a % g
  {
    if a >= 0 then a % g else -((-a) % g)
  }

  /** The time reported: with a granularity of two seconds or more, rounded toward zero to whole granules. */
  function RoundedTime(granularity: int, now: int): int {
    if granularity >= 2000 then now - CRem(now, granularity / 1000) else now
  }

  function Abs(x: int): nat {
    if x < 0 then -x else x
  }

  /** Rounding keeps the sign, never moves away from zero, drops less than one granule, and lands on a granule boundary. */
  lemma RoundedTimeGranule(granularity: int, now: int)
    requires granularity >= 2000
    ensures var g, t := granularity / 1000, RoundedTime(granularity, now);
      t % g == 0 && Abs(t) <= Abs(now) && Abs(now) - Abs(t) < g &&
      (now >= 0 ==> t >= 0) && (now <= 0 ==> t <= 0)
  {
    var g := granularity / 1000;
    var m := Abs(now);
    Arithmetic.DivMod(m, g);
    var q := m / g;
    Arithmetic.MultipleMod(g, q);
    Arithmetic.MultipleMod(g, -q);
    Arithmetic.MulMonoInt(g, 0, q);
    if now >= 0 {
      assert RoundedTime(granularity, now) == g * q;
    } else {
      assert RoundedTime(granularity, now) == -(g * q) == g * -q;
    }
  }

  /**
   * The timestamp buffer: a sign ('-' or a space) and the decimal digits of
   * the rounded time's magnitude, which format_dec_number_sigsafe writes
   * only when they fit in the 32 bytes after the sign.
   */
  function TimeBuf(granularity: int, now: int): string {
    var t := RoundedTime(granularity, now);
    var sign := if t < 0 then '-' else ' ';
    var digits := Digits(Abs(t), 10);
    [sign] + (if |digits| < TIMEBUF_SIZE - 1 then digits else "")
  }

  function Pow10(k: nat): (p: nat)
    ensures p >= 1
  {
    if k == 0 then 1 else 10 * Pow10(k - 1)
  }

  lemma Pow10At19()
    ensures Pow10(19) == 10000000000000000000
  {
    assert Pow10(1) == 10;
    assert Pow10(2) == 100;
    assert Pow10(3) == 1000;
    assert Pow10(4) == 10000;
    assert Pow10(5) == 100000;
    assert Pow10(6) == 1000000;
    assert Pow10(7) == 10000000;
    assert Pow10(8) == 100000000;
    assert Pow10(9) == 1000000000;
    assert Pow10(10) == 10000000000;
    assert Pow10(11) == 100000000000;
    assert Pow10(12) == 1000000000000;
    assert Pow10(13) == 10000000000000;
    assert Pow10(14) == 100000000000000;
    assert Pow10(15) == 1000000000000000;
    assert Pow10(16) == 10000000000000000;
    assert Pow10(17) == 100000000000000000;
    assert Pow10(18) == 1000000000000000000;
  }

  /** A number below 10^k has at most k decimal digits. */
  lemma {:induction false} DecimalDigitsBound(x: nat, k: nat)
    requires k >= 1 && x < Pow10(k)
    ensures NumDigits(x, 10) <= k
  {
    if x >= 10 {
      assert k >= 2;
      DecimalDigitsBound(x / 10, k - 1);
    }
  }

  /**
   * A time_t that can be negated is below 2^63 in magnitude, so its
   * timestamp always carries all its digits, and they read back as the
   * rounded time.
   */
  lemma TimeBufReadsBack(granularity: int, now: int)
    requires -0x8000_0000_0000_0000 < now < 0x8000_0000_0000_0000
    ensures var t, b := RoundedTime(granularity, now), TimeBuf(granularity, now);
      |b| >= 2 && (b[0] == '-' <==> t < 0) && b[0] in "- " &&
      AllDigitsOf(b[1..], 10) && ValueOf(b[1..], 10) == Abs(t)
  {
    var t := RoundedTime(granularity, now);
    if granularity >= 2000 {
      RoundedTimeGranule(granularity, now);
    }
    Pow10At19();
    DecimalDigitsBound(Abs(t), 19);
    var b := TimeBuf(granularity, now);
    assert b[1..] == Digits(Abs(t), 10);
    ValueOfDigits(Abs(t), 10);
  }

  /**
   * The strings tor_log_raw_ap writes to each descriptor: nothing without a
   * message; otherwise, for the error format, a newline and the separator
   * line, then "T=", the timestamp, a newline (error format) or a space,
   * the message and each argument.
   */
  function RawApChunks(timebuf: string, errorFmt: bool, m: Option<string>, args: seq<string>): seq<string> {
    if m.None? then []
    else
      (if errorFmt then ["\n", ERROR_SEPARATOR] else [])
      + ["T=", timebuf, if errorFmt then "\n" else " ", m.value]
      + args
  }

  /** The text a descriptor receives from a sequence of chunks. */
  function Concat(chunks: seq<string>): string {
    if chunks == [] then "" else chunks[0] + Concat(chunks[1..])
  }

  lemma {:induction false} ConcatAppend(a: seq<string>, b: seq<string>)
    ensures Concat(a + b) == Concat(a) + Concat(b)
  {
    if a != [] {
      assert (a + b)[0] == a[0];
      assert (a + b)[1..] == a[1..] + b;
      ConcatAppend(a[1..], b);
    } else {
      assert a + b == b;
    }
  }

  /** The log granularity, in milliseconds, that raw log calls round their timestamps to. */
  class RawLogger {
    var granularity: int

    constructor()
      ensures granularity == 1000
    {
      granularity := 1000;
    }

    /** tor_log_raw_set_granularity */
    method SetGranularity(ms: int)
      modifies this
      ensures granularity == ms
    {
      granularity := ms;
    }

    /** tor_log_raw_get_granularity */
    method GetGranularity() returns (ms: int)
      ensures ms == granularity
    {
      ms := granularity;
    }

    /**
     * tor_log_raw_ap: the writes to the given descriptors for message m and
     * its arguments at time now.  Each descriptor listed once receives
     * exactly the chunks of RawApChunks (EachFdGetsAllChunks).
     */
    method LogRawAp(fds: seq<int>, errorFmt: bool, m: Option<string>, args: seq<string>, now: int)
      returns (writes: seq<(int, string)>)
      ensures writes == Writes(fds, RawApChunks(TimeBuf(granularity, now), errorFmt, m, args))
      ensures m.None? ==> writes == []
    {
      if m.None? {
        return [];
      }
      var t := now;
      if granularity >= 2000 {
        var g := granularity / 1000;
        t := t - CRem(t, g);
      }
      var sign := if t < 0 then '-' else ' ';
      var digits := Digits(Abs(t), 10);
      var timebuf := [sign] + (if |digits| < TIMEBUF_SIZE - 1 then digits else "");
      assert timebuf == TimeBuf(granularity, now);
      var chunks: seq<string> := [];
      if errorFmt {
        chunks := chunks + ["\n", ERROR_SEPARATOR];
      }
      chunks := chunks + ["T=", timebuf, if errorFmt then "\n" else " ", m.value];
      chunks := chunks + args;
      assert chunks == RawApChunks(timebuf, errorFmt, m, args);
      writes := Writes(fds, chunks);
    }
  }

  /**
   * format_number_sigsafe: write the digits of x in the radix, and a NUL,
   * into buf[0..len]; return len.  An unsupported radix, a null buffer or
   * digits that do not leave room for the NUL write nothing and return 0.
   */
  method FormatNumberSigsafe(x: uint64, buf: array?<char>, bufLen: int, radix: nat) returns (len: int)
    requires buf != null ==> bufLen <= buf.Length
    modifies buf
    ensures !ValidRadix(radix) ==> len == 0
    ensures ValidRadix(radix) && (buf == null || NumDigits(x, radix) >= bufLen) ==> len == 0
    ensures ValidRadix(radix) && buf != null && NumDigits(x, radix) < bufLen ==>
      len == NumDigits(x, radix) && buf[..len] == Digits(x, radix) && buf[len] == '\0'
      && buf[len + 1..] == old(buf[len + 1..])
    ensures len == 0 && buf != null ==> buf[..] == old(buf[..])
  {
    if radix < 2 || radix > 16 {
      return 0;
    }
    len := CountDigits(x, radix);
    if buf == null || len >= bufLen {
      return 0;
    }
    WriteDigits(x, buf, len, radix);
  }

  /** The writing half of format_number_sigsafe: digits from the last one backwards, after the NUL. */
  method WriteDigits(x: uint64, buf: array<char>, len: int, radix: nat)
    requires ValidRadix(radix) && len == NumDigits(x, radix) && len < buf.Length
    modifies buf
    ensures buf[..len] == Digits(x, radix) && buf[len] == '\0'
    ensures forall i :: len < i < buf.Length ==> buf[i] == old(buf[i])
  {
    ghost var d := Digits(x, radix);
    var cp := len;
    buf[cp] := '\0';
    var v: nat := x;
    assert d[..cp] == d;
    cp, v := PutDigit(buf, cp, v, radix, d, len);
    while v != 0
      invariant 0 <= cp <= len
      invariant Prefix(v, radix) == d[..cp]
      invariant forall i :: cp <= i < len ==> buf[i] == d[i]
      invariant buf[len] == '\0'
      invariant forall i :: len < i < buf.Length ==> buf[i] == old(buf[i])
      decreases v
    {
      cp, v := PutDigit(buf, cp, v, radix, d, len);
    }
    assert buf[..len] == d;
  }

  /** One pass of the writing loop: the lowest digit of v goes just before position cp. */
  method PutDigit(buf: array<char>, cp: int, v: nat, radix: nat, ghost d: string, ghost len: int)
    returns (cp': int, v': nat)
    requires ValidRadix(radix) && 0 <= cp <= |d| && len < buf.Length && cp <= len
    requires Digits(v, radix) == d[..cp]
    modifies buf
    ensures cp' == cp - 1 && 0 <= cp' && buf[cp'] == d[cp']
    ensures Prefix(v', radix) == d[..cp'] && (v > 0 ==> v' < v)
    ensures forall i :: 0 <= i < buf.Length && i != cp' ==> buf[i] == old(buf[i])
  {
    DigitAt(v, radix, d, cp);
    cp' := cp - 1;
    buf[cp'] := DIGIT_CHARS[v % radix];
    v' := v / radix;
  }

  /** The last digit still to write is the digit at position cp - 1, and what remains is v / radix. */
  lemma DigitAt(v: nat, radix: nat, d: string, cp: int)
    requires ValidRadix(radix) && 0 <= cp <= |d|
    requires Digits(v, radix) == d[..cp]
    ensures cp >= 1 && d[cp - 1] == DIGIT_CHARS[v % radix] && Prefix(v / radix, radix) == d[..cp - 1]
    ensures 0 <= v / radix && 0 <= v % radix < radix
    ensures v > 0 ==> v / radix < v
  {
    PrefixStep(v, radix);
    var s := d[..cp];
    assert |s| >= 1;
    assert s[|s| - 1] == d[cp - 1];
    assert s[..|s| - 1] == d[..cp - 1];
  }

  /** The digit-counting loop of format_number_sigsafe. */
  method CountDigits(x: uint64, radix: nat) returns (len: int)
    requires ValidRadix(radix)
    ensures len == NumDigits(x, radix)
  {
    var tmp: nat := x;
    len := 1;
    while tmp >= radix
      invariant len >= 1
      invariant NumDigits(x, radix) == len - 1 + NumDigits(tmp, radix)
    {
      DivRadix(tmp, radix);
      tmp := tmp / radix;
      len := len + 1;
    }
  }

  /** The digits of v, or nothing for zero: what is left to write. */
  function Prefix(v: nat, radix: nat): string
    requires ValidRadix(radix)
  {
    if v == 0 then [] else Digits(v, radix)
  }

  lemma PrefixStep(v: nat, radix: nat)
    requires ValidRadix(radix)
    ensures Digits(v, radix) == Prefix(v / radix, radix) + [DIGIT_CHARS[v % radix]]
    ensures v > 0 ==> v / radix < v
  {
    if v < radix {
      Arithmetic.ModUnique(radix, v, 0, v);
    } else {
      DivRadix(v, radix);
    }
  }

  /** format_hex_number_sigsafe */
  method FormatHexNumberSigsafe(x: uint64, buf: array?<char>, bufLen: int) returns (len: int)
    requires buf != null ==> bufLen <= buf.Length
    modifies buf
    ensures buf == null || NumDigits(x, 16) >= bufLen ==> len == 0
    ensures buf != null && NumDigits(x, 16) < bufLen ==>
      len == NumDigits(x, 16) && buf[..len] == Digits(x, 16) && buf[len] == '\0'
      && buf[len + 1..] == old(buf[len + 1..])
    ensures len == 0 && buf != null ==> buf[..] == old(buf[..])
  {
    len := FormatNumberSigsafe(x, buf, bufLen, 16);
  }

  /** format_dec_number_sigsafe */
  method FormatDecNumberSigsafe(x: uint64, buf: array?<char>, bufLen: int) returns (len: int)
    requires buf != null ==> bufLen <= buf.Length
    modifies buf
    ensures buf == null || NumDigits(x, 10) >= bufLen ==> len == 0
    ensures buf != null && NumDigits(x, 10) < bufLen ==>
      len == NumDigits(x, 10) && buf[..len] == Digits(x, 10) && buf[len] == '\0'
      && buf[len + 1..] == old(buf[len + 1..])
    ensures len == 0 && buf != null ==> buf[..] == old(buf[..])
  {
    len := FormatNumberSigsafe(x, buf, bufLen, 10);
  }
}

=== FILE: rectify_fixed_point.dfy ===
/**
 * rectify_include_paths.py is meant to be run again and again over the
 * same tree: a line it has already put into canonical form must come out
 * unchanged. This module proves that fix_includes is idempotent for an
 * include map built from a walk of src/ (a canonical map).
 */
module RectifyFixedPoint {
  import opened Wrappers
  import opened PyText
  import opened RectifyIncludePaths

  // ---------------------------------------------------------------------
  // The directive of a canonical line
  // ---------------------------------------------------------------------

  /** A line starting "#<word> " followed by a non-space has its directive end right there. */
  lemma DirectiveEndAt(line: string, word: string)
    requires 0 < |word| && |word| + 2 < |line| && word[0] != ' '
    requires line[0] == '#' && line[1..|word| + 1] == word
    requires line[|word| + 1] == ' ' && line[|word| + 2] != ' '
    ensures DirectiveEnd(line, word) == Some(|word| + 2)
  {
    assert line[1] == word[0];
    SkipUnique(line, 0, 0, Space);
    SkipUnique(line, 1, 1, Space);
    SkipUnique(line, |word| + 1, |word| + 2, Space);
  }

  /** A line starting "#" and then a letter other than the first of word is no directive for word. */
  lemma DirectiveEndOther(line: string, word: string)
    requires 1 < |line| && 0 < |word|
    requires line[0] == '#' && line[1] != ' ' && line[1] != word[0]
    ensures DirectiveEnd(line, word) == None
  {
    SkipUnique(line, 0, 0, Space);
    SkipUnique(line, 1, 1, Space);
    if 1 + |word| <= |line| {
      assert line[1..1 + |word|][0] == line[1];
    }
  }

  // ---------------------------------------------------------------------
  // A define tail depends only on the text up to the first newline
  // ---------------------------------------------------------------------

  /** Slices inside a common prefix are equal. */
  lemma PrefixSlices<T>(t: seq<T>, t': seq<T>, n: nat, i: nat, j: nat)
    requires i <= j <= n <= |t| && n <= |t'| && t[..n] == t'[..n]
    ensures t[i..j] == t'[i..j]
  {
    forall k | i <= k < j
      ensures t[k] == t'[k]
    {
      assert t[k] == t[..n][k] && t'[k] == t'[..n][k];
    }
  }

  /** FindLast looks at no character at or beyond n. */
  lemma FindLastSame(t: string, t': string, s: string, a: nat, hi: int, n: nat)
    requires hi + |s| <= n <= |t| && n <= |t'| && t[..n] == t'[..n]
    ensures FindLast(t, s, a, hi) == FindLast(t', s, a, hi)
    decreases hi
  {
    if hi > a {
      PrefixSlices(t, t', n, hi, hi + |s|);
      FindLastSame(t, t', s, a, hi - 1, n);
    }
  }

  /** Two texts that agree up to a newline (or their end) at z split into the same define tail. */
  lemma DefineTailSame(t: string, t': string, s: string, z: nat)
    requires z <= |t| && z <= |t'| && t[..z] == t'[..z] && Lacks(t[..z], '\n')
    requires z == |t| || t[z] == '\n'
    requires z == |t'| || t'[z] == '\n'
    ensures DefineTail(t, s) == DefineTail(t', s)
    ensures DefineTail(t, s).Some? ==> DefineTail(t, s).value.1 == z
  {
    var b := Skip(t, 0, NameChar);
    assert b <= z;
    forall k | 0 <= k <= b && k < z
      ensures t'[k] == t[k]
    {
      assert t[..z][k] == t'[..z][k];
    }
    SkipUnique(t', 0, b, NameChar);
    FindLastSame(t, t', s, 0, b - |s|, z);
    match FindLast(t, s, 0, b - |s|)
    case None =>
    case Some(k) =>
      forall i | k <= i < z
        ensures t[i] != '\n' && t'[i] != '\n'
      {
        assert t[..z][i] == t[i] && t'[..z][i] == t'[i];
      }
      SkipUnique(t, k, z, NotNewline);
      SkipUnique(t', k, z, NotNewline);
  }

  // ---------------------------------------------------------------------
  // Rewritten lines match again
  // ---------------------------------------------------------------------

  /** The line fix_line writes for a define: "#define ", the name and the rest. */
  function DefineOutput(g: Groups): string {
    DEFINE_START + (g.middle + (g.rest + "\n"))
  }

  /** The line fix_line writes for an include: "#include \"", the path and the rest. */
  function IncludeOutput(path: string, g: Groups): string {
    INCLUDE_START + (path + (g.rest + "\n"))
  }

  /** The characters of the two canonical directives. */
  lemma StartChars()
    ensures |DEFINE_START| == 8 && DEFINE_START[0] == '#' && DEFINE_START[1..7] == DEFINE_WORD && DEFINE_START[7] == ' '
    ensures |INCLUDE_START| == 10 && INCLUDE_START[0] == '#' && INCLUDE_START[1..8] == INCLUDE_WORD
    ensures INCLUDE_START[8] == ' ' && INCLUDE_START[9] == '"'
  {
  }

  /** The extensions hold no '/'. */
  lemma ExtChars()
    ensures '/' !in H_EXT && '/' !in INC_EXT
  {
  }

  /** A text followed by the rest of a line and a newline: the text up to the newline, and the newline. */
  lemma LineEnd(x: string, rest: string)
    ensures (x + (rest + "\n"))[..|x| + |rest|] == x + rest
    ensures (x + (rest + "\n"))[|x| + |rest|] == '\n'
  {
    assert x + (rest + "\n") == (x + rest) + "\n";
  }

  /** The directive and the tail of a rewritten define line. */
  lemma DefineOutputParts(g: Groups)
    requires g.middle != [] && InClass(g.middle[0], NameChar)
    ensures var o := DefineOutput(g);
      && DirectiveEnd(o, DEFINE_WORD) == Some(|DEFINE_START|)
      && o[..|DEFINE_START|] == DEFINE_START
      && o[|DEFINE_START|..] == g.middle + (g.rest + "\n")
  {
    var o := DefineOutput(g);
    SplitAfterPrefix(o, DEFINE_START, g.middle + (g.rest + "\n"));
    StartChars();
    assert o[1..7] == o[..8][1..7];
    assert o[8] == g.middle[0];
    DirectiveEndAt(o, DEFINE_WORD);
  }

  /** The tail of a define line that matched, up to its first newline. */
  lemma DefineLineParts(line: string, a: nat, k: nat, z: nat, s: string)
    requires a <= |line| && DefineTail(line[a..], s) == Some((k, z))
    ensures var t, g := line[a..], GroupsAt(line, a, k, z);
      && t[..z] == g.middle + g.rest && |g.middle| + |g.rest| == z
      && Lacks(t[..z], '\n') && (z == |t| || t[z] == '\n')
      && g.middle != [] && InClass(g.middle[0], NameChar)
  {
    var t := line[a..];
    DefineTailShape(t, s);
    TailGroups(line, a, k, z, 0);
    assert t[..z] == t[..k] + t[k..z];
    forall i | 0 <= i < z
      ensures t[..z][i] != '\n'
    {
      if i < k {
        assert InClass(t[i], NameChar);
      } else {
        assert t[..z][i] == t[k..z][i - k];
      }
    }
    assert InClass(t[0], NameChar);
  }

  /** Slices of two lines whose tails from a and b agree up to z. */
  lemma SameTailSlices(line: string, a: nat, o: string, b: nat, k: nat, z2: nat, z: nat)
    requires a <= |line| && b <= |o| && k <= z2 <= z && z <= |line| - a && z <= |o| - b
    requires line[a..][..z] == o[b..][..z]
    ensures line[a..a + k] == o[b..b + k] && line[a + k..a + z2] == o[b + k..b + z2]
  {
    TailGroups(line, a, k, z2, 0);
    TailGroups(o, b, k, z2, 0);
    PrefixSlices(line[a..], o[b..], z, 0, k);
    PrefixSlices(line[a..], o[b..], z, k, z2);
  }

  /** A match with its directive replaced by "#define ". */
  function WithDefineStart(r: Option<Groups>): Option<Groups> {
    match r
    case None => None
    case Some(h) => Some(Groups(DEFINE_START, h.middle, h.rest))
  }

  /**
   * After a define is rewritten, each define pattern matches the new line
   * exactly when it matched the old one, with the same name and rest.
   */
  lemma DefineRewrite(line: string, s1: string, s2: string)
    requires MatchDefine(line, s1).Some?
    ensures MatchDefine(DefineOutput(MatchDefine(line, s1).value), s2) == WithDefineStart(MatchDefine(line, s2))
  {
    var a := DirectiveEnd(line, DEFINE_WORD).value;
    var split := DefineTail(line[a..], s1);
    assert split.Some?;
    var k, z := split.value.0, split.value.1;
    var g := MatchDefine(line, s1).value;
    assert g == GroupsAt(line, a, k, z);
    DefineLineParts(line, a, k, z, s1);
    DefineOutputParts(g);
    var o := DefineOutput(g);
    var b := |DEFINE_START|;
    LineEnd(g.middle, g.rest);
    var t, t' := line[a..], o[b..];
    assert t'[..z] == g.middle + g.rest && t'[z] == '\n';
    DefineTailSame(t, t', s2, z);
    var split2 := DefineTail(line[a..], s2);
    assert MatchDefine(line, s2) == GroupsFrom(line, a, split2);
    assert MatchDefine(o, s2) == GroupsFrom(o, b, split2);
    GroupsFromRewrite(line, a, o, b, split2, z);
  }

  /** The same split of two tails that agree up to z, the second line starting with "#define ". */
  lemma GroupsFromRewrite(line: string, a: nat, o: string, b: nat, split: Option<(nat, nat)>, z: nat)
    requires a <= |line| && b <= |o| && z <= |line| - a && z <= |o| - b
    requires split.Some? ==> split.value.0 <= split.value.1 <= z
    requires line[a..][..z] == o[b..][..z] && o[..b] == DEFINE_START
    ensures GroupsFrom(o, b, split) == WithDefineStart(GroupsFrom(line, a, split))
  {
    if split.Some? {
      SameTailSlices(line, a, o, b, split.value.0, split.value.1, z);
    }
  }

  /** The tail of a rewritten include line splits at the path and at the newline. */
  lemma IncludeTailOf(path: string, rest: string, ext: string)
    requires Lacks(path, '"') && StartsWith(rest, "\"") && Lacks(rest, '\n')
    ensures IncludeTail(path + (rest + "\n"), ext) ==
      if |path| > |ext| && EndsWith(path, ext) then Some((|path|, |path| + |rest|)) else None
  {
    var t := path + (rest + "\n");
    var q, z := |path|, |path| + |rest|;
    assert t[q] == rest[0];
    SkipUnique(t, 0, q, NotQuote);
    LineEnd(path, rest);
    SkipUnique(t, q, z, NotNewline);
    if q > |ext| {
      assert t[q - |ext|..q] == path[|path| - |ext|..];
    }
  }

  /** A rewritten include line matches an include pattern exactly when its path ends with the extension. */
  lemma IncludeRematch(path: string, g: Groups, ext: string)
    requires Lacks(path, '"') && StartsWith(g.rest, "\"") && Lacks(g.rest, '\n')
    ensures MatchInclude(IncludeOutput(path, g), ext) ==
      if |path| > |ext| && EndsWith(path, ext) then Some(Groups(INCLUDE_START, path, g.rest)) else None
  {
    IncludeOutputParts(path, g);
    IncludeRematchAt(IncludeOutput(path, g), path, g.rest, ext);
  }

  /** IncludeRematch for any line made of the include directive, a path and the rest of a line. */
  lemma IncludeRematchAt(o: string, path: string, rest: string, ext: string)
    requires DirectiveEnd(o, INCLUDE_WORD) == Some(9) && 9 < |o| && o[9] == '"' && o[10..] == path + (rest + "\n")
    requires Lacks(path, '"') && StartsWith(rest, "\"") && Lacks(rest, '\n')
    ensures MatchInclude(o, ext) ==
      if |path| > |ext| && EndsWith(path, ext) then Some(Groups(o[..10], path, rest)) else None
  {
    MatchIncludeAt(o, 9, ext);
    IncludeTailOf(path, rest, ext);
    if |path| > |ext| && EndsWith(path, ext) {
      ConcatSlices(o, 10, path, rest, "\n");
    }
  }

  /** An include directive ending at e before a quote: the match is the split of the tail after the quote. */
  lemma MatchIncludeAt(line: string, e: nat, ext: string)
    requires DirectiveEnd(line, INCLUDE_WORD) == Some(e) && e < |line| && line[e] == '"'
    ensures MatchInclude(line, ext) == GroupsFrom(line, e + 1, IncludeTail(line[e + 1..], ext))
  {
  }

  /** The directive and the tail of a rewritten include line. */
  lemma IncludeOutputParts(path: string, g: Groups)
    ensures var o := IncludeOutput(path, g);
      && DirectiveEnd(o, INCLUDE_WORD) == Some(9) && 9 < |o| && o[9] == '"'
      && o[..10] == INCLUDE_START && o[10..] == path + (g.rest + "\n")
  {
    var o := IncludeOutput(path, g);
    SplitAfterPrefix(o, INCLUDE_START, path + (g.rest + "\n"));
    StartChars();
    assert o[1..8] == o[..10][1..8];
    assert o[9] == '"';
    DirectiveEndAt(o, INCLUDE_WORD);
  }

  /** The parts of a sequence whose tail from n is x, y and then w. */
  lemma ConcatSlices<T>(o: seq<T>, n: nat, x: seq<T>, y: seq<T>, w: seq<T>)
    requires n <= |o| && o[n..] == x + (y + w)
    ensures o[n..n + |x|] == x && o[n + |x|..n + |x| + |y|] == y
  {
    assert o[n..n + |x|] == o[n..][..|x|];
    assert o[n + |x|..n + |x| + |y|] == o[n..][|x|..|x| + |y|];
  }

  /** Both defines are rewritten only when they start with "#": an include line is no define. */
  lemma IncludeIsNoDefine(path: string, g: Groups, suffix: string)
    ensures MatchDefine(IncludeOutput(path, g), suffix) == None
  {
    var o := IncludeOutput(path, g);
    assert o[0] == '#' && o[1] == 'i';
    DirectiveEndOther(o, DEFINE_WORD);
  }

  // ---------------------------------------------------------------------
  // Paths and extensions
  // ---------------------------------------------------------------------

  /** The file name of a path keeps an extension without '/'. */
  lemma BaseNameKeepsExt(p: string, ext: string)
    requires EndsWith(p, ext) && '/' !in ext
    ensures EndsWith(BaseName(p), ext)
  {
  }

  /** EndsWith is transitive. */
  lemma EndsWithTrans(p: string, b: string, ext: string)
    requires EndsWith(p, b) && EndsWith(b, ext)
    ensures EndsWith(p, ext)
  {
    assert p[|p| - |ext|..] == p[|p| - |b|..][|b| - |ext|..];
  }

  /** No name ends with both ".h" and ".inc". */
  lemma ExtsDiffer(p: string)
    ensures !(EndsWith(p, H_EXT) && EndsWith(p, INC_EXT))
  {
    if EndsWith(p, H_EXT) && |p| >= |INC_EXT| {
      assert p[|p| - |H_EXT|..][1] == p[|p| - 1];
      assert p[|p| - |INC_EXT|..][3] == p[|p| - 1];
    }
  }

  /** No quote in p, as a property of its positions. */
  lemma NoQuoteLacks(p: string)
    requires '"' !in p
    ensures Lacks(p, '"')
  {
    forall i | 0 <= i < |p|
      ensures p[i] != '"'
    {
      assert p[i] in p;
    }
  }

  // ---------------------------------------------------------------------
  // fix_includes is idempotent
  // ---------------------------------------------------------------------

  /** fix_line for a define pattern: the define rewritten with "#define ", if it matches. */
  lemma DefineText(x: string, pat: Pattern, suffix: string)
    requires (pat == DefinePrivate && suffix == PRIVATE_SUFFIX) || (pat == DefineInternal && suffix == INTERNAL_SUFFIX)
    ensures FixLineText(x, pat, DEFINE_START, map[]) ==
      if MatchDefine(x, suffix).Some? then Some(DefineOutput(MatchDefine(x, suffix).value)) else None
  {
    if MatchDefine(x, suffix).Some? {
      var g := MatchDefine(x, suffix).value;
      Assoc4(DEFINE_START, g.middle, g.rest, "\n");
    }
  }

  /** Four texts put together, grouped from the right. */
  lemma Assoc4<T>(a: seq<T>, b: seq<T>, c: seq<T>, d: seq<T>)
    ensures a + b + c + d == a + (b + (c + d))
  {
  }

  /** What fix_line writes for an include that matched, given the map. */
  function IncludeText(g: Groups, m: IncludeMap): Option<string> {
    if m == map[] then Some(IncludeOutput(g.middle, g))
    else if BaseName(g.middle) in m && m[BaseName(g.middle)].Path? then Some(IncludeOutput(m[BaseName(g.middle)].path, g))
    else None
  }

  /** fix_line for an include pattern: the include rewritten with "#include \"", if it matches. */
  lemma IncludeTextOf(x: string, pat: Pattern, ext: string, m: IncludeMap)
    requires (pat == IncludeH && ext == H_EXT) || (pat == IncludeInc && ext == INC_EXT)
    ensures FixLineText(x, pat, INCLUDE_START, m) ==
      if MatchInclude(x, ext).Some? then IncludeText(MatchInclude(x, ext).value, m) else None
  {
    if MatchInclude(x, ext).Some? {
      var g := MatchInclude(x, ext).value;
      Assoc4(INCLUDE_START, g.middle, g.rest, "\n");
      if m != map[] && BaseName(g.middle) in m && m[BaseName(g.middle)].Path? {
        Assoc4(INCLUDE_START, m[BaseName(g.middle)].path, g.rest, "\n");
      }
    }
  }

  /** A line rewritten by a define pattern is rewritten to itself. */
  lemma DefineFixedPoint(line: string, m: IncludeMap)
    requires MatchDefine(line, PRIVATE_SUFFIX).Some? || MatchDefine(line, INTERNAL_SUFFIX).Some?
    ensures FixedLine(FixedLine(line, m), m) == FixedLine(line, m)
  {
    DefineText(line, DefinePrivate, PRIVATE_SUFFIX);
    if MatchDefine(line, PRIVATE_SUFFIX).Some? {
      var g := MatchDefine(line, PRIVATE_SUFFIX).value;
      var o := DefineOutput(g);
      assert FixedLine(line, m) == o;
      DefineRewrite(line, PRIVATE_SUFFIX, PRIVATE_SUFFIX);
      DefineText(o, DefinePrivate, PRIVATE_SUFFIX);
      assert DefineOutput(Groups(DEFINE_START, g.middle, g.rest)) == o;
      assert FixedLine(o, m) == o;
    } else {
      var g := MatchDefine(line, INTERNAL_SUFFIX).value;
      var o := DefineOutput(g);
      DefineText(line, DefineInternal, INTERNAL_SUFFIX);
      assert FixedLine(line, m) == o;
      DefineRewrite(line, INTERNAL_SUFFIX, PRIVATE_SUFFIX);
      DefineRewrite(line, INTERNAL_SUFFIX, INTERNAL_SUFFIX);
      DefineText(o, DefinePrivate, PRIVATE_SUFFIX);
      DefineText(o, DefineInternal, INTERNAL_SUFFIX);
      assert DefineOutput(Groups(DEFINE_START, g.middle, g.rest)) == o;
      assert FixedLine(o, m) == o;
    }
  }

  /** The path an include is rewritten to: the canonical one, or the path itself when the map is empty. */
  function RewrittenPath(g: Groups, m: IncludeMap): string
    requires IncludeText(g, m).Some?
  {
    if m == map[] then g.middle else m[BaseName(g.middle)].path
  }

  /** The path an include is rewritten to keeps the extension and has no quote, when the map is canonical. */
  lemma RewrittenPathShape(g: Groups, m: IncludeMap, ext: string)
    requires Canonical(m) && IncludeText(g, m).Some?
    requires EndsWith(g.middle, ext) && '/' !in ext && Lacks(g.middle, '"')
    ensures EndsWith(RewrittenPath(g, m), ext) && Lacks(RewrittenPath(g, m), '"')
    ensures m != map[] ==> BaseName(RewrittenPath(g, m)) in m && m[BaseName(RewrittenPath(g, m))] == Path(RewrittenPath(g, m))
    ensures IncludeText(g, m) == Some(IncludeOutput(RewrittenPath(g, m), g))
  {
    if m != map[] {
      var base := BaseName(g.middle);
      var p := m[base].path;
      BaseNameKeepsExt(g.middle, ext);
      EndsWithTrans(p, base, ext);
      NoQuoteLacks(p);
    }
  }

  /** An include written with path p is written again as itself. */
  lemma IncludeOutputFixed(p: string, g: Groups, m: IncludeMap, ext: string)
    requires Canonical(m) && ((ext == H_EXT) || (ext == INC_EXT))
    requires EndsWith(p, ext) && Lacks(p, '"') && StartsWith(g.rest, "\"") && Lacks(g.rest, '\n')
    requires m != map[] ==> BaseName(p) in m && m[BaseName(p)] == Path(p)
    ensures FixedLine(IncludeOutput(p, g), m) == IncludeOutput(p, g)
  {
    var o := IncludeOutput(p, g);
    IncludeIsNoDefine(p, g, PRIVATE_SUFFIX);
    IncludeIsNoDefine(p, g, INTERNAL_SUFFIX);
    DefineText(o, DefinePrivate, PRIVATE_SUFFIX);
    DefineText(o, DefineInternal, INTERNAL_SUFFIX);
    IncludeRematch(p, g, H_EXT);
    IncludeRematch(p, g, INC_EXT);
    IncludeTextOf(o, IncludeH, H_EXT, m);
    IncludeTextOf(o, IncludeInc, INC_EXT, m);
    ExtsDiffer(p);
    var h := Groups(INCLUDE_START, p, g.rest);
    assert IncludeOutput(h.middle, h) == o;
  }

  /** A line rewritten by an include pattern is rewritten to itself, when the map is canonical. */
  lemma IncludeFixedPoint(line: string, m: IncludeMap, pat: Pattern, ext: string)
    requires Canonical(m)
    requires (pat == IncludeH && ext == H_EXT) || (pat == IncludeInc && ext == INC_EXT)
    requires FixLineText(line, pat, INCLUDE_START, m).Some?
    requires FixedLine(line, m) == FixLineText(line, pat, INCLUDE_START, m).value
    ensures FixedLine(FixedLine(line, m), m) == FixedLine(line, m)
  {
    IncludeTextOf(line, pat, ext, m);
    var g := MatchInclude(line, ext).value;
    assert IncludeText(g, m).Some?;
    MatchIncludeShape(line, ext);
    assert EndsWith(g.middle, ext) && Lacks(g.middle, '"');
    ExtChars();
    var p := RewrittenPath(g, m);
    RewrittenPathShape(g, m, ext);
    IncludeOutputFixed(p, g, m, ext);
  }

  /** fix_includes on one line, twice, is fix_includes once. */
  lemma FixedLineIdempotent(line: string, m: IncludeMap)
    requires Canonical(m)
    ensures FixedLine(FixedLine(line, m), m) == FixedLine(line, m)
  {
    DefineText(line, DefinePrivate, PRIVATE_SUFFIX);
    DefineText(line, DefineInternal, INTERNAL_SUFFIX);
    if MatchDefine(line, PRIVATE_SUFFIX).Some? || MatchDefine(line, INTERNAL_SUFFIX).Some? {
      DefineFixedPoint(line, m);
    } else if FixLineText(line, IncludeH, INCLUDE_START, m).Some? {
      IncludeFixedPoint(line, m, IncludeH, H_EXT);
    } else if FixLineText(line, IncludeInc, INCLUDE_START, m).Some? {
      IncludeFixedPoint(line, m, IncludeInc, INC_EXT);
    }
  }

  /** Running fix_includes over its own output changes nothing. */
  lemma {:induction false} FixedLinesIdempotent(inp: seq<string>, m: IncludeMap)
    requires Canonical(m)
    ensures FixedLines(FixedLines(inp, m), m) == FixedLines(inp, m)
  {
    if inp != [] {
      var n := |inp| - 1;
      var outs := FixedLines(inp, m);
      FixedLinesIdempotent(inp[..n], m);
      FixedLineIdempotent(inp[n], m);
      assert outs[..n] == FixedLines(inp[..n], m);
      assert outs[n] == FixedLine(inp[n], m);
    }
  }
}

=== FILE: rectify_include_paths.dfy ===
/**
 * scripts/maint/rectify_include_paths.py: rewrite the preprocessor lines of
 * tor's C sources into a canonical form. `#define X_PRIVATE…` and
 * `#define X_INTERNAL_…` lines get the directive `#define `; `#include "…h"`
 * and `#include "…inc"` lines get the directive `#include "` and, through a
 * map from header file names to their paths below src/, the canonical path
 * of the header. The directory walk and the files themselves are given as
 * values.
 */
module RectifyIncludePaths {
  import opened Wrappers
  import opened PyText

  // ---------------------------------------------------------------------
  // exclude: pruning the directory list of os.walk in place
  // ---------------------------------------------------------------------

  /** The position of the first x in s (list.index). */
  function IndexOf<T(==)>(s: seq<T>, x: T): (i: nat)
    requires x in s
    ensures i < |s| && s[i] == x
    ensures forall j :: 0 <= j < i ==> s[j] != x
  {
    if s[0] == x then 0 else 1 + IndexOf(s[1..], x)
  }

  /** list.remove(x) after a membership test: the first x goes, when there is one. */
  function RemoveFirst<T(==)>(s: seq<T>, x: T): (r: seq<T>)
    ensures x !in s ==> r == s
    ensures x in s ==> r == s[..IndexOf(s, x)] + s[IndexOf(s, x) + 1..]
  {
    if x in s then s[..IndexOf(s, x)] + s[IndexOf(s, x) + 1..] else s
  }

  /** Removing the first x takes one x out of the multiset of names, if there is one. */
  lemma RemoveFirstMultiset<T>(s: seq<T>, x: T)
    ensures multiset(RemoveFirst(s, x)) == multiset(s) - multiset{x}
  {
    if x in s {
      var i := IndexOf(s, x);
      assert s == s[..i] + [x] + s[i + 1..];
    }
  }

  /** The names left after exclude(paths, names): paths taken one after another. */
  function Excluded<T(==)>(names: seq<T>, paths: seq<T>): seq<T> {
    if paths == [] then names
    else RemoveFirst(Excluded(names, paths[..|paths| - 1]), paths[|paths| - 1])
  }

  /**
   * exclude removes one occurrence of each element of paths, as many times
   * as it is listed, and keeps everything else: multiset difference.
   */
  lemma {:induction false} ExcludedMultiset<T>(names: seq<T>, paths: seq<T>)
    ensures multiset(Excluded(names, paths)) == multiset(names) - multiset(paths)
  {
    if paths != [] {
      var n := |paths| - 1;
      var x, e := paths[n], Excluded(names, paths[..n]);
      calc {
        multiset(Excluded(names, paths));
        { RemoveFirstMultiset(e, x); }
        multiset(e) - multiset{x};
        { ExcludedMultiset(names, paths[..n]); }
        (multiset(names) - multiset(paths[..n])) - multiset{x};
        { DiffThenRemove(multiset(names), multiset(paths[..n]), x); }
        multiset(names) - (multiset(paths[..n]) + multiset{x});
        { assert paths == paths[..n] + [x]; }
        multiset(names) - multiset(paths);
      }
    }
  }

  /** Taking b and then one x away is taking b plus one x away. */
  lemma DiffThenRemove<T>(a: multiset<T>, b: multiset<T>, x: T)
    ensures (a - b) - multiset{x} == a - (b + multiset{x})
  {
    forall y ensures ((a - b) - multiset{x})[y] == (a - (b + multiset{x}))[y] {
    }
  }

  /** Among distinct directory names, every listed path is gone after exclude. */
  lemma ExcludedDistinct<T>(names: seq<T>, paths: seq<T>, x: T)
    requires multiset(names)[x] <= 1
    requires x in paths
    ensures x !in Excluded(names, paths)
  {
    ExcludedMultiset(names, paths);
    assert multiset(paths)[x] >= 1;
  }

  /** Names not listed in paths keep their count. */
  lemma ExcludedKeeps<T>(names: seq<T>, paths: seq<T>, x: T)
    requires x !in paths
    ensures multiset(Excluded(names, paths))[x] == multiset(names)[x]
  {
    ExcludedMultiset(names, paths);
  }

  /** The list dirnames of an os.walk step, which exclude prunes in place. */
  class NameList {
    var items: seq<string>

    constructor(items0: seq<string>)
      ensures items == items0
    {
      items := items0;
    }

    /** list.remove(x) on a list that holds x. */
    method Remove(x: string)
      requires x in items
      modifies this
      ensures items == RemoveFirst(old(items), x)
    {
      var i := IndexOf(items, x);
      items := items[..i] + items[i + 1..];
    }
  }

  /** exclude(paths, dirnames) */
  method Exclude(paths: seq<string>, dirnames: NameList)
    modifies dirnames
    ensures dirnames.items == Excluded(old(dirnames.items), paths)
  {
    for k := 0 to |paths|
      invariant dirnames.items == Excluded(old(dirnames.items), paths[..k])
    {
      assert paths[..k + 1][..k] == paths[..k];
      if paths[k] in dirnames.items {
        dirnames.Remove(paths[k]);
      }
    }
    assert paths[..|paths|] == paths;
  }

  // ---------------------------------------------------------------------
  // get_include_map
  // ---------------------------------------------------------------------

  /** A value of the include map: the path below src/, or DUPLICATE. */
  datatype IncludeTarget = Path(path: string) | Duplicate

  type IncludeMap = map<string, IncludeTarget>

  /** The assert on the joined path failing. */
  datatype MapError = AssertionError

  /** posixpath.join(a, b) with two arguments. */
  function PathJoin(a: string, b: string): (p: string)
    ensures EndsWith(p, b)
  {
    if StartsWith(b, "/") then b
    else if a == "" || EndsWith(a, "/") then a + b
    else a + "/" + b
  }

  /** Ends with ".h" or ".inc". */
  predicate IsHeaderName(fname: string) {
    EndsWith(fname, ".h") || EndsWith(fname, ".inc")
  }

  const SRC_PREFIX := "src/"

  /** One file of the walk: a file in directory dirpath named fname. */
  function RecordHeader(includes: IncludeMap, dirpath: string, fname: string): Result<IncludeMap, MapError> {
    if !IsHeaderName(fname) then Ok(includes)
    else if fname in includes then Ok(includes[fname := Duplicate])
    else
      var joined := PathJoin(dirpath, fname);
      if StartsWith(joined, SRC_PREFIX) then Ok(includes[fname := Path(joined[|SRC_PREFIX|..])])
      else Err(AssertionError)
  }

  /** The include map after the files (directory, name) in walk order. */
  function IncludeMapOf(files: seq<(string, string)>): Result<IncludeMap, MapError> {
    if files == [] then Ok(map[])
    else
      var last := files[|files| - 1];
      match IncludeMapOf(files[..|files| - 1])
      case Err(e) => Err(e)
      case Ok(includes) => RecordHeader(includes, last.0, last.1)
  }

  /** The files of one step of the walk. */
  function InDir(dirpath: string, fnames: seq<string>): (files: seq<(string, string)>)
    ensures |files| == |fnames|
    ensures forall i :: 0 <= i < |fnames| ==> files[i] == (dirpath, fnames[i])
  {
    seq(|fnames|, i requires 0 <= i < |fnames| => (dirpath, fnames[i]))
  }

  /** The files of a walk given as (dirpath, fnames) steps, in order. */
  function WalkFiles(walk: seq<(string, seq<string>)>): seq<(string, string)> {
    if walk == [] then []
    else
      var last := walk[|walk| - 1];
      WalkFiles(walk[..|walk| - 1]) + InDir(last.0, last.1)
  }

  /** A failed assert ends the walk: nothing after it changes the outcome. */
  lemma {:induction false} IncludeMapErrSticks(files: seq<(string, string)>, more: seq<(string, string)>)
    requires IncludeMapOf(files).Err?
    ensures IncludeMapOf(files + more) == IncludeMapOf(files)
  {
    if more != [] {
      var n := |more| - 1;
      IncludeMapErrSticks(files, more[..n]);
      assert files + more == (files + more[..n]) + [more[n]];
      IncludeMapStep(files + more[..n], more[n]);
    } else {
      assert files + more == files;
    }
  }

  /** One more file is one more step of the map. */
  lemma IncludeMapStep(files: seq<(string, string)>, file: (string, string))
    ensures IncludeMapOf(files + [file]) ==
      match IncludeMapOf(files)
      case Err(e) => Err(e)
      case Ok(includes) => RecordHeader(includes, file.0, file.1)
  {
    assert (files + [file])[..|files|] == files;
  }

  /**
   * get_include_map over a given walk: for each step, every file whose name
   * ends with .h or .inc is recorded under its name; a name seen before maps
   * to DUPLICATE from then on.
   */
  method GetIncludeMap(walk: seq<(string, seq<string>)>) returns (r: Result<IncludeMap, MapError>)
    ensures r == IncludeMapOf(WalkFiles(walk))
  {
    var includes: IncludeMap := map[];
    for i := 0 to |walk|
      invariant IncludeMapOf(WalkFiles(walk[..i])) == Ok(includes)
    {
      assert WalkFiles(walk[..i + 1]) == WalkFiles(walk[..i]) + InDir(walk[i].0, walk[i].1) by {
        assert walk[..i + 1][..i] == walk[..i];
      }
      var step := RecordDir(WalkFiles(walk[..i]), includes, walk[i].0, walk[i].1);
      if step.Err? {
        assert IncludeMapOf(WalkFiles(walk)) == step by {
          assert walk == walk[..i + 1] + walk[i + 1..];
          WalkFilesAppend(walk[..i + 1], walk[i + 1..]);
          IncludeMapErrSticks(WalkFiles(walk[..i + 1]), WalkFiles(walk[i + 1..]));
        }
        return step;
      }
      includes := step.value;
    }
    assert walk[..|walk|] == walk;
    r := Ok(includes);
  }

  /** The inner loop of get_include_map: the files of one directory, after the files before. */
  method RecordDir(ghost before: seq<(string, string)>, includes0: IncludeMap, dirpath: string, fnames: seq<string>)
    returns (r: Result<IncludeMap, MapError>)
    requires IncludeMapOf(before) == Ok(includes0)
    ensures r == IncludeMapOf(before + InDir(dirpath, fnames))
  {
    var includes := includes0;
    assert before + InDir(dirpath, fnames[..0]) == before;
    for j := 0 to |fnames|
      invariant IncludeMapOf(before + InDir(dirpath, fnames[..j])) == Ok(includes)
    {
      var fname := fnames[j];
      InDirStep(before, dirpath, fnames, j);
      if EndsWith(fname, ".h") || EndsWith(fname, ".inc") {
        if fname in includes {
          includes := includes[fname := Duplicate];
          continue;
        }
        var joined := PathJoin(dirpath, fname);
        if !StartsWith(joined, SRC_PREFIX) {
          InDirErrSticks(before, dirpath, fnames, j + 1);
          return Err(AssertionError);
        }
        includes := includes[fname := Path(joined[|SRC_PREFIX|..])];
      }
    }
    assert fnames[..|fnames|] == fnames;
    r := Ok(includes);
  }

  /** One more file of the directory is one more step of the map. */
  lemma InDirStep(before: seq<(string, string)>, dirpath: string, fnames: seq<string>, j: nat)
    requires j < |fnames|
    ensures IncludeMapOf(before + InDir(dirpath, fnames[..j + 1])) ==
      match IncludeMapOf(before + InDir(dirpath, fnames[..j]))
      case Err(e) => Err(e)
      case Ok(includes) => RecordHeader(includes, dirpath, fnames[j])
  {
    assert before + InDir(dirpath, fnames[..j + 1]) == before + InDir(dirpath, fnames[..j]) + [(dirpath, fnames[j])];
    IncludeMapStep(before + InDir(dirpath, fnames[..j]), (dirpath, fnames[j]));
  }

  /** A failure at some file of the directory is the outcome of the whole directory. */
  lemma InDirErrSticks(before: seq<(string, string)>, dirpath: string, fnames: seq<string>, j: nat)
    requires j <= |fnames|
    requires IncludeMapOf(before + InDir(dirpath, fnames[..j])).Err?
    ensures IncludeMapOf(before + InDir(dirpath, fnames)) == IncludeMapOf(before + InDir(dirpath, fnames[..j]))
  {
    InDirSplit(dirpath, fnames, j);
    ErrSticksAfter(before, InDir(dirpath, fnames[..j]), InDir(dirpath, fnames[j..]));
  }

  /** IncludeMapErrSticks with the files before the failure given in two parts. */
  lemma ErrSticksAfter(before: seq<(string, string)>, mid: seq<(string, string)>, more: seq<(string, string)>)
    requires IncludeMapOf(before + mid).Err?
    ensures IncludeMapOf(before + (mid + more)) == IncludeMapOf(before + mid)
  {
    assert before + (mid + more) == (before + mid) + more;
    IncludeMapErrSticks(before + mid, more);
  }

  /** The files of a directory, split at j. */
  lemma InDirSplit(dirpath: string, fnames: seq<string>, j: nat)
    requires j <= |fnames|
    ensures InDir(dirpath, fnames) == InDir(dirpath, fnames[..j]) + InDir(dirpath, fnames[j..])
  {
  }

  /** The files of two walks one after the other. */
  lemma {:induction false} WalkFilesAppend(walk: seq<(string, seq<string>)>, more: seq<(string, seq<string>)>)
    ensures WalkFiles(walk + more) == WalkFiles(walk) + WalkFiles(more)
  {
    if more != [] {
      var n := |more| - 1;
      WalkFilesAppend(walk, more[..n]);
      assert (walk + more)[..|walk + more| - 1] == walk + more[..n];
      assert (walk + more)[|walk + more| - 1] == more[n];
    } else {
      assert walk + more == walk;
    }
  }

  /** The names of the files, in walk order. */
  function FileNames(files: seq<(string, string)>): (names: seq<string>)
    ensures |names| == |files|
    ensures forall i :: 0 <= i < |files| ==> names[i] == files[i].1
  {
    seq(|files|, i requires 0 <= i < |files| => files[i].1)
  }

  /**
   * What get_include_map records for a name f seen count times among the
   * files: nothing unless f ends with .h or .inc and was seen; the path below
   * src/ of its one file when seen once; DUPLICATE when seen more often.
   */
  predicate RecordsName(m: IncludeMap, files: seq<(string, string)>, f: string) {
    var count := multiset(FileNames(files))[f];
    && (f in m <==> IsHeaderName(f) && count > 0)
    && (f in m && count >= 2 ==> m[f] == Duplicate)
    && (forall i :: 0 <= i < |files| && files[i].1 == f && f in m && count == 1 ==>
          StartsWith(PathJoin(files[i].0, f), SRC_PREFIX)
          && m[f] == Path(PathJoin(files[i].0, f)[|SRC_PREFIX|..]))
  }

  /** get_include_map records every name as RecordsName says. */
  lemma {:induction false} IncludeMapEntries(files: seq<(string, string)>, f: string)
    requires IncludeMapOf(files).Ok?
    ensures RecordsName(IncludeMapOf(files).value, files, f)
  {
    if files != [] {
      var n := |files| - 1;
      assert files == files[..n] + [files[n]];
      IncludeMapEntries(files[..n], f);
      RecordHeaderEntries(IncludeMapOf(files[..n]).value, files[..n], files[n], f);
    }
  }

  /** One more file keeps RecordsName. */
  lemma RecordHeaderEntries(m0: IncludeMap, xs: seq<(string, string)>, x: (string, string), f: string)
    requires RecordsName(m0, xs, f)
    requires RecordHeader(m0, x.0, x.1).Ok?
    ensures RecordsName(RecordHeader(m0, x.0, x.1).value, xs + [x], f)
  {
    var files, m := xs + [x], RecordHeader(m0, x.0, x.1).value;
    var c0, count := multiset(FileNames(xs))[f], multiset(FileNames(files))[f];
    assert count == c0 + if x.1 == f then 1 else 0 by {
      assert FileNames(files) == FileNames(xs) + [x.1];
    }
    if x.1 != f {
      assert (f in m <==> f in m0) && (f in m ==> m[f] == m0[f]);
      forall i | 0 <= i < |files| && files[i].1 == f
        ensures i < |xs| && xs[i] == files[i]
      {
      }
    } else if IsHeaderName(f) && f !in m0 {
      assert c0 == 0;
      forall i | 0 <= i < |files| && files[i].1 == f
        ensures i == |xs|
      {
      }
    }
  }

  /** The directory of a file of os.walk("src"). */
  predicate UnderSrc(dirpath: string) {
    dirpath == "src" || StartsWith(dirpath, SRC_PREFIX)
  }

  /**
   * A map whose paths end in their own key as a file name, and hold no
   * double quote: the rewritten includes then read back unchanged.
   */
  predicate Canonical(m: IncludeMap) {
    forall f :: f in m && m[f].Path? ==> BaseName(m[f].path) == f && '"' !in m[f].path
  }

  /** The file name of a path y + f, where y is empty or ends with a slash, is f. */
  lemma BaseNameAfterSlash(y: string, f: string)
    requires '/' !in f
    requires y == [] || y[|y| - 1] == '/'
    ensures BaseName(y + f) == f
  {
    var p := y + f;
    var r := RFind(p, '/');
    assert forall k :: |y| <= k < |p| ==> p[k] == f[k - |y|];
    if y != [] {
      assert p[|y| - 1] == '/';
    }
    assert r == |y| - 1;
    assert p[r + 1..] == f;
  }

  /**
   * Over the files of os.walk("src") (directories src or below, file names
   * without a slash), the assert never fails and the map is canonical when
   * no name holds a double quote.
   */
  lemma {:induction false} IncludeMapCanonical(files: seq<(string, string)>)
    requires forall i :: 0 <= i < |files| ==> UnderSrc(files[i].0) && '/' !in files[i].1
    requires forall i :: 0 <= i < |files| ==> '"' !in files[i].0 && '"' !in files[i].1
    ensures IncludeMapOf(files).Ok?
    ensures Canonical(IncludeMapOf(files).value)
  {
    if files != [] {
      var n := |files| - 1;
      IncludeMapCanonical(files[..n]);
      RecordHeaderCanonical(IncludeMapOf(files[..n]).value, files[n].0, files[n].1);
    }
  }

  /** One file of os.walk("src") keeps the map canonical. */
  lemma RecordHeaderCanonical(m0: IncludeMap, d: string, f: string)
    requires Canonical(m0)
    requires UnderSrc(d) && '/' !in f && '"' !in d && '"' !in f
    ensures RecordHeader(m0, d, f).Ok?
    ensures Canonical(RecordHeader(m0, d, f).value)
  {
    if !IsHeaderName(f) {
      assert RecordHeader(m0, d, f) == Ok(m0);
    } else if f in m0 {
      assert RecordHeader(m0, d, f) == Ok(m0[f := Duplicate]);
    } else {
      PathJoinUnderSrc(d, f);
      var p := PathJoin(d, f)[|SRC_PREFIX|..];
      assert RecordHeader(m0, d, f) == Ok(m0[f := Path(p)]);
      CanonicalAdd(m0, f, p);
    }
  }

  /** Adding a path whose file name is its key and which has no quote keeps a map canonical. */
  lemma CanonicalAdd(m0: IncludeMap, f: string, p: string)
    requires Canonical(m0)
    requires BaseName(p) == f && '"' !in p
    ensures Canonical(m0[f := Path(p)])
  {
    var m := m0[f := Path(p)];
    forall g | g in m && m[g].Path?
      ensures BaseName(m[g].path) == g && '"' !in m[g].path
    {
      if g != f {
        assert m[g] == m0[g];
      }
    }
  }

  /**
   * Joining a directory of os.walk("src") and a file name gives a path
   * below src/ whose file name is that name, made of the characters of the
   * two and slashes.
   */
  lemma PathJoinUnderSrc(d: string, f: string)
    requires UnderSrc(d) && '/' !in f
    ensures StartsWith(PathJoin(d, f), SRC_PREFIX)
    ensures BaseName(PathJoin(d, f)[|SRC_PREFIX|..]) == f
    ensures '"' !in d && '"' !in f ==> '"' !in PathJoin(d, f)[|SRC_PREFIX|..]
  {
    var y := SrcDirPart(d);
    JoinUnderSrc(d, f);
    SplitAfterPrefix(PathJoin(d, f), SRC_PREFIX, y + f);
    BaseNameAfterSlash(y, f);
    if '"' !in d && '"' !in f {
      assert '"' !in y by {
        if d != "src" {
          assert '"' !in d[|SRC_PREFIX|..];
        }
      }
    }
  }

  /** What follows a known prefix. */
  lemma SplitAfterPrefix(p: string, prefix: string, r: string)
    requires p == prefix + r
    ensures StartsWith(p, prefix) && p[|prefix|..] == r
  {
  }

  /** The directory part below src/ of a path joined onto a directory of os.walk("src"). */
  function SrcDirPart(d: string): (y: string)
    requires UnderSrc(d)
    ensures y == [] || y[|y| - 1] == '/'
  {
    if d == "src" then "" else DirPart(d)
  }

  /** Joining f onto a directory of os.walk("src"). */
  lemma JoinUnderSrc(d: string, f: string)
    requires UnderSrc(d) && '/' !in f
    ensures PathJoin(d, f) == SRC_PREFIX + (SrcDirPart(d) + f)
  {
    assert !StartsWith(f, "/") by {
      if f != [] {
        assert f[0] in f;
      }
    }
    if d == "src" {
      assert PathJoin(d, f) == d + "/" + f;
      assert d + "/" == SRC_PREFIX;
    } else {
      JoinBelowSrc(d, f);
    }
  }

  /** The directory part below src/ of a path joined onto d, with its final slash. */
  function DirPart(d: string): (y: string)
    requires StartsWith(d, SRC_PREFIX)
    ensures y == [] || y[|y| - 1] == '/'
  {
    if EndsWith(d, "/") then d[|SRC_PREFIX|..] else d[|SRC_PREFIX|..] + "/"
  }

  /** Joining f onto a directory below src/. */
  lemma JoinBelowSrc(d: string, f: string)
    requires StartsWith(d, SRC_PREFIX) && !StartsWith(f, "/")
    ensures PathJoin(d, f) == SRC_PREFIX + (DirPart(d) + f)
  {
    var rest := d[|SRC_PREFIX|..];
    assert d == SRC_PREFIX + rest;
    assert d != "";
    if EndsWith(d, "/") {
      assert PathJoin(d, f) == d + f;
      calc {
        d + f;
        (SRC_PREFIX + rest) + f;
        SRC_PREFIX + (rest + f);
      }
    } else {
      assert PathJoin(d, f) == d + "/" + f;
      calc {
        d + "/" + f;
        (SRC_PREFIX + rest) + "/" + f;
        SRC_PREFIX + ((rest + "/") + f);
      }
    }
  }

  // ---------------------------------------------------------------------
  // The four patterns
  // ---------------------------------------------------------------------

  /** The character classes the patterns scan. */
  datatype CharClass = Space | NameChar | NotQuote | NotNewline

  predicate InClass(c: char, cls: CharClass) {
    match cls
    case Space => c == ' '
    case NameChar => 'A' <= c <= 'Z' || c == '_'
    case NotQuote => c != '"'
    case NotNewline => c != '\n'
  }

  /** The end of the longest run of cls from i on: a greedy `cls*`. */
  function Skip(s: string, i: nat, cls: CharClass): (j: nat)
    requires i <= |s|
    ensures i <= j <= |s|
    ensures forall k :: i <= k < j ==> InClass(s[k], cls)
    ensures j == |s| || !InClass(s[j], cls)
    decreases |s| - i
  {
    if i < |s| && InClass(s[i], cls) then Skip(s, i + 1, cls) else i
  }

  /** A run ends where its class first fails. */
  lemma SkipUnique(s: string, i: nat, j: nat, cls: CharClass)
    requires i <= j <= |s|
    requires forall k :: i <= k < j ==> InClass(s[k], cls)
    requires j == |s| || !InClass(s[j], cls)
    ensures Skip(s, i, cls) == j
  {
  }

  /** The end of ` *# *<word> +` at the start of line, when line starts so. */
  function DirectiveEnd(line: string, word: string): (e: Option<nat>)
    ensures e.Some? ==> e.value <= |line|
  {
    var i := Skip(line, 0, Space);
    if i < |line| && line[i] == '#' then
      var w := Skip(line, i + 1, Space);
      if w + |word| <= |line| && line[w..w + |word|] == word then
        var e := Skip(line, w + |word|, Space);
        if e > w + |word| then Some(e) else None
      else None
    else None
  }

  /** s is made of spaces only. */
  predicate AllSpaces(s: string) {
    forall k :: 0 <= k < |s| ==> s[k] == ' '
  }

  /**
   * d is ` *# *<word> +` with its '#' at i and word at w: spaces, '#',
   * spaces, word, then at least one space up to the end of d.
   */
  predicate DirectiveAt(d: string, word: string, i: int, w: int) {
    && 0 <= i < w && w + |word| < |d|
    && AllSpaces(d[..i]) && d[i] == '#' && AllSpaces(d[i + 1..w])
    && d[w..w + |word|] == word && AllSpaces(d[w + |word|..])
  }

  /** d is the text ` *# *<word> +` matches. */
  predicate DirectiveShaped(d: string, word: string) {
    exists i, w | 0 <= i < w < |d| :: DirectiveAt(d, word, i, w)
  }

  /**
   * What DirectiveEnd finds is a directive prefix, and the longest one: the
   * space run after the word stops at a non-space or at the end of line.
   */
  lemma DirectiveEndShape(line: string, word: string)
    ensures DirectiveEnd(line, word).Some? ==>
      var e := DirectiveEnd(line, word).value;
      DirectiveShaped(line[..e], word) && (e == |line| || line[e] != ' ')
  {
    if DirectiveEnd(line, word).Some? {
      var e := DirectiveEnd(line, word).value;
      var i := Skip(line, 0, Space);
      var w := Skip(line, i + 1, Space);
      var d := line[..e];
      assert d[..i] == line[..i] && d[i + 1..w] == line[i + 1..w];
      assert d[w..w + |word|] == line[w..w + |word|];
      assert d[w + |word|..] == line[w + |word|..e];
      assert DirectiveAt(d, word, i, w);
    }
  }

  /**
   * Every line that starts with a directive prefix is found by DirectiveEnd,
   * which takes at least that prefix (the word must not start with a space,
   * as "define" and "include" do not).
   */
  lemma DirectiveEndComplete(line: string, word: string, n: nat, i: int, w: int)
    requires word != [] && word[0] != ' '
    requires n <= |line| && DirectiveAt(line[..n], word, i, w)
    ensures DirectiveEnd(line, word).Some? && DirectiveEnd(line, word).value >= n
  {
    var d := line[..n];
    assert forall k :: 0 <= k < i ==> line[k] == d[..i][k];
    SkipUnique(line, 0, i, Space);
    assert forall k :: i + 1 <= k < w ==> line[k] == d[i + 1..w][k - i - 1];
    assert line[w] == d[w..w + |word|][0];
    SkipUnique(line, i + 1, w, Space);
    assert line[w..w + |word|] == d[w..w + |word|];
    assert forall k :: w + |word| <= k < n ==> line[k] == d[w + |word|..][k - w - |word|];
  }

  /** suffix occurs in s at j. */
  predicate OccursAt(s: string, suffix: string, j: int) {
    0 <= j && j + |suffix| <= |s| && s[j..j + |suffix|] == suffix
  }

  /** The last k in (a, hi] at which suffix occurs in s: a greedy group followed by suffix. */
  function FindLast(s: string, suffix: string, a: nat, hi: int): (k: Option<nat>)
    requires hi + |suffix| <= |s|
    ensures k.Some? ==> a < k.value <= hi && OccursAt(s, suffix, k.value)
    ensures forall j :: a < j <= hi && (k.None? || k.value < j) ==> !OccursAt(s, suffix, j)
    decreases hi
  {
    if hi <= a then None
    else if s[hi..hi + |suffix|] == suffix then Some(hi)
    else FindLast(s, suffix, a, hi - 1)
  }

  /** The groups of a match: directive, name or path, and the rest of the line. */
  datatype Groups = Groups(directive: string, middle: string, rest: string)

  const DEFINE_WORD := "define"
  const INCLUDE_WORD := "include"
  const PRIVATE_SUFFIX := "_PRIVATE"
  const INTERNAL_SUFFIX := "_INTERNAL_"
  const H_EXT := ".h"
  const INC_EXT := ".inc"

  /**
   * `([A-Z_]+)(<suffix>.*)` at the start of t: the name ends at k, before
   * the last suffix inside the leading run of name characters, and the rest
   * ends at z, the first newline after k.
   */
  function DefineTail(t: string, suffix: string): (r: Option<(nat, nat)>)
    ensures r.Some? ==> 0 < r.value.0 <= r.value.1 <= |t|
  {
    match FindLast(t, suffix, 0, Skip(t, 0, NameChar) - |suffix|)
    case None => None
    case Some(k) => Some((k, Skip(t, k, NotNewline)))
  }

  /** The groups line[..a], line[a..a + k] and line[a + k..a + z]. */
  function GroupsAt(line: string, a: nat, k: nat, z: nat): Groups
    requires a <= |line| && k <= z <= |line| - a
  {
    Groups(line[..a], line[a..a + k], line[a + k..a + z])
  }

  /** The groups of a split (k, z) of the tail of line from a, if any. */
  function GroupsFrom(line: string, a: nat, split: Option<(nat, nat)>): Option<Groups>
    requires a <= |line| && (split.Some? ==> split.value.0 <= split.value.1 <= |line| - a)
  {
    match split
    case None => None
    case Some((k, z)) => Some(GroupsAt(line, a, k, z))
  }

  /** `( *# *define +)([A-Z_]+)(<suffix>.*)` matched at the start of line. */
  function MatchDefine(line: string, suffix: string): Option<Groups> {
    match DirectiveEnd(line, DEFINE_WORD)
    case None => None
    case Some(a) =>
      GroupsFrom(line, a, DefineTail(line[a..], suffix))
  }

  /**
   * `([^"]+<ext>)(".*)` at the start of t: the path ends at the first quote
   * q, and the rest ends at z, the first newline after q.
   */
  function IncludeTail(t: string, ext: string): (r: Option<(nat, nat)>)
    ensures r.Some? ==> |ext| < r.value.0 < r.value.1 <= |t|
  {
    var q := Skip(t, 0, NotQuote);
    if q < |t| && q > |ext| && t[q - |ext|..q] == ext then Some((q, Skip(t, q, NotNewline)))
    else None
  }

  /** `( *# *include +")([^"]+<ext>)(".*)` matched at the start of line. */
  function MatchInclude(line: string, ext: string): Option<Groups> {
    match DirectiveEnd(line, INCLUDE_WORD)
    case None => None
    case Some(e) =>
      if e < |line| && line[e] == '"' then
        GroupsFrom(line, e + 1, IncludeTail(line[e + 1..], ext))
      else None
  }

  /** DEFINE_PRIVATE_PAT, DEFINE_INTERNAL_PAT, INCLUDE_H_PAT and INCLUDE_INC_PAT. */
  datatype Pattern = DefinePrivate | DefineInternal | IncludeH | IncludeInc

  /** pat.match(line), as its three groups. */
  function Match(pat: Pattern, line: string): Option<Groups> {
    match pat
    case DefinePrivate => MatchDefine(line, PRIVATE_SUFFIX)
    case DefineInternal => MatchDefine(line, INTERNAL_SUFFIX)
    case IncludeH => MatchInclude(line, H_EXT)
    case IncludeInc => MatchInclude(line, INC_EXT)
  }

  /** s holds no c. */
  predicate Lacks(s: string, c: char) {
    forall i :: 0 <= i < |s| ==> s[i] != c
  }

  /** The split of a define tail: a name, then the suffix, then the rest of the line. */
  lemma DefineTailShape(t: string, suffix: string)
    requires DefineTail(t, suffix).Some?
    ensures var (k, z) := DefineTail(t, suffix).value;
      && (forall i :: 0 <= i < k ==> InClass(t[i], NameChar))
      && OccursAt(t, suffix, k) && k + |suffix| <= z
      && Lacks(t[k..z], '\n') && (z == |t| || t[z] == '\n')
  {
    var b := Skip(t, 0, NameChar);
    var (k, z) := DefineTail(t, suffix).value;
    assert k + |suffix| <= z by {
      forall i | k <= i < k + |suffix| ensures InClass(t[i], NotNewline) {
        assert i < b;
      }
    }
  }

  /** The split of an include tail: a path without quotes ending with ext, then the rest of the line from the closing quote on. */
  lemma IncludeTailShape(t: string, ext: string)
    requires IncludeTail(t, ext).Some?
    ensures var (q, z) := IncludeTail(t, ext).value;
      && Lacks(t[..q], '"') && EndsWith(t[..q], ext) && t[q] == '"'
      && Lacks(t[q..z], '\n') && (z == |t| || t[z] == '\n')
  {
  }

  /**
   * The groups of a match cover the start of the line up to its first
   * newline; the first group is ` *# *define +` or ` *# *include +"`; the
   * name of a define is made of name characters and the rest
   * starts with the suffix; the path of an include has no quote and ends
   * with the extension, and the rest starts with the closing quote.
   */
  lemma MatchShape(pat: Pattern, line: string)
    requires Match(pat, line).Some?
    ensures pat.DefinePrivate? ==> DefineShaped(Match(pat, line).value, line, PRIVATE_SUFFIX)
    ensures pat.DefineInternal? ==> DefineShaped(Match(pat, line).value, line, INTERNAL_SUFFIX)
    ensures pat.IncludeH? ==> IncludeShaped(Match(pat, line).value, line, H_EXT)
    ensures pat.IncludeInc? ==> IncludeShaped(Match(pat, line).value, line, INC_EXT)
  {
    match pat
    case DefinePrivate => MatchDefineShape(line, PRIVATE_SUFFIX);
    case DefineInternal => MatchDefineShape(line, INTERNAL_SUFFIX);
    case IncludeH => MatchIncludeShape(line, H_EXT);
    case IncludeInc => MatchIncludeShape(line, INC_EXT);
  }

  /** The three groups, put together, are the line up to its first newline. */
  predicate GroupsCoverLine(g: Groups, line: string) {
    var n := |g.directive| + |g.middle| + |g.rest|;
    && n <= |line| && line[..n] == g.directive + g.middle + g.rest
    && (n == |line| || line[n] == '\n')
    && Lacks(g.rest, '\n')
  }

  /** The groups of a define: the directive, a name of name characters, then the rest of the line from the suffix on. */
  predicate DefineShaped(g: Groups, line: string, suffix: string) {
    && GroupsCoverLine(g, line) && DirectiveShaped(g.directive, DEFINE_WORD) && g.middle != []
    && (forall i :: 0 <= i < |g.middle| ==> InClass(g.middle[i], NameChar))
    && StartsWith(g.rest, suffix)
  }

  /**
   * The groups of an include: the directive with its opening quote, a path
   * without quotes ending with ext, then the rest of the line from the
   * closing quote on.
   */
  predicate IncludeShaped(g: Groups, line: string, ext: string) {
    && GroupsCoverLine(g, line) && g.middle != []
    && g.directive != [] && g.directive[|g.directive| - 1] == '"'
    && DirectiveShaped(g.directive[..|g.directive| - 1], INCLUDE_WORD)
    && Lacks(g.middle, '"') && StartsWith(g.rest, "\"") && EndsWith(g.middle, ext)
  }

  /** MatchShape for the two define patterns. */
  lemma MatchDefineShape(line: string, suffix: string)
    requires MatchDefine(line, suffix).Some?
    ensures DefineShaped(MatchDefine(line, suffix).value, line, suffix)
  {
    var a := DirectiveEnd(line, DEFINE_WORD).value;
    var (k, z) := DefineTail(line[a..], suffix).value;
    assert MatchDefine(line, suffix).value == GroupsAt(line, a, k, z);
    DirectiveEndShape(line, DEFINE_WORD);
    DefineTailShape(line[a..], suffix);
    DefineGroupsShape(line, a, k, z, suffix);
  }

  /** MatchShape for the two include patterns. */
  lemma MatchIncludeShape(line: string, ext: string)
    requires MatchInclude(line, ext).Some?
    ensures IncludeShaped(MatchInclude(line, ext).value, line, ext)
  {
    var a := DirectiveEnd(line, INCLUDE_WORD).value + 1;
    var (q, z) := IncludeTail(line[a..], ext).value;
    assert MatchInclude(line, ext).value == GroupsAt(line, a, q, z);
    DirectiveEndShape(line, INCLUDE_WORD);
    IncludeTailShape(line[a..], ext);
    IncludeGroupsShape(line, a, q, z, ext);
  }

  /** A define tail split inside line[a..] gives define-shaped groups of line. */
  lemma DefineGroupsShape(line: string, a: nat, k: nat, z: nat, suffix: string)
    requires a <= |line| && 0 < k && k + |suffix| <= z <= |line| - a
    requires DirectiveShaped(line[..a], DEFINE_WORD)
    requires forall i :: 0 <= i < k ==> InClass(line[a..][i], NameChar)
    requires OccursAt(line[a..], suffix, k)
    requires Lacks(line[a..][k..z], '\n') && (z == |line| - a || line[a..][z] == '\n')
    ensures DefineShaped(GroupsAt(line, a, k, z), line, suffix)
  {
    TailGroups(line, a, k, z, |suffix|);
  }

  /** An include tail split inside line[a..] gives include-shaped groups of line. */
  lemma IncludeGroupsShape(line: string, a: nat, q: nat, z: nat, ext: string)
    requires 0 < a <= |line| && 0 < q < z <= |line| - a
    requires line[a - 1] == '"' && DirectiveShaped(line[..a - 1], INCLUDE_WORD)
    requires Lacks(line[a..][..q], '"') && EndsWith(line[a..][..q], ext) && line[a..][q] == '"'
    requires Lacks(line[a..][q..z], '\n') && (z == |line| - a || line[a..][z] == '\n')
    ensures IncludeShaped(GroupsAt(line, a, q, z), line, ext)
  {
    TailGroups(line, a, q, z, 1);
    assert line[..a][..a - 1] == line[..a - 1];
  }

  /** Slices of line[a..] read as slices of line. */
  lemma TailGroups<T>(line: seq<T>, a: nat, k: nat, z: nat, n: nat)
    requires a <= |line| && k + n <= z <= |line| - a
    ensures line[a..a + k] == line[a..][..k] && line[a + k..a + z] == line[a..][k..z]
    ensures line[..a] + line[a..a + k] + line[a + k..a + z] == line[..a + z]
    ensures a + z < |line| ==> line[a + z] == line[a..][z]
    ensures line[a + k..a + z][..n] == line[a..][k..k + n]
  {
    assert line[..a + z] == line[..a + k] + line[a + k..a + z];
    assert line[..a + k] == line[..a] + line[a..a + k];
  }

  // ---------------------------------------------------------------------
  // fix_line and fix_includes
  // ---------------------------------------------------------------------

  /**
   * fix_line's decision: the text it writes, or None when it returns False.
   * An empty stdDirective stands for None and an empty mapping for None or
   * {}: fix_line tests both for truth, so each pair behaves alike.
   */
  function FixLineText(line: string, pat: Pattern, stdDirective: string, mapping: IncludeMap): Option<string> {
    match Match(pat, line)
    case None => None
    case Some(g) =>
      var directive := if stdDirective != "" then stdDirective else g.directive;
      if mapping != map[] then
        var base := BaseName(g.middle);
        if base in mapping && mapping[base].Path? then Some(directive + mapping[base].path + g.rest + "\n")
        else None
      else Some(directive + g.middle + g.rest + "\n")
  }

  /** The output file: the strings written to it, in order. */
  class Output {
    var writes: seq<string>

    constructor()
      ensures writes == []
    {
      writes := [];
    }

    /** out.write(s) */
    method Write(s: string)
      modifies this
      ensures writes == old(writes) + [s]
    {
      writes := writes + [s];
    }
  }

  /** fix_line: writes the rewritten line and returns True, or writes nothing and returns False. */
  method FixLine(line: string, pat: Pattern, out: Output, stdDirective: string, mapping: IncludeMap) returns (written: bool)
    modifies out
    ensures written <==> FixLineText(line, pat, stdDirective, mapping).Some?
    ensures written ==> out.writes == old(out.writes) + [FixLineText(line, pat, stdDirective, mapping).value]
    ensures !written ==> out.writes == old(out.writes)
  {
    var m := Match(pat, line);
    if m.Some? {
      var directive, prefix, rest := m.value.directive, m.value.middle, m.value.rest;
      if stdDirective != "" {
        directive := stdDirective;
      }
      if mapping != map[] {
        var basehdr := BaseName(prefix);
        if basehdr in mapping && mapping[basehdr].Path? {
          out.Write(directive + mapping[basehdr].path + rest + "\n");
          return true;
        }
      } else {
        out.Write(directive + prefix + rest + "\n");
        return true;
      }
    }
    return false;
  }

  const DEFINE_START := "#define "
  const INCLUDE_START := "#include \""

  /** The text fix_includes writes for one line: the first rewrite that applies, else the line itself. */
  function FixedLine(line: string, mapping: IncludeMap): string {
    match FixLineText(line, DefinePrivate, DEFINE_START, map[])
    case Some(o) => o
    case None =>
      match FixLineText(line, DefineInternal, DEFINE_START, map[])
      case Some(o) => o
      case None =>
        match FixLineText(line, IncludeH, INCLUDE_START, mapping)
        case Some(o) => o
        case None =>
          match FixLineText(line, IncludeInc, INCLUDE_START, mapping)
          case Some(o) => o
          case None => line
  }

  /** The texts fix_includes writes for the lines of a file, one per line. */
  function FixedLines(inp: seq<string>, mapping: IncludeMap): (outs: seq<string>)
    ensures |outs| == |inp|
  {
    if inp == [] then []
    else FixedLines(inp[..|inp| - 1], mapping) + [FixedLine(inp[|inp| - 1], mapping)]
  }

  /** One more line is one more text. */
  lemma FixedLinesStep(inp: seq<string>, i: nat, mapping: IncludeMap)
    requires i < |inp|
    ensures FixedLines(inp[..i + 1], mapping) == FixedLines(inp[..i], mapping) + [FixedLine(inp[i], mapping)]
  {
    assert inp[..i + 1][..i] == inp[..i];
  }

  /** Writing x after w0 + xs gives w0 + ys when ys is xs and then x. */
  lemma AppendOne<T>(w0: seq<T>, xs: seq<T>, ys: seq<T>, x: T)
    requires ys == xs + [x]
    ensures (w0 + xs) + [x] == w0 + ys
  {
  }

  /** fix_includes: exactly one write per input line, in order. */
  method FixIncludes(inp: seq<string>, out: Output, mapping: IncludeMap)
    modifies out
    ensures out.writes == old(out.writes) + FixedLines(inp, mapping)
  {
    for i := 0 to |inp|
      invariant out.writes == old(out.writes) + FixedLines(inp[..i], mapping)
    {
      FixIncludeLine(inp[i], out, mapping);
      FixedLinesStep(inp, i, mapping);
      AppendOne(old(out.writes), FixedLines(inp[..i], mapping), FixedLines(inp[..i + 1], mapping), FixedLine(inp[i], mapping));
    }
    assert inp[..|inp|] == inp;
  }

  /** The body of the loop of fix_includes: the patterns in order, else the line verbatim. */
  method FixIncludeLine(line: string, out: Output, mapping: IncludeMap)
    modifies out
    ensures out.writes == old(out.writes) + [FixedLine(line, mapping)]
  {
    var done := FixLine(line, DefinePrivate, out, DEFINE_START, map[]);
    if done {
      return;
    }
    done := FixLine(line, DefineInternal, out, DEFINE_START, map[]);
    if done {
      return;
    }
    done := FixLine(line, IncludeH, out, INCLUDE_START, mapping);
    if done {
      return;
    }
    done := FixLine(line, IncludeInc, out, INCLUDE_START, mapping);
    if done {
      return;
    }
    out.Write(line);
  }
}

=== FILE: relay_config.dfy ===
/**
 * The relay option checks of tor's relay configuration: the consistency of
 * the configured OR and Dir ports, the PublishServerDescriptor bit set, the
 * syntax of BridgeDistribution, the padding and directory-cache rules, and
 * the normalisation of the MyFamily nickname list.
 *
 * A C string is modelled as the characters before its terminating NUL, a
 * NULL string or list as None, and a NULL list of config lines as the empty
 * sequence. The option flags the source only tests are `bool`; BridgeRelay,
 * which it also compares with 1, is an `int`.
 */
module RelayConfig {
  import opened Wrappers
  import opened Text
  import opened ConfLines

  /** dirinfo_type_t: a bit set of the directory kinds a descriptor goes to. */
  type DirInfo = bv32

  /** The dirinfo bits of or.h (that header is not part of this model). */
  const NO_DIRINFO: DirInfo := 0
  const V3_DIRINFO: DirInfo := 4
  const BRIDGE_DIRINFO: DirInfo := 16

  /** Below this much memory a directory cache is not recommended. */
  const DIRCACHE_MIN_MEM_MB := 300
  const ONE_MEGABYTE := 0x10_0000
  const DIRCACHE_MIN_MEM_BYTES := DIRCACHE_MIN_MEM_MB * ONE_MEGABYTE

  /** SIZE_MAX of a platform with a 64-bit size_t. */
  const SIZE_MAX := 0xFFFF_FFFF_FFFF_FFFF

  // ---------------------------------------------------------------------
  // check_server_ports
  // ---------------------------------------------------------------------

  datatype ListenerType = DirListener | OrListener | OtherListener

  /**
   * A configured port, reduced to what the check reads. `bindsIPv4` is
   * port_binds_ipv4(port), a test of the port's address family.
   */
  datatype PortCfg = PortCfg(kind: ListenerType, port: int, noAdvertise: bool, noListen: bool, bindsIPv4: bool)

  /** How many of the ports satisfy f. */
  function Count(ports: seq<PortCfg>, f: PortCfg -> bool): (n: nat)
    ensures n <= |ports|
  {
    if ports == [] then 0
    else Count(ports[..|ports| - 1], f) + (if f(ports[|ports| - 1]) then 1 else 0)
  }

  lemma {:induction false} CountAppend(a: seq<PortCfg>, b: seq<PortCfg>, f: PortCfg -> bool)
    ensures Count(a + b, f) == Count(a, f) + Count(b, f)
    decreases |b|
  {
    if b != [] {
      assert (a + b)[..|a + b| - 1] == a + b[..|b| - 1];
      assert (a + b)[|a + b| - 1] == b[|b| - 1];
      CountAppend(a, b[..|b| - 1], f);
    } else {
      assert a + b == a;
    }
  }

  predicate AdvertisedOr(p: PortCfg) {
    p.kind == OrListener && !p.noAdvertise
  }

  predicate AdvertisedOrIPv4(p: PortCfg) {
    AdvertisedOr(p) && p.bindsIPv4
  }

  predicate ListeningOr(p: PortCfg) {
    p.kind == OrListener && !p.noListen
  }

  predicate AdvertisedDir(p: PortCfg) {
    p.kind == DirListener && !p.noAdvertise
  }

  predicate ListeningDir(p: PortCfg) {
    p.kind == DirListener && !p.noListen
  }

  /** A listening OR or Dir port below 1024 (which needs privileges to bind). */
  predicate LowListener(p: PortCfg) {
    p.kind != OtherListener && !p.noListen && p.port < 1024
  }

  /** Some rule of the port check is broken. */
  predicate PortsInconsistent(ports: seq<PortCfg>, bridgeRelay: bool) {
    var orAdvertised := Count(ports, AdvertisedOr);
    var orAdvertisedIPv4 := Count(ports, AdvertisedOrIPv4);
    var orListeners := Count(ports, ListeningOr);
    var dirAdvertised := Count(ports, AdvertisedDir);
    var dirListeners := Count(ports, ListeningDir);
    || (orAdvertised > 0 && orListeners == 0)
    || (orListeners > 0 && orAdvertised == 0)
    || (dirAdvertised > 0 && dirListeners == 0)
    || dirAdvertised > 1
    || (orAdvertised > 0 && orAdvertisedIPv4 == 0 && !bridgeRelay)
  }

  /**
   * check_server_ports: counts the advertised and listening OR and Dir
   * ports, returns -1 when the counts break a rule (every rule is looked at,
   * each with its own warning) and 0 otherwise, and gives the number of low
   * listening ports. Only BridgeRelay, of the options, changes the verdict.
   */
  method CheckServerPorts(ports: seq<PortCfg>, bridgeRelay: bool) returns (r: int, nLowPorts: nat)
    ensures r == (if PortsInconsistent(ports, bridgeRelay) then -1 else 0)
    ensures nLowPorts == Count(ports, LowListener)
  {
    var orAdvertised, orAdvertisedIPv4, orListeners := 0, 0, 0;
    var dirAdvertised, dirListeners, lowPorts := 0, 0, 0;
    for i := 0 to |ports|
      invariant orAdvertised == Count(ports[..i], AdvertisedOr)
      invariant orAdvertisedIPv4 == Count(ports[..i], AdvertisedOrIPv4)
      invariant orListeners == Count(ports[..i], ListeningOr)
      invariant dirAdvertised == Count(ports[..i], AdvertisedDir)
      invariant dirListeners == Count(ports[..i], ListeningDir)
      invariant lowPorts == Count(ports[..i], LowListener)
    {
      var port := ports[i];
      assert ports[..i + 1][..i] == ports[..i];
      if port.kind == DirListener {
        if !port.noAdvertise {
          dirAdvertised := dirAdvertised + 1;
        }
        if !port.noListen {
          dirListeners := dirListeners + 1;
        }
      } else if port.kind == OrListener {
        if !port.noAdvertise {
          orAdvertised := orAdvertised + 1;
          if port.bindsIPv4 {
            orAdvertisedIPv4 := orAdvertisedIPv4 + 1;
          }
        }
        if !port.noListen {
          orListeners := orListeners + 1;
        }
      } else {
        continue;
      }
      if !port.noListen && port.port < 1024 {
        lowPorts := lowPorts + 1;
      }
    }
    assert ports[..|ports|] == ports;
    r := 0;
    if orAdvertised > 0 && orListeners == 0 {
      r := -1;
    }
    if orListeners > 0 && orAdvertised == 0 {
      r := -1;
    }
    if dirAdvertised > 0 && dirListeners == 0 {
      r := -1;
    }
    if dirAdvertised > 1 {
      r := -1;
    }
    if orAdvertised > 0 && orAdvertisedIPv4 == 0 && !bridgeRelay {
      r := -1;
    }
    nLowPorts := lowPorts;
  }

  /** A port that is neither an OR nor a Dir listener changes neither result, wherever it stands. */
  lemma OtherPortsIgnored(a: seq<PortCfg>, p: PortCfg, b: seq<PortCfg>, bridgeRelay: bool)
    requires p.kind == OtherListener
    ensures PortsInconsistent(a + [p] + b, bridgeRelay) == PortsInconsistent(a + b, bridgeRelay)
    ensures Count(a + [p] + b, LowListener) == Count(a + b, LowListener)
  {
    var fs: seq<PortCfg -> bool> := [AdvertisedOr, AdvertisedOrIPv4, ListeningOr, AdvertisedDir, ListeningDir, LowListener];
    forall k | 0 <= k < |fs|
      ensures Count(a + [p] + b, fs[k]) == Count(a + b, fs[k])
    {
      CountAppend(a + [p], b, fs[k]);
      CountAppend(a, [p], fs[k]);
      CountAppend(a, b, fs[k]);
      assert [p][..0] == [];
    }
    assert fs[0] == AdvertisedOr && fs[1] == AdvertisedOrIPv4 && fs[2] == ListeningOr;
    assert fs[3] == AdvertisedDir && fs[4] == ListeningDir && fs[5] == LowListener;
  }

  /** One OR port, advertised and listening on IPv4, and nothing else, passes. */
  lemma SingleOrPortConsistent(p: PortCfg, bridgeRelay: bool)
    requires p.kind == OrListener && !p.noAdvertise && !p.noListen && p.bindsIPv4
    ensures !PortsInconsistent([p], bridgeRelay)
  {
    assert [p][..0] == [];
  }

  /** Two advertised DirPorts are always refused. */
  lemma TwoDirPortsInconsistent(p: PortCfg, q: PortCfg, bridgeRelay: bool)
    requires AdvertisedDir(p) && AdvertisedDir(q)
    ensures PortsInconsistent([p, q], bridgeRelay)
  {
    assert [p, q][..1] == [p];
    assert [p][..0] == [];
  }

  // ---------------------------------------------------------------------
  // compute_publishserverdescriptor
  // ---------------------------------------------------------------------

  /**
   * The bits one PublishServerDescriptor word adds, or None for a word that
   * is not recognised: "1" means "bridge" on a bridge and "v3" elsewhere,
   * "v1", "v2", "hidserv", "" and "0" add nothing. The words other than "1"
   * and "0" are compared without case.
   */
  function WordAuthority(word: string, bridgeRelay: bool): Option<DirInfo> {
    if EqualsIgnoringCase(word, "v1") then Some(NO_DIRINFO)
    else if word == "1" then Some(if bridgeRelay then BRIDGE_DIRINFO else V3_DIRINFO)
    else if EqualsIgnoringCase(word, "v2") then Some(NO_DIRINFO)
    else if EqualsIgnoringCase(word, "v3") then Some(V3_DIRINFO)
    else if EqualsIgnoringCase(word, "bridge") then Some(BRIDGE_DIRINFO)
    else if EqualsIgnoringCase(word, "hidserv") then Some(NO_DIRINFO)
    else if word == "" || word == "0" then Some(NO_DIRINFO)
    else None
  }

  /** Every word is recognised. */
  predicate KnownWords(words: seq<string>) {
    forall i :: 0 <= i < |words| ==> WordAuthority(words[i], false).Some?
  }

  /** The union of the bits of the recognised words. */
  function AuthorityOf(words: seq<string>, bridgeRelay: bool): DirInfo {
    if words == [] then NO_DIRINFO
    else
      var last := match WordAuthority(words[|words| - 1], bridgeRelay)
        case Some(bits) => bits
        case None => NO_DIRINFO;
      AuthorityOf(words[..|words| - 1], bridgeRelay) | last
  }

  /** A word selects V3 exactly when it is "v3" (any case), or "1" outside a bridge. */
  predicate NamesV3(word: string, bridgeRelay: bool) {
    EqualsIgnoringCase(word, "v3") || (word == "1" && !bridgeRelay)
  }

  /** A word selects BRIDGE exactly when it is "bridge" (any case), or "1" on a bridge. */
  predicate NamesBridge(word: string, bridgeRelay: bool) {
    EqualsIgnoringCase(word, "bridge") || (word == "1" && bridgeRelay)
  }

  /** What one recognised word contributes, stated bit by bit. */
  lemma WordAuthorityBits(word: string, bridgeRelay: bool)
    ensures WordAuthority(word, true).Some? == WordAuthority(word, false).Some?
    ensures var bits := WordAuthority(word, bridgeRelay);
      bits.Some? ==>
        && bits.value & !(V3_DIRINFO | BRIDGE_DIRINFO) == 0
        && (bits.value & V3_DIRINFO != 0 <==> NamesV3(word, bridgeRelay))
        && (bits.value & BRIDGE_DIRINFO != 0 <==> NamesBridge(word, bridgeRelay))
  {
    if EqualsIgnoringCase(word, "v3") {
      assert ToLowerC(word[1]) == '3';
      assert !EqualsIgnoringCase(word, "v1") by {
        assert ToLowerC("v1"[1]) == '1';
      }
      assert !EqualsIgnoringCase(word, "v2") by {
        assert ToLowerC("v2"[1]) == '2';
      }
    }
  }

  /**
   * The bit set computed from a list holds V3 exactly when some word names
   * V3, BRIDGE exactly when some word names BRIDGE, and no other bit.
   */
  lemma {:induction false} AuthorityOfBits(words: seq<string>, bridgeRelay: bool)
    ensures AuthorityOf(words, bridgeRelay) & !(V3_DIRINFO | BRIDGE_DIRINFO) == 0
    ensures AuthorityOf(words, bridgeRelay) & V3_DIRINFO != 0 <==>
      exists i :: 0 <= i < |words| && NamesV3(words[i], bridgeRelay)
    ensures AuthorityOf(words, bridgeRelay) & BRIDGE_DIRINFO != 0 <==>
      exists i :: 0 <= i < |words| && NamesBridge(words[i], bridgeRelay)
  {
    if words != [] {
      var init, last := words[..|words| - 1], words[|words| - 1];
      AuthorityOfBits(init, bridgeRelay);
      WordAuthorityBits(last, bridgeRelay);
      if WordAuthority(last, bridgeRelay).None? {
        assert !NamesV3(last, bridgeRelay) && !NamesBridge(last, bridgeRelay);
      }
      assert forall i :: 0 <= i < |init| ==> init[i] == words[i];
      assert words == init + [last];
    }
  }

  /** The union of the bits does not depend on where a word stands in the list. */
  lemma {:induction false} AuthorityOfAppend(a: seq<string>, b: seq<string>, bridgeRelay: bool)
    ensures AuthorityOf(a + b, bridgeRelay) == AuthorityOf(a, bridgeRelay) | AuthorityOf(b, bridgeRelay)
    decreases |b|
  {
    if b != [] {
      assert (a + b)[..|a + b| - 1] == a + b[..|b| - 1];
      assert (a + b)[|a + b| - 1] == b[|b| - 1];
      AuthorityOfAppend(a, b[..|b| - 1], bridgeRelay);
    } else {
      assert a + b == a;
    }
  }

  // ---------------------------------------------------------------------
  // check_bridge_distribution_setting
  // ---------------------------------------------------------------------

  /** The distribution methods the bridge authority knows by name. */
  const RECOGNIZED_DISTRIBUTIONS: seq<string> := ["none", "any", "https", "email", "moat", "hyphae"]

  /** A character a distribution method's name may hold. */
  predicate DistributionChar(c: char) {
    IsCAlnum(c) || c == '-' || c == '_'
  }

  /** The setting is absent, names a known method, or is made of name characters only. */
  predicate DistributionAccepted(bd: Option<string>) {
    || bd.None?
    || bd.value in RECOGNIZED_DISTRIBUTIONS
    || forall i :: 0 <= i < |bd.value| ==> DistributionChar(bd.value[i])
  }

  /**
   * check_bridge_distribution_setting: 0 for an absent or a known setting;
   * otherwise 0 when the scan over name characters reaches the end of the
   * string (an unknown but well-formed method, which is only warned about)
   * and -1 when it stops at another character.
   */
  method CheckBridgeDistributionSetting(bd: Option<string>) returns (r: int)
    ensures r == 0 || r == -1
    ensures r == 0 <==> DistributionAccepted(bd)
  {
    if bd.None? {
      return 0;
    }
    var s := bd.value;
    for i := 0 to |RECOGNIZED_DISTRIBUTIONS|
      invariant s !in RECOGNIZED_DISTRIBUTIONS[..i]
    {
      if s == RECOGNIZED_DISTRIBUTIONS[i] {
        return 0;
      }
    }
    assert RECOGNIZED_DISTRIBUTIONS[..|RECOGNIZED_DISTRIBUTIONS|] == RECOGNIZED_DISTRIBUTIONS;
    var cp := 0;
    while cp < |s| && DistributionChar(s[cp])
      invariant cp <= |s|
      invariant forall i :: 0 <= i < cp ==> DistributionChar(s[i])
    {
      cp := cp + 1;
    }
    if cp == |s| {
      r := 0;
    } else {
      r := -1;
    }
  }

  /** The known names are well-formed themselves, so the verdict is the character rule alone. */
  lemma DistributionAcceptedByCharacters(s: string)
    ensures DistributionAccepted(Some(s)) <==> forall i :: 0 <= i < |s| ==> DistributionChar(s[i])
  {
    if s in RECOGNIZED_DISTRIBUTIONS {
      var k :| 0 <= k < |RECOGNIZED_DISTRIBUTIONS| && RECOGNIZED_DISTRIBUTIONS[k] == s;
      assert forall i :: 0 <= i < |s| ==> IsCAlnum(s[i]);
    }
  }

  /** The examples of tor's configuration tests. */
  lemma DistributionExamples()
    ensures DistributionAccepted(Some("https"))
    ensures DistributionAccepted(Some("hyphens-are-allowed"))
    ensures !DistributionAccepted(Some("asterisks*are*forbidden"))
    ensures DistributionAccepted(Some("unicorn"))
  {
    var bad := "asterisks*are*forbidden";
    assert bad[9] == '*';
    assert bad !in RECOGNIZED_DISTRIBUTIONS;
  }

  // ---------------------------------------------------------------------
  // options_validate_publish_server
  // ---------------------------------------------------------------------

  const UNRECOGNIZED_PUBLISH_MSG := "Unrecognized value in PublishServerDescriptor"
  const BRIDGE_PUBLISHES_MSG :=
    "Bridges are not supposed to publish router descriptors to the directory authorities. Please correct your PublishServerDescriptor line."
  const DISTRIBUTION_WITHOUT_BRIDGE_MSG := "You set BridgeDistribution, but you didn't set BridgeRelay!"
  const INVALID_DISTRIBUTION_MSG := "Invalid BridgeDistribution value."

  /**
   * The verdict of options_validate_publish_server, given the option values
   * it reads: the first broken rule's message, or None when all hold.
   */
  function PublishServerVerdict(words: Option<seq<string>>, bridgeRelay: bool, bd: Option<string>): Option<string> {
    if words.Some? && !KnownWords(words.value) then Some(UNRECOGNIZED_PUBLISH_MSG)
    else
      var bits := if words.None? then NO_DIRINFO else AuthorityOf(words.value, bridgeRelay);
      if (bridgeRelay || bits & BRIDGE_DIRINFO != 0) && bits & V3_DIRINFO != 0 then Some(BRIDGE_PUBLISHES_MSG)
      else if bd.Some? && !bridgeRelay then Some(DISTRIBUTION_WITHOUT_BRIDGE_MSG)
      else if !DistributionAccepted(bd) then Some(INVALID_DISTRIBUTION_MSG)
      else None
  }

  /**
   * The publishing rules, stated on the words: every word is recognised; no
   * word asks for V3 when the relay is a bridge or some word asks for BRIDGE;
   * and a BridgeDistribution is only set on a bridge, with a well-formed value.
   */
  lemma PublishServerAccepted(words: Option<seq<string>>, bridgeRelay: bool, bd: Option<string>)
    ensures PublishServerVerdict(words, bridgeRelay, bd).None? <==>
      && (words.Some? ==> KnownWords(words.value))
      && (words.Some? && (bridgeRelay || exists i :: 0 <= i < |words.value| && NamesBridge(words.value[i], bridgeRelay))
          ==> forall i :: 0 <= i < |words.value| ==> !NamesV3(words.value[i], bridgeRelay))
      && (bd.Some? ==> bridgeRelay && forall i :: 0 <= i < |bd.value| ==> DistributionChar(bd.value[i]))
  {
    if words.Some? {
      AuthorityOfBits(words.value, bridgeRelay);
    }
    if bd.Some? {
      DistributionAcceptedByCharacters(bd.value);
    }
  }

  /** "1" on a bridge stands for "bridge", so it passes; "v3" on a bridge does not. */
  lemma PublishServerBridgeExamples(one: string, v3: string)
    requires one == "1" && v3 == "V3"
    ensures PublishServerVerdict(Some([one]), true, None) == None
    ensures PublishServerVerdict(Some([v3]), true, None) == Some(BRIDGE_PUBLISHES_MSG)
  {
    PublishServerAccepted(Some([one]), true, None);
    assert NamesV3(v3, true) by {
      assert ToLowerC(v3[0]) == 'v';
    }
    assert WordAuthority(v3, true) == Some(V3_DIRINFO) by {
      WordAuthorityBits(v3, true);
      assert !EqualsIgnoringCase(v3, "v1") by {
        assert ToLowerC("v1"[1]) == '1';
      }
      assert !EqualsIgnoringCase(v3, "v2") by {
        assert ToLowerC("v2"[1]) == '2';
      }
    }
    assert [v3][..0] == [];
  }

  // ---------------------------------------------------------------------
  // options_validate_relay_padding
  // ---------------------------------------------------------------------

  /**
   * options_validate_relay_padding: a relay (server mode) must leave
   * ConnectionPadding on auto (-1), must not reduce connection padding,
   * must not turn circuit padding off, and must not reduce it. The first
   * broken rule's message is returned.
   */
  function ValidateRelayPadding(serverMode: bool, connectionPadding: int, reducedConnectionPadding: int,
                                circuitPadding: int, reducedCircuitPadding: int): (err: Option<string>)
    ensures err.None? <==>
      !serverMode || (connectionPadding == -1 && reducedConnectionPadding == 0 && circuitPadding != 0 && reducedCircuitPadding != 1)
    ensures err.Some? && connectionPadding == -1 && reducedConnectionPadding == 0 && circuitPadding != 0 ==>
      err == Some("Relays cannot set ReducedCircuitPadding. ")
  {
    if serverMode && connectionPadding != -1 then Some("Relays must use 'auto' for the ConnectionPadding setting.")
    else if serverMode && reducedConnectionPadding != 0 then Some("Relays cannot set ReducedConnectionPadding. ")
    else if serverMode && circuitPadding == 0 then Some("Relays cannot set CircuitPadding to 0. ")
    else if serverMode && reducedCircuitPadding == 1 then Some("Relays cannot set ReducedCircuitPadding. ")
    else None
  }

  // ---------------------------------------------------------------------
  // have_enough_mem_for_dircache
  // ---------------------------------------------------------------------

  /**
   * The memory size the check uses: total_mem when it is not 0; otherwise
   * the system's total memory when it can be found (`systemMemory`), else
   * MaxMemInQueues capped at SIZE_MAX.
   */
  function EffectiveTotalMem(totalMem: nat, systemMemory: Option<nat>, maxMemInQueues: nat): (m: nat)
    ensures totalMem != 0 ==> m == totalMem
    ensures totalMem == 0 && systemMemory.None? ==> m <= SIZE_MAX
  {
    if totalMem != 0 then totalMem
    else match systemMemory
      case Some(m) => m
      case None => if maxMemInQueues >= SIZE_MAX then SIZE_MAX else maxMemInQueues
  }

  const BRIDGE_LOW_MEM_MSG := "Running a Bridge with less than 300 MB of memory is not recommended."
  const DIRCACHE_LOW_MEM_MSG := "Being a directory cache (default) with less than 300 MB of memory is not recommended and may consume most of the available resources. Consider disabling this functionality by setting the DirCache option to 0."
  const NO_DIRCACHE_MSG := "DirCache is disabled and we are configured as a relay. We will not become a Guard."

  /**
   * have_enough_mem_for_dircache: a warning for a directory cache with less
   * than DIRCACHE_MIN_MEM_MB of memory (worded for bridges or for relays),
   * or for a relay that is not a directory cache although it has that much.
   * The result is -1 exactly when there is a warning.
   */
  function HaveEnoughMemForDircache(dirCache: bool, bridgeRelay: bool, maxMemInQueues: nat,
                                    totalMem: nat, systemMemory: Option<nat>): (res: (int, Option<string>))
    ensures res.0 == (if res.1.Some? then -1 else 0)
    ensures var m := EffectiveTotalMem(totalMem, systemMemory, maxMemInQueues);
      res.1.Some? <==> (dirCache && m < DIRCACHE_MIN_MEM_BYTES) || (!dirCache && m >= DIRCACHE_MIN_MEM_BYTES)
  {
    var m := EffectiveTotalMem(totalMem, systemMemory, maxMemInQueues);
    var msg :=
      if dirCache then
        if m < DIRCACHE_MIN_MEM_BYTES then
          if bridgeRelay then Some(BRIDGE_LOW_MEM_MSG)
          else Some(DIRCACHE_LOW_MEM_MSG)
        else None
      else if m >= DIRCACHE_MIN_MEM_BYTES then Some(NO_DIRCACHE_MSG)
      else None;
    (if msg.Some? then -1 else 0, msg)
  }

  /** At a given memory size exactly one of "DirCache on" and "DirCache off" draws a warning. */
  lemma DircacheWarnsOneWay(bridgeRelay: bool, maxMemInQueues: nat, totalMem: nat, systemMemory: Option<nat>)
    ensures HaveEnoughMemForDircache(true, bridgeRelay, maxMemInQueues, totalMem, systemMemory).0 !=
            HaveEnoughMemForDircache(false, bridgeRelay, maxMemInQueues, totalMem, systemMemory).0
  {
  }

  // ---------------------------------------------------------------------
  // normalize_nickname_list
  // ---------------------------------------------------------------------

  /**
   * tor_strstrip(s, " "): s without any of its space characters (other white
   * space stays).
   */
  function RemoveSpaces(s: string): (r: string)
    ensures ' ' !in r
    ensures forall i :: 0 <= i < |r| ==> r[i] in s
    ensures ' ' !in s ==> r == s
    ensures s != [] && s[0] != ' ' ==> r != [] && r[0] == s[0]
    ensures s != [] && s[|s| - 1] != ' ' ==> r != [] && r[|r| - 1] == s[|s| - 1]
  {
    if s == [] then []
    else
      var init := RemoveSpaces(s[..|s| - 1]);
      assert forall i :: 0 <= i < |init| ==> init[i] in s by {
        forall i | 0 <= i < |init| ensures init[i] in s {
          var k :| 0 <= k < |s| - 1 && s[..|s| - 1][k] == init[i];
          assert s[k] == init[i];
        }
      }
      assert s == s[..|s| - 1] + [s[|s| - 1]];
      if s[|s| - 1] == ' ' then init else init + [s[|s| - 1]]
  }

  /**
   * The pieces with their surrounding C white space removed, blank ones
   * dropped, and the spaces inside the others removed.
   */
  function NonBlankPieces(pieces: seq<string>): (items: seq<string>)
    ensures forall k :: 0 <= k < |items| ==> items[k] != []
  {
    if pieces == [] then []
    else
      var trimmed := StripCSpace(SkipCSpace(pieces[|pieces| - 1]));
      var init := NonBlankPieces(pieces[..|pieces| - 1]);
      if trimmed == [] then init else init + [RemoveSpaces(trimmed)]
  }

  /**
   * smartlist_split_string(sl, line, ",", SPLIT_SKIP_SPACE | SPLIT_IGNORE_BLANK
   * | SPLIT_STRIP_SPACE, 0): the comma-separated items of the line, trimmed,
   * without the blank ones, and with every space inside an item removed
   * (smartlist_split.c is not part of this model).
   */
  function SplitNicknames(line: string): (items: seq<string>)
    ensures forall k :: 0 <= k < |items| ==> items[k] != []
  {
    NonBlankPieces(Split(line, ','))
  }

  /** Non-blank, neither starting nor ending with white space, and without spaces. */
  predicate Trimmed(item: string) {
    item != [] && !IsCSpace(item[0]) && !IsCSpace(item[|item| - 1]) && ' ' !in item
  }

  /** Every character of item occurs in one of the pieces. */
  predicate CharsFrom(item: string, pieces: seq<string>) {
    forall i :: 0 <= i < |item| ==> InSome(item[i], pieces)
  }

  /** c occurs in one of the pieces. */
  predicate InSome(c: char, pieces: seq<string>) {
    exists j :: 0 <= j < |pieces| && c in pieces[j]
  }

  /** The items are trimmed and every character of an item comes from one of the pieces. */
  lemma NonBlankPiecesItems(pieces: seq<string>)
    ensures forall k :: 0 <= k < |NonBlankPieces(pieces)| ==>
      Trimmed(NonBlankPieces(pieces)[k]) && CharsFrom(NonBlankPieces(pieces)[k], pieces)
  {
    forall k | 0 <= k < |NonBlankPieces(pieces)|
      ensures Trimmed(NonBlankPieces(pieces)[k]) && CharsFrom(NonBlankPieces(pieces)[k], pieces)
    {
      NonBlankPieceAt(pieces, k);
    }
  }

  /** The item at k is trimmed and every character of it comes from one of the pieces. */
  lemma {:induction false} NonBlankPieceAt(pieces: seq<string>, k: nat)
    requires k < |NonBlankPieces(pieces)|
    ensures Trimmed(NonBlankPieces(pieces)[k]) && CharsFrom(NonBlankPieces(pieces)[k], pieces)
  {
    var n := |pieces| - 1;
    var items, init := NonBlankPieces(pieces), NonBlankPieces(pieces[..n]);
    var trimmed := StripCSpace(SkipCSpace(pieces[n]));
    assert items == if trimmed == [] then init else init + [RemoveSpaces(trimmed)];
    if k < |init| {
      assert items[k] == init[k];
      NonBlankPieceAt(pieces[..n], k);
      CharsFromMore(init[k], pieces[..n], pieces);
    } else {
      LastPieceItem(pieces);
    }
  }

  /** Characters from a prefix of the pieces come from the pieces. */
  lemma CharsFromMore(item: string, init: seq<string>, pieces: seq<string>)
    requires CharsFrom(item, init) && |init| <= |pieces| && init == pieces[..|init|]
    ensures CharsFrom(item, pieces)
  {
    forall i | 0 <= i < |item|
      ensures InSome(item[i], pieces)
    {
      var j :| 0 <= j < |init| && item[i] in init[j];
      assert init[j] == pieces[j];
    }
  }

  /** The item cut from the last piece, when not blank, is trimmed and made of that piece's characters. */
  lemma LastPieceItem(pieces: seq<string>)
    requires pieces != []
    requires StripCSpace(SkipCSpace(pieces[|pieces| - 1])) != []
    ensures var item := RemoveSpaces(StripCSpace(SkipCSpace(pieces[|pieces| - 1])));
      Trimmed(item) && CharsFrom(item, pieces)
  {
    var n := |pieces| - 1;
    TrimmedChars(pieces[n]);
    SpacesRemovedItem(StripCSpace(SkipCSpace(pieces[n])), pieces, n);
  }

  /** Removing the spaces of a trimmed piece gives a trimmed item made of that piece's characters. */
  lemma SpacesRemovedItem(trimmed: string, pieces: seq<string>, n: nat)
    requires n < |pieces|
    requires trimmed != [] && !IsCSpace(trimmed[0]) && !IsCSpace(trimmed[|trimmed| - 1])
    requires forall k :: 0 <= k < |trimmed| ==> trimmed[k] in pieces[n]
    ensures Trimmed(RemoveSpaces(trimmed)) && CharsFrom(RemoveSpaces(trimmed), pieces)
  {
    var item := RemoveSpaces(trimmed);
    forall i | 0 <= i < |item|
      ensures InSome(item[i], pieces)
    {
      var k :| 0 <= k < |trimmed| && trimmed[k] == item[i];
      assert item[i] in pieces[n];
    }
  }

  /** A piece without its surrounding white space neither starts nor ends with white space and keeps the piece's characters. */
  lemma TrimmedChars(piece: string)
    ensures var trimmed := StripCSpace(SkipCSpace(piece));
      && (trimmed != [] ==> !IsCSpace(trimmed[0]) && !IsCSpace(trimmed[|trimmed| - 1]))
      && forall k :: 0 <= k < |trimmed| ==> trimmed[k] in piece
  {
    var i := CSpacePrefix(piece);
    var skipped := piece[i..];
    var trimmed := StripCSpace(skipped);
    forall k | 0 <= k < |trimmed|
      ensures trimmed[k] in piece
    {
      assert trimmed[k] == skipped[k] == piece[i + k];
    }
  }

  /** Each item of a line is non-blank, holds no comma and no space, and neither starts nor ends with white space. */
  lemma SplitNicknamesItems(line: string)
    ensures forall k :: 0 <= k < |SplitNicknames(line)| ==>
      var item := SplitNicknames(line)[k];
      && item != [] && ',' !in item && ' ' !in item
      && !IsCSpace(item[0]) && !IsCSpace(item[|item| - 1])
  {
    var pieces := Split(line, ',');
    NonBlankPiecesItems(pieces);
    forall k | 0 <= k < |SplitNicknames(line)|
      ensures ',' !in SplitNicknames(line)[k]
    {
      var item := SplitNicknames(line)[k];
      assert CharsFrom(item, pieces);
      forall i | 0 <= i < |item|
        ensures item[i] != ','
      {
        assert InSome(item[i], pieces);
        var j :| 0 <= j < |pieces| && item[i] in pieces[j];
      }
    }
  }

  /** A nickname that is legal as it is, or with a "$" put in front when it has none. */
  predicate Normalizable(s: string, isLegal: string -> bool) {
    isLegal(s) || ((s == [] || s[0] != '$') && isLegal("$" + s))
  }

  /** The normalised form of a nickname: itself if legal, else "$" + it if that is legal and it had no "$". */
  function NormalizeNickname(s: string, isLegal: string -> bool): (r: Option<string>)
    ensures isLegal(s) ==> r == Some(s)
    ensures r.Some? ==> isLegal(r.value) && (r.value == s || (r.value == "$" + s && (s == [] || s[0] != '$')))
    ensures r.Some? <==> Normalizable(s, isLegal)
  {
    if isLegal(s) then Some(s)
    else if (s == [] || s[0] != '$') && isLegal("$" + s) then Some("$" + s)
    else None
  }

  /** The message for an item that cannot be normalised. */
  function InvalidNicknameMsg(s: string, name: string): string {
    "Invalid nickname '" + s + "' in " + name + " line"
  }

  /** The first of two errors, or both lists of lines one after the other. */
  function Then(first: Result<seq<ConfigLine>, string>, second: Result<seq<ConfigLine>, string>): Result<seq<ConfigLine>, string> {
    match first
    case Err(_) => first
    case Ok(x) =>
      match second
      case Err(_) => second
      case Ok(y) => Ok(x + y)
  }

  lemma ThenAssociative(x: Result<seq<ConfigLine>, string>, y: Result<seq<ConfigLine>, string>, z: Result<seq<ConfigLine>, string>)
    ensures Then(Then(x, y), z) == Then(x, Then(y, z))
  {
    if x.Ok? && y.Ok? && z.Ok? {
      assert (x.value + y.value) + z.value == x.value + (y.value + z.value);
    }
  }

  /** The config line for one item, or the message when it cannot be normalised. */
  function NormalizeItem(key: string, s: string, name: string, isLegal: string -> bool): Result<seq<ConfigLine>, string> {
    match NormalizeNickname(s, isLegal)
    case None => Err(InvalidNicknameMsg(s, name))
    case Some(n) => Ok([ConfigLine(key, Some(n))])
  }

  /** The config lines for the items of one line, or the message for the first bad item. */
  function NormalizeItems(key: string, items: seq<string>, name: string, isLegal: string -> bool): Result<seq<ConfigLine>, string> {
    if items == [] then Ok([])
    else Then(NormalizeItems(key, items[..|items| - 1], name, isLegal), NormalizeItem(key, items[|items| - 1], name, isLegal))
  }

  /** The items of a config line (none for a NULL value). */
  function LineItems(line: ConfigLine, split: string -> seq<string>): seq<string> {
    match line.value
    case None => []
    case Some(v) => split(v)
  }

  /** The normalised lines of a list, or the message for the first bad item. */
  function NormalizeLines(lines: seq<ConfigLine>, name: string, isLegal: string -> bool, split: string -> seq<string>): Result<seq<ConfigLine>, string> {
    if lines == [] then Ok([])
    else
      var line := lines[|lines| - 1];
      Then(NormalizeLines(lines[..|lines| - 1], name, isLegal, split), NormalizeItems(line.key, LineItems(line, split), name, isLegal))
  }

  /**
   * normalize_nickname_list: Ok(None) for a NULL list (the output is left
   * alone), Ok(Some(lines)) with the normalised lines, or Err(msg) for the
   * first item that cannot be normalised (the output is left alone).
   */
  method NormalizeNicknameList(lst: seq<ConfigLine>, name: string, isLegal: string -> bool, split: string -> seq<string>)
    returns (res: Result<Option<seq<ConfigLine>>, string>)
    ensures lst == [] ==> res == Ok(None)
    ensures lst != [] ==> res == match NormalizeLines(lst, name, isLegal, split)
      case Ok(lines) => Ok(Some(lines))
      case Err(msg) => Err(msg)
  {
    if lst == [] {
      return Ok(None);
    }
    var newNicknames: seq<ConfigLine> := [];
    for i := 0 to |lst|
      invariant NormalizeLines(lst[..i], name, isLegal, split) == Ok(newNicknames)
    {
      assert lst[..i + 1][..i] == lst[..i];
      var cl := lst[i];
      if cl.value.None? {
        assert NormalizeItems(cl.key, LineItems(cl, split), name, isLegal) == Ok([]);
        assert newNicknames + [] == newNicknames;
        continue;
      }
      var sl := split(cl.value.value);
      var lineStart := newNicknames;
      ghost var more: seq<ConfigLine> := [];
      for j := 0 to |sl|
        invariant NormalizeItems(cl.key, sl[..j], name, isLegal) == Ok(more)
        invariant newNicknames == lineStart + more
      {
        assert sl[..j + 1][..j] == sl[..j];
        var s := sl[j];
        var normalized: Option<string> := None;
        if !isLegal(s) {
          if s == [] || s[0] != '$' {
            var prepended := "$" + s;
            if isLegal(prepended) {
              normalized := Some(prepended);
            }
          }
          if normalized.None? {
            NormalizeFailsAt(lst, i, sl, j, more, name, isLegal, split);
            return Err(InvalidNicknameMsg(s, name));
          }
        } else {
          normalized := Some(s);
        }
        newNicknames := newNicknames + [ConfigLine(cl.key, normalized)];
        more := more + [ConfigLine(cl.key, normalized)];
      }
      assert sl[..|sl|] == sl;
      assert LineItems(cl, split) == sl;
    }
    assert lst[..|lst|] == lst;
    return Ok(Some(newNicknames));
  }

  /** Normalising a list is normalising its parts one after the other, so the order is kept. */
  lemma {:induction false} NormalizeLinesAppend(a: seq<ConfigLine>, b: seq<ConfigLine>, name: string, isLegal: string -> bool, split: string -> seq<string>)
    ensures NormalizeLines(a + b, name, isLegal, split) == Then(NormalizeLines(a, name, isLegal, split), NormalizeLines(b, name, isLegal, split))
    decreases |b|
  {
    if b != [] {
      var init, last := b[..|b| - 1], b[|b| - 1];
      assert (a + b)[..|a + b| - 1] == a + init;
      assert (a + b)[|a + b| - 1] == last;
      NormalizeLinesAppend(a, init, name, isLegal, split);
      ThenAssociative(NormalizeLines(a, name, isLegal, split), NormalizeLines(init, name, isLegal, split),
                      NormalizeItems(last.key, LineItems(last, split), name, isLegal));
    } else {
      assert a + b == a;
      if NormalizeLines(a, name, isLegal, split).Ok? {
        assert NormalizeLines(a, name, isLegal, split).value + [] == NormalizeLines(a, name, isLegal, split).value;
      }
    }
  }

  /** Every item can be normalised. */
  predicate AllNormalizable(items: seq<string>, isLegal: string -> bool) {
    forall k :: 0 <= k < |items| ==> Normalizable(items[k], isLegal)
  }

  /** The items of one config line normalise exactly when each can be normalised as it is or with a "$". */
  lemma {:induction false} NormalizeItemsOk(key: string, items: seq<string>, name: string, isLegal: string -> bool)
    ensures NormalizeItems(key, items, name, isLegal).Ok? <==> AllNormalizable(items, isLegal)
  {
    if items != [] {
      var init := items[..|items| - 1];
      NormalizeItemsOk(key, init, name, isLegal);
      assert forall k :: 0 <= k < |init| ==> init[k] == items[k];
    }
  }

  /** The lines made from one config line keep its key, hold the normalised items, and are one per item. */
  lemma {:induction false} NormalizeItemsLines(key: string, items: seq<string>, name: string, isLegal: string -> bool)
    requires NormalizeItems(key, items, name, isLegal).Ok?
    ensures var out := NormalizeItems(key, items, name, isLegal).value;
      && |out| == |items|
      && forall k :: 0 <= k < |out| ==> out[k].key == key && out[k].value == NormalizeNickname(items[k], isLegal)
  {
    if items != [] {
      NormalizeItemsLines(key, items[..|items| - 1], name, isLegal);
    }
  }

  /** Every item of the line (none when its value is NULL) can be normalised. */
  predicate LineNormalizable(line: ConfigLine, isLegal: string -> bool, split: string -> seq<string>) {
    AllNormalizable(LineItems(line, split), isLegal)
  }

  /** A list normalises exactly when every item of every line with a value does. */
  lemma {:induction false} NormalizeLinesOk(lines: seq<ConfigLine>, name: string, isLegal: string -> bool, split: string -> seq<string>)
    ensures NormalizeLines(lines, name, isLegal, split).Ok? <==> forall i :: 0 <= i < |lines| ==> LineNormalizable(lines[i], isLegal, split)
  {
    if lines != [] {
      var init, last := lines[..|lines| - 1], lines[|lines| - 1];
      NormalizeLinesOk(init, name, isLegal, split);
      NormalizeItemsOk(last.key, LineItems(last, split), name, isLegal);
      assert NormalizeLines(lines, name, isLegal, split).Ok? <==>
        NormalizeLines(init, name, isLegal, split).Ok? && NormalizeItems(last.key, LineItems(last, split), name, isLegal).Ok?;
      if forall i :: 0 <= i < |lines| ==> LineNormalizable(lines[i], isLegal, split) {
        assert forall i :: 0 <= i < |init| ==> init[i] == lines[i];
      } else {
        var i :| 0 <= i < |lines| && !LineNormalizable(lines[i], isLegal, split);
        if i < |init| {
          assert init[i] == lines[i];
        }
      }
    }
  }

  /** Every line holds a value that the nickname test accepts. */
  predicate LegalValues(out: seq<ConfigLine>, isLegal: string -> bool) {
    forall k :: 0 <= k < |out| ==> out[k].value.Some? && isLegal(out[k].value.value)
  }

  /** The keys of a list of config lines. */
  function Keys(lines: seq<ConfigLine>): set<string> {
    set l | l in lines :: l.key
  }

  /** Every normalised value is legal and comes with the key of a line of the list. */
  lemma {:induction false} NormalizeLinesLegal(lines: seq<ConfigLine>, name: string, isLegal: string -> bool, split: string -> seq<string>)
    requires NormalizeLines(lines, name, isLegal, split).Ok?
    ensures LegalValues(NormalizeLines(lines, name, isLegal, split).value, isLegal)
    ensures forall l :: l in NormalizeLines(lines, name, isLegal, split).value ==> l.key in Keys(lines)
  {
    if lines != [] {
      var init, last := lines[..|lines| - 1], lines[|lines| - 1];
      NormalizeLinesLegal(init, name, isLegal, split);
      var items := LineItems(last, split);
      NormalizeItemsLines(last.key, items, name, isLegal);
      NormalizeItemsOk(last.key, items, name, isLegal);
      var x := NormalizeLines(init, name, isLegal, split).value;
      var y := NormalizeItems(last.key, items, name, isLegal).value;
      var out := NormalizeLines(lines, name, isLegal, split).value;
      assert out == x + y;
      assert Keys(init) <= Keys(lines) by {
        assert forall l :: l in init ==> l in lines;
      }
      assert last.key in Keys(lines);
      forall k | 0 <= k < |y|
        ensures y[k].value.Some? && isLegal(y[k].value.value) && y[k].key == last.key
      {
        assert y[k].value == NormalizeNickname(items[k], isLegal);
        assert Normalizable(items[k], isLegal);
      }
    }
  }

  // ---------------------------------------------------------------------
  // options_validate_relay_mode
  // ---------------------------------------------------------------------

  const DIRPORT_WITHOUT_DIRCACHE_MSG := "DirPort configured but DirCache disabled. DirPort requires DirCache."
  const BRIDGE_WITHOUT_DIRCACHE_MSG := "We're a bridge but DirCache is disabled. BridgeRelay requires DirCache."
  const BRIDGE_WITHOUT_ORPORT_MSG := "BridgeRelay is 1, ORPort is not set. This is an invalid combination."

  /**
   * The rules of options_validate_relay_mode on the options as they were
   * before: a bridge's DirPort is dropped first, then a DirPort needs
   * DirCache, a bridge needs DirCache, and BridgeRelay 1 needs an ORPort.
   */
  function RelayModeRules(bridgeRelay: int, dirPortSet: bool, dirCache: bool, orPortSet: bool): Option<string> {
    var dirPortKept := dirPortSet && bridgeRelay == 0;
    if dirPortKept && !dirCache then Some(DIRPORT_WITHOUT_DIRCACHE_MSG)
    else if bridgeRelay != 0 && !dirCache then Some(BRIDGE_WITHOUT_DIRCACHE_MSG)
    else if bridgeRelay == 1 && !orPortSet then Some(BRIDGE_WITHOUT_ORPORT_MSG)
    else None
  }

  /** A relay passes exactly when it has DirCache or neither a DirPort nor bridge mode, and BridgeRelay 1 has an ORPort. */
  lemma RelayModeRulesMeaning(bridgeRelay: int, dirPortSet: bool, dirCache: bool, orPortSet: bool)
    ensures RelayModeRules(bridgeRelay, dirPortSet, dirCache, orPortSet).None? <==>
      (dirCache || (!dirPortSet && bridgeRelay == 0)) && (bridgeRelay == 1 ==> orPortSet)
  {
  }

  /** A bridge's DirPort never matters: it passes exactly when it has DirCache and an ORPort. */
  lemma BridgeIgnoresDirPort(dirPortSet: bool, dirCache: bool, orPortSet: bool)
    ensures RelayModeRules(1, dirPortSet, dirCache, orPortSet).None? <==> dirCache && orPortSet
  {
  }

  /** The bits after one more recognised word. */
  lemma AuthorityOfNext(words: seq<string>, i: nat, bridgeRelay: bool, add: DirInfo)
    requires i < |words| && KnownWords(words[..i])
    requires WordAuthority(words[i], bridgeRelay) == Some(add)
    ensures KnownWords(words[..i + 1])
    ensures AuthorityOf(words[..i + 1], bridgeRelay) == AuthorityOf(words[..i], bridgeRelay) | add
  {
    assert words[..i + 1][..i] == words[..i];
    WordAuthorityBits(words[i], bridgeRelay);
  }

  /** An error in the first items of a line is the error of the whole line. */
  lemma {:induction false} NormalizeItemsErrPrefix(key: string, items: seq<string>, j: nat, name: string, isLegal: string -> bool)
    requires j <= |items| && NormalizeItems(key, items[..j], name, isLegal).Err?
    ensures NormalizeItems(key, items, name, isLegal) == NormalizeItems(key, items[..j], name, isLegal)
    decreases |items|
  {
    if j < |items| {
      var init := items[..|items| - 1];
      assert init[..j] == items[..j];
      NormalizeItemsErrPrefix(key, init, j, name, isLegal);
    } else {
      assert items[..j] == items;
    }
  }

  /** An error in the first lines of a list is the error of the whole list. */
  lemma {:induction false} NormalizeLinesErrPrefix(lines: seq<ConfigLine>, i: nat, name: string, isLegal: string -> bool, split: string -> seq<string>)
    requires i <= |lines| && NormalizeLines(lines[..i], name, isLegal, split).Err?
    ensures NormalizeLines(lines, name, isLegal, split) == NormalizeLines(lines[..i], name, isLegal, split)
    decreases |lines|
  {
    if i < |lines| {
      var init := lines[..|lines| - 1];
      assert init[..i] == lines[..i];
      NormalizeLinesErrPrefix(init, i, name, isLegal, split);
    } else {
      assert lines[..i] == lines;
    }
  }

  /** The item at j of line i is the first that cannot be normalised: the list fails with its message. */
  lemma NormalizeFailsAt(lst: seq<ConfigLine>, i: nat, sl: seq<string>, j: nat, more: seq<ConfigLine>,
                         name: string, isLegal: string -> bool, split: string -> seq<string>)
    requires i < |lst| && lst[i].value.Some? && sl == split(lst[i].value.value) && j < |sl|
    requires NormalizeLines(lst[..i], name, isLegal, split).Ok?
    requires NormalizeItems(lst[i].key, sl[..j], name, isLegal) == Ok(more)
    requires !Normalizable(sl[j], isLegal)
    ensures NormalizeLines(lst, name, isLegal, split) == Err(InvalidNicknameMsg(sl[j], name))
  {
    assert sl[..j + 1][..j] == sl[..j];
    NormalizeItemsErrPrefix(lst[i].key, sl, j + 1, name, isLegal);
    assert LineItems(lst[i], split) == sl;
    assert lst[..i + 1][..i] == lst[..i];
    NormalizeLinesErrPrefix(lst, i + 1, name, isLegal, split);
  }

  /** The options the relay checks read or change (or_options_t, reduced). */
  class RelayOptions {
    var BridgeRelay: int
    var PublishServerDescriptor: Option<seq<string>>
    /** The bit set computed from PublishServerDescriptor. */
    var PublishServerDescriptor_: DirInfo
    var BridgeDistribution: Option<string>
    var DirPort_lines: seq<ConfigLine>
    var DirPort_set: bool
    var DirCache: bool
    var ORPort_set: bool
    var MyFamily_lines: seq<ConfigLine>
    /** The normalised form of MyFamily_lines. */
    var MyFamily: seq<ConfigLine>

    /**
     * compute_publishserverdescriptor: sets PublishServerDescriptor_ to the
     * union of the words' bits and returns 0, or returns -1 at the first
     * word that is not recognised, leaving the bits of the words before it.
     */
    method ComputePublishServerDescriptor() returns (r: int)
      modifies this`PublishServerDescriptor_
      ensures r == 0 || r == -1
      ensures PublishServerDescriptor.None? ==> r == 0 && PublishServerDescriptor_ == NO_DIRINFO
      ensures PublishServerDescriptor.Some? ==>
        var words := PublishServerDescriptor.value;
        && (r == 0 <==> KnownWords(words))
        && (r == 0 ==> PublishServerDescriptor_ == AuthorityOf(words, BridgeRelay != 0))
        && (r == -1 ==>
              exists i :: 0 <= i < |words| && KnownWords(words[..i]) && WordAuthority(words[i], false).None? &&
                PublishServerDescriptor_ == AuthorityOf(words[..i], BridgeRelay != 0))
    {
      PublishServerDescriptor_ := NO_DIRINFO;
      if PublishServerDescriptor.None? {
        return 0;
      }
      var words := PublishServerDescriptor.value;
      var bridge := BridgeRelay != 0;
      for i := 0 to |words|
        invariant KnownWords(words[..i])
        invariant PublishServerDescriptor_ == AuthorityOf(words[..i], bridge)
      {
        var add := WordBits(words[i], bridge);
        if add.None? {
          return -1;
        }
        AuthorityOfNext(words, i, bridge, add.value);
        PublishServerDescriptor_ := PublishServerDescriptor_ | add.value;
      }
      assert words[..|words|] == words;
      return 0;
    }

    /** The strcasecmp chain of compute_publishserverdescriptor for one word. */
    static method WordBits(s: string, bridge: bool) returns (add: Option<DirInfo>)
      ensures add == WordAuthority(s, bridge)
    {
      add := Some(NO_DIRINFO);
      if EqualsIgnoringCase(s, "v1") {
      } else if s == "1" {
        if bridge {
          add := Some(BRIDGE_DIRINFO);
        } else {
          add := Some(V3_DIRINFO);
        }
      } else if EqualsIgnoringCase(s, "v2") {
      } else if EqualsIgnoringCase(s, "v3") {
        add := Some(V3_DIRINFO);
      } else if EqualsIgnoringCase(s, "bridge") {
        add := Some(BRIDGE_DIRINFO);
      } else if EqualsIgnoringCase(s, "hidserv") {
      } else if s == "" || s == "0" {
      } else {
        add := None;
      }
    }

    /**
     * options_validate_publish_server: computes the bit set, then refuses a
     * bridge that publishes to the v3 authorities and a BridgeDistribution
     * that is set without BridgeRelay or is malformed.
     */
    method ValidatePublishServer() returns (err: Option<string>)
      modifies this`PublishServerDescriptor_
      ensures err == PublishServerVerdict(PublishServerDescriptor, BridgeRelay != 0, BridgeDistribution)
      ensures err != Some(UNRECOGNIZED_PUBLISH_MSG) ==>
        PublishServerDescriptor_ == (if PublishServerDescriptor.None? then NO_DIRINFO
                                     else AuthorityOf(PublishServerDescriptor.value, BridgeRelay != 0))
    {
      var computed := ComputePublishServerDescriptor();
      if computed < 0 {
        return Some(UNRECOGNIZED_PUBLISH_MSG);
      }
      if (BridgeRelay != 0 || PublishServerDescriptor_ & BRIDGE_DIRINFO != 0) && PublishServerDescriptor_ & V3_DIRINFO != 0 {
        return Some(BRIDGE_PUBLISHES_MSG);
      }
      if BridgeDistribution.Some? {
        if BridgeRelay == 0 {
          return Some(DISTRIBUTION_WITHOUT_BRIDGE_MSG);
        }
        var checked := CheckBridgeDistributionSetting(BridgeDistribution);
        if checked < 0 {
          return Some(INVALID_DISTRIBUTION_MSG);
        }
      }
      return None;
    }

    /**
     * options_validate_relay_mode: drops a bridge's DirPort, applies the
     * relay mode rules, then replaces MyFamily by the normalised
     * MyFamily_lines (left alone when those are absent or malformed).
     */
    method ValidateRelayMode(isLegal: string -> bool) returns (err: Option<string>)
      modifies this`DirPort_lines, this`DirPort_set, this`MyFamily
      ensures old(BridgeRelay != 0 && DirPort_set) ==> DirPort_lines == [] && !DirPort_set
      ensures !old(BridgeRelay != 0 && DirPort_set) ==> DirPort_lines == old(DirPort_lines) && DirPort_set == old(DirPort_set)
      ensures var rules := RelayModeRules(BridgeRelay, old(DirPort_set), DirCache, ORPort_set);
        if rules.Some? then err == rules && MyFamily == old(MyFamily)
        else if MyFamily_lines == [] then err == None && MyFamily == old(MyFamily)
        else match NormalizeLines(MyFamily_lines, "MyFamily", isLegal, SplitNicknames)
          case Ok(lines) => err == None && MyFamily == lines
          case Err(msg) => err == Some(msg) && MyFamily == old(MyFamily)
    {
      if BridgeRelay != 0 && DirPort_set {
        DirPort_lines := [];
        DirPort_set := false;
      }
      if DirPort_set && !DirCache {
        return Some(DIRPORT_WITHOUT_DIRCACHE_MSG);
      }
      if BridgeRelay != 0 && !DirCache {
        return Some(BRIDGE_WITHOUT_DIRCACHE_MSG);
      }
      if BridgeRelay == 1 && !ORPort_set {
        return Some(BRIDGE_WITHOUT_ORPORT_MSG);
      }
      var normalized := NormalizeNicknameList(MyFamily_lines, "MyFamily", isLegal, SplitNicknames);
      match normalized
      case Err(msg) =>
        return Some(msg);
      case Ok(None) =>
        return None;
      case Ok(Some(lines)) =>
        MyFamily := lines;
        return None;
    }
  }
}

=== FILE: sorting.dfy ===
/**
 * Sorting followed by removal of adjacent duplicates, as Rust's
 * `sort_unstable` then `dedup` do: the result is the strictly ascending
 * sequence of the distinct elements, and it depends only on which elements
 * occur, not on their order or repetition.
 */
module Sorting {
  /** less is irreflexive, transitive and total. */
  ghost predicate StrictTotalOrder<T(!new)>(less: (T, T) -> bool) {
    && (forall a :: !less(a, a))
    && (forall a, b, c :: less(a, b) && less(b, c) ==> less(a, c))
    && (forall a, b :: a == b || less(a, b) || less(b, a))
  }

  predicate Ascending<T(!new)>(s: seq<T>, less: (T, T) -> bool) {
    forall i, j :: 0 <= i < j < |s| ==> less(s[i], s[j])
  }

  /** x placed into an ascending sequence, unless it is already there. */
  function Insert<T(==,!new)>(x: T, s: seq<T>, less: (T, T) -> bool): (r: seq<T>)
    requires StrictTotalOrder(less) && Ascending(s, less)
    ensures Ascending(r, less)
    ensures forall y :: y in r <==> y == x || y in s
  {
    if s == [] then [x]
    else if x == s[0] then s
    else if less(x, s[0]) then [x] + s
    else
      assert forall y :: y in s[1..] ==> less(s[0], y);
      [s[0]] + Insert(x, s[1..], less)
  }

  /** sort_unstable followed by dedup. */
  function SortDedup<T(==,!new)>(s: seq<T>, less: (T, T) -> bool): (r: seq<T>)
    requires StrictTotalOrder(less)
    ensures Ascending(r, less)
    ensures forall y :: y in r <==> y in s
  {
    if s == [] then []
    else
      assert s == s[..|s| - 1] + [s[|s| - 1]];
      Insert(s[|s| - 1], SortDedup(s[..|s| - 1], less), less)
  }

  /** x placed before the first element of s that is not below it; duplicates stay. */
  function InsertKeep<T(==,!new)>(x: T, s: seq<T>, less: (T, T) -> bool): (r: seq<T>)
    ensures |r| == |s| + 1
    ensures forall y :: y in r <==> y == x || y in s
  {
    if s == [] || !less(s[0], x) then [x] + s
    else [s[0]] + InsertKeep(x, s[1..], less)
  }

  /** sort_unstable on its own, by insertion: every element stays, repeats included. */
  function Sort<T(==,!new)>(s: seq<T>, less: (T, T) -> bool): (r: seq<T>)
    ensures |r| == |s|
    ensures forall y :: y in r <==> y in s
  {
    if s == [] then []
    else
      assert s == s[..|s| - 1] + [s[|s| - 1]];
      InsertKeep(s[|s| - 1], Sort(s[..|s| - 1], less), less)
  }

  /** No element occurs twice. */
  predicate Distinct<T(==)>(s: seq<T>) {
    forall i, j :: 0 <= i < j < |s| ==> s[i] != s[j]
  }

  /** Inserting an element that is not there yet is the same with or without dedup. */
  lemma {:induction false} InsertKeepFresh<T(!new)>(x: T, s: seq<T>, less: (T, T) -> bool)
    requires StrictTotalOrder(less) && Ascending(s, less) && x !in s
    ensures InsertKeep(x, s, less) == Insert(x, s, less)
  {
    if s != [] && less(s[0], x) {
      InsertKeepFresh(x, s[1..], less);
    }
  }

  /** Without repeats, sorting alone gives the strictly ascending sequence of the elements. */
  lemma {:induction false} SortOfDistinct<T(!new)>(s: seq<T>, less: (T, T) -> bool)
    requires StrictTotalOrder(less) && Distinct(s)
    ensures Sort(s, less) == SortDedup(s, less)
  {
    if s != [] {
      var init := s[..|s| - 1];
      SortOfDistinct(init, less);
      assert s[|s| - 1] !in init;
      InsertKeepFresh(s[|s| - 1], SortDedup(init, less), less);
    }
  }

  /** A sequence without repeats has as many elements as its set of elements. */
  lemma {:induction false} DistinctCardinality<T>(s: seq<T>)
    requires Distinct(s)
    ensures |set x | x in s| == |s|
  {
    if s != [] {
      var init := s[..|s| - 1];
      DistinctCardinality(init);
      assert (set x | x in s) == (set x | x in init) + {s[|s| - 1]};
      assert s[|s| - 1] !in init;
    }
  }

  /** A subset is no larger than the set. */
  lemma {:induction false} SubsetCardinality<T>(a: set<T>, b: set<T>)
    requires a <= b
    ensures |a| <= |b|
    decreases |a|
  {
    if a != {} {
      var x :| x in a;
      SubsetCardinality(a - {x}, b - {x});
    }
  }

  /** The first element of an ascending sequence is below all the others. */
  lemma FirstIsLeast<T(!new)>(s: seq<T>, y: T, less: (T, T) -> bool)
    requires Ascending(s, less) && y in s
    ensures y == s[0] || less(s[0], y)
  {
    var j :| 0 <= j < |s| && s[j] == y;
    if j > 0 {
      assert less(s[0], s[j]);
    }
  }

  /** An ascending sequence has no repeats, so its tail is all but its head. */
  lemma TailMembers<T(!new)>(s: seq<T>, y: T, less: (T, T) -> bool)
    requires StrictTotalOrder(less) && Ascending(s, less) && s != []
    ensures y in s[1..] <==> y in s && y != s[0]
  {
    if y in s[1..] {
      var j :| 0 <= j < |s[1..]| && s[1..][j] == y;
      assert less(s[0], s[j + 1]);
    }
    if y in s && y != s[0] {
      var j :| 0 <= j < |s| && s[j] == y;
      assert s[1..][j - 1] == y;
    }
  }

  /** Two ascending sequences with the same elements are equal. */
  lemma {:induction false} AscendingUnique<T(!new)>(a: seq<T>, b: seq<T>, less: (T, T) -> bool)
    requires StrictTotalOrder(less) && Ascending(a, less) && Ascending(b, less)
    requires forall y :: y in a <==> y in b
    ensures a == b
  {
    assert a != [] ==> a[0] in b;
    assert b != [] ==> b[0] in a;
    if a != [] && b != [] {
      FirstIsLeast(a, b[0], less);
      FirstIsLeast(b, a[0], less);
      assert a[0] == b[0];
      forall y
        ensures y in a[1..] <==> y in b[1..]
      {
        TailMembers(a, y, less);
        TailMembers(b, y, less);
      }
      AscendingUnique(a[1..], b[1..], less);
      assert a == [a[0]] + a[1..];
      assert b == [b[0]] + b[1..];
    }
  }

  /** Sorting and deduplicating depends only on which elements occur. */
  lemma SortDedupDependsOnElements<T(!new)>(s: seq<T>, t: seq<T>, less: (T, T) -> bool)
    requires StrictTotalOrder(less)
    requires forall y :: y in s <==> y in t
    ensures SortDedup(s, less) == SortDedup(t, less)
  {
    AscendingUnique(SortDedup(s, less), SortDedup(t, less), less);
  }

  /** An ascending sequence is already sorted and free of duplicates. */
  lemma SortDedupOfAscending<T(!new)>(s: seq<T>, less: (T, T) -> bool)
    requires StrictTotalOrder(less) && Ascending(s, less)
    ensures SortDedup(s, less) == s
  {
    AscendingUnique(SortDedup(s, less), s, less);
  }

  ghost predicate IsLeast<T(!new)>(m: T, S: set<T>, less: (T, T) -> bool) {
    m in S && forall y :: y in S ==> y == m || less(m, y)
  }

  /** Every finite non-empty set has a least element. */
  lemma {:induction false} LeastExists<T(!new)>(S: set<T>, less: (T, T) -> bool)
    requires StrictTotalOrder(less) && S != {}
    ensures exists m :: IsLeast(m, S, less)
    decreases |S|
  {
    var x :| x in S;
    if S == {x} {
      assert IsLeast(x, S, less);
    } else {
      LeastExists(S - {x}, less);
      var m :| IsLeast(m, S - {x}, less);
      if less(x, m) {
        LeastBelowLeast(x, m, S - {x}, less);
        assert IsLeast(x, S, less);
      } else {
        assert IsLeast(m, S, less);
      }
    }
  }

  lemma LeastBelowLeast<T(!new)>(x: T, m: T, S: set<T>, less: (T, T) -> bool)
    requires StrictTotalOrder(less) && IsLeast(m, S, less) && less(x, m)
    ensures forall y :: y in S ==> less(x, y)
  {
  }

  /** The elements of a finite set in ascending order. */
  ghost function AscendingOf<T(!new)>(S: set<T>, less: (T, T) -> bool): (r: seq<T>)
    requires StrictTotalOrder(less)
    ensures Ascending(r, less)
    ensures forall y :: y in r <==> y in S
    decreases |S|
  {
    if S == {} then []
    else
      LeastExists(S, less);
      var m :| IsLeast(m, S, less);
      var rest := AscendingOf(S - {m}, less);
      assert forall y :: y in rest ==> less(m, y);
      [m] + rest
  }
}

=== FILE: text.dfy ===
/**
 * String helpers shared by the parsers: splitting on a separator and
 * joining with it (Rust's `str::split` and `join`), trimming Unicode
 * white space (Rust's `str::trim`), and the lexicographic order of strings
 * (Rust's `Ord` for `String`).
 */
module Text {
  import opened Sorting

  /** The position of the first c in s. */
  function IndexOf(s: string, c: char): (i: nat)
    requires c in s
    ensures i < |s| && s[i] == c && c !in s[..i]
  {
    if s[0] == c then 0
    else
      var j := IndexOf(s[1..], c);
      assert s[..j + 1] == [s[0]] + s[1..][..j];
      j + 1
  }

  /** The pieces of s between occurrences of c; there is always at least one. */
  function Split(s: string, c: char): (parts: seq<string>)
    ensures |parts| >= 1
    ensures forall k :: 0 <= k < |parts| ==> c !in parts[k]
    decreases |s|
  {
    if c in s then
      var i := IndexOf(s, c);
      [s[..i]] + Split(s[i + 1..], c)
    else [s]
  }

  /** Every character of every piece comes from s. */
  lemma {:induction false} SplitChars(s: string, c: char)
    ensures forall k, i :: 0 <= k < |Split(s, c)| && 0 <= i < |Split(s, c)[k]| ==> Split(s, c)[k][i] in s
    decreases |s|
  {
    if c in s {
      var i := IndexOf(s, c);
      var rest := s[i + 1..];
      SplitChars(rest, c);
      assert forall x :: x in rest ==> x in s;
      assert forall x :: x in s[..i] ==> x in s;
      assert Split(s, c)[1..] == Split(rest, c);
    }
  }

  /** The parts with c between each two of them. */
  function Join(parts: seq<string>, c: char): string {
    if |parts| == 0 then ""
    else if |parts| == 1 then parts[0]
    else parts[0] + [c] + Join(parts[1..], c)
  }

  /** A character in none of the parts, other than the separator, is not in the joined string. */
  lemma {:induction false} JoinAvoids(parts: seq<string>, c: char, d: char)
    requires d != c
    requires forall k :: 0 <= k < |parts| ==> d !in parts[k]
    ensures d !in Join(parts, c)
  {
    if |parts| >= 2 {
      JoinAvoids(parts[1..], c, d);
    }
  }

  /** The first occurrence of c in p + [c] + r, when p has none, is right after p. */
  lemma IndexAfterPrefix(p: string, c: char, r: string)
    requires c !in p
    ensures c in p + [c] + r && IndexOf(p + [c] + r, c) == |p|
    decreases |p|
  {
    var s := p + [c] + r;
    assert s[|p|] == c;
    if p != [] {
      assert s[1..] == p[1..] + [c] + r;
      IndexAfterPrefix(p[1..], c, r);
    }
  }

  /** Splitting what was joined gives back the parts, when no part holds the separator. */
  lemma {:induction false} SplitJoin(parts: seq<string>, c: char)
    requires |parts| >= 1
    requires forall k :: 0 <= k < |parts| ==> c !in parts[k]
    ensures Split(Join(parts, c), c) == parts
  {
    if |parts| >= 2 {
      var p, rest := parts[0], Join(parts[1..], c);
      var s := Join(parts, c);
      assert s == p + [c] + rest;
      IndexAfterPrefix(p, c, rest);
      SplitAt(s, c, |p|);
      assert s[..|p|] == p;
      assert s[|p| + 1..] == rest;
      SplitJoin(parts[1..], c);
      assert parts == [p] + parts[1..];
    }
  }

  lemma SplitAt(s: string, c: char, i: nat)
    requires c in s && i == IndexOf(s, c)
    ensures Split(s, c) == [s[..i]] + Split(s[i + 1..], c)
  {
  }

  /** Joining what was split gives back the string. */
  lemma {:induction false} JoinSplit(s: string, c: char)
    ensures Join(Split(s, c), c) == s
    decreases |s|
  {
    if c in s {
      var i := IndexOf(s, c);
      JoinSplit(s[i + 1..], c);
      var parts := Split(s, c);
      assert parts[1..] == Split(s[i + 1..], c);
      assert s == s[..i] + [c] + s[i + 1..];
    }
  }

  /** char::is_whitespace: the characters with the Unicode White_Space property. */
  predicate IsWhitespace(c: char) {
    || '\t' <= c <= '\r' || c == ' ' || c == '\U{85}' || c == '\U{A0}' || c == '\U{1680}'
    || '\U{2000}' <= c <= '\U{200A}' || c == '\U{2028}' || c == '\U{2029}' || c == '\U{202F}'
    || c == '\U{205F}' || c == '\U{3000}'
  }

  function TrimStart(s: string): (r: string)
    ensures |r| <= |s| && r == s[|s| - |r|..]
    ensures r == [] || !IsWhitespace(r[0])
  {
    if s != [] && IsWhitespace(s[0]) then TrimStart(s[1..]) else s
  }

  function TrimEnd(s: string): (r: string)
    ensures |r| <= |s| && r == s[..|r|]
    ensures r == [] || !IsWhitespace(r[|r| - 1])
  {
    if s != [] && IsWhitespace(s[|s| - 1]) then TrimEnd(s[..|s| - 1]) else s
  }

  /** A string of white space alone trims to nothing. */
  lemma {:induction false} TrimBlank(s: string)
    requires forall i :: 0 <= i < |s| ==> IsWhitespace(s[i])
    ensures Trim(s) == ""
  {
    if s != [] {
      TrimBlank(s[1..]);
    }
  }

  /** str::trim */
  function Trim(s: string): string {
    TrimEnd(TrimStart(s))
  }

  /** A string that neither starts nor ends with white space is its own trim. */
  lemma TrimUnchanged(s: string)
    requires s == [] || (!IsWhitespace(s[0]) && !IsWhitespace(s[|s| - 1]))
    ensures Trim(s) == s
  {
  }

  /** isspace in the C locale (tor's TOR_ISSPACE). */
  predicate IsCSpace(c: char) {
    '\t' <= c <= '\r' || c == ' '
  }

  /** isalnum in the C locale (tor's TOR_ISALNUM). */
  predicate IsCAlnum(c: char) {
    '0' <= c <= '9' || 'A' <= c <= 'Z' || 'a' <= c <= 'z'
  }

  /** tolower in the C locale: only the ASCII capitals change. */
  function ToLowerC(c: char): (l: char)
    ensures 'A' <= c <= 'Z' ==> 'a' <= l <= 'z' && l as int == c as int + 32
    ensures !('A' <= c <= 'Z') ==> l == c
  {
    if 'A' <= c <= 'Z' then (c as int + 32) as char else c
  }

  /** strcasecmp(a, b) == 0 in the C locale. */
  predicate EqualsIgnoringCase(a: string, b: string) {
    |a| == |b| && forall i :: 0 <= i < |a| ==> ToLowerC(a[i]) == ToLowerC(b[i])
  }

  /** The length of the leading C white space of s. */
  function CSpacePrefix(s: string): (i: nat)
    ensures i <= |s| && (i == |s| || !IsCSpace(s[i]))
    ensures forall k :: 0 <= k < i ==> IsCSpace(s[k])
  {
    if s != [] && IsCSpace(s[0]) then
      var i := 1 + CSpacePrefix(s[1..]);
      assert forall k :: 1 <= k < i ==> s[k] == s[1..][k - 1];
      i
    else 0
  }

  /** Where the trailing C white space of s starts. */
  function CSpaceSuffix(s: string): (j: nat)
    ensures j <= |s| && (j == 0 || !IsCSpace(s[j - 1]))
    ensures forall k :: j <= k < |s| ==> IsCSpace(s[k])
  {
    if s != [] && IsCSpace(s[|s| - 1]) then CSpaceSuffix(s[..|s| - 1]) else |s|
  }

  /** s without its leading C white space. */
  function SkipCSpace(s: string): string {
    s[CSpacePrefix(s)..]
  }

  /** s without its trailing C white space. */
  function StripCSpace(s: string): string {
    s[..CSpaceSuffix(s)]
  }

  /** Lexicographic order by character, as Rust orders strings. */
  predicate StringLess(a: string, b: string)
    decreases |a|
  {
    if a == [] then b != []
    else if b == [] then false
    else if a[0] != b[0] then a[0] < b[0]
    else StringLess(a[1..], b[1..])
  }

  lemma {:induction false} StringLessIrreflexive(a: string)
    ensures !StringLess(a, a)
  {
    if a != [] {
      StringLessIrreflexive(a[1..]);
    }
  }

  lemma {:induction false} StringLessTransitive(a: string, b: string, c: string)
    requires StringLess(a, b) && StringLess(b, c)
    ensures StringLess(a, c)
    decreases |a|
  {
    if a != [] && a[0] == b[0] && b[0] == c[0] {
      StringLessTransitive(a[1..], b[1..], c[1..]);
    }
  }

  lemma {:induction false} StringLessTotal(a: string, b: string)
    ensures a == b || StringLess(a, b) || StringLess(b, a)
    decreases |a|
  {
    if a != [] && b != [] && a[0] == b[0] {
      StringLessTotal(a[1..], b[1..]);
      assert a == [a[0]] + a[1..] && b == [b[0]] + b[1..];
    }
  }

  lemma StringLessIsStrictTotalOrder()
    ensures StrictTotalOrder(StringLess)
  {
    forall a ensures !StringLess(a, a) {
      StringLessIrreflexive(a);
    }
    forall a, b, c | StringLess(a, b) && StringLess(b, c) ensures StringLess(a, c) {
      StringLessTransitive(a, b, c);
    }
    forall a, b ensures a == b || StringLess(a, b) || StringLess(b, a) {
      StringLessTotal(a, b);
    }
  }
}

=== FILE: torerr.dfy ===
/**
 * The descriptors that crash-style error messages go to
 * (src/lib/err/torerr.c): a fixed table of at most TOR_SIGSAFE_LOG_MAX_FDS
 * descriptors, standard error by default, and the signal-safe writers that
 * use it.
 */
module TorErr {
  import opened MachineInts
  import opened Numerals
  import opened Wrappers
  import opened RawLog

  /** The table size, from torerr.h (not part of this model). */
  const TOR_SIGSAFE_LOG_MAX_FDS: int := 8
  const STDERR_FILENO: int := 2
  const ASSERTION_PREFIX: string := "INTERNAL ERROR: Raw assertion failed at "

  function Min(a: int, b: int): int {
    if a < b then a else b
  }

  /** A non-negative C int has at most ten decimal digits, so it fits a 16-byte buffer. */
  lemma LineFitsBuffer(line: int)
    requires 0 <= line < 0x8000_0000
    ensures NumDigits(line, 10) < 16
  {
    assert Pow10(2) == 100;
    assert Pow10(4) == 10000;
    assert Pow10(6) == 1000000;
    assert Pow10(8) == 100000000;
    assert Pow10(10) == 10000000000;
    DecimalDigitsBound(line, 10);
  }

  /** sigsafe_log_fds and n_sigsafe_log_fds */
  class SigsafeLogFds {
    const fds: array<int>
    var count: int

    ghost predicate Valid()
      reads this
    {
      fds.Length == TOR_SIGSAFE_LOG_MAX_FDS && 0 <= count <= TOR_SIGSAFE_LOG_MAX_FDS
    }

    /** The descriptors in use. */
    ghost function InUse(): seq<int>
      reads this, fds
      requires Valid()
    {
      fds[..count]
    }

    /** The static initialiser: standard error alone, the other slots zero. */
    constructor()
      ensures Valid() && fresh(fds)
      ensures InUse() == [STDERR_FILENO]
      ensures fds[..] == [STDERR_FILENO, 0, 0, 0, 0, 0, 0, 0]
    {
      fds := new int[TOR_SIGSAFE_LOG_MAX_FDS][STDERR_FILENO, 0, 0, 0, 0, 0, 0, 0];
      count := 1;
    }

    /** tor_log_get_sigsafe_err_fds: the table itself and the number of entries in use. */
    method GetSigsafeErrFds() returns (out: array<int>, n: int)
      requires Valid()
      ensures out == fds && n == count && out[..n] == InUse()
    {
      out := fds;
      n := count;
    }

    /**
     * tor_log_set_sigsafe_err_fds: take the first n descriptors of src, or
     * only the first TOR_SIGSAFE_LOG_MAX_FDS of them; slots past the new
     * count keep what they held.
     */
    method SetSigsafeErrFds(src: seq<int>, n: int)
      requires Valid() && 0 <= n && Min(n, TOR_SIGSAFE_LOG_MAX_FDS) <= |src|
      modifies this, fds
      ensures Valid()
      ensures count == Min(n, TOR_SIGSAFE_LOG_MAX_FDS)
      ensures InUse() == src[..count]
      ensures fds[count..] == old(fds[..])[count..]
    {
      var k := n;
      if k > TOR_SIGSAFE_LOG_MAX_FDS {
        k := TOR_SIGSAFE_LOG_MAX_FDS;
      }
      forall i | 0 <= i < k {
        fds[i] := src[i];
      }
      count := k;
      assert fds[..count] == src[..count];
      assert forall i :: count <= i < fds.Length ==> fds[i] == old(fds[i]);
    }

    /** tor_log_reset_sigsafe_err_fds: back to standard error alone. */
    method ResetSigsafeErrFds()
      requires Valid()
      modifies this, fds
      ensures Valid() && InUse() == [STDERR_FILENO]
      ensures fds[1..] == old(fds[1..])
    {
      SetSigsafeErrFds([STDERR_FILENO], 1);
    }

    /**
     * tor_log_err_sigsafe_write: the string goes to every descriptor in use;
     * results[i] is what the i-th write returned, and the status is 0 only
     * when every write was complete.
     */
    method ErrSigsafeWrite(s: string, results: seq<int>) returns (writes: seq<(int, string)>, status: int)
      requires Valid() && |results| == count
      ensures writes == Writes(InUse(), [s])
      ensures status == 0 <==> forall i :: 0 <= i < |results| ==> results[i] == |s|
      ensures status == 0 || status == -1
    {
      writes := Writes(fds[..count], [s]);
      status := RawWrite(results, |s|);
    }

    /** tor_log_err_sigsafe: a raw log message in the error format to every descriptor in use. */
    method LogErrSigsafe(logger: RawLogger, m: Option<string>, args: seq<string>, now: int)
      returns (writes: seq<(int, string)>)
      requires Valid()
      ensures writes == Writes(InUse(), RawApChunks(TimeBuf(logger.granularity, now), true, m, args))
    {
      writes := logger.LogRawAp(fds[..count], true, m, args, now);
    }

    /**
     * tor_raw_assertion_failed_msg_: the assertion report, in the error
     * format, with the line number in decimal; then the message and a
     * newline when there is a message.  Printing the stack is not part of
     * this model.
     */
    method RawAssertionFailedMsg(logger: RawLogger, file: string, line: int, expr: string,
                                 msg: Option<string>, now: int)
      returns (writes: seq<(int, string)>)
      requires Valid() && 0 <= line < 0x8000_0000
      ensures writes == Writes(InUse(),
        RawApChunks(TimeBuf(logger.granularity, now), true, Some(ASSERTION_PREFIX),
                    [file, ":", Digits(line, 10), ": ", expr])
        + (if msg.Some? then [msg.value, "\n"] else []))
    {
      var linebuf := new char[16];
      LineFitsBuffer(line);
      var len := FormatDecNumberSigsafe(line, linebuf, 16);
      var lineText := linebuf[..len];
      assert lineText == Digits(line, 10);
      ghost var report := RawApChunks(TimeBuf(logger.granularity, now), true, Some(ASSERTION_PREFIX),
                                      [file, ":", lineText, ": ", expr]);
      writes := LogErrSigsafe(logger, Some(ASSERTION_PREFIX), [file, ":", lineText, ": ", expr], now);
      if msg.None? {
        assert report + [] == report;
      } else {
        var w1 := Writes(fds[..count], [msg.value]);
        var w2 := Writes(fds[..count], ["\n"]);
        WritesAppend(fds[..count], report, [msg.value]);
        WritesAppend(fds[..count], report + [msg.value], ["\n"]);
        assert report + [msg.value] + ["\n"] == report + [msg.value, "\n"];
        writes := writes + w1 + w2;
      }
    }
  }
}

=== FILE: wrappers.dfy ===
/** Option and Result values shared by every module of the model. */
module Wrappers {
  datatype Option<T> = None | Some(value: T)

  datatype Result<T, E> = Ok(value: T) | Err(error: E)
}
